=== FILE: README.md ===
# xipu_v2 core in Dafny

xipu_v2 is an eight-bit computer built from 74-series logic, together with the
tools around it. This project models its core as pure Dafny functions and
proves properties of them:

- **Microcode generator** (`tools/urom`). Each instruction is described as a list
  of micro-steps. Every step is packed into a 16-bit control word, split over
  two 32 KiB ROM banks. The generator fills the entry for each opcode, step and
  flag pair, then fills every unclaimed opcode with NOP or HALT. Modules:
  `ControlWord` (the packing), `Microcode` (the instruction descriptions),
  `URomData` (the generator's loop nest, run as an explicit list of actions) and
  `URom` (the whole table).
- **CPU emulator** (`tools/emu/src/cpu.cpp`). `Alu` models the two chained
  74181 slices, gate by gate, and proves them equal to a reference adder and
  logic unit. `Cpu` models the register file, the micro-step and the timer
  interval. `Execution` relates a run of the CPU to a reference run of a step
  list, and derives what JMP, the conditional jumps, NOP and HALT do.
- **Assembler** (`tools/asm`). Its modules are:
  - `AsmText`: text helpers;
  - `AsmInstruction` and `AsmTable`: the instruction set, as the assembler declares it;
  - `Parser`: source files to a data list;
  - `AsmData`: the data list and its uniqueness rules;
  - `Compiler`: operands to bytes;
  - `Linker`: placement, address patching, the binary and the map file;
  - `Assembler`: the driver, and reading a map file back;
  - `AsmFacts`: the encodings related to the microcode.
- **I/O board** (`tools/emu/src/io.cpp` for the emulator, `io/fw/src/io.c` for
  the firmware).
  - The CPU talks to the board over a nibble-wide bus (`Nibble`). A bus word
    selects a register, or reads or writes one half of a byte.
  - `IoBoard` and `IoFirmware` model the two implementations of the register
    file. `FsName` models the firmware's name and path buffers.
  - The peripherals each have an emulator and a firmware model: `Lcd` (shared by
    both), `Keyboard`/`KeyboardFirmware`, `Rs232`/`Rs232Firmware` and
    `Speaker`/`SpeakerFirmware`.
  - The firmware's circular buffers are `Ring`. The emulator's queues are `Fifo`.

Errors are values: parsing, compiling and linking return a `Result`, and the
board returns the effect it asks the host for (open a file, transmit a byte)
instead of performing it.

Where the source as written disagrees with its evident intent, the main model
follows the intent. It keeps the as-written definition next to it, with a
lemma that exhibits the difference; see "## Findings".

## Model

| member | source | states |
|---|---|---|
| ControlWord.Encode | tools/urom/src/step.cpp:25-39 | each field of a step lands in its own bit range of the two control bytes: AR in bits 0-2, AW in 3-6 and B in bit 7 of bank 0; C in bits 0-1, the low four bits of the ALU select in 2-5, M in bit 6 and C in bit 7 of bank 1 |
| ControlWord.Decode | tools/emu/src/cpu.cpp:336-343 | the emulator's masks and shifts recover the bus lines and ALU controls; the select it reads is below 16 |
| ControlWord.ReadBusOf | tools/urom/src/step.h:38-49 | decoding a read-bus number below 8 gives the line with that number |
| ControlWord.CodesAreBijective | tools/urom/src/step.h:38-90 | numbering each bus line and decoding the number gives the same line back, for all four buses |
| ControlWord.DecodeEncode | tools/emu/src/cpu.cpp:336-343 | the emulator reads back exactly the step the generator packed, except that only the low four bits of the ALU select survive |
| ControlWord.EncodeDecode | tools/urom/src/step.cpp:25-39 | every pair of bytes is the packing of some step: packing a decoded word gives the word back |
| ControlWord.EncodeInjective | tools/urom/src/step.cpp:29-36 | two steps with the same control word agree on every field except the dropped select bits |
| ControlWord.DefaultsAreZero | tools/urom/src/step.h:92 | the constructor's defaults leave bank 1 and the B bit at zero, and the all-zero word is the idle step (AR = ABXY, AW = none) |
| URomData.EmptyTable | tools/urom/src/uromdata.cpp:15-22 | the starting table has both banks zero and no entry or opcode marked |
| URomData.Width | tools/urom/src/uromdata.cpp:33-40 | an instruction spans 1 to 16 consecutive opcodes |
| URomData.StepCount | tools/urom/src/uromdata.cpp:43 | the generator keeps all the steps when there are at most sixteen, and exactly sixteen otherwise |
| URomData.OffsetDecodes | tools/urom/src/uromdata.cpp:55-73 | an entry the generator fills is the ROM address the control unit forms for that opcode column, step and flag pair (opcode in bits 0-7, step in 8-11, C in 12, Z in 13) |
| URomData.OffsetInjective | tools/urom/src/uromdata.cpp:55-73 | distinct loop positions of one instruction address distinct entries |
| URomData.AsWrittenOffsetAgrees | tools/urom/src/uromdata.cpp:48-55 | the unwrapped entry computation agrees with the wrapped column while the opcode range does not pass 255 |
| URomData.AsWrittenOffsetMisplaces | tools/urom/src/uromdata.cpp:48-55 | a range that wraps past 255 puts its entries into the wrong step row: step 0 of opcode 0x00 reached from 0xFE lands where the control unit reads step 1 |
| URomData.IterationsWellFormed | tools/urom/src/uromdata.cpp:46-73 | the loop nest visits opcodes in order, fills each (opcode, step, C, Z) in strictly increasing loop order, and marks each opcode before filling its entries |
| URomData.Run | tools/urom/src/uromdata.cpp:46-91 | running the loop nest keeps the table well sized |
| URomData.RunFrame | tools/urom/src/uromdata.cpp:84-87 | entries the loop does not fill keep their bytes and their used bit |
| URomData.RunKeeps | tools/urom/src/uromdata.cpp:75-82 | the loop never overwrites a used entry: it stops at the first one it meets |
| URomData.RunMarks | tools/urom/src/uromdata.cpp:48-50 | marks are only added, only for the opcodes the loop visits, and every visited opcode is marked after a successful run |
| URomData.RunWrites | tools/urom/src/uromdata.cpp:75-87 | after a successful run every filled entry was free before and now holds its step's two control bytes |
| URomData.RunSucceeds | tools/urom/src/uromdata.cpp:75-82 | with the fills in loop order the run succeeds if and only if none of its entries was used before |
| URomData.RunConsistent | tools/urom/src/uromdata.cpp:46-91 | a run whose fills each follow their opcode's mark keeps every used entry in the column of a defined opcode |
| URomData.AddInstruction | tools/urom/src/uromdata.cpp:31-94 | the table after an addition is well sized, whether or not it succeeds |
| URomData.Targets | tools/urom/src/uromdata.cpp:46-73 | the entries an instruction fills all lie inside the 16 KiB ROM |
| URomData.TargetsAreEntries | tools/urom/src/uromdata.cpp:46-73 | an entry is filled by the instruction if and only if it is the entry of one of its opcodes, one of its kept steps and one accepted flag pair |
| URomData.TargetsInColumns | tools/urom/src/uromdata.cpp:48-55 | every entry an instruction fills lies in the column of one of its opcodes, counted modulo 256 |
| URomData.AddInstructionSucceeds | tools/urom/src/uromdata.cpp:75-82 | `addInstruction` returns true if and only if none of the instruction's entries was used before |
| URomData.AddInstructionWrites | tools/urom/src/uromdata.cpp:84-87 | after a successful addition, step `s` of every opcode of the range sits at its entry for every accepted flag pair, and the entry is marked used |
| URomData.AddInstructionMarks | tools/urom/src/uromdata.cpp:48-50 | after a successful addition every opcode of the instruction's range is defined |
| URomData.AddInstructionFrame | tools/urom/src/uromdata.cpp:31-94 | whatever the outcome, entries outside the instruction's set keep their bytes and used bit, no opcode loses its mark, and only opcodes of its range gain one |
| URomData.AddInstructionKeeps | tools/urom/src/uromdata.cpp:75-82 | whatever the outcome, every used entry keeps its bytes |
| URomData.AddInstructionConsistent | tools/urom/src/uromdata.cpp:46-91 | an addition, even a failed one, keeps every used entry in the column of a defined opcode |
| URom.AddAll | tools/urom/src/urom.cpp:57-168 | adding a list of descriptions (each group routine's `status &= addInstruction(...)` chain) keeps the table well sized |
| URom.AddAllKeeps | tools/urom/src/urom.cpp:57-168 | adding a list keeps every used entry and every defined opcode, whatever the outcome |
| URom.AddAllConsistent | tools/urom/src/urom.cpp:57-168 | adding a list keeps a consistent table consistent |
| URom.AddAllHolds | tools/urom/src/urom.cpp:57-168 | when a group's status is true, every description of the group sits at its entries |
| URom.AddGroups | tools/urom/src/urom.cpp:19-36 | running the group routines one after another keeps the table well sized |
| URom.AddGroupsKeeps | tools/urom/src/urom.cpp:19-36 | the group routines keep every used entry and every defined opcode |
| URom.AddGroupsConsistent | tools/urom/src/urom.cpp:19-36 | the group routines keep the table consistent |
| URom.AddGroupsHolds | tools/urom/src/urom.cpp:19-36 | when every group routine reported success, every description of every group sits at its entries |
| URom.OpcodeByte | tools/urom/src/urom.cpp:1366-1370 | the fill's counter `i` becomes the opcode byte with the same value |
| URom.AddKeeps | tools/urom/src/uromdata.cpp:75-91 | one addition keeps every used entry and every defined opcode |
| URom.AddedHolds | tools/urom/src/uromdata.cpp:75-93 | a successful addition keeps what was there and places the whole description |
| URom.SingleColumn | tools/urom/src/uromdata.cpp:46-73 | a one-opcode description (HALT, a NOP) fills nothing outside its own column |
| URom.AddSingleSucceeds | tools/urom/src/urom.cpp:1366-1373 | adding a one-opcode description for an undefined opcode of a consistent table succeeds and keeps it consistent |
| URom.AddSingleMarks | tools/urom/src/uromdata.cpp:48-50 | a one-opcode description defines no opcode but its own |
| URom.NopFill | tools/urom/src/urom.cpp:1366-1374 | the NOP fill keeps the table well sized |
| URom.NopFillKeeps | tools/urom/src/urom.cpp:1366-1374 | the NOP fill keeps every used entry and every defined opcode |
| URom.NopFillCompletes | tools/urom/src/urom.cpp:1366-1374 | on a consistent table the NOP fill never fails, and the table stays consistent |
| URom.NopFillDefines | tools/urom/src/urom.cpp:1366-1374 | after the fill from `i`, every opcode from `i` up is defined |
| URom.NopAdded | tools/urom/src/urom.cpp:1368-1372 | a NOP added at an undefined opcode of a consistent table succeeds, defines the opcode and sits at its entries |
| URom.NopFillStep | tools/urom/src/urom.cpp:1366-1374 | one turn of the fill loop defines opcode `i`, adding a NOP only when it was undefined, and the fill goes on from `i + 1` |
| URom.NopFillPlaces | tools/urom/src/urom.cpp:1366-1374 | every opcode the fill reaches undefined ends up holding a NOP |
| URom.GenerateMisc | tools/urom/src/urom.cpp:1348-1377 | the miscellaneous routine keeps the table well sized |
| URom.MiscCompletes | tools/urom/src/urom.cpp:1348-1377 | on a consistent table the miscellaneous routine keeps what was there, defines all 256 opcodes, and places HALT at 0xFF when nothing claimed it |
| URom.MiscPlacesNops | tools/urom/src/urom.cpp:1361-1374 | every opcode below 0xFF that nothing claimed ends up holding a NOP |
| URom.Generate | tools/urom/src/urom.cpp:19-36 | the ten group routines followed by the miscellaneous one keep the table well sized |
| URom.GenerateData | tools/urom/src/urom.cpp:19-36 | `generateData` on the generator's groups keeps the table well sized |
| URom.GenerateCompletes | tools/urom/src/urom.cpp:19-36 | a run on a consistent table leaves it consistent with all 256 opcodes defined, and a successful run leaves every description of every group at its entries |
| URom.GenerateFillsGaps | tools/urom/src/urom.cpp:1348-1377 | an opcode no group defines holds a NOP after the run, and 0xFF holds HALT |
| Microcode.MiscWellFormed | tools/urom/src/urom.cpp:1353-1372 | HALT and every NOP start with the opcode fetch, fit the sixteen slots and end by restarting the sequencer |
| Microcode.WellFormedEnds | tools/urom/src/uromdata.cpp:43 | a well-formed description keeps all its steps and reaches RPC or RPC+1 within them |
| Microcode.LogicWellFormed | tools/urom/src/urom.cpp:57-168 | every description of the logic group is well formed |
| Microcode.ArithmeticWellFormed | tools/urom/src/urom.cpp:175-335 | every description of the arithmetic group is well formed |
| Microcode.MoveWellFormed | tools/urom/src/urom.cpp:342-439 | every description of the move group is well formed |
| Microcode.IoWellFormed | tools/urom/src/urom.cpp:446-478 | every description of the I/O group is well formed |
| Microcode.MemoryWellFormed | tools/urom/src/urom.cpp:485-622 | every description of the memory group is well formed |
| Microcode.JumpsWellFormed | tools/urom/src/urom.cpp:629-863 | every description of the jump group is well formed |
| Microcode.StackWellFormed | tools/urom/src/urom.cpp:870-919 | every description of the stack group is well formed |
| Microcode.LoopWellFormed | tools/urom/src/urom.cpp:926-1013 | every description of the loop group is well formed |
| Microcode.FunctionWellFormed | tools/urom/src/urom.cpp:1020-1087 | every description of the call group is well formed |
| Microcode.FunctionFrameWellFormed | tools/urom/src/urom.cpp:1094-1341 | every description of the frame group is well formed |
| Microcode.JumpVariantsPartition | tools/urom/src/urom.cpp:670-700 | exactly one of a conditional jump's four variants is filled for each flag pair, and it loads the target exactly when the condition holds |
| Microcode.LoopVariantsPartition | tools/urom/src/urom.cpp:934-966 | exactly one of a loop instruction's four variants is filled for each flag pair |
| Microcode.LoopFamiliesFlagged | tools/urom/src/urom.cpp:934-1011 | both loop instructions are built with the flag values of their loop iteration |
| Microcode.CarryVariantsPartition | tools/urom/src/urom.cpp:190-203 | exactly one description of a carry pair (INCC and the like) is filled for each flag pair, split by C |
| Microcode.LoopEqualSkipEndsEarly | tools/urom/src/urom.cpp:944-964 | when LOOPE's comparison sets both flags the instruction ends at step 6, so the five steps appended after it are never executed |
| Alu.GatesMatchReference | tools/emu/src/cpu.cpp:176-276 | the emulator's four gate layers for one 74181 slice compute, for every input, the slice's function described by its select's propagate and generate words (result, carry out and A=B line) |
| Alu.SliceOf | tools/emu/src/cpu.cpp:265 | a slice's A=B line is high exactly when its four result bits are all ones |
| Alu.ByteOf | tools/emu/src/cpu.cpp:520-525 | the byte-wide zero flag is high exactly when the byte result is all ones |
| Alu.SlicesChain | tools/emu/src/cpu.cpp:520-521 | two slices chained through the carry line, low nibble first, compute the byte-wide function of the same select words |
| Alu.AluByteMatchesReference | tools/emu/src/cpu.cpp:514-527 | the ALU_T step's two chained gate networks compute the byte-wide reference function on every input |
| Alu.ByteOfSum | tools/emu/src/cpu.cpp:514-527 | in arithmetic mode the byte result is the low byte of the propagate/generate sum plus the carry-in |
| Alu.AddSelect | tools/emu/src/cpu.cpp:176-276 | select 1001 in arithmetic mode adds, plus one when the carry line is low, and the carry out is high exactly when no overflow occurred |
| Alu.SubtractSelect | tools/emu/src/cpu.cpp:176-276 | select 0110 in arithmetic mode subtracts, minus one more when the carry line is high, and the carry out is high exactly on a borrow |
| Alu.IncrementSelect | tools/emu/src/cpu.cpp:176-276 | select 0000 in arithmetic mode passes A, plus one when the carry line is low |
| Alu.DecrementSelect | tools/emu/src/cpu.cpp:176-276 | select 1111 in arithmetic mode decrements A when the carry line is high and passes it when low |
| Alu.ShiftLeftSelect | tools/emu/src/cpu.cpp:176-276 | select 1100 in arithmetic mode shifts A left, taking the inverted carry line in as bit 0, and the carry out is high exactly when bit 7 was clear |
| Alu.ClearSelect | tools/emu/src/cpu.cpp:176-276 | select 0011 with a low carry line yields zero |
| Alu.LogicSelects | tools/emu/src/cpu.cpp:176-276 | in logic mode select 1011 is AND, 1110 is OR, 0110 is XOR and 0000 is NOT A, whatever the carry |
| Alu.CompareSelect | tools/emu/src/cpu.cpp:176-276 | compare (subtract with the carry line high) sets the zero line exactly when the operands are equal and the carry exactly when A is at most B |
| Cpu.ResetState | tools/emu/src/cpu.cpp:135-162 | reset clears RAM, PC and both flag banks, puts SP at 0xF000 and leaves BP as it was |
| Cpu.InSlot | tools/emu/src/cpu.cpp:283-289 | a new input byte replaces every bit of IN but the clock bit, and only once the CPU has ticked; nothing else changes |
| Cpu.URomAddress | tools/emu/src/cpu.cpp:323-329 | the microcode address is the table entry for opcode I, the low nibble of the step counter and the selected bank's C and Z |
| Cpu.PcPlusOneAdvances | tools/emu/src/cpu.cpp:588-595 | PC+1 on the PCH:PCL pair is the 16-bit successor, 0xFFFF wrapping to 0x0000 |
| Cpu.LoadAfterStore | tools/emu/src/cpu.cpp:537-542 | a read after a write sees the written byte at a RAM address at or above 0x0800 and the old contents everywhere else, the BIOS being read-only |
| Cpu.EffectTruncated | tools/emu/src/cpu.cpp:341 | a step's effect depends only on the four ALU select bits the banks keep |
| Cpu.PerformTruncated | tools/emu/src/cpu.cpp:336-343 | performing a decoded control word is performing the step it was packed from |
| Cpu.EffectFrame | tools/emu/src/cpu.cpp:476-616 | no step writes the microcode banks or the BIOS, and a step takes no tick of its own |
| Cpu.EffectSequencing | tools/emu/src/cpu.cpp:506-615 | only RPC and RPC+1 end an instruction, and only OUT sends a byte, the value it latched |
| Cpu.EffectKeepsControl | tools/emu/src/cpu.cpp:514-535 | only a write to I changes the opcode, and only ALU_T changes a flag |
| Cpu.AluStepFlags | tools/emu/src/cpu.cpp:514-527 | ALU_T writes T and only the flag bank that bit 7 of I selects; Z is set exactly when the result is all ones |
| Cpu.EffectAdvance | tools/emu/src/cpu.cpp:588-615 | PC+1 and RPC+1 advance PC and change nothing else; RPC+1 also ends the instruction |
| Cpu.EffectRestart | tools/emu/src/cpu.cpp:529-531 | RPC ends the instruction and changes nothing |
| Cpu.EffectLoadD | tools/emu/src/cpu.cpp:502-504 | a write to D latches the read bus: the byte under the address bus for a RAM read, D itself for a D read |
| Cpu.EffectLoadPc | tools/emu/src/cpu.cpp:544-553 | a write to PC latches the read bus into PCL on the low side line and into PCH otherwise |
| Cpu.EffectLoadI | tools/emu/src/cpu.cpp:533-535 | a write to I latches the byte the address bus selects |
| Cpu.EffectKeepsStack | tools/emu/src/cpu.cpp:555-604 | no step moves SP out of its page, and SP+1 and SP-1 only change SPL |
| Cpu.ApplySph | tools/emu/src/cpu.cpp:555-564 | only a write of the high byte of SP changes SPH, and it stores the value with the page bits 0xF0 set |
| Cpu.Tick | tools/emu/src/cpu.cpp:618-624 | a tick advances the counter by one and toggles the clock input bit on every 125000th tick, changing nothing else |
| Cpu.Perform | tools/emu/src/cpu.cpp:333-624 | a micro-step takes one tick, and the step counter either restarts at zero or moves on by one |
| Cpu.Execute | tools/emu/src/cpu.cpp:321-626 | one instruction takes between one tick and the ticks left before the eight-bit step counter wraps, and counts them |
| Cpu.ExecuteKeepsStack | tools/emu/src/cpu.cpp:321-626 | an instruction keeps SP inside its page at 0xF000 |
| Cpu.ExecuteKeepsBios | tools/emu/src/cpu.cpp:537-542 | whatever the microcode, an instruction never writes the BIOS, RAM below 0x0800 or the microcode banks |
| Cpu.Interval | tools/emu/src/cpu.cpp:319-631 | one timer period runs whole instructions until 125000 ticks have passed, or one instruction in step mode; the CPU alone, with no board answering OUT (Emulator.Interval adds the board) |
| Emulator.ServeOut | tools/emu/src/io.cpp:682-804 | the board serves a byte written to OUT; a byte without the strobe bit changes neither the board nor the CPU, and after a strobed one the complete bit has flipped and IN holds the board's byte in all bits but the clock bit, once the CPU has ticked |
| Emulator.MicroStep | tools/emu/src/emu.cpp:55-56 | a wired micro-step is the CPU's micro-step apart from IN's bits, takes one tick and counts the requests it serves; without a strobed byte it is exactly the CPU's micro-step and leaves the board alone |
| Emulator.ReplyReachesIn | tools/emu/src/cpu.cpp:283-289 | after a micro-step that sends a strobed byte, the board has served it, IN already holds its answer apart from the clock bit, and the complete bit has flipped |
| Emulator.WireAgrees | tools/emu/src/cpu.cpp:506-511 | the board's service between a step and its tick changes only IN's bits, and nothing without a strobed byte |
| Emulator.Execute | tools/emu/src/cpu.cpp:321-626 | a wired instruction takes at least one tick and counts its ticks and served requests; one that sends no strobed byte is the CPU's instruction with the board untouched |
| Emulator.Interval | tools/emu/src/cpu.cpp:319-631 | a wired timer period runs until 125000 ticks have passed and counts ticks and served requests; one that sends no strobed byte is the CPU's period with the board untouched |
| Emulator.UnstrobedAppend | tools/emu/src/io.cpp:684 | a run of bytes leaves the board alone exactly when both its parts do |
| Execution.RunSteps | tools/emu/src/cpu.cpp:321-626 | the reference run of a step list takes at least one tick and no more ticks than there are steps left |
| Execution.FirstEnd | tools/emu/src/cpu.cpp:626 | the first step from `k` on that ends the instruction, or the last step, and no earlier step ends it |
| Execution.RunStepsTicks | tools/emu/src/cpu.cpp:618-626 | the reference run takes one tick per step up to and including the first that ends the instruction |
| Execution.AgreedStep | tools/emu/src/cpu.cpp:323-343 | when the banks deliver the list, one micro-step of the CPU is the list's step with its tick, and the counter restarts exactly where the list ends |
| Execution.ExecuteAgrees | tools/emu/src/cpu.cpp:321-626 | when the banks deliver the list from the current step on, the CPU's instruction is the reference run of the list |
| Execution.HoldsServes | tools/emu/src/cpu.cpp:323-331 | a generated table that holds a description, loaded into the banks, delivers its steps in each of its columns for the flags it accepts |
| Execution.StableAgrees | tools/emu/src/cpu.cpp:321-626 | a delivered list whose steps keep I and the accepted flags, and which ends the instruction, is what the CPU executes |
| Execution.ExecutesHeld | tools/emu/src/cpu.cpp:321-626 | a description the table holds, with its opcode in I and flags it accepts, executes from the step after the fetch as its reference run |
| Execution.TakenRun | tools/urom/src/urom.cpp:680-689 | the taken half of a conditional jump loads PC with the address stored after the opcode, low byte first, in six ticks, memory untouched |
| Execution.SkippedRun | tools/urom/src/urom.cpp:690-696 | the skipped half of a conditional jump moves PC over the opcode and both address bytes in three ticks |
| Execution.JumpAlwaysExecutes | tools/urom/src/urom.cpp:656-665 | JMP addr with its microcode generated takes the CPU from the step after the fetch to the little-endian address after the opcode in six ticks |
| Execution.ConditionalJumpExecutes | tools/urom/src/urom.cpp:667-863 | a conditional jump with all four flag variants generated jumps in six ticks when its condition holds on the selected flags and steps over the address in three otherwise |
| Execution.NopExecutes | tools/urom/src/urom.cpp:1361-1372 | a NOP moves PC to the next byte one tick after the fetch |
| Execution.HaltExecutes | tools/urom/src/urom.cpp:1353-1359 | HALT restarts at its own opcode, so the CPU fetches HALT again and again |
| Execution.FetchStep | tools/emu/src/cpu.cpp:323-535 | when step zero is FETCH, the CPU loads the byte at PC into I and keeps PC, memory and flags, and a landing from step one is a landing one tick later from step zero |
| Execution.ConditionBank | tools/emu/src/cpu.cpp:323-324 | the conditional jump opcodes have bit 7 set, so they test the flags of bank one |
| Execution.JumpInstruction | tools/urom/src/urom.cpp:656-665 | a whole JMP addr, fetch included, takes the CPU to the little-endian address after the opcode in seven ticks |
| Execution.ConditionalJumpInstruction | tools/urom/src/urom.cpp:667-863 | a whole conditional jump tests bank one and either jumps in seven ticks or steps over the address in four |
| AsmInstruction.TypeOf | tools/asm/src/instruction.cpp:105-138 | Each argument kind maps to its parameter type (register pair, register, byte, address); a padding slot has no type |
| AsmInstruction.TypeList | tools/asm/src/instruction.cpp:105-138 | The type list an argument contributes is exactly its type, or empty for a padding slot |
| AsmInstruction.AddArg | tools/asm/src/instruction.cpp:105-138 | Adding an argument always appends it to the argument list, and extends the type list only when the argument has a type |
| AsmInstruction.Make | tools/asm/src/instruction.cpp:23-31 | A new instruction has its name and opcode, three argument slots in the given order, and no sub-instructions |
| AsmInstruction.MakeArity | tools/asm/src/instruction.cpp:23-31 | A constructed instruction expects exactly one parameter per non-padding argument |
| AsmInstruction.AppendSub | tools/asm/src/instruction.cpp:83-88 | Appending a sub-instruction adds one unnamed instruction, with its opcode, arguments and their types, at the end of the list and leaves name, opcode and arguments alone |
| AsmTable.AppendSubs | tools/asm/src/instruction.cpp:83-88 | A chain of appendSubInstruction calls adds one unnamed instruction per call, in call order, after the existing ones, and keeps name, opcode and arguments |
| AsmTable.BuildWellFormed | tools/asm/src/instruction.cpp:23-138 | A named declaration builds an entry with three argument slots, a type list equal to the types of its non-padding arguments and so an arity equal to their count, and unnamed, flat sub-instructions shaped the same way |
| AsmTable.Table | tools/asm/src/asm.cpp:110-299 | The instruction list holds one instruction per registered declaration, in registration order, each built by the constructor and its appendSubInstruction calls |
| AsmTable.DeclarationsNamed | tools/asm/src/asm.cpp:110-299 | initInstructions registers 73 instructions, each with a non-empty mnemonic |
| AsmTable.TableWellFormed | tools/asm/src/asm.cpp:110-299 | Every one of the 73 registered instructions has three argument slots and a type list equal to the types of its non-padding arguments, so at most three parameters, and unnamed, flat sub-instructions shaped the same way |
| AsmText.TrimStart | tools/asm/src/parser.cpp:52 | The result is a suffix of the input that does not start with white space, and everything removed is white space |
| AsmText.TrimEnd | tools/asm/src/parser.cpp:52 | The result is a prefix of the input that does not end with white space, and everything removed is white space |
| AsmText.Trim | tools/asm/src/parser.cpp:52 | `trimmed()`: a slice of the input with no white space at either end, dropping only white space |
| AsmText.TrimKeepsTrimmed | tools/asm/src/parser.cpp:871 | Trimming twice is trimming once, and a text with no surrounding white space is unchanged |
| AsmText.FirstSpace | tools/asm/src/parser.cpp:105 | The index of the first white-space character: none before it; None exactly when the text holds no white space |
| AsmText.IndexOf | tools/asm/src/parser.cpp:766 | `indexOf(c)`: the first position holding c, or None exactly when c does not occur |
| AsmText.Folded | tools/asm/src/compiler.cpp:485 | Case folding keeps the length and folds every character on its own |
| AsmText.SameTextCharwise | tools/asm/src/data.cpp:45 | Case-insensitive equality holds exactly when the lengths agree and each position folds to the same character |
| AsmText.ToUInt | tools/asm/src/compiler.cpp:581-589 | `toUInt` succeeds exactly when the value fits an unsigned 32-bit number, and then returns it |
| AsmText.DecimalChar | tools/asm/src/compiler.cpp:579-581 | The digit character of a value below ten is a decimal digit with that value |
| AsmText.Decimal | tools/asm/src/compiler.cpp:579-581 | Decimal notation is a non-empty string of decimal digits |
| AsmText.DecimalValue | tools/asm/src/compiler.cpp:579-581 | Reading back the decimal notation of n gives n |
| AsmText.HexChar | tools/asm/src/compiler.cpp:587-589 | The hexadecimal digit of a value below sixteen is a hex digit with that value |
| AsmText.HexDigits | tools/asm/src/compiler.cpp:587-589 | Hexadecimal notation is a non-empty string of hex digits |
| AsmText.HexDigitsValue | tools/asm/src/compiler.cpp:587-589 | Reading back the hexadecimal digits of n gives n |
| AsmText.Hex | tools/asm/src/compiler.cpp:587 | A `0x` literal is `0x` followed by the digits of n, and matches the hex-literal pattern |
| AsmText.FindUnescaped | tools/asm/src/parser.cpp:72 | The first position of a separator not preceded by a backslash; None exactly when there is none |
| AsmText.SplitUnescaped | tools/asm/src/parser.cpp:810 | Splitting at unescaped separators always yields at least one part (empty parts are kept) |
| AsmText.SplitRoundTrip | tools/asm/src/parser.cpp:866 | Joining the parts of the split with the separator gives back the input exactly |
| AsmText.SplitPartsClean | tools/asm/src/parser.cpp:866 | No part produced by the split contains an unescaped separator |
| AsmText.DropBackslashes | tools/asm/src/parser.cpp:828 | Removing unescaped backslashes never lengthens the text |
| AsmText.DropBackslashesKeeps | tools/asm/src/parser.cpp:890 | A text without backslashes is left unchanged |
| AsmText.UnescapePairs | tools/asm/src/parser.cpp:828 | A backslash survives only right after another one: `\x` becomes `x` and `\\` becomes `\` |
| AsmData.HexAddress | tools/asm/src/parser.cpp:649-653 | A map address is accepted exactly when it is a `0x` literal below the memory size, and then denotes that number |
| AsmData.NewDataList | tools/asm/src/datalist.cpp:19-22 | A new data list has the given mode and holds no files and no global or external entries |
| AsmData.AddCodeSection | tools/asm/src/data.cpp:41-54 | Adding a section is refused exactly when a section of that name (ignoring case) exists; on success only the section list grows by that one section |
| AsmData.AddFlashItem | tools/asm/src/data.cpp:63-84 | Adding a flash item is refused exactly when a flash or RAM item of that name exists; on success only the flash list grows |
| AsmData.AddRamItem | tools/asm/src/data.cpp:93-114 | Adding a RAM item is refused exactly when a RAM or flash item of that name exists; on success only the RAM list grows |
| AsmData.AddsKeepUnique | tools/asm/src/data.cpp:41-114 | Each successful add keeps section names unique and flash and RAM names unique together |
| AsmData.AddGlobalCodeSection | tools/asm/src/datalist.cpp:98-111 | A global section is refused exactly when a global section of that name exists; on success only that list grows |
| AsmData.AddGlobalFlashItem | tools/asm/src/datalist.cpp:120-141 | A global flash item is refused exactly when a global flash or RAM item of that name exists |
| AsmData.AddGlobalRamItem | tools/asm/src/datalist.cpp:150-171 | A global RAM item is refused exactly when a global RAM or flash item of that name exists |
| AsmData.AddExternalCodeSection | tools/asm/src/datalist.cpp:41-51 | An external section succeeds exactly when its global add does, and is then also recorded as external |
| AsmData.AddExternalFlashItem | tools/asm/src/datalist.cpp:60-70 | An external flash item succeeds exactly when its global add does, and is then also recorded as external |
| AsmData.AddExternalRamItem | tools/asm/src/datalist.cpp:79-89 | An external RAM item succeeds exactly when its global add does, and is then also recorded as external |
| AsmData.GlobalAddsKeepInvariant | tools/asm/src/datalist.cpp:41-171 | Every global and external add keeps the global names unique and every external entry among the global ones |
| AsmFacts.PayloadRoles | tools/urom/src/urom.cpp:516-527 | The payload reads of a step list, in order, with where each byte goes |
| AsmFacts.StoreRolesAre | tools/urom/src/urom.cpp:516-527 | The microcode of ST val,addr reads its value into D, then the address low byte, then the high byte |
| AsmFacts.StoreEffectOf | tools/urom/src/urom.cpp:516-527 | ST val,addr stores the first payload byte at the address formed by the second (low) and third (high) bytes |
| AsmFacts.StoreAsWrittenBytes | tools/asm/src/asm.cpp:195 | As declared (value in the second pass, address in the first), `st v, a` is emitted as 02, low, high, v |
| AsmFacts.StoreCorrectedBytes | tools/asm/src/asm.cpp:195 | With the value as the first-pass payload, `st v, a` is emitted as 02, v, low, high |
| AsmFacts.StoreAsWrittenMisplaces | tools/asm/src/asm.cpp:195 | The as-declared encoding makes the microcode store the address's low byte at high + 256*v, which is the intended store exactly when a == 257*v |
| AsmFacts.StoreAsWrittenExample | tools/asm/src/asm.cpp:195 | `st 7, 0x1234` as declared stores 0x34 at 0x0712 instead of 7 at 0x1234 |
| AsmFacts.StoreCorrectedPlaces | tools/asm/src/asm.cpp:195 | With the corrected encoding, the microcode stores v at a for every byte v and address a |
| AsmFacts.GetPointerBytes | tools/asm/src/asm.cpp:205 | `gp a` is emitted as 0x0E, low, high, then the sub-instruction 0x0F |
| AsmFacts.GetFramePointerBytes | tools/asm/src/asm.cpp:290 | `gpf v` is emitted as 0x22, v, then 0x23 |
| AsmFacts.LoadPointerOffsetBytes | tools/asm/src/asm.cpp:208 | `ldpo off, r` is emitted as 0x0A, off, 0x0B, then the load opcode for register r |
| AsmFacts.StorePointerOffsetBytes | tools/asm/src/asm.cpp:209 | `stpo r, off` is emitted as 0x0A, off, 0x0B, then the store opcode for register r |
| Compiler.ParamAb | tools/asm/src/compiler.cpp:514-530 | A result is a code below 2 naming the parameter case-insensitively; no result exactly when the parameter is neither a nor b |
| Compiler.ParamAbxy | tools/asm/src/compiler.cpp:540-564 | A result is a code below 4 naming the parameter case-insensitively; no result exactly when it names no register |
| Compiler.ParamVal256 | tools/asm/src/compiler.cpp:574-615 | A literal is accepted exactly when its number exists and is below 256, and the byte is that number |
| Compiler.SplitAddress | tools/asm/src/compiler.cpp:640-641 | The low and high byte recombine to the address |
| Compiler.ParamAddr | tools/asm/src/compiler.cpp:626-650 | An address is accepted exactly when it is a `0x` literal below 65536, and its two bytes recombine to it |
| Compiler.ParamTypes | tools/asm/src/compiler.cpp:434-470 | A parameter that may be a register may only be a register, and a two-register name is also a four-register name |
| Compiler.RegisterTypesSound | tools/asm/src/compiler.cpp:438-445 | The classifier admits a register type exactly when the matching register parser accepts the parameter |
| Compiler.AddressTypeSound | tools/asm/src/compiler.cpp:451-467 | The classifier admits the address type exactly when the parameter is a label or a `0x` literal |
| Compiler.RegisterRoundTrip | tools/asm/src/compiler.cpp:514-564 | Each register name parses back to its code; x and y are not two-register names |
| Compiler.Val256Decimal | tools/asm/src/compiler.cpp:579-581 | Decimal text parses as a byte exactly when the number is below 256 |
| Compiler.HexRoundTrip | tools/asm/src/compiler.cpp:587-589 | A `0x` literal is a byte exactly below 256 and an address exactly below 65536, split little-endian |
| Compiler.Val256Char | tools/asm/src/compiler.cpp:591-600 | A character literal stands for its code when that is 1 to 127 and is refused otherwise |
| Compiler.FindFrom | tools/asm/src/compiler.cpp:483-500 | The index found fits the mnemonic and parameters and no earlier entry does; none exactly when no entry fits |
| Compiler.FindInstruction | tools/asm/src/compiler.cpp:479-504 | The first table entry with the same name (ignoring case), arity and admitted types; none when no entry fits |
| Compiler.Without | tools/asm/src/compiler.cpp:258 | The slots of every label except the given one, and only those |
| Compiler.Insert | tools/asm/src/compiler.cpp:258 | After insertion a label has exactly the new slot and every other label keeps its slots |
| Compiler.CompileSubs | tools/asm/src/compiler.cpp:337-343 | Every sub-instruction contributes exactly one byte |
| Compiler.PassShape | tools/asm/src/compiler.cpp:233-281 | A pass appends exactly the payload width of the slots it handles, and every label slot keeps pointing at two zero bytes |
| Compiler.EncodeShape | tools/asm/src/compiler.cpp:216-346 | An encoded instruction is its opcode, the payload of both passes and one byte per sub-instruction; every label slot points at two zero bytes inside the payload |
| Compiler.RamSize | tools/asm/src/compiler.cpp:68-105 | No size suffix means one byte; otherwise the size is accepted exactly when it is decimal and fits 32 bits, and is that number |
| Compiler.CharBytes | tools/asm/src/compiler.cpp:131-144 | A string converts exactly when every character is 1 to 127, and then byte i is character i |
| Compiler.ValueBytes | tools/asm/src/compiler.cpp:152-167 | A value list converts exactly when every value is a byte literal, and then byte i is value i |
| Compiler.StringConstant | tools/asm/src/compiler.cpp:123-147 | A quoted ASCII string is stored as its characters followed by one zero byte |
| Compiler.CompileRams | tools/asm/src/compiler.cpp:72-102 | On success every RAM item is kept, in order, with its name |
| Compiler.CompileFlashes | tools/asm/src/compiler.cpp:118-180 | On success every flash item is kept, in order, with its name |
| Compiler.CompileItems | tools/asm/src/compiler.cpp:196-202 | On success there is one compiled item per code item |
| Compiler.CompileSections | tools/asm/src/compiler.cpp:192-206 | On success every section is kept, in order, with its name |
| Compiler.CompileData | tools/asm/src/compiler.cpp:40-56 | One file compiles RAM, then flash, then code, and keeps its file name and all section, flash and RAM names |
| Compiler.CompileFiles | tools/asm/src/compiler.cpp:40-56 | On success there is one compiled file per input file |
| Compiler.Compile | tools/asm/src/compiler.cpp:38-59 | On success only the files change, and their number is kept |
| Linker.RegionOf | tools/asm/src/linker.cpp:36-52 | Each mode's region is non-empty and inside memory; the OS region starts where the BIOS region ends and the application's where the OS region ends |
| Linker.FlattenSplit | tools/asm/src/linker.cpp:57-73 | An element's bytes sit in the concatenation right after those of the elements before it |
| Linker.FlattenInside | tools/asm/src/linker.cpp:57-73 | Every element's bytes occur in the concatenation at the length of what precedes it |
| Linker.TotalSplit | tools/asm/src/linker.cpp:68 | The running count splits at every element into what comes before, the element and what comes after |
| Linker.ItemInFile | tools/asm/src/linker.cpp:60-71 | A code item's bytes occur in its file's code after the sections and items before it |
| Linker.ItemInCode | tools/asm/src/linker.cpp:57-73 | A code item's bytes occur in the code of all files at the item's position |
| Linker.ItemInImage | tools/asm/src/linker.cpp:57-87 | Every code item's bytes occur in the image at its position, inside the code part |
| Linker.ConstInImage | tools/asm/src/linker.cpp:76-87 | Every constant's bytes occur in the image at its position, after all the code |
| Linker.VarInUsage | tools/asm/src/linker.cpp:90-99 | Every variable starts after the image and ends within the count that is compared with the region size |
| Linker.ItemsApart | tools/asm/src/linker.cpp:62-68 | Code items never overlap: an item ends before any later item starts |
| Linker.VarsApart | tools/asm/src/linker.cpp:95-97 | Variables never overlap: a variable ends before any later one starts |
| Linker.ItemsAdjacent | tools/asm/src/linker.cpp:66-68 | Each item of a section starts exactly where the one before it ends |
| Linker.FirstMatch | tools/asm/src/linker.cpp:279-287 | The first position whose name equals n ignoring case; none exactly when no name matches |
| Linker.OriginAddress | tools/asm/src/linker.cpp:283 | A fixed entry has the address read from its map file; a local entry has the region offset plus its section, constant or variable position |
| Linker.GlobalLookup | tools/asm/src/linker.cpp:289-297 | A global name resolves through an entry of the same name; a name not listed does not resolve |
| Linker.CodeLookup | tools/asm/src/linker.cpp:277-300 | A section of the label's own file shadows a global section of the same name; without one the global list decides |
| Linker.MemoryLookup | tools/asm/src/linker.cpp:311-354 | The file's variables come first, then its constants, then the global variables, then the global constants |
| Linker.IndexValue | tools/asm/src/linker.cpp:256 | The index is its decimal value when that fits 32 bits, and zero otherwise |
| Linker.IndexedShape | tools/asm/src/linker.cpp:252-256 | A written `*name[digits]` label is cut at its first bracket into exactly that name and those digits, and is only an indexed label |
| Linker.IndexedFind | tools/asm/src/linker.cpp:237-266 | Resolving `*name[digits]` is resolving the element digits bytes after `*name` |
| Linker.ElementValue | tools/asm/src/linker.cpp:258-261 | The element address is the item's address plus the index, as an unsigned 32-bit sum |
| Linker.IndexedAddress | tools/asm/src/linker.cpp:252-263 | `*name[n]` names n bytes after `*name` as a 32-bit sum, and an index past 32 bits counts as zero |
| Linker.Write | tools/asm/src/linker.cpp:133-134 | Writing an address puts its low byte at p and its high byte at p + 1 and leaves every other byte alone |
| Linker.Patch | tools/asm/src/linker.cpp:108-148 | A successful patch keeps the image's length |
| Linker.PatchSucceeds | tools/asm/src/linker.cpp:108-148 | Patching succeeds exactly when every slot's label resolves and both its bytes lie in the image |
| Linker.PatchFails | tools/asm/src/linker.cpp:140-144 | A failed patch reports the first slot that does not resolve, as an unknown label or as a position outside the image |
| Linker.PatchKeeps | tools/asm/src/linker.cpp:108-148 | A byte no slot writes keeps its compiled value |
| Linker.PatchWrites | tools/asm/src/linker.cpp:131-136 | A slot not overwritten by a later one ends up holding its label's address, low byte first |
| Linker.SeparatedLater | tools/asm/src/linker.cpp:108-148 | In slots at least two bytes apart no later slot writes over an earlier one |
| Linker.Link | tools/asm/src/linker.cpp:28-153 | Usage above the region size is refused with the usage and size; a success reports the usage and an image of the placed bytes that fits the region |
| Linker.LinkSucceeds | tools/asm/src/linker.cpp:101-148 | Linking succeeds exactly when the usage fits the region and every label slot resolves inside the image |
| Linker.LinkFails | tools/asm/src/linker.cpp:140-144 | A program that fits but does not link reports the first slot that does not resolve |
| Linker.LinkedSlot | tools/asm/src/linker.cpp:108-148 | After a successful link, a slot not overwritten later holds its label's address, low byte first |
| Linker.LinkedVarInRegion | tools/asm/src/linker.cpp:90-105 | After a successful link every variable lies inside the mode's region |
| Linker.LinkedItemBytes | tools/asm/src/linker.cpp:57-148 | After a successful link every code byte not covered by a slot is the compiled byte, at the item's position |
| Linker.CountFrom | tools/asm/src/linker.cpp:34-97 | The unsigned 32-bit running count stays below 2^32 |
| Linker.CountFromWraps | tools/asm/src/linker.cpp:34-97 | The 32-bit counter holds the true sum only modulo 2^32 |
| Linker.CountVars | tools/asm/src/linker.cpp:90-99 | The third loop's count, on the 32-bit counter, stays below 2^32 |
| Linker.CountVarsWraps | tools/asm/src/linker.cpp:90-99 | The third loop's counter equals the start plus every variable size, modulo 2^32 |
| Linker.WrappedUsage | tools/asm/src/linker.cpp:34-97 | The counter as written stays below 2^32 |
| Linker.WrappedUsageIsModular | tools/asm/src/linker.cpp:34-101 | As written, the usage compared with the region size is the true usage modulo 2^32 |
| Linker.RamCounterWraps | tools/asm/src/linker.cpp:34-101 | As written, a variable of 0xFFFF_FFFF bytes followed by one of 1 byte wraps the 32-bit usage to 0, the size check passes and the second variable is placed at 0x1FFF, below the application RAM region; the corrected Link refuses this program with an overflow of 0x1_0000_0000 bytes against the region size |
| Linker.Binary | tools/asm/src/linker.cpp:165-171 | The image comes first; a BIOS image is padded with zeros up to the BIOS size, other images are unchanged |
| Linker.Hex4 | tools/asm/src/linker.cpp:198 | `arg(n, 4, 16, '0')`: at least four hex digits whose value is n |
| Linker.Resolved | tools/asm/src/linker.cpp:196-215 | When every entry has an address, there is one map line per entry, in order, with its name and address |
| Linker.MapLines | tools/asm/src/linker.cpp:190-223 | One map line per external entry |
| Linker.OriginInRegion | tools/asm/src/linker.cpp:62-95 | After a successful link a placed entry's address lies in the region (an empty entry may sit at its end) |
| Linker.MapInRegion | tools/asm/src/linker.cpp:190-223 | Every address in the map of a linked program lies in the mode's region |
| Linker.Save | tools/asm/src/linker.cpp:163-226 | Saving fails exactly when the image is empty; the binary is the padded image; a map file is written for the BIOS and the OS only |
| Linker.LinkedBiosSize | tools/asm/src/linker.cpp:168-171 | A linked and saved BIOS is exactly the size of the BIOS region |
| Parser.ReadLines | tools/asm/src/parser.cpp:44-55 | A readable file gives one line per physical line, each trimmed |
| Parser.TrimBeforeComment | tools/asm/src/parser.cpp:72-77 | The trimmed text before the first unescaped `;` holds no unescaped `;` |
| Parser.StripCommentClean | tools/asm/src/parser.cpp:72-77 | What comment stripping leaves holds no comment, and a line without a comment is left unchanged |
| Parser.Pieces | tools/asm/src/parser.cpp:68-96 | One comment-stripped piece per physical line |
| Parser.PieceAt | tools/asm/src/parser.cpp:71-77 | Piece i is line i without its comment |
| Parser.Glue | tools/asm/src/parser.cpp:68-96 | A logical line consumes at least its first piece and never runs past the last one |
| Parser.LogicalLinesShape | tools/asm/src/parser.cpp:60-102 | Logical lines are non-empty, each starts at a physical line, and they come in increasing line order |
| Parser.LinesUnfold | tools/asm/src/parser.cpp:60-102 | The logical lines from i are the one starting at i, when it is not empty, followed by those after the pieces it consumed |
| Parser.GlueContinues | tools/asm/src/parser.cpp:86-90 | A piece ending in a backslash, with more pieces after it, adds itself without the backslash and gluing goes on |
| Parser.GlueEnds | tools/asm/src/parser.cpp:91-96 | Gluing stops after a piece that does not continue, or at the last piece, and the logical line is complete |
| Parser.GlueRound | tools/asm/src/parser.cpp:68-96 | One round of the gluing loop blanks each consumed line after the first and keeps the gluing invariant |
| Parser.GlueAt | tools/asm/src/parser.cpp:63-96 | The inner loop returns exactly the logical line starting at j, blanks every physical line it consumed after the first and leaves the rest alone |
| Parser.GlueNext | tools/asm/src/parser.cpp:60-102 | One round of the outer loop keeps "lines found plus lines still to find" equal to the logical lines of the file |
| Parser.GlueLines | tools/asm/src/parser.cpp:60-102 | The loop over the physical lines yields exactly the file's non-empty logical lines |
| Parser.GlueTwo | tools/asm/src/parser.cpp:86-95 | A line ending in a backslash followed by one that does not glue into one logical line without the backslash |
| Parser.SplitWord | tools/asm/src/parser.cpp:105-117 | The first word is a prefix of the line and the rest is the trimmed remainder; on a trimmed non-empty line the word is non-empty, has no white space and ends at white space |
| Parser.SplitSpaces | tools/asm/src/parser.cpp:466 | Splitting at white space yields at least one piece, and no piece contains white space |
| Parser.ParseRam | tools/asm/src/parser.cpp:747-782 | A declaration is accepted exactly when it is a name or a name with a decimal size in brackets; a bare name has no size |
| Parser.RamRoundTrip | tools/asm/src/parser.cpp:764-770 | `name[size]` gives back exactly that name and size |
| Parser.CleanValues | tools/asm/src/parser.cpp:825-831 | Every value loses its unescaped backslashes and is trimmed, in place |
| Parser.ParseFlash | tools/asm/src/parser.cpp:792-846 | An accepted constant has a name without white space and at least one non-empty value; a line without white space after a name is refused |
| Parser.SplitJoin | tools/asm/src/parser.cpp:810 | Plain parts joined with the separator split back into the same parts |
| Parser.FlashRoundTrip | tools/asm/src/parser.cpp:792-846 | `name v1,v2,...` with plain values parses back to the name and the values |
| Parser.TrimAll | tools/asm/src/parser.cpp:869-871 | Every parameter trimmed, in place |
| Parser.CleanParams | tools/asm/src/parser.cpp:882-892 | Every parameter cleaned, in place |
| Parser.ParseCode | tools/asm/src/parser.cpp:857-898 | An instruction keeps its mnemonic; no text means no parameters; otherwise one parameter per part of the split |
| Parser.ParamsPlain | tools/asm/src/parser.cpp:869-892 | Plain parameters survive trimming and the quote clean-up unchanged |
| Parser.CodeRoundTrip | tools/asm/src/parser.cpp:857-898 | Plain parameters joined with commas parse back to themselves |
| Parser.EscapedCharOperand | tools/asm/src/parser.cpp:884-891 | A character operand written with a backslash, even `'\,'` or `'\\'`, is one parameter holding that character in quotes |
| Parser.OneParam | tools/asm/src/parser.cpp:864-894 | A line that splits into one trimmed non-empty part is an instruction with that part, cleaned |
| Parser.Include | tools/asm/src/parser.cpp:327-369 | An include queues its path unless it was parsed or queued already, and never fails |
| Parser.ParseMap | tools/asm/src/parser.cpp:595-737 | A line of a map file that is not three or five words is a syntax error; a success changes only the global lists and keeps the name rules outside the BIOS |
| Parser.ParseMapLines | tools/asm/src/parser.cpp:450-474 | Reading a map file changes only the global lists, and keeps the name rules outside the BIOS |
| Parser.MapEntry | tools/asm/src/parser.cpp:381-475 | `map` is refused in BIOS mode; otherwise it keeps the file being parsed and the program's rules |
| Parser.KeepRules | tools/asm/src/datalist.cpp:41-171 | A global add keeps the program's rules, as does an external add outside an application and a RAM add outside the BIOS |
| Parser.RamEntry | tools/asm/src/parser.cpp:489-533 | `var` is refused in BIOS mode and on a malformed declaration; on success the item joins the file and the rules are kept |
| Parser.FlashEntry | tools/asm/src/parser.cpp:547-584 | A malformed constant is a syntax error; on success the item joins the file and the rules are kept |
| Parser.Dispatch | tools/asm/src/parser.cpp:173-228 | A keyword entry or an instruction: on success the parse only moves forward and keeps the rules |
| Parser.SectionEntry | tools/asm/src/parser.cpp:258-316 | A label whose name is malformed is a syntax error, reusing the open section's name is refused, and a success keeps the rules |
| Parser.SectionRest | tools/asm/src/parser.cpp:167-171 | Nothing after a section label changes nothing; otherwise the rest is parsed and the rules are kept |
| Parser.ParseLine | tools/asm/src/parser.cpp:104-228 | `external` in an application is refused; a parsed line keeps the rules |
| Parser.ParseLines | tools/asm/src/parser.cpp:60-229 | The lines of a file in order: a success keeps the rules |
| Parser.ParseOne | tools/asm/src/parser.cpp:40-237 | An unreadable file fails; otherwise the file joins the program under its own path and the rules are kept |
| Parser.AppendKeepsRules | tools/asm/src/parser.cpp:231-237 | A finished file with its own name rules, and without RAM in the BIOS, keeps the rules when it joins the program |
| Parser.FilesStep | tools/asm/src/parser.cpp:38-238 | After file i is parsed the queue and the program still agree up to it, without duplicates |
| Parser.ParseFiles | tools/asm/src/parser.cpp:38-238 | Every queued file is parsed once, in queue order, and the files of the program have distinct paths |
| Parser.Parse | tools/asm/src/parser.cpp:30-241 | An unreadable input fails; a success starts with the input file, holds each file once and keeps the name rules |
| Assembler.Finish | tools/asm/src/asm.cpp:87-101 | Linking and saving delivers a binary of at least one byte that fits the mode's region |
| Assembler.Build | tools/asm/src/asm.cpp:78-101 | Encoding, linking and saving a parsed program delivers a binary that fits the mode's region |
| Assembler.AssembleWith | tools/asm/src/asm.cpp:65-104 | An unreadable input is a parse failure; a success delivers a binary that fits the mode's region |
| Assembler.HexWordReads | tools/asm/src/parser.cpp:646-653 | The address word written to a map line reads back as the same address |
| Assembler.MapLineWords | tools/asm/src/linker.cpp:196-215 | Every map line is its words with one space between each two |
| Assembler.JoinedWords | tools/asm/src/linker.cpp:198 | Words joined by single spaces form a text with no comment mark and no white space at either end |
| Assembler.SplitJoined | tools/asm/src/parser.cpp:466 | Splitting at white space takes words joined by single spaces apart again |
| Assembler.MapLineSplits | tools/asm/src/parser.cpp:443-466 | A written map line survives trimming and comment stripping and splits into its words |
| Assembler.MapWordsParse | tools/asm/src/parser.cpp:595-737 | The parser takes the words of a written line as the fixed entry they were written from |
| Assembler.MapLineReads | tools/asm/src/parser.cpp:450-471 | A written line, read back, is the fixed entry it was written from |
| Assembler.ReadBack | tools/asm/src/parser.cpp:443-446 | Reading keeps one line per written line |
| Assembler.MapLinesRead | tools/asm/src/parser.cpp:450-474 | Reading a written map file is reading its entries in the order written |
| Assembler.MapRoundTrip | tools/asm/src/linker.cpp:190-223 | When every mapped name passes the map reader's name check (letters, digits, `_` and `-`, after the leading dot of a section), the map of a linked BIOS or OS, read by a later program's parser, adds the entries in the order they were written |
| Parser.MapRefusesDottedName | tools/asm/src/parser.cpp:686-700 | An `external const` map line whose name holds a dot is refused as a syntax error at its line |
| Assembler.ReadEntryAdds | tools/asm/src/parser.cpp:655-727 | An entry read keeps the files and mode and appends the name at its address to the list of its kind only |
| Assembler.ReadEntriesAppend | tools/asm/src/parser.cpp:450-474 | A map read without a refusal appends, per kind, exactly the lines' entries in the order written |
| IoBoard.AppendName | tools/emu/src/io.cpp:658-674 | A name byte either extends the file name by that character or leaves the name unchanged |
| IoBoard.Reset | tools/emu/src/io.cpp:46-59 | Reset deselects every register, clears the port, the registers and every peripheral queue, switches both LEDs off and blanks the LCD, keeping only the latches |
| IoBoard.Signal | tools/emu/src/io.cpp:137-168 | A data-ready signal sets or clears exactly its own bit of the input port, and no signal leaves the port alone |
| IoBoard.KeyPress | tools/emu/src/io.cpp:67-70 | A key press feeds the keyboard queue and raises the keyboard-ready bit exactly when the queue is not empty, leaving the other port bits alone |
| IoBoard.SerialReceive | tools/emu/src/io.cpp:97-100 | Received text feeds the serial queue and raises the serial-ready bit exactly when the queue is not empty, leaving the other port bits alone |
| IoBoard.StatusAsWritten | tools/emu/src/io.cpp:177-222 | As written, the status register answers 1 or 0 for either half, 1 exactly when the selected flag is set |
| IoBoard.Status | tools/emu/src/io.cpp:177-222 | Corrected form (as written: IoBoard.StatusAsWritten, which reads 0 in the high half): after the high-half shift the bus still carries 1 exactly when the selected flag is set |
| IoBoard.ReadField | tools/emu/src/io.cpp:229-273 | The field register answers the file size halves, the free speaker space, the clock fields or the note fields, according to the field address |
| IoBoard.ReadKeyboard | tools/emu/src/io.cpp:282-292 | The low half takes the next key from the keyboard queue and latches it; the high half replays the latched key without touching the queue |
| IoBoard.ReadSerial | tools/emu/src/io.cpp:339-349 | The low half takes the next received byte and latches it; the high half replays the latched byte without touching the queue |
| IoBoard.ReadCursor | tools/emu/src/io.cpp:301-330 | The cursor registers answer the LCD column or row and change nothing on the board |
| IoBoard.ReadFsData | tools/emu/src/io.cpp:358-368 | The low half reads one byte of the open file and latches it; the high half replays it |
| IoBoard.ReadRegister | tools/emu/src/io.cpp:699-740 | A read dispatches on the selected register, keeps the control bits of the port other than the two ready bits, and answers the status flag in either half |
| IoBoard.FsAnswer | tools/emu/src/io.cpp:380-404 | A file system command stores the host's status, and the file size only when the status is success |
| IoBoard.FsCommand | tools/emu/src/io.cpp:378-406 | Each low-half command opens the OS, an application or a file, lists a directory, or resets the name, changing only the file system registers |
| IoBoard.LedCommand | tools/emu/src/io.cpp:411-426 | The four LED commands switch exactly one LED and change nothing else |
| IoBoard.LcdCommand | tools/emu/src/io.cpp:427-445 | Clear blanks the canvas and refreshes, refresh copies the canvas, scroll and new line move the text, and only the LCD changes |
| IoBoard.SpeakerCommand | tools/emu/src/io.cpp:454-469 | Play, pause, clear and add-note act on the speaker queue only |
| IoBoard.BufferFreeCommand | tools/emu/src/io.cpp:470-473 | The buffer-free command stores the speaker's free space in its register and changes nothing else |
| IoBoard.DeviceCommand | tools/emu/src/io.cpp:408-474 | Each high-half command code goes to the LED, LCD, clock or speaker handler, and an unknown code changes nothing |
| IoBoard.CommitField | tools/emu/src/io.cpp:504-555 | A completed field byte lands in the clock or note field named by the field address, and only there |
| IoBoard.WriteField | tools/emu/src/io.cpp:504-555 | The low half only latches; the high half completes the byte and commits it to the addressed field |
| IoBoard.WriteColor | tools/emu/src/io.cpp:563-573 | A colour write changes only the foreground (low half) or background (high half) of the LCD colour |
| IoBoard.WriteCursor | tools/emu/src/io.cpp:582-611 | A cursor write latches a half and, on the high half, moves the cursor when the value is on the screen |
| IoBoard.WriteChar | tools/emu/src/io.cpp:620-630 | A character write latches a half and, on the high half, prints the completed character |
| IoBoard.WriteSerial | tools/emu/src/io.cpp:639-649 | A serial write latches a half and, on the high half, transmits the completed byte masked to 7 bits |
| IoBoard.WriteName | tools/emu/src/io.cpp:658-674 | A name write latches a half and, on the high half, appends the completed character to the file name |
| IoBoard.WriteControl | tools/emu/src/io.cpp:756-770 | Writes to the command, status-address, field-address and field registers go to their own handlers |
| IoBoard.WriteDevice | tools/emu/src/io.cpp:772-794 | Writes to the LCD, serial and file-name registers go to their own handlers |
| IoBoard.WriteRegister | tools/emu/src/io.cpp:743-795 | A write dispatches on the selected register to the control or device handlers |
| IoBoard.Handle | tools/emu/src/io.cpp:682-804 | Every strobed request toggles the operation-complete bit |
| IoBoard.Step | tools/emu/src/io.cpp:684 | A bus value without the strobe bit does nothing |
| IoBoard.WriteKeeps | tools/emu/src/io.cpp:743-795 | A write never changes the selected register or the input port |
| IoBoard.ReadKeeps | tools/emu/src/io.cpp:699-740 | After a read the port keeps its complete and clock bits and carries the served nibble |
| IoBoard.AnswerKeeps | tools/emu/src/io.cpp:692-796 | Answering a request keeps the complete bit and changes the selected register only on a select request |
| IoBoard.StepKeeps | tools/emu/src/io.cpp:682-804 | A step keeps the board well formed, ignores unstrobed values and toggles the complete bit on strobed ones |
| IoBoard.PutByte | tools/emu/src/io.cpp:743-795 | Writing a byte as two nibbles keeps the board well formed |
| IoBoard.StepWrite | tools/emu/src/io.cpp:743-800 | A strobed write request performs the register write and toggles the complete bit |
| IoBoard.PutByteWrites | tools/emu/src/io.cpp:743-800 | A byte write is the low-half write followed by the high-half write |
| IoBoard.PrintByte | tools/emu/src/io.cpp:620-630 | With the LCD character register selected, writing a byte prints exactly that character |
| IoBoard.SendByte | tools/emu/src/io.cpp:639-649 | With the serial register selected, writing a byte transmits it masked to 7 bits |
| IoBoard.NameByte | tools/emu/src/io.cpp:658-674 | With the file-name register selected, writing a byte appends it to the name |
| IoBoard.NameAppended | tools/emu/src/io.cpp:658-674 | A name byte leaves the file-name register selected and applies the append rule |
| IoBoard.FieldByte | tools/emu/src/io.cpp:504-555 | With the field register selected, writing a byte commits it to the addressed field |
| IoBoard.PutBytes | tools/emu/src/io.cpp:743-795 | Writing a string keeps the board well formed |
| IoBoard.PrintText | tools/emu/src/io.cpp:620-630 | Writing a string to the LCD character register prints it, in order |
| IoBoard.SetName | tools/emu/src/io.cpp:658-674 | Writing a string to the file-name register appends its printable characters until the name is full |
| IoBoard.Printable | tools/emu/src/io.cpp:664-672 | Filtering to printable characters never lengthens the text |
| IoBoard.AppendNamesKeeps | tools/emu/src/io.cpp:664-672 | Appending a string keeps its printable characters, cut at the maximum name length |
| IoBoard.AppendNamesWhole | tools/emu/src/io.cpp:664-672 | A string that forms a valid name with the current one is appended whole |
| IoBoard.AppendNamesOk | tools/emu/src/io.cpp:664-672 | Appending never makes a valid name invalid |
| IoBoard.StepRead | tools/emu/src/io.cpp:699-740 | A strobed read request performs the register read, puts the served nibble on the port and toggles the complete bit |
| IoBoard.GetByte | tools/emu/src/io.cpp:699-740 | Reading a byte as two nibbles yields a value below 256 |
| IoBoard.ReadKey | tools/emu/src/io.cpp:282-292 | With the keyboard register selected, reading a byte returns the next key and removes it from the queue |
| IoBoard.ReadSerialByte | tools/emu/src/io.cpp:339-349 | With the serial register selected, reading a byte returns the next received byte and removes it from the queue |
| IoBoard.StatusHighLost | tools/emu/src/io.cpp:177-222 | As written, the high-half shift turns the status answer 1 into 0; the corrected answer survives the shift |
| IoBoard.ReadStatus | tools/emu/src/io.cpp:734-740 | Reading the status register puts 1 on the data lines exactly when the selected flag is set, in both halves |
| IoFirmware.Word | io/fw/src/io.c:848-854 | The GPIO output word carries the data nibble on the data pins and each control flag on its own pin |
| IoFirmware.FireClock | io/fw/src/io.c:218-221 | The clock tick toggles the clock pin and nothing else |
| IoFirmware.FirePeripheral | io/fw/src/io.c:224-243 | The peripheral tick sets each ready pin exactly when its receive buffer holds data |
| IoFirmware.ReadKeyboard | io/fw/src/io.c:357-372 | The low half takes the next key from the ring buffer and latches it; the high half replays it |
| IoFirmware.ReadSerial | io/fw/src/io.c:419-434 | The low half takes the next received byte and latches it; the high half replays it |
| IoFirmware.ReadCursor | io/fw/src/io.c:381-410 | The cursor registers answer the LCD column or row and change nothing |
| IoFirmware.ReadFsData | io/fw/src/io.c:443-453 | The low half reads one byte of the open file and latches it; the high half replays it |
| IoFirmware.ReadRegister | io/fw/src/io.c:813-854 | A read dispatches on the selected register; a high-half read changes nothing; the status register answers its flag in either half |
| IoFirmware.FsCommand | io/fw/src/io.c:463-497 | Each low-half command opens the OS, an application or a file, lists a directory, or resets the name, changing only the file system registers |
| IoFirmware.LedCommand | io/fw/src/io.c:501-515 | The four LED commands switch exactly one LED and change nothing else |
| IoFirmware.LcdCommand | io/fw/src/io.c:516-534 | Clear blanks and refreshes, refresh copies the canvas, scroll and new line move the text, and only the LCD changes |
| IoFirmware.SpeakerCommand | io/fw/src/io.c:543-558 | Play, pause, clear and add-note act on the speaker ring only |
| IoFirmware.BufferFreeCommand | io/fw/src/io.c:559-562 | The buffer-free register plus the queued notes make the ring capacity minus one |
| IoFirmware.DeviceCommand | io/fw/src/io.c:497-565 | Each high-half command code goes to the LED, LCD, clock or speaker handler, and an unknown code changes nothing |
| IoFirmware.WriteField | io/fw/src/io.c:594-645 | The low half only latches; the high half completes the byte and commits it to the addressed field |
| IoFirmware.WriteColor | io/fw/src/io.c:653-663 | A colour write changes only the foreground or background of the LCD colour |
| IoFirmware.WriteCursor | io/fw/src/io.c:672-701 | A cursor write latches a half and, on the high half, moves the cursor when the value is on the screen |
| IoFirmware.WriteChar | io/fw/src/io.c:710-720 | A character write latches a half and, on the high half, prints the completed character |
| IoFirmware.WriteSerial | io/fw/src/io.c:729-739 | A serial write latches a half and, on the high half, queues the completed byte in the transmit ring |
| IoFirmware.WriteName | io/fw/src/io.c:748-766 | A name write latches a half and, on the high half, appends the completed character to the name buffer |
| IoFirmware.WriteControl | io/fw/src/io.c:870-885 | Writes to the command, status-address, field-address and field registers go to their own handlers |
| IoFirmware.WriteDevice | io/fw/src/io.c:886-909 | Writes to the LCD, serial and file-name registers go to their own handlers |
| IoFirmware.WriteRegister | io/fw/src/io.c:856-910 | A write dispatches on the selected register to the control or device handlers |
| IoFirmware.Irq | io/fw/src/io.c:796-918 | Every bus interrupt toggles the operation-complete pin |
| IoFirmware.WriteKeeps | io/fw/src/io.c:856-910 | A write never changes the selected register or the output pins |
| IoFirmware.ReadKeeps | io/fw/src/io.c:813-855 | A read keeps the selected register and every pin except the ready pins and the data nibble |
| IoFirmware.AnswerKeeps | io/fw/src/io.c:806-911 | Answering a request keeps the complete and clock pins and changes the selected register only on a select request |
| IoFirmware.IrqKeeps | io/fw/src/io.c:796-918 | An interrupt keeps the board well formed, toggles the complete pin and keeps the clock pin |
| IoFirmware.IrqWrite | io/fw/src/io.c:856-918 | An interrupt carrying a write performs the register write and toggles the complete pin |
| IoFirmware.PutByte | io/fw/src/io.c:856-910 | Writing a byte as two nibbles keeps the board well formed |
| IoFirmware.PutByteWrites | io/fw/src/io.c:856-918 | A byte write is the low-half write followed by the high-half write |
| IoFirmware.PrintByte | io/fw/src/io.c:710-720 | With the LCD character register selected, writing a byte prints exactly that character |
| IoFirmware.SendByte | io/fw/src/io.c:729-739 | With the serial register selected, writing a byte queues it for transmission |
| IoFirmware.NameByte | io/fw/src/io.c:748-766 | With the file-name register selected, writing a byte applies the firmware append rule |
| IoFirmware.PutBytes | io/fw/src/io.c:856-910 | Writing a string keeps the board well formed |
| IoFirmware.PrintText | io/fw/src/io.c:710-720 | Writing a string to the LCD character register prints it, in order |
| IoFirmware.NameAppended | io/fw/src/io.c:748-766 | The firmware name buffer grows exactly as the emulator's name does |
| IoFirmware.SetName | io/fw/src/io.c:748-766 | Writing a string to the file-name register gives the same name as in the emulator |
| IoFirmware.IrqRead | io/fw/src/io.c:813-918 | An interrupt carrying a read performs the register read, drives the served nibble and toggles the complete pin |
| IoFirmware.GetByte | io/fw/src/io.c:813-855 | Reading a byte as two nibbles yields a value below 256 |
| IoFirmware.ReadKey | io/fw/src/io.c:357-372 | With the keyboard register selected, reading a byte returns the next key and removes it from the ring |
| IoFirmware.ReadSerialByte | io/fw/src/io.c:419-434 | With the serial register selected, reading a byte returns the next received byte and removes it from the ring |
| IoFirmware.ReadStatus | io/fw/src/io.c:848-854 | Reading the status register drives 1 on the data pins exactly when the selected flag is set, in both halves |
| Nibble.Lo | tools/emu/src/io.cpp:744 | The low nibble is the byte masked to its data bits |
| Nibble.Hi | tools/emu/src/io.cpp:734-736 | The high nibble is the byte shifted right by four |
| Nibble.Fields | tools/emu/src/io.cpp:686-695 | A strobed bus value is a select when the mode bit is clear, a read when mode is set and read/write is clear, and a write otherwise, with the half bit and data nibble carried over |
| Nibble.Decode | tools/emu/src/io.cpp:684 | A bus value is a request exactly when its strobe bit is set |
| Nibble.DecodeEncode | tools/emu/src/io.cpp:684-695 | Decoding an encoded request gives it back |
| Nibble.EncodeDecode | tools/emu/src/io.cpp:684-695 | Encoding a decoded request gives back the significant bits of the bus value |
| Nibble.Latch | tools/emu/src/io.cpp:744-751 | Latching a nibble replaces exactly the addressed half of the byte |
| Nibble.Nibbles | tools/emu/src/io.cpp:744-751 | Two bytes are equal exactly when both their nibbles are |
| Nibble.LowThenHigh | tools/emu/src/io.cpp:744-751 | Latching a low then a high nibble gives 16 times the high plus the low |
| Nibble.WriteByte | tools/emu/src/io.cpp:744-751 | Latching both nibbles of a byte rebuilds the byte whatever was latched before |
| Nibble.Serve | tools/emu/src/io.cpp:734-736 | A read serves the high nibble of the answer for the high half and the low nibble otherwise |
| Nibble.InAfterRead | tools/emu/src/io.cpp:740 | After a read the port keeps its control half and carries the served nibble |
| Nibble.ReadByte | tools/emu/src/io.cpp:734-740 | The two nibbles served by a low and a high read rebuild the byte |
| Nibble.Complete | tools/emu/src/io.cpp:800 | Completing an operation flips the complete bit and keeps every other bit |
| FsName.CString | io/fw/src/io.c:775-793 | The C string of a buffer is never longer than the buffer |
| FsName.CStringEnds | io/fw/src/io.c:775-793 | In a terminated buffer the C string ends at the first zero and holds no zero |
| FsName.CStringAt | io/fw/src/io.c:775-793 | The C string of a buffer whose first zero is at k is its first k bytes |
| FsName.Name | io/fw/src/io.c:748-766 | The name held in the buffer is a valid name of the recorded length |
| FsName.Initial | io/fw/src/io.c:142 | The zeroed buffer holds a valid empty name |
| FsName.Reset | io/fw/src/io.c:473-476 | Resetting the name leaves a valid empty name |
| FsName.Append | io/fw/src/io.c:748-766 | Appending a byte keeps the buffer a valid name |
| FsName.NameIsCString | io/fw/src/io.c:755-763 | The name is the C string the buffer holds, since a zero follows it |
| FsName.AppendAgrees | io/fw/src/io.c:755-763 | The firmware buffer append agrees with the emulator's name append |
| FsName.Path | io/fw/src/io.c:775-793 | The joined path is the directory's C string, a slash, the name's C string and a zero, so its length is the two string lengths plus two |
| FsName.CopyString | io/fw/src/io.c:775-793 | Copying a string at an offset writes its bytes there and leaves the rest of the buffer alone |
| FsName.CreatePath | io/fw/src/io.c:775-793 | Building the path writes the slash-joined directory and file name followed by a zero, keeping the buffer length |
| FsName.PathsFit | io/fw/src/io.c:775-793 | Every path built from a valid name fits the path buffer |
| Lcd.Reset | tools/emu/src/lcd.cpp:25-33 | Reset blanks the canvas and the shown screen, restores the default colour and homes the cursor |
| Lcd.Clear | tools/emu/src/lcd.cpp:36-46 | Clear blanks the canvas and keeps the shown screen, colour and cursor |
| Lcd.Refresh | tools/emu/src/lcd.cpp:49-59 | Refresh shows the canvas and changes nothing else |
| Lcd.ScrollDown | tools/emu/src/lcd.cpp:62-83 | Scrolling moves every row up by one and blanks the last row |
| Lcd.NewLine | tools/emu/src/lcd.cpp:86-97 | A new line returns the cursor to column 0 and moves it down a row, scrolling only from the last row |
| Lcd.SetColorForeground | tools/emu/src/lcd.cpp:104-107 | Setting the foreground changes the low nibble of the colour only |
| Lcd.SetColorBackground | tools/emu/src/lcd.cpp:114-117 | Setting the background changes the high nibble of the colour only |
| Lcd.SetCursorX | tools/emu/src/lcd.cpp:124-130 | A column on the screen moves the cursor there; any other column is ignored |
| Lcd.SetCursorY | tools/emu/src/lcd.cpp:137-143 | A row on the screen moves the cursor there; any other row is ignored |
| Lcd.Cursor | tools/emu/src/lcd.cpp:150-163 | Reading the cursor gives the column or the row |
| Lcd.PrintRow | tools/emu/src/lcd.cpp:170-188 | The row a character lands on is on the screen |
| Lcd.PrintColumn | tools/emu/src/lcd.cpp:170-188 | The column a character lands on is on the screen |
| Lcd.Base | tools/emu/src/lcd.cpp:170-188 | The canvas a character is printed on has the screen's shape |
| Lcd.PrintChar | tools/emu/src/lcd.cpp:170-188 | Printing puts the character with the current colour at the print position and leaves every other cell alone, except for the scroll when the screen is full |
| Lcd.Print | tools/emu/src/lcd.cpp:170-188 | Printing a string keeps the shown screen and the colour |
| Lcd.PrintOnRow | tools/emu/src/lcd.cpp:170-188 | A string that fits the current row lands there, cell by cell, and advances the cursor by its length |
| Lcd.NewLineThenPrint | tools/emu/src/lcd.cpp:86-97 | After a new line the next character lands at the start of the following row |
| Lcd.PrintAtEnd | tools/emu/src/lcd.cpp:170-188 | A character printed past the end of the screen scrolls and lands at the start of the last row |
| Lcd.SetBothColors | tools/emu/src/lcd.cpp:104-117 | Setting both colours in either order gives the background in the high nibble and the foreground in the low nibble |
| Lcd.CursorReadsBack | tools/emu/src/lcd.cpp:124-163 | A cursor position on the screen reads back as written |
| Lcd.ClearThenRefresh | tools/emu/src/lcd.cpp:36-59 | Clearing then refreshing shows a blank screen |
| Keyboard.Lowered | tools/emu/src/keyboard.cpp:40-48 | A letter typed without shift is lowered; every other printable key keeps its code, which never has the control bit |
| Keyboard.CharCode | tools/emu/src/keyboard.cpp:40-53 | A printable key's code carries the control bit exactly when control is held |
| Keyboard.Translate | tools/emu/src/keyboard.cpp:38-97 | A character key gives a code exactly when it is printable; every named key gives a code without the control bit |
| Keyboard.KeyPress | tools/emu/src/keyboard.cpp:36-103 | A key that translates is appended to the queue, others are dropped, and the ready signal rises when the queue is not empty |
| Keyboard.GetKey | tools/emu/src/keyboard.cpp:110-127 | Taking a key removes the oldest one, or gives 0 on an empty queue, and lowers the ready signal when the queue ends empty |
| Keyboard.Codes | tools/emu/src/keyboard.cpp:36-103 | A run of key presses queues at most one code per key |
| Keyboard.PressAllAppends | tools/emu/src/keyboard.cpp:36-103 | A run of key presses appends their codes, in order |
| Keyboard.FirstInFirstOut | tools/emu/src/keyboard.cpp:36-127 | Keys come out of the queue in the order they were pressed |
| KeyboardFirmware.TableBoarded | io/fw/src/keyboard.c:55-70 | The key table marks the shift, caps lock and control positions as holding no key |
| KeyboardFirmware.Count | io/fw/src/keyboard.c:146-173 | A key is counted as down at most once per scan |
| KeyboardFirmware.Down | io/fw/src/keyboard.c:146-175 | A key is down exactly when at least the minimum number of scans saw it pressed |
| KeyboardFirmware.KeyCode | io/fw/src/keyboard.c:222-236 | The code comes from the shifted or plain layer and carries the control bit exactly when control is held on a code at or above the control minimum |
| KeyboardFirmware.Presses | io/fw/src/keyboard.c:212-253 | One scan yields at most one code per key position |
| KeyboardFirmware.Capped | io/fw/src/keyboard.c:238-243 | The local buffer keeps the first codes up to its size, all of them when they fit |
| KeyboardFirmware.NextLast | io/fw/src/keyboard.c:245-250 | The remembered key states keep one entry per key |
| KeyboardFirmware.CappedAppend | io/fw/src/keyboard.c:238-243 | A further code is kept exactly when the local buffer still has room |
| KeyboardFirmware.CollectStep | io/fw/src/keyboard.c:212-253 | Each key position adds its code to the local buffer exactly when it is a new press and the buffer has room |
| KeyboardFirmware.Collect | io/fw/src/keyboard.c:212-253 | The scan loop fills the local buffer with the capped new presses and records every key's state |
| KeyboardFirmware.Enqueue | io/fw/src/keyboard.c:256-270 | The local codes are appended to the ring in order until it is full |
| KeyboardFirmware.CapsLockStep | io/fw/src/keyboard.c:184-205 | Caps lock toggles exactly on a new press of its key, and its state is remembered |
| KeyboardFirmware.LastAfterTick | io/fw/src/keyboard.c:184-253 | After a tick the remembered state of every key is the state just scanned |
| KeyboardFirmware.Fire | io/fw/src/keyboard.c:128-271 | A tick toggles caps lock on a new press, remembers the scanned states and queues the capped new presses in order |
| KeyboardFirmware.PressesSkipCapsLock | io/fw/src/keyboard.c:216 | The caps lock state does not affect which key positions yield codes |
| KeyboardFirmware.GetKey | io/fw/src/keyboard.c:278-297 | Taking a key removes the oldest one, or gives 0 on an empty ring |
| KeyboardFirmware.IsData | io/fw/src/keyboard.c:304-317 | Data is ready exactly when the ring is not empty |
| KeyboardFirmware.HeldKeysYieldNothing | io/fw/src/keyboard.c:218-221 | Keys still held from the previous tick yield no code |
| KeyboardFirmware.PressesNeedNewPress | io/fw/src/keyboard.c:218-221 | Without a new press a scan yields no code |
| KeyboardFirmware.OneCodePerPress | io/fw/src/keyboard.c:212-253 | A scan yields exactly one code per new press |
| Rs232.Latin1 | tools/emu/src/rs232.cpp:41-43 | A character is accepted exactly when its Latin-1 code lies between 0x20 and 0x7F, and a character outside Latin-1 becomes 0 |
| Rs232.Line | tools/emu/src/rs232.cpp:39-51 | The accepted characters of a text are never more than the text and are all in range |
| Rs232.Rx | tools/emu/src/rs232.cpp:35-64 | Received text appends its accepted characters and a terminating 0 when there is at least one, and the ready signal rises when the queue is not empty |
| Rs232.Receive | tools/emu/src/rs232.cpp:81-91 | Taking a byte removes the oldest one, or gives 0 and lowers the ready signal on an empty queue |
| Rs232.Send | tools/emu/src/rs232.cpp:71-74 | A sent byte is the written byte masked to 7 bits |
| Rs232.GetSendBufferFree | tools/emu/src/rs232.cpp:98-101 | The emulator always reports the whole transmit buffer as free |
| Rs232.LineHasNoZero | tools/emu/src/rs232.cpp:43-47 | An accepted line holds no 0, so the terminating 0 marks its end |
| Rs232.PrintableTextKept | tools/emu/src/rs232.cpp:39-51 | Text of printable ASCII is kept whole and in order |
| Rs232.ReadLine | tools/emu/src/rs232.cpp:35-91 | Reading back a received line gives its characters and then the terminating 0 |
| Rs232Firmware.Send | io/fw/src/rs232.c:78-102 | A byte is queued for transmission unless the ring is full, and transmission starts when the ring was empty |
| Rs232Firmware.TxComplete | io/fw/src/rs232.c:209-227 | A finished transmission drops the sent byte and starts the next one if any |
| Rs232Firmware.GetSendBufferFree | io/fw/src/rs232.c:135-153 | The free space plus the queued bytes make the ring capacity minus one |
| Rs232Firmware.RxComplete | io/fw/src/rs232.c:186-202 | A received byte is appended, dropping the oldest byte when the ring is full |
| Rs232Firmware.Receive | io/fw/src/rs232.c:109-128 | Taking a byte removes the oldest one, or gives 0 on an empty ring |
| Rs232Firmware.RxIsData | io/fw/src/rs232.c:160-173 | Data is ready exactly when the receive ring is not empty |
| Rs232Firmware.Start | io/fw/src/rs232.c:38-71 | After initialisation the transmit ring is empty and nothing has been accepted |
| Rs232Firmware.Step | io/fw/src/rs232.c:78-227 | Each send or completion keeps the rings well formed |
| Rs232Firmware.Steps | io/fw/src/rs232.c:78-227 | Any run of sends and completions keeps the rings well formed |
| Rs232Firmware.OfferInOrder | io/fw/src/rs232.c:78-102 | Offering a byte keeps the wire plus the queue equal to the accepted bytes |
| Rs232Firmware.SentInOrder | io/fw/src/rs232.c:209-227 | Completing a transmission keeps the wire plus the queue equal to the accepted bytes |
| Rs232Firmware.StepsInOrder | io/fw/src/rs232.c:78-227 | Any run of sends and completions keeps that order |
| Rs232Firmware.WireIsPrefix | io/fw/src/rs232.c:78-227 | What went out on the wire is a prefix of what was accepted, and all of it once the ring is empty |
| Rs232Firmware.TransmitsInOrder | io/fw/src/rs232.c:38-227 | From initialisation on, bytes go out in the order they were accepted, none lost and none repeated |
| Speaker.Stored | tools/emu/src/speaker.cpp:136-150 | A silent note is stored with minimum fill and no volume; any other note keeps its fields, masked |
| Speaker.AddNote | tools/emu/src/speaker.cpp:111-158 | An acceptable note is appended as stored and any other note is dropped, the playing state unchanged |
| Speaker.GetBufferFree | tools/emu/src/speaker.cpp:165-168 | The free space is the buffer size minus the queued notes, as an 8-bit value |
| Speaker.PlayNextNote | tools/emu/src/speaker.cpp:171-221 | The next note is taken from the queue and played, and an empty queue stops playing |
| Speaker.Play | tools/emu/src/speaker.cpp:51-57 | Play starts the next note only when idle with notes queued |
| Speaker.PauseAsWritten | tools/emu/src/speaker.cpp:60-67 | As written, pause leaves the speaker unchanged, even while playing |
| Speaker.Pause | tools/emu/src/speaker.cpp:60-67 | Corrected form (as written: Speaker.PauseAsWritten, which ignores a pause while playing): pause stops playing and keeps the queued notes |
| Speaker.Clear | tools/emu/src/speaker.cpp:70-81 | Clear empties the queue and stops playing |
| Speaker.NoteDone | tools/emu/src/speaker.cpp:224-253 | The end of a note plays the next one while playing and does nothing otherwise |
| Speaker.StoredKeepsAcceptable | tools/emu/src/speaker.cpp:111-150 | Storing an acceptable note keeps it acceptable, and unchanged unless silent |
| Speaker.AddAll | tools/emu/src/speaker.cpp:111-158 | Adding notes never changes the playing state |
| Speaker.QueuedNotesAcceptable | tools/emu/src/speaker.cpp:111-158 | The queue only ever holds acceptable notes |
| Speaker.PauseAsWrittenIgnored | tools/emu/src/speaker.cpp:60-67 | As written, pausing a playing speaker leaves it playing; the corrected pause stops it |
| Speaker.FreeSpaceWraps | tools/emu/src/speaker.cpp:152-168 | A note added to a full queue is kept, and the reported free space wraps to 255 |
| SpeakerFirmware.StoredFw | io/fw/src/speaker.c:219-273 | A silent note is stored with minimum fill and no volume; any other note is stored unchanged |
| SpeakerFirmware.AddNote | io/fw/src/speaker.c:219-273 | An acceptable note is appended unless the ring is full, the playing state unchanged |
| SpeakerFirmware.GetBufferFree | io/fw/src/speaker.c:280-298 | The free space plus the queued notes make the ring capacity minus one |
| SpeakerFirmware.Clear | io/fw/src/speaker.c:185-202 | Clear empties the ring, resets both indices and stops playing |
| SpeakerFirmware.PlayNextNote | io/fw/src/speaker.c:301-335 | The next note is taken from the ring and played, and an empty ring clears and stops |
| SpeakerFirmware.Play | io/fw/src/speaker.c:156-164 | Play starts the next note only when idle |
| SpeakerFirmware.Pause | io/fw/src/speaker.c:167-182 | Pause stops playing and keeps the ring |
| SpeakerFirmware.NoteTimer | io/fw/src/speaker.c:338-346 | The note timer plays the next note while playing and does nothing otherwise |
| SpeakerFirmware.Capacity | io/fw/src/speaker.c:280-298 | The ring holds at most its capacity minus one, and is full exactly when no space is free |
| SpeakerFirmware.StoredAgree | io/fw/src/speaker.c:219-273 | Firmware and emulator store an acceptable note the same way |
| SpeakerFirmware.AddNoteAgrees | io/fw/src/speaker.c:219-273 | Adding a note to a ring with room agrees with the emulator |
| SpeakerFirmware.ControlsAgree | io/fw/src/speaker.c:156-202 | Play, pause, clear and next note agree between firmware and the corrected emulator |
| SpeakerFirmware.FreeSpaceAgrees | io/fw/src/speaker.c:280-298 | The firmware reports one note less free space than the emulator for the same queue |
| Fifo.Take | tools/emu/src/keyboard.cpp:110-127 | Taking from a queue gives its first element and the rest, or 0 and the empty queue |
| Fifo.TakeAll | tools/emu/src/keyboard.cpp:110-127 | Taking n times gives n values |
| Fifo.Zeros | tools/emu/src/rs232.cpp:88-90 | An empty queue answers zeros |
| Fifo.TakeAllInOrder | tools/emu/src/keyboard.cpp:110-127 | Taking n times gives the first n elements in order, then zeros once the queue is empty |
| Fifo.TakeEverything | tools/emu/src/keyboard.cpp:110-127 | Taking as many times as there are elements gives the whole queue and leaves it empty |
| Ring.Empty | io/fw/src/rs232.c:38-71 | A new ring has the requested capacity and both indices at 0 |
| Ring.Next | io/fw/src/rs232.c:85 | Advancing an index wraps to 0 at the capacity |
| Ring.Used | io/fw/src/rs232.c:135-153 | A ring holds fewer elements than its slots |
| Ring.Index | io/fw/src/rs232.c:120-122 | The slot of the i-th element is a valid slot |
| Ring.Contents | io/fw/src/rs232.c:109-128 | The contents have as many elements as the ring holds |
| Ring.Free | io/fw/src/rs232.c:135-153 | The free space plus the used space make the capacity minus one |
| Ring.Push | io/fw/src/rs232.c:91-98 | Pushing onto a ring that is not full keeps it well formed |
| Ring.Pop | io/fw/src/rs232.c:113-126 | Popping from a ring that is not empty keeps it well formed |
| Ring.UsedBounds | io/fw/src/rs232.c:82-122 | A ring is empty when its indices meet and full when it holds capacity minus one elements |
| Ring.EmptyContents | io/fw/src/rs232.c:38-71 | A new ring holds nothing |
| Ring.PushContents | io/fw/src/rs232.c:91-98 | Pushing appends the element at the end |
| Ring.PopContents | io/fw/src/rs232.c:113-126 | Popping gives the first element and keeps the rest in order |
| Ring.Take | io/fw/src/keyboard.c:278-297 | Taking gives the oldest element and removes it, or 0 on an empty ring |
| Bytes.ByteOf | tools/emu/src/io.cpp:744 | A number below 256 converts to the byte of that value |

## Left out

- Execution.FetchStep, Execution.JumpInstruction, Execution.ConditionalJumpInstruction: these assume that step 0 of the opcode's column is FETCH (`Fetched(m, 0) == Truncated(Microcode.Fetch)`). The model does not prove this for the whole generated table. It proves it per description (`URom.Holds`) and for the filled gaps.
- URom.GenerateCompletes: for any list of descriptions, a generation that succeeds is consistent, defines all 256 opcodes and holds every description. The model does not prove that generation succeeds for the shipped instruction groups, that is, that no two of them collide. Checking the literal groups pair by pair is beyond what the verifier can do in reasonable time.
- Compiler.Insert: a `QHash` of labels to slots is iterated in sequence (insertion) order. Qt's hash order is unspecified. The slots are disjoint, so the order does not change the patched bytes.
- AsmText.SameText: case-insensitive comparison and white-space trimming fold ASCII only. Qt folds and trims the whole of Unicode. Source text is modelled as a sequence of characters with no encoding.
- Host services are parameters or left out:
  - the file system and real-time clock of the host;
  - the Qt signal plumbing other than the CPU-to-board connection, and the user interface;
  - audio synthesis (`Speaker::audioNotifySlot` only moves to the next note);
  - the firmware's UART and GPIO hardware (HAL calls);
  - keyboard matrix scanning (the scans arrive as a parameter);
  - LED drivers and the USB stack.
- Cpu.Interval, Cpu.Execute: the CPU alone; no board answers a byte written to OUT, so IN keeps its bits. The emulator's board answer inside the micro-step (emu.cpp:55-56) is modelled by Emulator.MicroStep, Emulator.Execute and Emulator.Interval, which agree with these whenever no strobed byte is sent.
- Emulator.Interval, Emulator.Execute: the host a request reaches is a function of how many strobed requests were served before it, not a live file system or clock. Emulator.Execute does not restate the bound of 256 micro-steps per instruction; Cpu.Execute states it.
- Assembler.MapRoundTrip: holds only for names the map reader accepts. A flash constant named like `msg.x` is accepted by `Parser::parseFlash` (parser.cpp:792-841) and written to the map (linker.cpp:203-205), but the reader refuses it (parser.cpp:693, Parser.MapRefusesDottedName), so such a map cannot be read back.
- IoFirmware.Irq: interrupt atomicity (`__disable_irq`) is not modelled. Each handler and each public buffer function is one atomic step.
- IoBoard.PutBytes, IoFirmware.PutBytes: effects requested by the writes are dropped. PutByte keeps them.
- IoBoard.FsCommand: the emulator opens "os.bin" and "app/"+name relative to its host path, while the firmware opens "/os.bin" and "/app/"+name. Both reach the host through an `FsOpen` effect, and the path prefix is not modelled.
- IoFirmware.ReadRegister: for the speaker status, the firmware flag reads the playing state of the speaker ring.
- Speaker.GetBufferFree: the emulator's note queue is unbounded. The free space it reports is an 8-bit difference, which wraps once more than 32 notes are queued (Speaker.FreeSpaceWraps).
- Rs232.Receive: as in the source, taking the last byte does not lower the ready signal. Only a read of an empty queue does.
- KeyboardFirmware.Fire: codes beyond the eight the local buffer holds in one tick are dropped, as in the source.
- Rs232Firmware.TxComplete: requires a non-empty transmit ring. The UART only signals completion of a transmission that was started.
- Speaker.NoteDone, SpeakerFirmware.NoteTimer: the end of a note is an event. Note durations in real time are not modelled.
- AsmTable.Memory: the `st val, addr` entry uses the corrected payload order, not the declared one at asm.cpp:195. AsmTable.StoreValueAddressAsWritten keeps the declared form (see Findings).
- URomData.Offset: entries are placed by the wrapped opcode column, not by the unwrapped sum at uromdata.cpp:55. URomData.AsWrittenOffset keeps the source's form (see Findings).
- Linker.Link: RAM usage is counted without the 32-bit wrap of linker.cpp:34,97. Linker.WrappedUsage keeps the source's form (see Findings).
- IoBoard.Status, IoBoard.ReadRegister, IoFirmware.ReadRegister: the status register answers in a form that survives the high-half shift. IoBoard.StatusAsWritten keeps the source's form (see Findings).
- Speaker.Pause, IoBoard.SpeakerCommand: the pause command stops a playing speaker. Speaker.PauseAsWritten keeps the emulator's form, which ignores a pause while playing (see Findings).

## Findings

| source | as written | input that shows it | evidently intended | confidence | as-written member | corrected member |
|---|---|---|---|---|---|---|
| tools/asm/src/asm.cpp:195 | `st val, addr` declares the value as the second payload and the address as the first, so it is emitted as 02, low, high, val | `st 7, 0x1234` is emitted as 02 34 12 07. The microcode for 0x02 loads the first payload byte as the value and the next two as the address, so it stores 0x34 at 0x0712 | emit 02, val, low, high, so that 7 is stored at 0x1234 | not executed | AsmFacts.StoreAsWrittenMisplaces | AsmFacts.StoreCorrectedPlaces |
| tools/urom/src/uromdata.cpp:55 | the entry offset adds the opcode and the index as `int`, without the wrap of the `unsigned char` opcode marked at line 50 | an instruction at 0xFE that is 3 opcodes wide has index 2 at entry 0x100. That is where the control unit reads step 1 of opcode 0x00 | use the wrapped opcode column, as the mark does | not executed | URomData.AsWrittenOffsetMisplaces | URomData.OffsetDecodes |
| tools/asm/src/linker.cpp:34-101 | RAM usage is summed in a 32-bit `unsigned int`, which wraps | `var a[4294967295]` then `var b` wraps the usage to 0. The size check passes, and b is placed at 0x1FFF, below the region | refuse a program whose variables do not fit | not executed | Linker.RamCounterWraps | Linker.LinkedVarInRegion |
| tools/emu/src/io.cpp:177-222 | the status register answers 1 in either half, and a high-half read is then shifted right by 4 (lines 734-736; io/fw/src/io.c:848-854 likewise) | a high-half read of the status register with the LED-run flag on gives 0 | a set flag reads as 1 in both halves | not executed | IoBoard.StatusHighLost | IoBoard.ReadStatus |
| tools/emu/src/speaker.cpp:60-67 | `pause` acts only when the speaker is not playing | pause while a note plays: the speaker keeps playing | stop playing when playing | not executed | Speaker.PauseAsWrittenIgnored | Speaker.Pause |

=== FILE: alu.dfy ===
/**
 * The 74181-style arithmetic logic unit of the XiPU, as the emulator wires it
 * gate by gate, and the byte-wide unit built from two chained nibble slices.
 *
 * The carry line is active low on both sides: a carry input of `true` means
 * "no carry in", and a carry output of `true` means "no carry out". The zero
 * output is the chip's A=B line: it is high when all four result bits are high.
 */
module Alu {

  /** What one 4-bit slice produces. */
  datatype SliceOut = SliceOut(f: bv4, z: bool, carry: bool)

  /** What the byte-wide unit produces: the T register value and the two flag inputs. */
  datatype ByteOut = ByteOut(t: bv8, carry: bool, zero: bool)

  /** Bit `i` of a nibble as a logic level. */
  predicate Bit(x: bv4, i: bv4)
    requires i < 4
  {
    (x >> i) & 1 == 1
  }

  /** The gate network of one slice, layer by layer (l1 .. l4, then f). */
  function Gates(a: bv4, b: bv4, s: bv4, m: bool, c: bool): SliceOut {
    var s0, s1, s2, s3 := Bit(s, 0), Bit(s, 1), Bit(s, 2), Bit(s, 3);
    // first layer: per bit, the two NOR gates of the input stage
    var l2_00 := !(Bit(a, 0) || (Bit(b, 0) && s0) || (!Bit(b, 0) && s1));
    var l2_01 := !((!Bit(b, 0) && Bit(a, 0) && s2) || (Bit(a, 0) && Bit(b, 0) && s3));
    var l2_10 := !(Bit(a, 1) || (Bit(b, 1) && s0) || (!Bit(b, 1) && s1));
    var l2_11 := !((!Bit(b, 1) && Bit(a, 1) && s2) || (Bit(a, 1) && Bit(b, 1) && s3));
    var l2_20 := !(Bit(a, 2) || (Bit(b, 2) && s0) || (!Bit(b, 2) && s1));
    var l2_21 := !((!Bit(b, 2) && Bit(a, 2) && s2) || (Bit(a, 2) && Bit(b, 2) && s3));
    var l2_30 := !(Bit(a, 3) || (Bit(b, 3) && s0) || (!Bit(b, 3) && s1));
    var l2_31 := !((!Bit(b, 3) && Bit(a, 3) && s2) || (Bit(a, 3) && Bit(b, 3) && s3));
    // carry look-ahead layer
    var l3_0 := !(c && !m);
    var l3_1 := !l2_00;
    var l3_2 := !m && l2_00;
    var l3_3 := !m && l2_01 && c;
    var l3_4 := !l2_10;
    var l3_5 := !m && l2_10;
    var l3_6 := !m && l2_00 && l2_11;
    var l3_7 := !m && l2_01 && l2_11 && c;
    var l3_8 := !l2_20;
    var l3_9 := !m && l2_20;
    var l3_10 := !m && l2_10 && l2_21;
    var l3_11 := !m && l2_00 && l2_11 && l2_21;
    var l3_12 := !m && l2_01 && l2_11 && l2_21 && c;
    var l3_13 := !l2_30;
    var l3_15 := !(l2_01 && l2_11 && l2_21 && l2_31 && c);
    var l3_16 := l2_00 && l2_11 && l2_21 && l2_31;
    var l3_17 := l2_10 && l2_21 && l2_31;
    var l3_18 := l2_20 && l2_31;
    var l3_19 := l2_30;
    // output layer
    var l4_0 := l3_1 && l2_01;
    var l4_1 := !(l3_2 || l3_3);
    var l4_2 := l3_4 && l2_11;
    var l4_3 := !(l3_5 || l3_6 || l3_7);
    var l4_4 := l3_8 && l2_21;
    var l4_5 := !(l3_9 || l3_10 || l3_11 || l3_12);
    var l4_6 := l3_13 && l2_31;
    var l4_7 := !(l3_16 || l3_17 || l3_18 || l3_19);
    var f0 := l3_0 != l4_0;
    var f1 := l4_1 != l4_2;
    var f2 := l4_3 != l4_4;
    var f3 := l4_5 != l4_6;
    var out: bv4 := (if f0 then 1 else 0) + (if f1 then 2 else 0) + (if f2 then 4 else 0) + (if f3 then 8 else 0);
    SliceOut(out, f0 && f1 && f2 && f3, !l3_15 || !l4_7)
  }

  /** The "propagate" word the select lines build from the operands. */
  function Propagate(a: bv8, b: bv8, s: bv4): bv8 {
    a | (if s & 1 != 0 then b else 0) | (if s & 2 != 0 then !b else 0)
  }

  /** The "generate" word the select lines build from the operands. */
  function Generate(a: bv8, b: bv8, s: bv4): bv8 {
    (if s & 4 != 0 then a & !b else 0) | (if s & 8 != 0 then a & b else 0)
  }

  /** The incoming carry as a number: the line is active low. */
  function CarryIn(c: bool): bv9 {
    if c then 0 else 1
  }

  /** Arithmetic mode: propagate plus generate plus the carry, before truncation. */
  function Sum(p: bv8, g: bv8, c: bool): bv9 {
    p as bv9 + g as bv9 + CarryIn(c)
  }

  /** A slice's outputs from its (4-bit) propagate and generate words. */
  function SliceOf(p: bv8, g: bv8, m: bool, c: bool): (r: SliceOut)
    ensures r.z <==> r.f == 0xF
  {
    var sum := Sum(p & 0xF, g & 0xF, c);
    var f: bv4 := if m then ((!p | g) & 0xF) as bv4 else (sum & 0xF) as bv4;
    SliceOut(f, f == 0xF, sum < 16)
  }

  /** Independent description of a slice: what the 74181 computes, stated arithmetically. */
  function SliceReference(a: bv4, b: bv4, s: bv4, m: bool, c: bool): SliceOut {
    SliceOf(Propagate(a as bv8, b as bv8, s), Generate(a as bv8, b as bv8, s), m, c)
  }

  lemma GatesMatchReferenceArith(a: bv4, b: bv4, s: bv4, c: bool)
    ensures Gates(a, b, s, false, c).f == SliceReference(a, b, s, false, c).f
  {
    if c {
      GatesMatchReferenceArithHigh(a, b, s);
    } else {
      GatesMatchReferenceArithLow(a, b, s);
    }
  }

  lemma GatesMatchReferenceArithHigh(a: bv4, b: bv4, s: bv4)
    ensures Gates(a, b, s, false, true).f == SliceReference(a, b, s, false, true).f
  {
  }

  lemma GatesMatchReferenceArithLow(a: bv4, b: bv4, s: bv4)
    ensures Gates(a, b, s, false, false).f == SliceReference(a, b, s, false, false).f
  {
  }

  lemma GatesMatchReferenceLogic(a: bv4, b: bv4, s: bv4, c: bool)
    ensures Gates(a, b, s, true, c).f == SliceReference(a, b, s, true, c).f
  {
  }

  lemma GatesMatchReferenceCarry(a: bv4, b: bv4, s: bv4, m: bool, c: bool)
    ensures Gates(a, b, s, m, c).carry == SliceReference(a, b, s, m, c).carry
  {
  }

  /** The gate network is the 74181 function on every input. */
  lemma GatesMatchReference(a: bv4, b: bv4, s: bv4, m: bool, c: bool)
    ensures Gates(a, b, s, m, c) == SliceReference(a, b, s, m, c)
  {
    if m {
      GatesMatchReferenceLogic(a, b, s, c);
    } else {
      GatesMatchReferenceArith(a, b, s, c);
    }
    GatesMatchReferenceCarry(a, b, s, m, c);
  }

  // ----- the byte-wide unit -----

  /** The emulator's ALU_T step: low nibble first, its carry output feeding the high nibble. */
  function AluByte(a: bv8, b: bv8, s: bv4, m: bool, c: bool): ByteOut {
    var lo := Gates((a & 0xF) as bv4, (b & 0xF) as bv4, s, m, c);
    var hi := Gates((a >> 4) as bv4, (b >> 4) as bv4, s, m, lo.carry);
    Chain(lo, hi)
  }

  /** The byte-wide unit's outputs from its propagate and generate words. */
  function ByteOf(p: bv8, g: bv8, m: bool, c: bool): (r: ByteOut)
    ensures r.zero <==> r.t == 0xFF
  {
    var sum := Sum(p, g, c);
    var t := if m then !p | g else (sum & 0xFF) as bv8;
    ByteOut(t, sum < 256, t == 0xFF)
  }

  /** Independent description of the byte-wide unit, with the active-low carry out of bit 7. */
  function ByteReference(a: bv8, b: bv8, s: bv4, m: bool, c: bool): ByteOut {
    ByteOf(Propagate(a, b, s), Generate(a, b, s), m, c)
  }

  /** Two slices chained through the carry line: the low one first. */
  function Chain(lo: SliceOut, hi: SliceOut): ByteOut {
    ByteOut(lo.f as bv8 + ((hi.f as bv8) << 4), hi.carry, lo.z && hi.z)
  }

  /** The select network acts bitwise, so it commutes with taking the low nibble ... */
  lemma PropagateSplitsLow(a: bv8, b: bv8, s: bv4)
    ensures Propagate((a & 0xF) as bv4 as bv8, (b & 0xF) as bv4 as bv8, s) & 0xF == Propagate(a, b, s) & 0xF
  {
  }

  lemma GenerateSplitsLow(a: bv8, b: bv8, s: bv4)
    ensures Generate((a & 0xF) as bv4 as bv8, (b & 0xF) as bv4 as bv8, s) & 0xF == Generate(a, b, s) & 0xF
  {
  }

  /** ... and with taking the high nibble. */
  lemma PropagateSplitsHigh(a: bv8, b: bv8, s: bv4)
    ensures Propagate((a >> 4) as bv4 as bv8, (b >> 4) as bv4 as bv8, s) & 0xF == Propagate(a, b, s) >> 4
  {
  }

  lemma GenerateSplitsHigh(a: bv8, b: bv8, s: bv4)
    ensures Generate((a >> 4) as bv4 as bv8, (b >> 4) as bv4 as bv8, s) & 0xF == Generate(a, b, s) >> 4
  {
  }

  /** A slice only looks at the low four bits of its propagate and generate words. */
  lemma SliceOfMasks(p: bv8, g: bv8, m: bool, c: bool)
    ensures SliceOf(p, g, m, c) == SliceOf(p & 0xF, g & 0xF, m, c)
  {
  }

  /** The zero line of a chained pair is high exactly when the chained result is all ones. */
  lemma ChainZero(lo: SliceOut, hi: SliceOut)
    requires lo.z <==> lo.f == 0xF
    requires hi.z <==> hi.f == 0xF
    ensures Chain(lo, hi).zero <==> Chain(lo, hi).t == 0xFF
  {
  }

  lemma ArithChainsResult(p: bv8, g: bv8, c: bool)
    ensures Chain(SliceOf(p, g, false, c), SliceOf(p >> 4, g >> 4, false, SliceOf(p, g, false, c).carry)).t == ByteOf(p, g, false, c).t
  {
    var lo := SliceOf(p, g, false, c);
    var hi := SliceOf(p >> 4, g >> 4, false, lo.carry);
    var sum := Sum(p, g, c);
    LowNibbleSum(p, g, c);
    HighNibbleSum(p, g, c);
    ChainOfNibbles(lo, hi, sum);
    ByteOfSum(p, g, c);
  }

  /** In arithmetic mode the byte-wide result is the sum's low byte. */
  lemma ByteOfSum(p: bv8, g: bv8, c: bool)
    ensures ByteOf(p, g, false, c).t == (Sum(p, g, c) & 0xFF) as bv8
  {
  }

  /** Two slices whose results are a nine-bit sum's first two nibbles chain to the sum's low byte. */
  lemma ChainOfNibbles(lo: SliceOut, hi: SliceOut, sum: bv9)
    requires lo.f as bv8 == (sum & 0xF) as bv8 && hi.f as bv8 == ((sum >> 4) & 0xF) as bv8
    ensures Chain(lo, hi).t == (sum & 0xFF) as bv8
  {
  }

  /** The low slice adds the low nibbles: its result is the sum's low nibble. */
  lemma LowNibbleSum(p: bv8, g: bv8, c: bool)
    ensures SliceOf(p, g, false, c).f as bv8 == (Sum(p, g, c) & 0xF) as bv8
    ensures SliceOf(p, g, false, c).carry <==> Sum(p & 0xF, g & 0xF, c) < 16
  {
  }

  /** The high slice, carried into from the low one, gives the sum's high nibble. */
  lemma HighNibbleSum(p: bv8, g: bv8, c: bool)
    ensures SliceOf(p >> 4, g >> 4, false, Sum(p & 0xF, g & 0xF, c) < 16).f as bv8 == ((Sum(p, g, c) >> 4) & 0xF) as bv8
  {
  }

  lemma ArithChainsCarry(p: bv8, g: bv8, c: bool)
    ensures Chain(SliceOf(p, g, false, c), SliceOf(p >> 4, g >> 4, false, SliceOf(p, g, false, c).carry)).carry == ByteOf(p, g, false, c).carry
  {
  }

  lemma LogicChainsResult(p: bv8, g: bv8, c: bool)
    ensures Chain(SliceOf(p, g, true, c), SliceOf(p >> 4, g >> 4, true, SliceOf(p, g, true, c).carry)).t == ByteOf(p, g, true, c).t
  {
  }

  lemma LogicChainsCarry(p: bv8, g: bv8, c: bool)
    ensures Chain(SliceOf(p, g, true, c), SliceOf(p >> 4, g >> 4, true, SliceOf(p, g, true, c).carry)).carry == ByteOf(p, g, true, c).carry
  {
  }

  lemma ArithChains(p: bv8, g: bv8, c: bool)
    ensures Chain(SliceOf(p, g, false, c), SliceOf(p >> 4, g >> 4, false, SliceOf(p, g, false, c).carry)) == ByteOf(p, g, false, c)
  {
    var lo := SliceOf(p, g, false, c);
    ChainZero(lo, SliceOf(p >> 4, g >> 4, false, lo.carry));
    ArithChainsResult(p, g, c);
    ArithChainsCarry(p, g, c);
  }

  lemma LogicChains(p: bv8, g: bv8, c: bool)
    ensures Chain(SliceOf(p, g, true, c), SliceOf(p >> 4, g >> 4, true, SliceOf(p, g, true, c).carry)) == ByteOf(p, g, true, c)
  {
    var lo := SliceOf(p, g, true, c);
    ChainZero(lo, SliceOf(p >> 4, g >> 4, true, lo.carry));
    LogicChainsResult(p, g, c);
    LogicChainsCarry(p, g, c);
  }

  /** Two slices chained through the carry line compute the byte-wide function of the same words. */
  lemma SlicesChain(p: bv8, g: bv8, m: bool, c: bool)
    ensures Chain(SliceOf(p, g, m, c), SliceOf(p >> 4, g >> 4, m, SliceOf(p, g, m, c).carry)) == ByteOf(p, g, m, c)
  {
    if m {
      LogicChains(p, g, c);
    } else {
      ArithChains(p, g, c);
    }
  }

  /** The low slice of the reference sees the low nibbles of the byte's select words. */
  lemma LowSlice(a: bv8, b: bv8, s: bv4, m: bool, c: bool)
    ensures SliceReference((a & 0xF) as bv4, (b & 0xF) as bv4, s, m, c) == SliceOf(Propagate(a, b, s), Generate(a, b, s), m, c)
  {
    var al, bl := (a & 0xF) as bv4 as bv8, (b & 0xF) as bv4 as bv8;
    PropagateSplitsLow(a, b, s);
    GenerateSplitsLow(a, b, s);
    SliceOfMasks(Propagate(al, bl, s), Generate(al, bl, s), m, c);
    SliceOfMasks(Propagate(a, b, s), Generate(a, b, s), m, c);
  }

  /** The high slice of the reference sees the high nibbles of the byte's select words. */
  lemma HighSlice(a: bv8, b: bv8, s: bv4, m: bool, c: bool)
    ensures SliceReference((a >> 4) as bv4, (b >> 4) as bv4, s, m, c) == SliceOf(Propagate(a, b, s) >> 4, Generate(a, b, s) >> 4, m, c)
  {
    var ah, bh := (a >> 4) as bv4 as bv8, (b >> 4) as bv4 as bv8;
    PropagateSplitsHigh(a, b, s);
    GenerateSplitsHigh(a, b, s);
    SliceOfMasks(Propagate(ah, bh, s), Generate(ah, bh, s), m, c);
    SliceOfMasks(Propagate(a, b, s) >> 4, Generate(a, b, s) >> 4, m, c);
  }

  /** Two reference slices chained through the carry line are the reference byte unit. */
  lemma SlicesCompose(a: bv8, b: bv8, s: bv4, m: bool, c: bool)
    ensures
      var lo := SliceReference((a & 0xF) as bv4, (b & 0xF) as bv4, s, m, c);
      Chain(lo, SliceReference((a >> 4) as bv4, (b >> 4) as bv4, s, m, lo.carry)) == ByteReference(a, b, s, m, c)
  {
    var lo := SliceReference((a & 0xF) as bv4, (b & 0xF) as bv4, s, m, c);
    LowSlice(a, b, s, m, c);
    HighSlice(a, b, s, m, lo.carry);
    SlicesChain(Propagate(a, b, s), Generate(a, b, s), m, c);
  }

  /** The chained gate networks compute the reference byte function on every input. */
  lemma AluByteMatchesReference(a: bv8, b: bv8, s: bv4, m: bool, c: bool)
    ensures AluByte(a, b, s, m, c) == ByteReference(a, b, s, m, c)
  {
    var lo := Gates((a & 0xF) as bv4, (b & 0xF) as bv4, s, m, c);
    GatesMatchReference((a & 0xF) as bv4, (b & 0xF) as bv4, s, m, c);
    GatesMatchReference((a >> 4) as bv4, (b >> 4) as bv4, s, m, lo.carry);
    SlicesCompose(a, b, s, m, c);
  }

  // ----- the select codes the microcode uses -----

  lemma AddLineHigh(a: bv8, b: bv8)
    ensures ByteReference(a, b, 0x9, false, true).t == a + b
    ensures ByteReference(a, b, 0x9, false, true).carry <==> a as int + b as int < 256
  {
    AddLineHighResult(a, b);
    AddLineHighCarry(a, b);
  }

  lemma AddLineHighResult(a: bv8, b: bv8)
    ensures ByteReference(a, b, 0x9, false, true).t == a + b
  {
  }

  lemma AddLineHighCarry(a: bv8, b: bv8)
    ensures ByteReference(a, b, 0x9, false, true).carry <==> a as int + b as int < 256
  {
  }

  lemma AddLineLow(a: bv8, b: bv8)
    ensures ByteReference(a, b, 0x9, false, false).t == a + b + 1
    ensures ByteReference(a, b, 0x9, false, false).carry <==> a as int + b as int + 1 < 256
  {
    AddLineLowResult(a, b);
    AddLineLowCarry(a, b);
  }

  lemma AddLineLowResult(a: bv8, b: bv8)
    ensures ByteReference(a, b, 0x9, false, false).t == a + b + 1
  {
  }

  lemma AddLineLowCarry(a: bv8, b: bv8)
    ensures ByteReference(a, b, 0x9, false, false).carry <==> a as int + b as int + 1 < 256
  {
  }

  /** Select 1001 in arithmetic mode adds, plus one when the carry line is low; the carry out goes low on overflow. */
  lemma AddSelect(a: bv8, b: bv8, c: bool)
    ensures AluByte(a, b, 0x9, false, c).t == (if c then a + b else a + b + 1)
    ensures AluByte(a, b, 0x9, false, c).carry <==> (if c then a as int + b as int < 256 else a as int + b as int + 1 < 256)
  {
    AluByteMatchesReference(a, b, 0x9, false, c);
    if c {
      AddLineHigh(a, b);
    } else {
      AddLineLow(a, b);
    }
  }

  lemma SubtractLineHigh(a: bv8, b: bv8)
    ensures ByteReference(a, b, 0x6, false, true).t == a - b - 1
    ensures ByteReference(a, b, 0x6, false, true).carry <==> a as int - b as int - 1 < 0
  {
    SubtractLineHighResult(a, b);
    SubtractLineHighCarry(a, b);
  }

  lemma SubtractLineHighResult(a: bv8, b: bv8)
    ensures ByteReference(a, b, 0x6, false, true).t == a - b - 1
  {
  }

  lemma SubtractLineHighCarry(a: bv8, b: bv8)
    ensures ByteReference(a, b, 0x6, false, true).carry <==> a as int - b as int - 1 < 0
  {
  }

  lemma SubtractLineLow(a: bv8, b: bv8)
    ensures ByteReference(a, b, 0x6, false, false).t == a - b
    ensures ByteReference(a, b, 0x6, false, false).carry <==> a as int - b as int < 0
  {
    SubtractLineLowResult(a, b);
    SubtractLineLowCarry(a, b);
  }

  lemma SubtractLineLowResult(a: bv8, b: bv8)
    ensures ByteReference(a, b, 0x6, false, false).t == a - b
  {
  }

  lemma SubtractLineLowCarry(a: bv8, b: bv8)
    ensures ByteReference(a, b, 0x6, false, false).carry <==> a as int - b as int < 0
  {
  }

  /** Select 0110 in arithmetic mode subtracts, minus one more when the carry line is high; the carry out goes high on borrow. */
  lemma SubtractSelect(a: bv8, b: bv8, c: bool)
    ensures AluByte(a, b, 0x6, false, c).t == (if c then a - b - 1 else a - b)
    ensures AluByte(a, b, 0x6, false, c).carry <==> (if c then a as int - b as int - 1 < 0 else a as int - b as int < 0)
  {
    AluByteMatchesReference(a, b, 0x6, false, c);
    if c {
      SubtractLineHigh(a, b);
    } else {
      SubtractLineLow(a, b);
    }
  }

  lemma IncrementLineHigh(a: bv8, b: bv8)
    ensures ByteReference(a, b, 0x0, false, true).t == a
    ensures ByteReference(a, b, 0x0, false, true).carry
  {
    IncrementLineHighResult(a, b);
    IncrementLineHighCarry(a, b);
  }

  lemma IncrementLineHighResult(a: bv8, b: bv8)
    ensures ByteReference(a, b, 0x0, false, true).t == a
  {
  }

  lemma IncrementLineHighCarry(a: bv8, b: bv8)
    ensures ByteReference(a, b, 0x0, false, true).carry
  {
  }

  lemma IncrementLineLow(a: bv8, b: bv8)
    ensures ByteReference(a, b, 0x0, false, false).t == a + 1
    ensures ByteReference(a, b, 0x0, false, false).carry <==> a != 0xFF
  {
    IncrementLineLowResult(a, b);
    IncrementLineLowCarry(a, b);
  }

  lemma IncrementLineLowResult(a: bv8, b: bv8)
    ensures ByteReference(a, b, 0x0, false, false).t == a + 1
  {
  }

  lemma IncrementLineLowCarry(a: bv8, b: bv8)
    ensures ByteReference(a, b, 0x0, false, false).carry <==> a != 0xFF
  {
  }

  /** Select 0000 in arithmetic mode passes A through, plus one when the carry line is low. */
  lemma IncrementSelect(a: bv8, b: bv8, c: bool)
    ensures AluByte(a, b, 0x0, false, c).t == (if c then a else a + 1)
    ensures AluByte(a, b, 0x0, false, c).carry <==> (if c then true else a != 0xFF)
  {
    AluByteMatchesReference(a, b, 0x0, false, c);
    if c {
      IncrementLineHigh(a, b);
    } else {
      IncrementLineLow(a, b);
    }
  }

  lemma DecrementLineHigh(a: bv8, b: bv8)
    ensures ByteReference(a, b, 0xF, false, true).t == a - 1
    ensures ByteReference(a, b, 0xF, false, true).carry <==> a == 0
  {
    DecrementLineHighResult(a, b);
    DecrementLineHighCarry(a, b);
  }

  lemma DecrementLineHighResult(a: bv8, b: bv8)
    ensures ByteReference(a, b, 0xF, false, true).t == a - 1
  {
  }

  lemma DecrementLineHighCarry(a: bv8, b: bv8)
    ensures ByteReference(a, b, 0xF, false, true).carry <==> a == 0
  {
  }

  lemma DecrementLineLow(a: bv8, b: bv8)
    ensures ByteReference(a, b, 0xF, false, false).t == a
    ensures !ByteReference(a, b, 0xF, false, false).carry
  {
    DecrementLineLowResult(a, b);
    DecrementLineLowCarry(a, b);
  }

  lemma DecrementLineLowResult(a: bv8, b: bv8)
    ensures ByteReference(a, b, 0xF, false, false).t == a
  {
  }

  lemma DecrementLineLowCarry(a: bv8, b: bv8)
    ensures !ByteReference(a, b, 0xF, false, false).carry
  {
  }

  /** Select 1111 in arithmetic mode decrements A when the carry line is high and passes it through when low. */
  lemma DecrementSelect(a: bv8, b: bv8, c: bool)
    ensures AluByte(a, b, 0xF, false, c).t == (if c then a - 1 else a)
    ensures AluByte(a, b, 0xF, false, c).carry <==> (if c then a == 0 else false)
  {
    AluByteMatchesReference(a, b, 0xF, false, c);
    if c {
      DecrementLineHigh(a, b);
    } else {
      DecrementLineLow(a, b);
    }
  }

  lemma ShiftLeftLineHigh(a: bv8, b: bv8)
    ensures ByteReference(a, b, 0xC, false, true).t == a << 1
    ensures ByteReference(a, b, 0xC, false, true).carry <==> a < 0x80
  {
    ShiftLeftLineHighResult(a, b);
    ShiftLeftLineHighCarry(a, b);
  }

  lemma ShiftLeftLineHighResult(a: bv8, b: bv8)
    ensures ByteReference(a, b, 0xC, false, true).t == a << 1
  {
  }

  lemma ShiftLeftLineHighCarry(a: bv8, b: bv8)
    ensures ByteReference(a, b, 0xC, false, true).carry <==> a < 0x80
  {
  }

  lemma ShiftLeftLineLow(a: bv8, b: bv8)
    ensures ByteReference(a, b, 0xC, false, false).t == (a << 1) | 1
    ensures ByteReference(a, b, 0xC, false, false).carry <==> a < 0x80
  {
    ShiftLeftLineLowResult(a, b);
    ShiftLeftLineLowCarry(a, b);
  }

  lemma ShiftLeftLineLowResult(a: bv8, b: bv8)
    ensures ByteReference(a, b, 0xC, false, false).t == (a << 1) | 1
  {
  }

  lemma ShiftLeftLineLowCarry(a: bv8, b: bv8)
    ensures ByteReference(a, b, 0xC, false, false).carry <==> a < 0x80
  {
  }

  /** Select 1100 in arithmetic mode doubles A: a left shift taking the inverted carry line in as bit 0. */
  lemma ShiftLeftSelect(a: bv8, b: bv8, c: bool)
    ensures AluByte(a, b, 0xC, false, c).t == (if c then a << 1 else (a << 1) | 1)
    ensures AluByte(a, b, 0xC, false, c).carry <==> a < 0x80
  {
    AluByteMatchesReference(a, b, 0xC, false, c);
    if c {
      ShiftLeftLineHigh(a, b);
    } else {
      ShiftLeftLineLow(a, b);
    }
  }

  /** Select 0011 with a low carry line yields zero. */
  lemma ClearSelect(a: bv8, b: bv8)
    ensures AluByte(a, b, 0x3, false, false).t == 0
  {
    AluByteMatchesReference(a, b, 0x3, false, false);
  }

  lemma AndReference(a: bv8, b: bv8, c: bool)
    ensures ByteReference(a, b, 0xB, true, c).t == a & b
  {
  }

  lemma OrReference(a: bv8, b: bv8, c: bool)
    ensures ByteReference(a, b, 0xE, true, c).t == a | b
  {
  }

  lemma XorReference(a: bv8, b: bv8, c: bool)
    ensures ByteReference(a, b, 0x6, true, c).t == a ^ b
  {
  }

  lemma NotReference(a: bv8, b: bv8, c: bool)
    ensures ByteReference(a, b, 0x0, true, c).t == !a
  {
  }

  /** The four logic selects the microcode uses: 1011 is AND, 1110 OR, 0110 XOR and 0000 NOT A. */
  lemma LogicSelects(a: bv8, b: bv8, c: bool)
    ensures AluByte(a, b, 0xB, true, c).t == a & b
    ensures AluByte(a, b, 0xE, true, c).t == a | b
    ensures AluByte(a, b, 0x6, true, c).t == a ^ b
    ensures AluByte(a, b, 0x0, true, c).t == !a
  {
    AluByteMatchesReference(a, b, 0xB, true, c);
    AluByteMatchesReference(a, b, 0xE, true, c);
    AluByteMatchesReference(a, b, 0x6, true, c);
    AluByteMatchesReference(a, b, 0x0, true, c);
    AndReference(a, b, c);
    OrReference(a, b, c);
    XorReference(a, b, c);
    NotReference(a, b, c);
  }

  /** Compare is subtract-with-borrow: the zero line is high exactly when the operands are equal. */
  lemma CompareSelect(a: bv8, b: bv8)
    ensures AluByte(a, b, 0x6, false, true).zero <==> a == b
    ensures AluByte(a, b, 0x6, false, true).carry <==> a <= b
  {
    SubtractSelect(a, b, true);
    AluByteMatchesReference(a, b, 0x6, false, true);
  }
}

=== FILE: asm_data.dfy ===
/**
 * What the assembler's parser collects: per source file the code sections,
 * the constants placed in flash and the variables placed in RAM (`Data`), and
 * for the whole program the mode plus the global and external name lists
 * (`DataList`).
 *
 * Names compare case-insensitively. Within a file and within the global lists,
 * code section names form one namespace and flash and RAM names share another.
 * A failed add changes nothing; a successful add appends.
 *
 * The global lists of the assembler hold pointers to the same objects a file
 * holds, so the addresses the linker gives those objects are visible through
 * them. Here a global entry records where its object lives instead: an item
 * of a parsed file, or a fixed address read from a map file.
 */
module AsmData {
  import opened Wrappers
  import opened AsmText

  /** Where the program is placed: the BIOS, the OS or an application. */
  datatype Mode = Bios | Os | App

  /** A byte of the program image. */
  type Byte = b: int | 0 <= b < 256

  /** `MEMORY_SIZE`: addresses are 16 bits wide. */
  const MemorySize: nat := 65536

  /** An address written as a `0x` literal: it must convert and lie below the memory size. */
  function HexAddress(t: Text): (r: Option<nat>)
    ensures r.Some? <==> IsHexLiteral(t) && Value(t[2..], 16) < MemorySize
    ensures r.Some? ==> r.value == Value(t[2..], 16) && r.value < MemorySize
  {
    if IsHexLiteral(t) then
      match ToUInt(t[2..], 16)
      case Some(n) => if n < MemorySize then Some(n) else None
      case None => None
    else None
  }

  /** A label parameter of a code item, to be patched with its address at this byte offset of the item. */
  datatype Fill = Fill(target: Text, offset: nat)

  datatype CodeItem = CodeItem(line: nat, name: Text, params: seq<Text>, bytes: seq<Byte>, fills: seq<Fill>)
  datatype CodeSection = CodeSection(name: Text, items: seq<CodeItem>)
  datatype FlashItem = FlashItem(line: nat, name: Text, values: seq<Text>, bytes: seq<Byte>)
  datatype RamItem = RamItem(line: nat, name: Text, arraySize: Text, size: nat)

  datatype Data = Data(fileName: Text, sections: seq<CodeSection>, flash: seq<FlashItem>, ram: seq<RamItem>)

  /** A code section, flash item or RAM item of file `file` at position `index` of its list, or a mapped address. */
  datatype Origin = Local(file: nat, index: nat) | Fixed(address: nat)
  datatype Entry = Entry(name: Text, origin: Origin)

  datatype DataList = DataList(
    mode: Mode,
    files: seq<Data>,
    globalSections: seq<Entry>,
    globalFlash: seq<Entry>,
    globalRam: seq<Entry>,
    externalSections: seq<Entry>,
    externalFlash: seq<Entry>,
    externalRam: seq<Entry>)

  function EmptyData(fileName: Text): Data {
    Data(fileName, [], [], [])
  }

  /** The constructor: the mode and nothing else. */
  function NewDataList(mode: Mode): (dl: DataList)
    ensures dl.mode == mode && dl.files == []
    ensures dl.globalSections == [] && dl.globalFlash == [] && dl.globalRam == []
    ensures dl.externalSections == [] && dl.externalFlash == [] && dl.externalRam == []
  {
    DataList(mode, [], [], [], [], [], [], [])
  }

  /** `getMode`: the mode given at construction, whatever was added since. */
  function GetMode(dl: DataList): Mode {
    dl.mode
  }

  // ----- names -----

  /** Some name of the list is case-insensitively equal to n. */
  predicate Taken(names: seq<Text>, n: Text) {
    exists i :: 0 <= i < |names| && SameText(names[i], n)
  }

  /** No two names of the list are case-insensitively equal. */
  predicate Distinct(names: seq<Text>) {
    forall i, j :: 0 <= i < j < |names| ==> !SameText(names[i], names[j])
  }

  lemma DistinctAppend(names: seq<Text>, n: Text)
    requires Distinct(names) && !Taken(names, n)
    ensures Distinct(names + [n])
  {
    var all := names + [n];
    forall i, j | 0 <= i < j < |all|
      ensures !SameText(all[i], all[j])
    {
      if j == |names| {
        assert all[i] == names[i];
      }
    }
  }

  function SectionNames(ss: seq<CodeSection>): (r: seq<Text>)
    ensures |r| == |ss| && forall i :: 0 <= i < |ss| ==> r[i] == ss[i].name
  {
    seq(|ss|, i requires 0 <= i < |ss| => ss[i].name)
  }

  function FlashNames(fs: seq<FlashItem>): (r: seq<Text>)
    ensures |r| == |fs| && forall i :: 0 <= i < |fs| ==> r[i] == fs[i].name
  {
    seq(|fs|, i requires 0 <= i < |fs| => fs[i].name)
  }

  function RamNames(rs: seq<RamItem>): (r: seq<Text>)
    ensures |r| == |rs| && forall i :: 0 <= i < |rs| ==> r[i] == rs[i].name
  {
    seq(|rs|, i requires 0 <= i < |rs| => rs[i].name)
  }

  function EntryNames(es: seq<Entry>): (r: seq<Text>)
    ensures |r| == |es| && forall i :: 0 <= i < |es| ==> r[i] == es[i].name
  {
    seq(|es|, i requires 0 <= i < |es| => es[i].name)
  }

  // ----- one file -----

  /** The name rules of one file: sections unique, flash and RAM names unique together. */
  predicate UniqueNames(d: Data) {
    Distinct(SectionNames(d.sections)) && Distinct(FlashNames(d.flash) + RamNames(d.ram))
  }

  /** `Data::addCodeSection`: refused iff a section of that name exists; flash and RAM names do not matter. */
  function AddCodeSection(d: Data, s: CodeSection): (r: (Data, bool))
    ensures r.1 <==> !Taken(SectionNames(d.sections), s.name)
    ensures r.1 ==> r.0 == d.(sections := d.sections + [s])
    ensures !r.1 ==> r.0 == d
  {
    if Taken(SectionNames(d.sections), s.name) then (d, false) else (d.(sections := d.sections + [s]), true)
  }

  /** `Data::addFlashItem`: refused iff a flash item or a RAM item of that name exists. */
  function AddFlashItem(d: Data, f: FlashItem): (r: (Data, bool))
    ensures r.1 <==> !Taken(FlashNames(d.flash), f.name) && !Taken(RamNames(d.ram), f.name)
    ensures r.1 ==> r.0 == d.(flash := d.flash + [f])
    ensures !r.1 ==> r.0 == d
  {
    if Taken(FlashNames(d.flash), f.name) || Taken(RamNames(d.ram), f.name) then (d, false)
    else (d.(flash := d.flash + [f]), true)
  }

  /** `Data::addRamItem`: refused iff a RAM item or a flash item of that name exists. */
  function AddRamItem(d: Data, v: RamItem): (r: (Data, bool))
    ensures r.1 <==> !Taken(RamNames(d.ram), v.name) && !Taken(FlashNames(d.flash), v.name)
    ensures r.1 ==> r.0 == d.(ram := d.ram + [v])
    ensures !r.1 ==> r.0 == d
  {
    if Taken(RamNames(d.ram), v.name) || Taken(FlashNames(d.flash), v.name) then (d, false)
    else (d.(ram := d.ram + [v]), true)
  }

  lemma TakenConcat(a: seq<Text>, b: seq<Text>, n: Text)
    ensures Taken(a + b, n) <==> Taken(a, n) || Taken(b, n)
  {
    if Taken(a + b, n) {
      var i :| 0 <= i < |a + b| && SameText((a + b)[i], n);
      if i >= |a| {
        assert b[i - |a|] == (a + b)[i];
      }
    }
    if Taken(b, n) {
      var i :| 0 <= i < |b| && SameText(b[i], n);
      assert (a + b)[|a| + i] == b[i];
    }
    if Taken(a, n) {
      var i :| 0 <= i < |a| && SameText(a[i], n);
      assert (a + b)[i] == a[i];
    }
  }

  lemma SameTextSymmetric(a: Text, b: Text)
    ensures SameText(a, b) <==> SameText(b, a)
  {
  }

  /** Distinctness of a + [n] + b with n new in both halves, shown position by position. */
  lemma DistinctInsert(a: seq<Text>, b: seq<Text>, n: Text)
    requires Distinct(a + b) && !Taken(a, n) && !Taken(b, n)
    ensures Distinct(a + [n] + b)
  {
    var all := a + [n] + b;
    forall i, j | 0 <= i < j < |all|
      ensures !SameText(all[i], all[j])
    {
      if i == |a| {
        assert all[j] == b[j - |a| - 1];
      } else if j == |a| {
        assert all[i] == a[i];
      } else {
        var i' := if i < |a| then i else i - 1;
        var j' := if j < |a| then j else j - 1;
        assert all[i] == (a + b)[i'] && all[j] == (a + b)[j'];
      }
    }
  }

  /** Every add keeps the file's name rules. */
  lemma AddsKeepUnique(d: Data, s: CodeSection, f: FlashItem, v: RamItem)
    requires UniqueNames(d)
    ensures UniqueNames(AddCodeSection(d, s).0)
    ensures UniqueNames(AddFlashItem(d, f).0)
    ensures UniqueNames(AddRamItem(d, v).0)
  {
    if AddCodeSection(d, s).1 {
      assert SectionNames(d.sections + [s]) == SectionNames(d.sections) + [s.name];
      DistinctAppend(SectionNames(d.sections), s.name);
    }
    if AddFlashItem(d, f).1 {
      var d' := AddFlashItem(d, f).0;
      assert FlashNames(d'.flash) + RamNames(d'.ram) == FlashNames(d.flash) + [f.name] + RamNames(d.ram);
      DistinctInsert(FlashNames(d.flash), RamNames(d.ram), f.name);
    }
    if AddRamItem(d, v).1 {
      var d' := AddRamItem(d, v).0;
      assert FlashNames(d'.flash) + RamNames(d'.ram) == FlashNames(d.flash) + RamNames(d.ram) + [v.name];
      TakenConcat(FlashNames(d.flash), RamNames(d.ram), v.name);
      DistinctAppend(FlashNames(d.flash) + RamNames(d.ram), v.name);
    }
  }

  // ----- the whole program -----

  /** The global name rules, and every external entry is also a global one. */
  predicate ListInvariant(dl: DataList) {
    Distinct(EntryNames(dl.globalSections)) && Distinct(EntryNames(dl.globalFlash) + EntryNames(dl.globalRam))
    && (forall e :: e in dl.externalSections ==> e in dl.globalSections)
    && (forall e :: e in dl.externalFlash ==> e in dl.globalFlash)
    && (forall e :: e in dl.externalRam ==> e in dl.globalRam)
  }

  /** `addGlobalCodeSection`: refused iff a global section of that name exists. */
  function AddGlobalCodeSection(dl: DataList, e: Entry): (r: (DataList, bool))
    ensures r.1 <==> !Taken(EntryNames(dl.globalSections), e.name)
    ensures r.1 ==> r.0 == dl.(globalSections := dl.globalSections + [e])
    ensures !r.1 ==> r.0 == dl
  {
    if Taken(EntryNames(dl.globalSections), e.name) then (dl, false)
    else (dl.(globalSections := dl.globalSections + [e]), true)
  }

  /** `addGlobalFlashItem`: refused iff a global flash or RAM item of that name exists. */
  function AddGlobalFlashItem(dl: DataList, e: Entry): (r: (DataList, bool))
    ensures r.1 <==> !Taken(EntryNames(dl.globalFlash), e.name) && !Taken(EntryNames(dl.globalRam), e.name)
    ensures r.1 ==> r.0 == dl.(globalFlash := dl.globalFlash + [e])
    ensures !r.1 ==> r.0 == dl
  {
    if Taken(EntryNames(dl.globalFlash), e.name) || Taken(EntryNames(dl.globalRam), e.name) then (dl, false)
    else (dl.(globalFlash := dl.globalFlash + [e]), true)
  }

  /** `addGlobalRamItem`: refused iff a global RAM or flash item of that name exists. */
  function AddGlobalRamItem(dl: DataList, e: Entry): (r: (DataList, bool))
    ensures r.1 <==> !Taken(EntryNames(dl.globalRam), e.name) && !Taken(EntryNames(dl.globalFlash), e.name)
    ensures r.1 ==> r.0 == dl.(globalRam := dl.globalRam + [e])
    ensures !r.1 ==> r.0 == dl
  {
    if Taken(EntryNames(dl.globalRam), e.name) || Taken(EntryNames(dl.globalFlash), e.name) then (dl, false)
    else (dl.(globalRam := dl.globalRam + [e]), true)
  }

  /** `addExternalCodeSection`: succeeds iff the global add does, and only then records the entry as external. */
  function AddExternalCodeSection(dl: DataList, e: Entry): (r: (DataList, bool))
    ensures r.1 <==> AddGlobalCodeSection(dl, e).1
    ensures r.1 ==> r.0 == dl.(globalSections := dl.globalSections + [e], externalSections := dl.externalSections + [e])
    ensures !r.1 ==> r.0 == dl
  {
    var (g, ok) := AddGlobalCodeSection(dl, e);
    if ok then (g.(externalSections := g.externalSections + [e]), true) else (dl, false)
  }

  function AddExternalFlashItem(dl: DataList, e: Entry): (r: (DataList, bool))
    ensures r.1 <==> AddGlobalFlashItem(dl, e).1
    ensures r.1 ==> r.0 == dl.(globalFlash := dl.globalFlash + [e], externalFlash := dl.externalFlash + [e])
    ensures !r.1 ==> r.0 == dl
  {
    var (g, ok) := AddGlobalFlashItem(dl, e);
    if ok then (g.(externalFlash := g.externalFlash + [e]), true) else (dl, false)
  }

  function AddExternalRamItem(dl: DataList, e: Entry): (r: (DataList, bool))
    ensures r.1 <==> AddGlobalRamItem(dl, e).1
    ensures r.1 ==> r.0 == dl.(globalRam := dl.globalRam + [e], externalRam := dl.externalRam + [e])
    ensures !r.1 ==> r.0 == dl
  {
    var (g, ok) := AddGlobalRamItem(dl, e);
    if ok then (g.(externalRam := g.externalRam + [e]), true) else (dl, false)
  }

  /** `append` of a parsed file. */
  function AppendData(dl: DataList, d: Data): (r: DataList)
    ensures r.files == dl.files + [d]
    ensures r == dl.(files := r.files)
  {
    dl.(files := dl.files + [d])
  }

  lemma EntryNamesAppend(es: seq<Entry>, e: Entry)
    ensures EntryNames(es + [e]) == EntryNames(es) + [e.name]
  {
  }

  /** Every global and external add keeps the global name rules and keeps external entries global. */
  lemma {:induction false} GlobalAddsKeepInvariant(dl: DataList, e: Entry)
    requires ListInvariant(dl)
    ensures ListInvariant(AddGlobalCodeSection(dl, e).0)
    ensures ListInvariant(AddGlobalFlashItem(dl, e).0)
    ensures ListInvariant(AddGlobalRamItem(dl, e).0)
    ensures ListInvariant(AddExternalCodeSection(dl, e).0)
    ensures ListInvariant(AddExternalFlashItem(dl, e).0)
    ensures ListInvariant(AddExternalRamItem(dl, e).0)
  {
    EntryNamesAppend(dl.globalSections, e);
    EntryNamesAppend(dl.globalFlash, e);
    EntryNamesAppend(dl.globalRam, e);
    if AddGlobalCodeSection(dl, e).1 {
      DistinctAppend(EntryNames(dl.globalSections), e.name);
    }
    if AddGlobalFlashItem(dl, e).1 {
      DistinctInsert(EntryNames(dl.globalFlash), EntryNames(dl.globalRam), e.name);
      assert EntryNames(dl.globalFlash + [e]) + EntryNames(dl.globalRam)
        == EntryNames(dl.globalFlash) + [e.name] + EntryNames(dl.globalRam);
    }
    if AddGlobalRamItem(dl, e).1 {
      TakenConcat(EntryNames(dl.globalFlash), EntryNames(dl.globalRam), e.name);
      DistinctAppend(EntryNames(dl.globalFlash) + EntryNames(dl.globalRam), e.name);
      assert EntryNames(dl.globalFlash) + EntryNames(dl.globalRam + [e])
        == EntryNames(dl.globalFlash) + EntryNames(dl.globalRam) + [e.name];
    }
  }
}

=== FILE: asm_facts.dfy ===
/**
 * Facts about the assembler's encodings of particular instructions, and how the
 * bytes it emits meet the microcode that executes them.
 *
 * The microcode reads an instruction's payload bytes in order: after the opcode
 * fetch, every RAM read addressed by PC reads the next byte of the instruction
 * (a PC increment precedes each one). Where such a read goes decides what the
 * byte means: into D, into the low half of MA, or into its high half.
 */
module AsmFacts {
  import opened Wrappers
  import opened AsmText
  import opened AsmData
  import opened ControlWord
  import opened AsmInstruction
  import Compiler
  import AsmTable
  import Microcode

  // ----- what the microcode makes of payload bytes -----

  /** Where a payload byte goes. */
  datatype Role = ToD | ToMaLow | ToMaHigh | ToOther

  /** A RAM read addressed by PC that is not the opcode fetch: it reads the next payload byte. */
  predicate ReadsPayload(s: Step) {
    s.ar == ReadRam && s.c == AddrPc && s.aw != WriteI
  }

  function RoleOf(s: Step): Role {
    if s.aw == WriteD then ToD
    else if s.aw == WriteMa && s.b == Low then ToMaLow
    else if s.aw == WriteMa && s.b == High then ToMaHigh
    else ToOther
  }

  /** Helper: the roles of an instruction's payload bytes, in the order its steps read them. */
  function PayloadRoles(steps: seq<Step>): (r: seq<Role>)
    ensures |r| <= |steps|
  {
    if |steps| == 0 then []
    else (if ReadsPayload(steps[0]) then [RoleOf(steps[0])] else []) + PayloadRoles(steps[1..])
  }

  /** The byte a register of the given role holds after the payload is read: the last one read into it, 0 if none. */
  function Latched(roles: seq<Role>, payload: seq<Byte>, r: Role): Byte
    requires |roles| == |payload|
    decreases |roles|
  {
    if |roles| == 0 then 0
    else if roles[|roles| - 1] == r then payload[|payload| - 1]
    else Latched(roles[..|roles| - 1], payload[..|payload| - 1], r)
  }

  /** The payload roles of the generator's ST val,addr (opcode 0x02). */
  const StoreRoles: seq<Role> := PayloadRoles(Microcode.StoreValueAddress.steps)

  /** One step of reading the roles off a list of steps. */
  lemma RolesFrom(steps: seq<Step>, k: nat)
    requires k < |steps|
    ensures PayloadRoles(steps[k..]) == (if ReadsPayload(steps[k]) then [RoleOf(steps[k])] else []) + PayloadRoles(steps[k + 1..])
  {
    assert steps[k..][0] == steps[k] && steps[k..][1..] == steps[k + 1..];
  }

  /** Helper: from its seventh step on, ST val,addr reads the address high byte and nothing else. */
  lemma StoreRolesLast()
    ensures |Microcode.StoreValueAddress.steps| == 9
    ensures PayloadRoles(Microcode.StoreValueAddress.steps[6..]) == [ToMaHigh]
  {
    var steps := Microcode.StoreValueAddress.steps;
    assert |steps| == 9 && steps[9..] == [];
    RolesFrom(steps, 8);
    RolesFrom(steps, 7);
    RolesFrom(steps, 6);
  }

  /** Helper: from its fourth step on, ST val,addr reads the address low and high byte. */
  lemma StoreRolesTail()
    ensures |Microcode.StoreValueAddress.steps| == 9
    ensures PayloadRoles(Microcode.StoreValueAddress.steps[3..]) == [ToMaLow, ToMaHigh]
  {
    var steps := Microcode.StoreValueAddress.steps;
    assert PayloadRoles(steps[5..]) == [ToMaHigh] by {
      StoreRolesLast();
      assert !ReadsPayload(steps[5]);
      RolesFrom(steps, 5);
    }
    assert PayloadRoles(steps[4..]) == [ToMaLow, ToMaHigh] by {
      assert ReadsPayload(steps[4]) && RoleOf(steps[4]) == ToMaLow;
      RolesFrom(steps, 4);
    }
    assert !ReadsPayload(steps[3]);
    RolesFrom(steps, 3);
  }

  /** ST val,addr reads its value first, then the address low and high byte. */
  lemma StoreRolesAre()
    ensures StoreRoles == [ToD, ToMaLow, ToMaHigh]
  {
    var steps := Microcode.StoreValueAddress.steps;
    assert PayloadRoles(steps[2..]) == [ToD, ToMaLow, ToMaHigh] by {
      StoreRolesTail();
      assert ReadsPayload(steps[2]) && RoleOf(steps[2]) == ToD;
      RolesFrom(steps, 2);
    }
    assert PayloadRoles(steps[1..]) == [ToD, ToMaLow, ToMaHigh] by {
      assert !ReadsPayload(steps[1]);
      RolesFrom(steps, 1);
    }
    assert PayloadRoles(steps[0..]) == [ToD, ToMaLow, ToMaHigh] by {
      assert !ReadsPayload(steps[0]);
      RolesFrom(steps, 0);
    }
    assert steps[0..] == steps;
  }

  /**
   * What ST val,addr does with the three bytes after its opcode: the byte it
   * stores (D) and the address it stores it at (MA).
   */
  function StoreEffect(payload: seq<Byte>): (nat, nat)
    requires |payload| == |StoreRoles|
  {
    (Latched(StoreRoles, payload, ToD), Latched(StoreRoles, payload, ToMaLow) + 256 * Latched(StoreRoles, payload, ToMaHigh))
  }

  /** The store microcode keeps the first payload byte and the address made of the second (low) and third (high). */
  lemma StoreEffectOf(b0: Byte, b1: Byte, b2: Byte)
    ensures |StoreRoles| == 3
    ensures StoreEffect([b0, b1, b2]) == (b0, b1 + 256 * b2)
  {
    StoreRolesAre();
    var roles := StoreRoles;
    var p: seq<Byte> := [b0, b1, b2];
    assert p[..2] == [b0, b1] && p[..2][..1] == [b0];
    assert roles[..2] == [ToD, ToMaLow] && roles[..2][..1] == [ToD];
    assert Latched(roles, p, ToMaHigh) == b2;
    assert Latched(roles, p, ToMaLow) == Latched(roles[..2], p[..2], ToMaLow) == b1;
    assert Latched(roles, p, ToD) == Latched(roles[..2], p[..2], ToD) == Latched(roles[..2][..1], p[..2][..1], ToD) == b0;
  }

  // ----- encoder steps: proof helpers, each one unfolding of Compiler.Encode -----

  /** A slot the pass does not handle is passed over. */
  lemma PassSkip(args: seq<Arg>, params: seq<Text>, second: bool, registersOnly: bool, i: nat, acc: Compiler.Acc)
    requires i < |args| && !Compiler.Handled(args[i], second, registersOnly)
    ensures Compiler.PassFrom(args, params, second, registersOnly, i, acc) == Compiler.PassFrom(args, params, second, registersOnly, i + 1, acc)
  {
  }

  /** A handled slot encodes its parameter and the pass goes on from the next one. */
  lemma PassTake(args: seq<Arg>, params: seq<Text>, second: bool, registersOnly: bool, i: nat, acc: Compiler.Acc, next: Compiler.Acc)
    requires i < |args| && i < |params| && Compiler.Handled(args[i], second, registersOnly)
    requires Compiler.EncodeArg(args[i], params[i], second, acc) == Some(next)
    ensures Compiler.PassFrom(args, params, second, registersOnly, i, acc) == Compiler.PassFrom(args, params, second, registersOnly, i + 1, next)
  {
  }

  /** Helper: a pass over three slots of which only slot k is handled. */
  lemma OnePass(args: seq<Arg>, params: seq<Text>, second: bool, registersOnly: bool, k: nat, acc: Compiler.Acc, next: Compiler.Acc)
    requires |args| == 3 && k < 3 && k < |params| && Compiler.Handled(args[k], second, registersOnly)
    requires Compiler.EncodeArg(args[k], params[k], second, acc) == Some(next)
    requires forall j :: 0 <= j < 3 && j != k ==> !Compiler.Handled(args[j], second, registersOnly)
    ensures Compiler.PassFrom(args, params, second, registersOnly, 0, acc) == Some(next)
  {
    if k == 0 {
      PassTake(args, params, second, registersOnly, 0, acc, next);
      PassSkip(args, params, second, registersOnly, 1, next);
      PassSkip(args, params, second, registersOnly, 2, next);
    } else if k == 1 {
      PassSkip(args, params, second, registersOnly, 0, acc);
      PassTake(args, params, second, registersOnly, 1, acc, next);
      PassSkip(args, params, second, registersOnly, 2, next);
    } else {
      PassSkip(args, params, second, registersOnly, 0, acc);
      PassSkip(args, params, second, registersOnly, 1, acc);
      PassTake(args, params, second, registersOnly, 2, acc, next);
    }
  }

  /** Helper: a pass over three slots none of which is handled. */
  lemma NoPass(args: seq<Arg>, params: seq<Text>, second: bool, registersOnly: bool, acc: Compiler.Acc)
    requires |args| == 3 && forall j :: 0 <= j < 3 ==> !Compiler.Handled(args[j], second, registersOnly)
    ensures Compiler.PassFrom(args, params, second, registersOnly, 0, acc) == Some(acc)
  {
    PassSkip(args, params, second, registersOnly, 0, acc);
    PassSkip(args, params, second, registersOnly, 1, acc);
    PassSkip(args, params, second, registersOnly, 2, acc);
  }

  /** An instruction's bytes from the results of its two passes and of its sub-instructions. */
  lemma EncodeOf(ins: Instruction, params: seq<Text>, first: Compiler.Acc, second: Compiler.Acc, tail: seq<Byte>, bytes: seq<Byte>)
    requires Compiler.PassFrom(ins.args, params, false, false, 0, Compiler.Acc(ins.opcode, [], [])) == Some(first)
    requires Compiler.PassFrom(ins.args, params, true, false, 0, first) == Some(second)
    requires Compiler.CompileSubs(ins.subs, params) == Some(tail)
    requires bytes == [second.opcode as int] + second.payload + tail
    ensures Compiler.Encode(ins, params, []) == Some((bytes, second.fills))
  {
  }

  /** Helpers: the bytes of one or two sub-instructions. */
  lemma SubsOne(subs: seq<Instruction>, params: seq<Text>, b: bv8)
    requires |subs| == 1 && Compiler.CompileSub(subs[0], params) == Some(b)
    ensures Compiler.CompileSubs(subs, params) == Some([b as int])
  {
    assert subs[1..] == [];
    assert Compiler.CompileSubs(subs[1..], params) == Some([]);
    assert [b as int] + [] == [b as int];
  }

  lemma SubsTwo(subs: seq<Instruction>, params: seq<Text>, b0: bv8, b1: bv8)
    requires |subs| == 2 && Compiler.CompileSub(subs[0], params) == Some(b0) && Compiler.CompileSub(subs[1], params) == Some(b1)
    ensures Compiler.CompileSubs(subs, params) == Some([b0 as int, b1 as int])
  {
    SubsOne(subs[1..], params, b1);
    assert [b0 as int] + [b1 as int] == [b0 as int, b1 as int];
  }

  /** Helper: a sub-instruction without arguments is its opcode. */
  lemma PlainSub(sub: Instruction, params: seq<Text>)
    requires sub.args == [NoArg, NoArg, NoArg]
    ensures Compiler.CompileSub(sub, params) == Some(sub.opcode)
  {
    var acc := Compiler.Acc(sub.opcode, [], []);
    NoPass(sub.args, params, false, true, acc);
    NoPass(sub.args, params, true, true, acc);
  }

  /** Helpers: the payload of a byte parameter, and that of a `0x` address parameter. */
  lemma ValueArg(a: Arg, v: nat, second: bool, acc: Compiler.Acc)
    requires (a == Val0 || a == Val1) && v < 256
    ensures Compiler.EncodeArg(a, Decimal(v), second, acc) == Some(Compiler.Acc(acc.opcode, acc.payload + [v], acc.fills))
  {
    Compiler.Val256Decimal(v);
  }

  lemma AddressArg(a: Arg, n: nat, second: bool, acc: Compiler.Acc)
    requires (a == Addr0 || a == Addr1) && n < MemorySize
    ensures var (lo, hi) := Compiler.SplitAddress(n);
      Compiler.EncodeArg(a, Hex(n), second, acc) == Some(Compiler.Acc(acc.opcode, acc.payload + [lo, hi], acc.fills))
  {
    Compiler.HexRoundTrip(n);
    assert !Compiler.IsAddrLabel(Hex(n)) by { assert Hex(n)[0] == '0'; }
  }

  // ----- ST val, addr -----

  /** The bytes `st val, addr` is encoded to, as declared and as corrected. */
  lemma StoreAsWrittenBytes(v: nat, a: nat)
    requires v < 256 && a < MemorySize
    ensures var (lo, hi) := Compiler.SplitAddress(a);
      Compiler.Encode(AsmTable.Build(AsmTable.StoreValueAddressAsWritten()), [Decimal(v), Hex(a)], []) == Some(([2, lo, hi, v], []))
  {
    var (lo, hi) := Compiler.SplitAddress(a);
    var ins := AsmTable.Build(AsmTable.StoreValueAddressAsWritten());
    var args := ins.args;
    var params := [Decimal(v), Hex(a)];
    assert args == [Val1, Addr0, NoArg] && ins.opcode == 2 && ins.subs == [];
    var acc0 := Compiler.Acc(2, [], []);
    var acc1 := Compiler.Acc(2, acc0.payload + [lo, hi], []);
    var acc2 := Compiler.Acc(2, acc1.payload + [v], []);
    AddressArg(Addr0, a, false, acc0);
    OnePass(args, params, false, false, 1, acc0, acc1);
    ValueArg(Val1, v, true, acc1);
    OnePass(args, params, true, false, 0, acc1, acc2);
    assert [2] + acc2.payload + [] == [2, lo, hi, v] by {
      assert acc2.payload == [lo, hi, v];
    }
    EncodeOf(ins, params, acc1, acc2, [], [2, lo, hi, v]);
  }

  lemma StoreCorrectedBytes(v: nat, a: nat)
    requires v < 256 && a < MemorySize
    ensures var (lo, hi) := Compiler.SplitAddress(a);
      Compiler.Encode(AsmTable.Build(AsmTable.StoreValueAddress()), [Decimal(v), Hex(a)], []) == Some(([2, v, lo, hi], []))
  {
    var (lo, hi) := Compiler.SplitAddress(a);
    var ins := AsmTable.Build(AsmTable.StoreValueAddress());
    var args := ins.args;
    var params := [Decimal(v), Hex(a)];
    assert args == [Val0, Addr1, NoArg] && ins.opcode == 2 && ins.subs == [];
    var acc0 := Compiler.Acc(2, [], []);
    var acc1 := Compiler.Acc(2, acc0.payload + [v], []);
    var acc2 := Compiler.Acc(2, acc1.payload + [lo, hi], []);
    ValueArg(Val0, v, false, acc0);
    OnePass(args, params, false, false, 0, acc0, acc1);
    AddressArg(Addr1, a, true, acc1);
    OnePass(args, params, true, false, 1, acc1, acc2);
    assert [2] + acc2.payload + [] == [2, v, lo, hi] by {
      assert acc2.payload == [v, lo, hi];
    }
    EncodeOf(ins, params, acc1, acc2, [], [2, v, lo, hi]);
  }

  /**
   * `st val, addr` as the assembler declares it emits the address bytes before the
   * value, and the microcode then stores the address's low byte at the address
   * made of its high byte and the value. The store is right only when the value
   * and both address bytes coincide.
   */
  lemma StoreAsWrittenMisplaces(v: nat, a: nat)
    requires v < 256 && a < MemorySize
    ensures var (lo, hi) := Compiler.SplitAddress(a);
      && Compiler.Encode(AsmTable.Build(AsmTable.StoreValueAddressAsWritten()), [Decimal(v), Hex(a)], []) == Some(([2, lo, hi, v], []))
      && |StoreRoles| == 3
      && StoreEffect([lo, hi, v]) == (lo, hi + 256 * v)
      && (StoreEffect([lo, hi, v]) == (v, a) <==> a == 257 * v)
  {
    StoreAsWrittenBytes(v, a);
    MisplacedEffect(v, a);
  }

  /** Helper: what the store microcode does with the payload low byte, high byte, value. */
  lemma MisplacedEffect(v: nat, a: nat)
    requires v < 256 && a < MemorySize
    ensures var (lo, hi) := Compiler.SplitAddress(a);
      && |StoreRoles| == 3
      && StoreEffect([lo, hi, v]) == (lo, hi + 256 * v)
      && (StoreEffect([lo, hi, v]) == (v, a) <==> a == 257 * v)
  {
    var (lo, hi) := Compiler.SplitAddress(a);
    StoreEffectOf(lo, hi, v);
    RepeatedByte(v, a);
  }

  /** The low byte of an address is v and v above its high byte gives it back exactly when the address is v repeated. */
  lemma RepeatedByte(v: nat, a: nat)
    requires v < 256 && a < MemorySize
    ensures var (lo, hi) := Compiler.SplitAddress(a);
      (lo == v && hi + 256 * v == a) <==> a == 257 * v
  {
    var (lo, hi) := Compiler.SplitAddress(a);
    if lo == v && hi + 256 * v == a {
      assert 255 * lo == 255 * hi;
    }
    if a == 257 * v {
      assert a == v + 256 * v;
    }
  }

  /** The input that shows it: `st 7, 0x1234` stores 0x34 at 0x0712. */
  lemma StoreAsWrittenExample()
    ensures Compiler.Encode(AsmTable.Build(AsmTable.StoreValueAddressAsWritten()), [Decimal(7), Hex(0x1234)], []) == Some(([2, 0x34, 0x12, 7], []))
    ensures |StoreRoles| == 3 && StoreEffect([0x34, 0x12, 7]) == (0x34, 0x0712)
  {
    StoreAsWrittenMisplaces(7, 0x1234);
  }

  /** With the payload in the order the microcode reads it, `st val, addr` stores the value at the address. */
  lemma StoreCorrectedPlaces(v: nat, a: nat)
    requires v < 256 && a < MemorySize
    ensures var (lo, hi) := Compiler.SplitAddress(a);
      && Compiler.Encode(AsmTable.Build(AsmTable.StoreValueAddress()), [Decimal(v), Hex(a)], []) == Some(([2, v, lo, hi], []))
      && |StoreRoles| == 3
      && StoreEffect([v, lo, hi]) == (v, a)
  {
    StoreCorrectedBytes(v, a);
    CorrectedEffect(v, a);
  }

  /** Helper: what the store microcode does with the payload value, low byte, high byte. */
  lemma CorrectedEffect(v: nat, a: nat)
    requires v < 256 && a < MemorySize
    ensures var (lo, hi) := Compiler.SplitAddress(a);
      |StoreRoles| == 3 && StoreEffect([v, lo, hi]) == (v, a)
  {
    var (lo, hi) := Compiler.SplitAddress(a);
    StoreEffectOf(v, lo, hi);
  }

  // ----- other encodings -----

  /** An instruction whose only argument is an address, followed by one plain sub-instruction. */
  lemma AddressThenSub(ins: Instruction, a: nat)
    requires a < MemorySize && ins.args == [Addr0, NoArg, NoArg]
    requires |ins.subs| == 1 && ins.subs[0].args == [NoArg, NoArg, NoArg]
    ensures var (lo, hi) := Compiler.SplitAddress(a);
      Compiler.Encode(ins, [Hex(a)], []) == Some(([ins.opcode as int, lo, hi, ins.subs[0].opcode as int], []))
  {
    var (lo, hi) := Compiler.SplitAddress(a);
    var params := [Hex(a)];
    var acc0 := Compiler.Acc(ins.opcode, [], []);
    var acc1 := Compiler.Acc(ins.opcode, acc0.payload + [lo, hi], []);
    AddressArg(Addr0, a, false, acc0);
    OnePass(ins.args, params, false, false, 0, acc0, acc1);
    NoPass(ins.args, params, true, false, acc1);
    PlainSub(ins.subs[0], params);
    SubsOne(ins.subs, params, ins.subs[0].opcode);
    assert acc1.payload == [lo, hi];
    EncodeOf(ins, params, acc1, acc1, [ins.subs[0].opcode as int], [ins.opcode as int, lo, hi, ins.subs[0].opcode as int]);
  }

  /** An instruction whose only argument is a byte value, followed by one plain sub-instruction. */
  lemma ValueThenSub(ins: Instruction, v: nat)
    requires v < 256 && ins.args == [Val0, NoArg, NoArg]
    requires |ins.subs| == 1 && ins.subs[0].args == [NoArg, NoArg, NoArg]
    ensures Compiler.Encode(ins, [Decimal(v)], []) == Some(([ins.opcode as int, v, ins.subs[0].opcode as int], []))
  {
    var params := [Decimal(v)];
    var acc0 := Compiler.Acc(ins.opcode, [], []);
    var acc1 := Compiler.Acc(ins.opcode, acc0.payload + [v], []);
    ValueArg(Val0, v, false, acc0);
    OnePass(ins.args, params, false, false, 0, acc0, acc1);
    NoPass(ins.args, params, true, false, acc1);
    PlainSub(ins.subs[0], params);
    SubsOne(ins.subs, params, ins.subs[0].opcode);
    assert acc1.payload == [v];
    EncodeOf(ins, params, acc1, acc1, [ins.subs[0].opcode as int], [ins.opcode as int, v, ins.subs[0].opcode as int]);
  }

  /** The register sub-instruction of `ldpo`/`stpo`: its base opcode with the register of parameter k. */
  lemma RegisterSub(sub: Instruction, params: seq<Text>, k: nat, r: nat)
    requires |sub.args| == 3 && k < 2 && k < |params| && r < 2 && params[k] == Compiler.RegisterName(r)
    requires sub.args[k] == Ab0 && forall j :: 0 <= j < 3 && j != k ==> sub.args[j] == NoArg
    ensures Compiler.CompileSub(sub, params) == Some(sub.opcode | r as bv8)
  {
    RegisterFirstPass(sub, params, k, r);
    NoPass(sub.args, params, true, true, Compiler.Acc(sub.opcode | r as bv8, [], []));
  }

  /** Helper: the first pass of the register sub-instruction ORs the register's code into its opcode. */
  lemma RegisterFirstPass(sub: Instruction, params: seq<Text>, k: nat, r: nat)
    requires |sub.args| == 3 && k < 2 && k < |params| && r < 2 && params[k] == Compiler.RegisterName(r)
    requires sub.args[k] == Ab0 && forall j :: 0 <= j < 3 && j != k ==> sub.args[j] == NoArg
    ensures Compiler.PassFrom(sub.args, params, false, true, 0, Compiler.Acc(sub.opcode, [], []))
      == Some(Compiler.Acc(sub.opcode | r as bv8, [], []))
  {
    var acc0 := Compiler.Acc(sub.opcode, [], []);
    RegisterArg(r, acc0);
    OnePass(sub.args, params, false, true, k, acc0, Compiler.Acc(sub.opcode | r as bv8, [], []));
  }

  /** Helper: a first-slot register field ORs the register's code into the opcode. */
  lemma RegisterArg(r: nat, acc: Compiler.Acc)
    requires r < 2
    ensures Compiler.EncodeArg(Ab0, Compiler.RegisterName(r), false, acc) == Some(acc.(opcode := acc.opcode | r as bv8))
  {
    Compiler.RegisterRoundTrip(r);
  }

  /** The two passes over an instruction whose payload is the offset in parameter k; the other parameter is a register. */
  lemma OffsetPasses(ins: Instruction, params: seq<Text>, k: nat, off: nat)
    requires k < 2 && off < 256 && |params| == 2 && params[k] == Decimal(off)
    requires |ins.args| == 3 && ins.args[k] == Val0 && ins.args[1 - k] == AbV && ins.args[2] == NoArg
    ensures Compiler.PassFrom(ins.args, params, false, false, 0, Compiler.Acc(ins.opcode, [], [])) == Some(Compiler.Acc(ins.opcode, [off], []))
    ensures Compiler.PassFrom(ins.args, params, true, false, 0, Compiler.Acc(ins.opcode, [off], [])) == Some(Compiler.Acc(ins.opcode, [off], []))
  {
    var acc := Compiler.Acc(ins.opcode, [], []);
    OffsetFirstPass(ins.args, params, k, off, acc);
    assert acc.(payload := acc.payload + [off]) == Compiler.Acc(ins.opcode, [off], []);
    OffsetSecondPass(ins.args, params, k, Compiler.Acc(ins.opcode, [off], []));
  }

  /** Helper: the second pass of an offset instruction leaves it as it is. */
  lemma OffsetSecondPass(args: seq<Arg>, params: seq<Text>, k: nat, acc: Compiler.Acc)
    requires k < 2 && |args| == 3 && args[k] == Val0 && args[1 - k] == AbV && args[2] == NoArg
    ensures Compiler.PassFrom(args, params, true, false, 0, acc) == Some(acc)
  {
    assert !Compiler.Handled(Val0, true, false) && !Compiler.Handled(AbV, true, false) && !Compiler.Handled(NoArg, true, false);
    NoPass(args, params, true, false, acc);
  }

  /** Helper: the first pass of an offset instruction appends the offset and nothing else. */
  lemma OffsetFirstPass(args: seq<Arg>, params: seq<Text>, k: nat, off: nat, acc: Compiler.Acc)
    requires k < 2 && off < 256 && |params| == 2 && params[k] == Decimal(off)
    requires |args| == 3 && args[k] == Val0 && args[1 - k] == AbV && args[2] == NoArg
    ensures Compiler.PassFrom(args, params, false, false, 0, acc) == Some(acc.(payload := acc.payload + [off]))
  {
    if k == 0 {
      OffsetFirst(args, params, off, acc);
    } else {
      OffsetSecond(args, params, off, acc);
    }
  }

  /** Helpers: the two slot orders of OffsetFirstPass. */
  lemma OffsetFirst(args: seq<Arg>, params: seq<Text>, off: nat, acc: Compiler.Acc)
    requires off < 256 && |params| == 2 && params[0] == Decimal(off)
    requires |args| == 3 && args[0] == Val0 && args[1] == AbV && args[2] == NoArg
    ensures Compiler.PassFrom(args, params, false, false, 0, acc) == Some(acc.(payload := acc.payload + [off]))
  {
    var next := acc.(payload := acc.payload + [off]);
    ValueArg(Val0, off, false, acc);
    assert !Compiler.Handled(AbV, false, false) && !Compiler.Handled(NoArg, false, false);
    PassTake(args, params, false, false, 0, acc, next);
    PassSkip(args, params, false, false, 1, next);
    PassSkip(args, params, false, false, 2, next);
  }

  lemma OffsetSecond(args: seq<Arg>, params: seq<Text>, off: nat, acc: Compiler.Acc)
    requires off < 256 && |params| == 2 && params[1] == Decimal(off)
    requires |args| == 3 && args[1] == Val0 && args[0] == AbV && args[2] == NoArg
    ensures Compiler.PassFrom(args, params, false, false, 0, acc) == Some(acc.(payload := acc.payload + [off]))
  {
    var next := acc.(payload := acc.payload + [off]);
    ValueArg(Val0, off, false, acc);
    assert !Compiler.Handled(AbV, false, false) && !Compiler.Handled(NoArg, false, false);
    PassSkip(args, params, false, false, 0, acc);
    PassTake(args, params, false, false, 1, acc, next);
    PassSkip(args, params, false, false, 2, next);
  }

  /** A plain sub-instruction followed by one that selects the register named by parameter k. */
  lemma RegisterSubs(subs: seq<Instruction>, params: seq<Text>, k: nat, r: nat)
    requires k < 2 && r < 2 && |params| == 2 && params[k] == Compiler.RegisterName(r)
    requires |subs| == 2 && subs[0].args == [NoArg, NoArg, NoArg]
    requires |subs[1].args| == 3 && subs[1].args[k] == Ab0 && subs[1].args[1 - k] == NoArg && subs[1].args[2] == NoArg
    requires subs[1].opcode & 3 == 0
    ensures Compiler.CompileSubs(subs, params) == Some([subs[0].opcode as int, subs[1].opcode as int + r])
  {
    PlainSub(subs[0], params);
    RegisterSub(subs[1], params, k, r);
    OrRegister(subs[1].opcode, r);
    SubsTwo(subs, params, subs[0].opcode, subs[1].opcode | r as bv8);
  }

  /**
   * An instruction taking an offset (parameter k) and a register (the other parameter): the offset
   * is its payload, a plain sub-instruction follows, then a sub-instruction that selects the register.
   */
  lemma OffsetThenRegister(ins: Instruction, params: seq<Text>, k: nat, off: nat, r: nat)
    requires k < 2 && off < 256 && r < 2 && |params| == 2
    requires params[k] == Decimal(off) && params[1 - k] == Compiler.RegisterName(r)
    requires |ins.args| == 3 && ins.args[k] == Val0 && ins.args[1 - k] == AbV && ins.args[2] == NoArg
    requires |ins.subs| == 2 && ins.subs[0].args == [NoArg, NoArg, NoArg]
    requires |ins.subs[1].args| == 3 && ins.subs[1].args[1 - k] == Ab0 && ins.subs[1].args[k] == NoArg && ins.subs[1].args[2] == NoArg
    requires ins.subs[1].opcode & 3 == 0
    ensures Compiler.Encode(ins, params, [])
      == Some(([ins.opcode as int, off, ins.subs[0].opcode as int, ins.subs[1].opcode as int + r], []))
  {
    var acc1 := Compiler.Acc(ins.opcode, [off], []);
    var tail := [ins.subs[0].opcode as int, ins.subs[1].opcode as int + r];
    OffsetPasses(ins, params, k, off);
    OtherRegisterSubs(ins.subs, params, k, r);
    EncodeOf(ins, params, acc1, acc1, tail, [ins.opcode as int] + acc1.payload + tail);
    FourBytes(ins.opcode as int, off, tail);
  }

  /** Helper: RegisterSubs with the register in the slot other than k. */
  lemma OtherRegisterSubs(subs: seq<Instruction>, params: seq<Text>, k: nat, r: nat)
    requires k < 2 && r < 2 && |params| == 2 && params[1 - k] == Compiler.RegisterName(r)
    requires |subs| == 2 && subs[0].args == [NoArg, NoArg, NoArg]
    requires |subs[1].args| == 3 && subs[1].args[1 - k] == Ab0 && subs[1].args[k] == NoArg && subs[1].args[2] == NoArg
    requires subs[1].opcode & 3 == 0
    ensures Compiler.CompileSubs(subs, params) == Some([subs[0].opcode as int, subs[1].opcode as int + r])
  {
    var j := 1 - k;
    assert 1 - j == k;
    RegisterSubs(subs, params, j, r);
  }

  /** Helper: an opcode, one payload byte and two sub-instruction bytes, as one sequence. */
  lemma FourBytes(op: Byte, off: Byte, tail: seq<Byte>)
    requires |tail| == 2
    ensures [op] + [off] + tail == [op, off, tail[0], tail[1]]
  {
  }

  /** `gp addr`: the opcode, the address little-endian, then the sub-instruction that moves D to Y. */
  lemma GetPointerBytes(a: nat)
    requires a < MemorySize
    ensures var (lo, hi) := Compiler.SplitAddress(a);
      Compiler.Encode(AsmTable.Build(AsmTable.GetPointer()), [Hex(a)], []) == Some(([0x0E, lo, hi, 0x0F], []))
  {
    var ins := AsmTable.Build(AsmTable.GetPointer());
    assert ins.args == [Addr0, NoArg, NoArg] && ins.opcode == 0x0E && |ins.subs| == 1;
    assert ins.subs[0].opcode == 0x0F && ins.subs[0].args == [NoArg, NoArg, NoArg];
    AddressThenSub(ins, a);
  }

  /** `gpf off`: the opcode, the offset, then the sub-instruction. */
  lemma GetFramePointerBytes(v: nat)
    requires v < 256
    ensures Compiler.Encode(AsmTable.Build(AsmTable.GetFramePointer()), [Decimal(v)], []) == Some(([0x22, v, 0x23], []))
  {
    var ins := AsmTable.Build(AsmTable.GetFramePointer());
    assert ins.args == [Val0, NoArg, NoArg] && ins.opcode == 0x22 && |ins.subs| == 1;
    assert ins.subs[0].opcode == 0x23 && ins.subs[0].args == [NoArg, NoArg, NoArg];
    ValueThenSub(ins, v);
  }

  /** OffsetThenRegister for a declared entry: the offset in slot k, the register in the other, and two subs. */
  lemma OffsetRegisterEntry(d: AsmTable.Decl, params: seq<Text>, k: nat, off: nat, r: nat)
    requires k < 2 && off < 256 && r < 2 && |params| == 2
    requires params[k] == Decimal(off) && params[1 - k] == Compiler.RegisterName(r)
    requires [d.a0, d.a1, d.a2][k] == Val0 && [d.a0, d.a1, d.a2][1 - k] == AbV && d.a2 == NoArg
    requires |d.subs| == 2 && d.subs[0] == AsmTable.SubDecl(d.subs[0].opcode)
    requires [d.subs[1].a0, d.subs[1].a1, d.subs[1].a2][1 - k] == Ab0
    requires [d.subs[1].a0, d.subs[1].a1, d.subs[1].a2][k] == NoArg && d.subs[1].a2 == NoArg
    requires d.subs[1].opcode & 3 == 0
    ensures Compiler.Encode(AsmTable.Build(d), params, [])
      == Some(([d.opcode as int, off, d.subs[0].opcode as int, d.subs[1].opcode as int + r], []))
  {
    var ins := AsmTable.Build(d);
    assert AsmTable.IsSubOf(ins.subs[0], d.subs[0]) && AsmTable.IsSubOf(ins.subs[1], d.subs[1]);
    OffsetThenRegister(ins, params, k, off, r);
  }

  /** `ldpo off, r`: MA from XY plus the offset, then LD into register r (a or b) through MA. */
  lemma LoadPointerOffsetBytes(off: nat, r: nat)
    requires off < 256 && r < 2
    ensures Compiler.Encode(AsmTable.Build(AsmTable.LoadPointerOffset()), [Decimal(off), Compiler.RegisterName(r)], [])
      == Some(([0x0A, off, 0x0B, 0x08 + r], []))
  {
    OffsetRegisterEntry(AsmTable.LoadPointerOffset(), [Decimal(off), Compiler.RegisterName(r)], 0, off, r);
  }

  /** `stpo r, off`: MA from XY plus the offset, then ST register r (a or b) through MA. */
  lemma StorePointerOffsetBytes(r: nat, off: nat)
    requires off < 256 && r < 2
    ensures Compiler.Encode(AsmTable.Build(AsmTable.StorePointerOffset()), [Compiler.RegisterName(r), Decimal(off)], [])
      == Some(([0x0A, off, 0x0B, 0x0C + r], []))
  {
    OffsetRegisterEntry(AsmTable.StorePointerOffset(), [Compiler.RegisterName(r), Decimal(off)], 1, off, r);
  }

  /** A register code ORed into an opcode whose low two bits are clear adds it. */
  lemma OrRegister(base: bv8, r: nat)
    requires base & 3 == 0 && r < 4
    ensures ((base | r as bv8) as int) == base as int + r
  {
  }
}

=== FILE: asm_instruction.dfy ===
/**
 * One line of the assembler's instruction table: a mnemonic, a base opcode,
 * three argument slots and the sub-instructions the mnemonic expands into.
 *
 * Arguments ending in 0 are processed in the first pass of the encoder and
 * arguments ending in 1 in the second; V arguments only reserve a parameter
 * for a sub-instruction. Each argument of a family contributes the same type
 * to the list the instruction matcher compares parameters against.
 */
module AsmInstruction {
  import opened Wrappers
  import opened AsmText

  datatype Arg = NoArg | Abxy0 | Abxy1 | AbxyV | Ab0 | Ab1 | AbV | Val0 | Val1 | ValV | Addr0 | Addr1 | AddrV

  datatype ArgType = TypeAbxy | TypeAb | TypeVal256 | TypeAddr

  /** The type an argument contributes, none for `NoArg`. */
  function TypeOf(a: Arg): (t: Option<ArgType>)
    ensures t.None? <==> a == NoArg
  {
    match a
    case NoArg => None
    case Abxy0 | Abxy1 | AbxyV => Some(TypeAbxy)
    case Ab0 | Ab1 | AbV => Some(TypeAb)
    case Val0 | Val1 | ValV => Some(TypeVal256)
    case Addr0 | Addr1 | AddrV => Some(TypeAddr)
  }

  datatype Instruction = Instruction(name: Text, opcode: bv8, args: seq<Arg>, types: seq<ArgType>, subs: seq<Instruction>)

  /** The type list an argument contributes: one entry, or none for `NoArg`. */
  function TypeList(a: Arg): (ts: seq<ArgType>)
    ensures |ts| == (if a == NoArg then 0 else 1)
    ensures a != NoArg ==> ts == [TypeOf(a).value]
  {
    match TypeOf(a)
    case None => []
    case Some(t) => [t]
  }

  /** `addArg`: the argument always joins the argument list, its type only when it has one. */
  function AddArg(ins: Instruction, a: Arg): (r: Instruction)
    ensures r.args == ins.args + [a]
    ensures a == NoArg ==> r.types == ins.types
    ensures a != NoArg ==> r.types == ins.types + [TypeOf(a).value]
    ensures r.name == ins.name && r.opcode == ins.opcode && r.subs == ins.subs
  {
    ins.(args := ins.args + [a], types := ins.types + TypeList(a))
  }

  /** The constructor: three argument slots, padded with `NoArg`, and no sub-instructions. */
  function Make(name: Text, opcode: bv8, a0: Arg := NoArg, a1: Arg := NoArg, a2: Arg := NoArg): (ins: Instruction)
    ensures ins.name == name && ins.opcode == opcode && ins.subs == []
    ensures ins.args == [a0, a1, a2]
    ensures ins.types == TypeList(a0) + TypeList(a1) + TypeList(a2)
  {
    AddArg(AddArg(AddArg(Instruction(name, opcode, [], [], []), a0), a1), a2)
  }

  /** The number of parameters a use of the instruction must supply. */
  function Arity(ins: Instruction): nat {
    |ins.types|
  }

  /** A constructed instruction takes one parameter per argument other than `NoArg`. */
  lemma MakeArity(name: Text, opcode: bv8, a0: Arg, a1: Arg, a2: Arg)
    ensures Arity(Make(name, opcode, a0, a1, a2)) ==
      (if a0 == NoArg then 0 else 1) + (if a1 == NoArg then 0 else 1) + (if a2 == NoArg then 0 else 1)
  {
  }

  /** `appendSubInstruction`: an unnamed instruction joins the end of the list; the receiver is returned. */
  function AppendSub(ins: Instruction, opcode: bv8, a0: Arg := NoArg, a1: Arg := NoArg, a2: Arg := NoArg): (r: Instruction)
    ensures r.name == ins.name && r.opcode == ins.opcode && r.args == ins.args && r.types == ins.types
    ensures |r.subs| == |ins.subs| + 1 && r.subs[..|ins.subs|] == ins.subs
    ensures r.subs[|ins.subs|].name == [] && r.subs[|ins.subs|].opcode == opcode
    ensures r.subs[|ins.subs|].args == [a0, a1, a2] && r.subs[|ins.subs|].subs == []
    ensures r.subs[|ins.subs|].types == TypeList(a0) + TypeList(a1) + TypeList(a2)
  {
    ins.(subs := ins.subs + [Make([], opcode, a0, a1, a2)])
  }
}

=== FILE: asm_table.dfy ===
/**
 * The assembler's instruction table, in the order the assembler registers the
 * entries. The matcher takes the first entry that fits, so order matters
 * wherever a mnemonic has several forms.
 */
module AsmTable {
  import opened AsmInstruction
  import AsmText

  /** One `appendSubInstruction(opcode, arg0, arg1, arg2)` call. */
  datatype SubDecl = SubDecl(opcode: bv8, a0: Arg := NoArg, a1: Arg := NoArg, a2: Arg := NoArg)

  /**
   * One registered entry, as written in the table: the constructor's name, opcode
   * and three arguments, followed by its `appendSubInstruction` calls in order.
   */
  datatype Decl = Decl(name: AsmText.Text, opcode: bv8, a0: Arg := NoArg, a1: Arg := NoArg, a2: Arg := NoArg, subs: seq<SubDecl> := [])

  /** A sub-instruction as one `appendSubInstruction` call makes it: unnamed, flat, with the call's opcode and arguments. */
  predicate IsSubOf(sub: Instruction, d: SubDecl) {
    && sub.name == [] && sub.opcode == d.opcode && sub.subs == []
    && sub.args == [d.a0, d.a1, d.a2] && sub.types == TypeList(d.a0) + TypeList(d.a1) + TypeList(d.a2)
  }

  /** The chain of `appendSubInstruction` calls, applied left to right. */
  function AppendSubs(ins: Instruction, subs: seq<SubDecl>): (r: Instruction)
    ensures r.name == ins.name && r.opcode == ins.opcode && r.args == ins.args && r.types == ins.types
    ensures |r.subs| == |ins.subs| + |subs| && r.subs[..|ins.subs|] == ins.subs
    ensures forall k :: 0 <= k < |subs| ==> IsSubOf(r.subs[|ins.subs| + k], subs[k])
    decreases |subs|
  {
    if |subs| == 0 then ins
    else
      var init, last := subs[..|subs| - 1], subs[|subs| - 1];
      var prev := AppendSubs(ins, init);
      var r := AppendSub(prev, last.opcode, last.a0, last.a1, last.a2);
      assert r.subs[..|ins.subs|] == ins.subs by {
        assert r.subs[..|ins.subs|] == r.subs[..|prev.subs|][..|ins.subs|];
      }
      assert forall k :: 0 <= k < |init| ==> IsSubOf(r.subs[|ins.subs| + k], subs[k]) by {
        forall k | 0 <= k < |init|
          ensures IsSubOf(r.subs[|ins.subs| + k], subs[k])
        {
          assert r.subs[|ins.subs| + k] == r.subs[..|prev.subs|][|ins.subs| + k] == prev.subs[|ins.subs| + k];
          assert init[k] == subs[k];
        }
      }
      r
  }

  /** The instruction a declaration registers: the constructor, then its sub-instructions. */
  function Build(d: Decl): (ins: Instruction)
    ensures ins.name == d.name && ins.opcode == d.opcode && ins.args == [d.a0, d.a1, d.a2]
    ensures |ins.subs| == |d.subs| && forall k :: 0 <= k < |d.subs| ==> IsSubOf(ins.subs[k], d.subs[k])
  {
    AppendSubs(Make(d.name, d.opcode, d.a0, d.a1, d.a2), d.subs)
  }

  /** INC X then INCC Y: a 16-bit increment of the XY pair. */
  function IncPair(): Decl {
    Decl("incp", 0x82, subs := [SubDecl(0x87)])
  }

  /** DEC X then DECC Y: a 16-bit decrement of the XY pair. */
  function DecPair(): Decl {
    Decl("decp", 0x8A, subs := [SubDecl(0x8F)])
  }

  /** GP addr: load X and D from the address bytes, then move D to Y. */
  function GetPointer(): Decl {
    Decl("gp", 0x0E, Addr0, subs := [SubDecl(0x0F)])
  }

  /** LDPO off, r: MA := XY + off, then LD r through MA (the register is the second parameter). */
  function LoadPointerOffset(): Decl {
    Decl("ldpo", 0x0A, Val0, AbV, subs := [SubDecl(0x0B), SubDecl(0x08, NoArg, Ab0)])
  }

  /** STPO r, off: MA := XY + off, then ST r through MA (the register is the first parameter). */
  function StorePointerOffset(): Decl {
    Decl("stpo", 0x0A, AbV, Val0, subs := [SubDecl(0x0B), SubDecl(0x0C, Ab0)])
  }

  /** GPF off: the frame pointer plus an offset into X and D, then D to Y. */
  function GetFramePointer(): Decl {
    Decl("gpf", 0x22, Val0, subs := [SubDecl(0x23)])
  }

  /**
   * ST val, addr as the assembler declares it: the value is a second-pass payload,
   * so it is emitted after the two address bytes.
   */
  function StoreValueAddressAsWritten(): Decl {
    Decl("st", 0x02, Val1, Addr0)
  }

  /**
   * ST val, addr with the payload in the order the microcode reads it: the value
   * first, then the address. The table uses this form.
   */
  function StoreValueAddress(): Decl {
    Decl("st", 0x02, Val0, Addr1)
  }

  function Logic(): (ds: seq<Decl>)
    ensures Named(ds)
  {
    [
      Decl("not", 0x24, Abxy0),
      Decl("and", 0x28, Ab1, Abxy0),
      Decl("or", 0x30, Ab1, Abxy0),
      Decl("xor", 0x38, Ab1, Abxy0),
      Decl("shl", 0x4C, Abxy0),
      Decl("shr", 0x50, Abxy0),
      Decl("and", 0x40, Val0, Abxy0),
      Decl("or", 0x44, Val0, Abxy0),
      Decl("xor", 0x48, Val0, Abxy0)
    ]
  }

  function Arithmetic(): (ds: seq<Decl>)
    ensures Named(ds)
  {
    [
      Decl("inc", 0x80, Abxy0),
      Decl("incc", 0x84, Abxy0),
      Decl("dec", 0x88, Abxy0),
      Decl("decc", 0x8C, Abxy0),
      Decl("add", 0x90, Ab1, Abxy0),
      Decl("addc", 0x98, Ab1, Abxy0),
      Decl("sub", 0xA0, Ab1, Abxy0),
      Decl("subc", 0xA8, Ab1, Abxy0),
      Decl("add", 0xB0, Val0, Abxy0),
      Decl("addc", 0xB4, Val0, Abxy0),
      Decl("sub", 0xB8, Val0, Abxy0),
      Decl("subc", 0xBC, Val0, Abxy0),
      IncPair(),
      DecPair(),
      Decl("addp", 0x92, Ab1, subs := [SubDecl(0x87)]),
      Decl("subp", 0xA2, Ab1, subs := [SubDecl(0x8F)]),
      Decl("addp", 0xB2, Val0, subs := [SubDecl(0x87)]),
      Decl("subp", 0xBA, Val0, subs := [SubDecl(0x8F)])
    ]
  }

  function Move(): (ds: seq<Decl>)
    ensures Named(ds)
  {
    [
      Decl("mov", 0xD0, Abxy1, Abxy0),
      Decl("mov", 0xCC, Val0, Abxy0),
      Decl("clr", 0x54, Abxy0),
      Decl("swap", 0x58, Abxy0),
      Decl("xchg", 0x60, Abxy1, Abxy0, subs := [SubDecl(0x5C, Abxy0)]),
      Decl("xchg", 0x18, Addr0, Abxy0)
    ]
  }

  function Io(): (ds: seq<Decl>)
    ensures Named(ds)
  {
    [
      Decl("in", 0xF0, Abxy0),
      Decl("out", 0xF4, Abxy0),
      Decl("out", 0x03, Val0)
    ]
  }

  function Memory(): (ds: seq<Decl>)
    ensures Named(ds)
  {
    [
      Decl("ld", 0xE4, Addr0, Abxy0),
      Decl("st", 0xEC, Abxy0, Addr0),
      StoreValueAddress(),
      Decl("stp", 0x01, Val0),
      Decl("ldp", 0xE0, Abxy0),
      Decl("stp", 0xE8, Abxy0),
      GetPointer(),
      LoadPointerOffset(),
      StorePointerOffset()
    ]
  }

  function Jumps(): (ds: seq<Decl>)
    ensures Named(ds)
  {
    [
      Decl("cmp", 0xC0, Ab1, Abxy0),
      Decl("cmp", 0xC8, Val0, Abxy0),
      Decl("jmp", 0xF8, Addr0),
      Decl("je", 0xF9, Addr0),
      Decl("jne", 0xFA, Addr0),
      Decl("jg", 0xFB, Addr0),
      Decl("jge", 0xFC, Addr0),
      Decl("jl", 0xFD, Addr0),
      Decl("jle", 0xFE, Addr0)
    ]
  }

  function Stack(): (ds: seq<Decl>)
    ensures Named(ds)
  {
    [
      Decl("rstsp", 0x04),
      Decl("push", 0x78, Abxy0),
      Decl("pop", 0x7C, Abxy0),
      Decl("push", 0x21, Val0)
    ]
  }

  function Loop(): (ds: seq<Decl>)
    ensures Named(ds)
  {
    [
      Decl("loope", 0x10, Val0, Abxy0, Addr1),
      Decl("loopz", 0x14, Abxy0, Addr0)
    ]
  }

  function Function(): (ds: seq<Decl>)
    ensures Named(ds)
  {
    [
      Decl("call", 0x05, Addr0),
      Decl("ret", 0x06),
      Decl("ret", 0x1E, Val0)
    ]
  }

  function FunctionFrame(): (ds: seq<Decl>)
    ensures Named(ds)
  {
    [
      Decl("enter", 0x1F),
      Decl("leave", 0x20),
      Decl("alloc", 0x1C, Val0),
      Decl("free", 0x1D, Val0),
      Decl("ldf", 0x70, Val0, Abxy0),
      Decl("stf", 0x74, Abxy0, Val0),
      Decl("stf", 0x07, Val1, Val0),
      GetFramePointer()
    ]
  }

  function Misc(): (ds: seq<Decl>)
    ensures Named(ds)
  {
    [
      Decl("halt", 0xFF),
      Decl("nop", 0x00)
    ]
  }

  /** Every declaration, group by group in registration order. */
  function Declarations(): seq<Decl> {
    Logic() + Arithmetic() + Move() + Io() + Memory() + Jumps() + Stack() + Loop() + Function() + FunctionFrame() + Misc()
  }



  /** `initInstructions`: the instruction list the compiler matches against, in registration order. */
  function Table(): (t: seq<Instruction>)
    ensures |t| == |Declarations()|
    ensures forall i :: 0 <= i < |t| ==> t[i] == Build(Declarations()[i])
  {
    var ds := Declarations();
    seq(|ds|, i requires 0 <= i < |ds| => Build(ds[i]))
  }

  /** Three argument slots, and a type list made of the types of the non-padding ones in slot order. */
  predicate Shaped(ins: Instruction) {
    |ins.args| == 3 && ins.types == TypeList(ins.args[0]) + TypeList(ins.args[1]) + TypeList(ins.args[2])
  }

  /** A named, shaped entry whose sub-instructions are unnamed, shaped and have no subs of their own. */
  predicate WellFormedEntry(ins: Instruction) {
    && ins.name != []
    && Shaped(ins)
    && forall k :: 0 <= k < |ins.subs| ==> ins.subs[k].name == [] && Shaped(ins.subs[k]) && ins.subs[k].subs == []
  }

  /** Every named declaration builds a well-formed entry whose arity counts its non-padding arguments. */
  lemma {:induction false} BuildWellFormed(d: Decl)
    requires d.name != []
    ensures WellFormedEntry(Build(d))
    ensures Arity(Build(d)) == (if d.a0 == NoArg then 0 else 1) + (if d.a1 == NoArg then 0 else 1) + (if d.a2 == NoArg then 0 else 1)
  {
    var r := Build(d);
    assert r.types == Make(d.name, d.opcode, d.a0, d.a1, d.a2).types;
    forall k | 0 <= k < |r.subs|
      ensures r.subs[k].name == [] && Shaped(r.subs[k]) && r.subs[k].subs == []
    {
      assert IsSubOf(r.subs[k], d.subs[k]);
    }
  }

  /** Every declaration of a list names its mnemonic. */
  predicate Named(ds: seq<Decl>) {
    forall i :: 0 <= i < |ds| ==> ds[i].name != []
  }

  lemma {:induction false} NamedAppend(a: seq<Decl>, b: seq<Decl>)
    requires Named(a) && Named(b)
    ensures Named(a + b)
  {
    forall i | 0 <= i < |a + b|
      ensures (a + b)[i].name != []
    {
      if i < |a| {
        assert (a + b)[i] == a[i];
      } else {
        assert (a + b)[i] == b[i - |a|];
      }
    }
  }

  /** The groups hold 73 declarations, all named. */
  lemma {:induction false} DeclarationsNamed()
    ensures |Declarations()| == 73
    ensures Named(Declarations())
  {
    NamedAppend(Logic(), Arithmetic());
    NamedAppend(Logic() + Arithmetic(), Move());
    NamedAppend(Logic() + Arithmetic() + Move(), Io());
    NamedAppend(Logic() + Arithmetic() + Move() + Io(), Memory());
    NamedAppend(Logic() + Arithmetic() + Move() + Io() + Memory(), Jumps());
    NamedAppend(Logic() + Arithmetic() + Move() + Io() + Memory() + Jumps(), Stack());
    NamedAppend(Logic() + Arithmetic() + Move() + Io() + Memory() + Jumps() + Stack(), Loop());
    NamedAppend(Logic() + Arithmetic() + Move() + Io() + Memory() + Jumps() + Stack() + Loop(), Function());
    NamedAppend(Logic() + Arithmetic() + Move() + Io() + Memory() + Jumps() + Stack() + Loop() + Function(), FunctionFrame());
    NamedAppend(Logic() + Arithmetic() + Move() + Io() + Memory() + Jumps() + Stack() + Loop() + Function() + FunctionFrame(), Misc());
  }

  /**
   * Every entry of the table the assembler registers is well formed: three
   * argument slots and a type list equal to the types of its non-padding
   * arguments, so its arity is the number of those arguments, at most three;
   * and its sub-instructions are unnamed, shaped the same way and flat.
   */
  lemma {:induction false} TableWellFormed()
    ensures |Table()| == 73
    ensures forall i :: 0 <= i < |Table()| ==> WellFormedEntry(Table()[i]) && Arity(Table()[i]) <= 3
  {
    DeclarationsNamed();
    forall i | 0 <= i < |Table()|
      ensures WellFormedEntry(Table()[i]) && Arity(Table()[i]) <= 3
    {
      BuildWellFormed(Declarations()[i]);
    }
  }
}

=== FILE: asm_text.dfy ===
/**
 * The string handling the assembler relies on: whitespace trimming, ASCII
 * case-insensitive comparison, the name and number character classes of its
 * regular expressions, unsigned number conversion with the 32-bit overflow
 * check, and the "not preceded by a backslash" escape rule used for comments,
 * commas and backslashes.
 */
module AsmText {
  import opened Wrappers

  type Text = seq<char>

  /** Limit of a 32-bit unsigned conversion: larger values make the conversion fail. */
  const UIntLimit: nat := 0x1_0000_0000

  // ----- whitespace -----

  /** The ASCII white-space class: space, tab, line feed, vertical tab, form feed, carriage return. */
  predicate IsSpace(c: char) {
    c == ' ' || 9 <= c as int <= 13
  }

  function TrimStart(s: Text): (r: Text)
    ensures |r| <= |s| && r == s[|s| - |r|..]
    ensures |r| > 0 ==> !IsSpace(r[0])
    ensures forall i :: 0 <= i < |s| - |r| ==> IsSpace(s[i])
  {
    if |s| > 0 && IsSpace(s[0]) then TrimStart(s[1..]) else s
  }

  function TrimEnd(s: Text): (r: Text)
    ensures |r| <= |s| && r == s[..|r|]
    ensures |r| > 0 ==> !IsSpace(r[|r| - 1])
    ensures forall i :: |r| <= i < |s| ==> IsSpace(s[i])
  {
    if |s| > 0 && IsSpace(s[|s| - 1]) then TrimEnd(s[..|s| - 1]) else s
  }

  /** How many white-space characters lead the text. */
  function LeadingSpaces(s: Text): (n: nat)
    ensures n <= |s|
  {
    |s| - |TrimStart(s)|
  }

  /** White space removed from both ends: what is left is a slice of the input. */
  function Trim(s: Text): (r: Text)
    ensures |r| > 0 ==> !IsSpace(r[0]) && !IsSpace(r[|r| - 1])
    ensures LeadingSpaces(s) + |r| <= |s| && r == s[LeadingSpaces(s)..LeadingSpaces(s) + |r|]
    ensures forall i :: 0 <= i < LeadingSpaces(s) ==> IsSpace(s[i])
    ensures forall i :: LeadingSpaces(s) + |r| <= i < |s| ==> IsSpace(s[i])
  {
    var t := TrimStart(s);
    var r := TrimEnd(t);
    assert r == s[|s| - |t|..|s| - |t| + |r|];
    r
  }

  predicate Trimmed(s: Text) {
    |s| > 0 ==> !IsSpace(s[0]) && !IsSpace(s[|s| - 1])
  }

  lemma {:induction false} TrimStartKeeps(s: Text)
    requires |s| > 0 ==> !IsSpace(s[0])
    ensures TrimStart(s) == s
  {
  }

  lemma {:induction false} TrimEndKeeps(s: Text)
    requires |s| > 0 ==> !IsSpace(s[|s| - 1])
    ensures TrimEnd(s) == s
  {
  }

  /** Trimming is idempotent, and a text without surrounding white space is its own trim. */
  lemma TrimKeepsTrimmed(s: Text)
    ensures Trimmed(s) ==> Trim(s) == s
    ensures Trim(Trim(s)) == Trim(s)
  {
    if Trimmed(s) {
      TrimStartKeeps(s);
      TrimEndKeeps(s);
    }
    var r := Trim(s);
    TrimStartKeeps(r);
    TrimEndKeeps(r);
  }

  /** Index of the first white-space character, if any. */
  function FirstSpace(s: Text): (r: Option<nat>)
    ensures r.Some? ==> r.value < |s| && IsSpace(s[r.value]) && forall i :: 0 <= i < r.value ==> !IsSpace(s[i])
    ensures r.None? ==> forall i :: 0 <= i < |s| ==> !IsSpace(s[i])
  {
    if |s| == 0 then None
    else if IsSpace(s[0]) then Some(0)
    else match FirstSpace(s[1..])
      case None => None
      case Some(k) => Some(k + 1)
  }

  /** `indexOf(c)`: the first position of c. */
  function IndexOf(s: Text, c: char): (r: Option<nat>)
    ensures r.Some? ==> r.value < |s| && s[r.value] == c && forall i :: 0 <= i < r.value ==> s[i] != c
    ensures r.None? ==> forall i :: 0 <= i < |s| ==> s[i] != c
  {
    if |s| == 0 then None
    else if s[0] == c then Some(0)
    else match IndexOf(s[1..], c)
      case None => None
      case Some(k) => Some(k + 1)
  }

  // ----- case-insensitive comparison -----

  /** ASCII lower case; every other character is its own fold. */
  function Lower(c: char): char {
    if 'A' <= c <= 'Z' then (c as int + 32) as char else c
  }

  function Folded(s: Text): (r: Text)
    ensures |r| == |s| && forall i :: 0 <= i < |s| ==> r[i] == Lower(s[i])
  {
    seq(|s|, i requires 0 <= i < |s| => Lower(s[i]))
  }

  /** The `compare(..., Qt::CaseInsensitive) == 0` test, with ASCII folding. */
  predicate SameText(a: Text, b: Text) {
    Folded(a) == Folded(b)
  }

  /** Case-insensitive equality holds exactly when the lengths agree and every position folds alike. */
  lemma SameTextCharwise(a: Text, b: Text)
    ensures SameText(a, b) <==> |a| == |b| && forall i :: 0 <= i < |a| ==> Lower(a[i]) == Lower(b[i])
  {
    if |a| == |b| && forall i :: 0 <= i < |a| ==> Lower(a[i]) == Lower(b[i]) {
      assert forall i :: 0 <= i < |a| ==> Folded(a)[i] == Folded(b)[i];
    }
  }

  // ----- character classes of the assembler's regular expressions -----

  predicate IsDecimalDigit(c: char) {
    '0' <= c <= '9'
  }

  predicate IsBinaryDigit(c: char) {
    c == '0' || c == '1'
  }

  predicate IsHexDigit(c: char) {
    IsDecimalDigit(c) || 'a' <= c <= 'f' || 'A' <= c <= 'F'
  }

  /** `[0-9a-zA-Z_-]`, the character class of every name. */
  predicate IsNameChar(c: char) {
    IsDecimalDigit(c) || 'a' <= c <= 'z' || 'A' <= c <= 'Z' || c == '_' || c == '-'
  }

  /** `^([0-9a-zA-Z_-]+)$` */
  predicate IsName(s: Text) {
    |s| > 0 && forall i :: 0 <= i < |s| ==> IsNameChar(s[i])
  }

  /** `^([0-9]+)$` */
  predicate IsDecimal(s: Text) {
    |s| > 0 && forall i :: 0 <= i < |s| ==> IsDecimalDigit(s[i])
  }

  /** `^(0b[01]+)$` */
  predicate IsBinaryLiteral(s: Text) {
    |s| > 2 && s[..2] == "0b" && forall i :: 2 <= i < |s| ==> IsBinaryDigit(s[i])
  }

  /** `^(0x[0-9abcdefABCDEF]+)$` */
  predicate IsHexLiteral(s: Text) {
    |s| > 2 && s[..2] == "0x" && forall i :: 2 <= i < |s| ==> IsHexDigit(s[i])
  }

  /** `^('.')$`: one character other than a line feed between single quotes. */
  predicate IsCharLiteral(s: Text) {
    |s| == 3 && s[0] == '\'' && s[2] == '\'' && s[1] != '\n'
  }

  // ----- unsigned conversion -----

  function DigitValue(c: char): nat {
    if IsDecimalDigit(c) then c as int - '0' as int
    else if 'a' <= c <= 'f' then c as int - 'a' as int + 10
    else if 'A' <= c <= 'F' then c as int - 'A' as int + 10
    else 0
  }

  /** The number a digit string denotes in the given base, most significant digit first. */
  function Value(s: Text, base: nat): nat {
    if |s| == 0 then 0 else Value(s[..|s| - 1], base) * base + DigitValue(s[|s| - 1])
  }

  /** `toUInt(&ok, base)` on a string the caller's pattern already restricted to digits of the base. */
  function ToUInt(s: Text, base: nat): (r: Option<nat>)
    ensures r.Some? <==> Value(s, base) < UIntLimit
    ensures r.Some? ==> r.value == Value(s, base)
  {
    var v := Value(s, base);
    if v < UIntLimit then Some(v) else None
  }

  /** The digit character of a value below ten. */
  function DecimalChar(d: nat): (c: char)
    requires d < 10
    ensures IsDecimalDigit(c) && DigitValue(c) == d
  {
    ('0' as int + d) as char
  }

  /** Decimal notation without leading zeros ("0" for zero). */
  function Decimal(n: nat): (s: Text)
    ensures IsDecimal(s)
    decreases n
  {
    if n < 10 then [DecimalChar(n)] else Decimal(n / 10) + [DecimalChar(n % 10)]
  }

  /** Reading back the decimal notation yields the number. */
  lemma {:induction false} DecimalValue(n: nat)
    ensures Value(Decimal(n), 10) == n
    decreases n
  {
    if n >= 10 {
      var s := Decimal(n);
      assert s[..|s| - 1] == Decimal(n / 10);
      DecimalValue(n / 10);
    }
  }

  /** The hexadecimal digit character of a value below sixteen, in lower case. */
  function HexChar(d: nat): (c: char)
    requires d < 16
    ensures IsHexDigit(c) && DigitValue(c) == d
  {
    if d < 10 then DecimalChar(d) else ('a' as int + d - 10) as char
  }

  /** Hexadecimal digits without leading zeros ("0" for zero). */
  function HexDigits(n: nat): (s: Text)
    ensures |s| > 0 && forall i :: 0 <= i < |s| ==> IsHexDigit(s[i])
    decreases n
  {
    if n < 16 then [HexChar(n)] else HexDigits(n / 16) + [HexChar(n % 16)]
  }

  lemma {:induction false} HexDigitsValue(n: nat)
    ensures Value(HexDigits(n), 16) == n
    decreases n
  {
    if n >= 16 {
      var s := HexDigits(n);
      assert s[..|s| - 1] == HexDigits(n / 16);
      HexDigitsValue(n / 16);
    }
  }

  /** A `0x` literal. */
  function Hex(n: nat): (s: Text)
    ensures IsHexLiteral(s) && s[2..] == HexDigits(n)
  {
    var s := "0x" + HexDigits(n);
    assert s[..2] == "0x";
    s
  }

  // ----- the backslash escape -----

  /** Position i holds c and is not preceded by a backslash: the `(?<!\\)c` pattern. */
  predicate UnescapedAt(s: Text, i: nat, c: char)
    requires i < |s|
  {
    s[i] == c && (i == 0 || s[i - 1] != '\\')
  }

  /** The first position of an unescaped c. */
  function FindUnescaped(s: Text, c: char, from: nat): (r: Option<nat>)
    requires from <= |s|
    ensures r.Some? ==> from <= r.value < |s| && UnescapedAt(s, r.value, c)
    ensures r.Some? ==> forall i :: from <= i < r.value ==> !UnescapedAt(s, i, c)
    ensures r.None? ==> forall i :: from <= i < |s| ==> !UnescapedAt(s, i, c)
    decreases |s| - from
  {
    if from == |s| then None
    else if UnescapedAt(s, from, c) then Some(from)
    else FindUnescaped(s, c, from + 1)
  }

  /** Concatenation with a separator character between consecutive parts. */
  function Join(parts: seq<Text>, sep: char): Text
    requires |parts| > 0
  {
    if |parts| == 1 then parts[0] else parts[0] + [sep] + Join(parts[1..], sep)
  }

  /** No separator inside a part is unescaped, judged inside the part alone. */
  predicate NoUnescaped(t: Text, c: char) {
    forall i :: 0 <= i < |t| ==> !UnescapedAt(t, i, c)
  }

  /**
   * `split(QRegularExpression("(?<!\\\\)c"))`: cut at every unescaped c, keeping empty
   * parts. Joining the parts back with c gives the input.
   */
  function SplitUnescaped(s: Text, c: char): (parts: seq<Text>)
    ensures |parts| > 0
    decreases |s|
  {
    match FindUnescaped(s, c, 0)
    case None => [s]
    case Some(k) => [s[..k]] + SplitUnescaped(s[k + 1..], c)
  }

  /** A cut position is unescaped in the whole text, so the text after it starts with no escape. */
  lemma {:induction false} SplitRoundTrip(s: Text, c: char)
    ensures Join(SplitUnescaped(s, c), c) == s
    decreases |s|
  {
    match FindUnescaped(s, c, 0)
    case None =>
    case Some(k) =>
      SplitRoundTrip(s[k + 1..], c);
      var parts := SplitUnescaped(s, c);
      assert parts[1..] == SplitUnescaped(s[k + 1..], c);
      assert s == s[..k] + [c] + s[k + 1..];
  }

  /** Every part is free of unescaped separators. */
  lemma {:induction false} SplitPartsClean(s: Text, c: char)
    requires c != '\\'
    ensures forall j :: 0 <= j < |SplitUnescaped(s, c)| ==> NoUnescaped(SplitUnescaped(s, c)[j], c)
    decreases |s|
  {
    var parts := SplitUnescaped(s, c);
    match FindUnescaped(s, c, 0)
    case None =>
    case Some(k) =>
      var head := s[..k];
      forall i | 0 <= i < |head|
        ensures !UnescapedAt(head, i, c)
      {
        assert !UnescapedAt(s, i, c);
      }
      var rest := s[k + 1..];
      SplitPartsClean(rest, c);
      assert parts[1..] == SplitUnescaped(rest, c);
      forall j | 1 <= j < |parts|
        ensures NoUnescaped(parts[j], c)
      {
        assert parts[j] == SplitUnescaped(rest, c)[j - 1];
      }
  }

  /**
   * `remove(QRegularExpression("(?<!\\\\)\\\\"))`: every backslash that does not follow a
   * backslash of the original text is dropped. `prev` is the character before `s`.
   */
  function DropBackslashes(s: Text, prev: Option<char>): (r: Text)
    ensures |r| <= |s|
  {
    if |s| == 0 then []
    else if s[0] == '\\' && prev != Some('\\') then DropBackslashes(s[1..], Some(s[0]))
    else [s[0]] + DropBackslashes(s[1..], Some(s[0]))
  }

  function Unescape(s: Text): Text {
    DropBackslashes(s, None)
  }

  /** A text without backslashes is left alone. */
  lemma {:induction false} DropBackslashesKeeps(s: Text, prev: Option<char>)
    requires forall i :: 0 <= i < |s| ==> s[i] != '\\'
    ensures DropBackslashes(s, prev) == s
    decreases |s|
  {
    if |s| > 0 {
      DropBackslashesKeeps(s[1..], Some(s[0]));
    }
  }

  /** A backslash survives only right after another backslash, so `\x` becomes `x` and `\\` becomes `\`. */
  lemma UnescapePairs(a: char)
    requires a != '\\'
    ensures Unescape(['\\', a]) == [a]
    ensures Unescape(['\\', '\\']) == ['\\']
  {
    assert DropBackslashes([a], Some('\\')) == [a] + DropBackslashes([], Some(a));
    assert DropBackslashes(['\\'], Some('\\')) == ['\\'] + DropBackslashes([], Some('\\'));
  }
}

=== FILE: assembler.dfy ===
/**
 * The assembler's driver, `compile`: parse the source files, encode them with
 * the instruction table, link them into the mode's region and save the binary
 * and, for the BIOS and the OS, the map file.
 *
 * The map file is how an OS or a BIOS hands its external names to the programs
 * built on it: the linker writes one line per external name and the parser of a
 * later program reads it back with `map`. This module proves that the two agree:
 * every line the linker writes is read back as a fixed entry at the address it
 * was written with.
 */
module Assembler {
  import opened Wrappers
  import opened AsmText
  import opened AsmData
  import opened Linker
  import Parser
  import Compiler
  import AsmTable
  import AsmInstruction

  // ----- the driver -----

  datatype AsmError =
    | ParseFailed(error: Parser.ParseError)
    | CompileFailed
    | LinkFailed(linkError: LinkError)
    | SaveFailed

  /**
   * What a successful build delivers for a mode: a binary that fills at least one
   * byte and at most the mode's region (all of the BIOS's RAM for the BIOS), and a
   * map file exactly when the mode is not an application.
   */
  predicate Delivered(mode: Mode, out: Output) {
    && (out.mapFile.Some? <==> mode != App)
    && (mode == Bios ==> |out.binary| == BiosRamSize)
    && 0 < |out.binary| <= RegionOf(mode).size
  }

  /** Linking and saving an encoded program. */
  function Finish(compiled: DataList): (r: Result<Output, AsmError>)
    ensures r.Success? ==> Delivered(compiled.mode, r.value)
  {
    match Link(compiled)
    case Failure(e) => Failure(LinkFailed(e))
    case Success(linked) =>
      match Save(compiled, linked)
      case Failure(_) => Failure(SaveFailed)
      case Success(out) => Success(out)
  }

  /** Encoding a parsed program with an instruction table, then linking and saving it. */
  function Build(table: seq<AsmInstruction.Instruction>, parsed: DataList): (r: Result<Output, AsmError>)
    ensures r.Success? ==> Delivered(parsed.mode, r.value)
  {
    match Compiler.Compile(table, parsed)
    case None => Failure(CompileFailed)
    case Some(compiled) => Finish(compiled)
  }

  /**
   * `compile` for one mode and one input file, with the instruction table the
   * encoder is set up with: each stage runs only when the one before it
   * succeeded, and the first failure is the result.
   */
  function AssembleWith(table: seq<AsmInstruction.Instruction>, src: Parser.Sources, mode: Mode, path: Text): (r: Result<Output, AsmError>)
    ensures path !in src.files ==> r == Failure(ParseFailed(Parser.CannotOpen(path)))
    ensures r.Success? ==> Delivered(mode, r.value)
  {
    var parsed := Parser.Parse(src, mode, path);
    if parsed.Failure? then Failure(ParseFailed(parsed.error))
    else
      assert parsed.value.mode == mode;
      Build(table, parsed.value)
  }

  /** The assembler proper: the encoder's table is the one `initInstructions` builds. */
  function Assemble(src: Parser.Sources, mode: Mode, path: Text): Result<Output, AsmError> {
    AssembleWith(AsmTable.Table(), src, mode, path)
  }

  // ----- the map file, word by word -----

  /** A word of a map line: not empty, with no white space and no comment mark in it. */
  predicate Word(w: Text) {
    |w| > 0 && forall i :: 0 <= i < |w| ==> !IsSpace(w[i]) && w[i] != ';'
  }

  predicate Words(ws: seq<Text>) {
    |ws| > 0 && forall k :: 0 <= k < |ws| ==> Word(ws[k])
  }

  /** What a map line may name: a code section's `.name`, or a plain name. */
  predicate MapName(kind: Kind, name: Text) {
    if kind == SectionKind then |name| > 1 && name[0] == '.' && IsName(name[1..]) else IsName(name)
  }

  /** A line the parser can take back: a well-formed name at a 16-bit address. */
  predicate Readable(m: MapEntry) {
    MapName(m.kind, m.name) && m.address < MemorySize
  }

  /** The address word of a map line. */
  function HexWord(a: nat): Text {
    "0x" + Hex4(a)
  }

  /** The words of a map line. */
  function MapWords(m: MapEntry): seq<Text> {
    match m.kind
    case VarKind => ["external", "var", m.name, "=", HexWord(m.address)]
    case ConstKind => ["external", "const", m.name, "=", HexWord(m.address)]
    case SectionKind => [m.name, "=", HexWord(m.address)]
  }

  /** The address word is a hexadecimal literal that converts back to the address. */
  lemma HexWordReads(a: nat)
    requires a < MemorySize
    ensures Word(HexWord(a))
    ensures HexAddress(HexWord(a)) == Some(a)
  {
    var h := Hex4(a);
    var t := HexWord(a);
    assert t[..2] == "0x" && t[2..] == h;
    forall i | 2 <= i < |t|
      ensures IsHexDigit(t[i])
    {
      assert t[i] == h[i - 2];
    }
    forall i | 0 <= i < |t|
      ensures !IsSpace(t[i]) && t[i] != ';'
    {
      if i >= 2 {
        assert t[i] == h[i - 2];
      }
    }
  }

  lemma NameIsWord(name: Text)
    requires IsName(name)
    ensures Word(name)
  {
  }

  lemma SectionNameIsWord(name: Text)
    requires |name| > 1 && name[0] == '.' && IsName(name[1..])
    ensures Word(name)
  {
    forall i | 1 <= i < |name|
      ensures IsNameChar(name[i])
    {
      assert name[i] == name[1..][i - 1];
    }
  }

  lemma MapWordsAreWords(m: MapEntry)
    requires Readable(m)
    ensures Words(MapWords(m))
  {
    HexWordReads(m.address);
    if m.kind == SectionKind {
      SectionNameIsWord(m.name);
    } else {
      NameIsWord(m.name);
    }
  }

  lemma JoinTwo(a: Text, b: Text)
    ensures Join([a, b], ' ') == a + " " + b
  {
    assert [a, b][1..] == [b];
  }

  lemma JoinThree(a: Text, b: Text, c: Text)
    ensures Join([a, b, c], ' ') == a + " " + b + " " + c
  {
    assert [a, b, c][1..] == [b, c];
    JoinTwo(b, c);
  }

  lemma JoinFive(a: Text, b: Text, c: Text, d: Text, e: Text)
    ensures Join([a, b, c, d, e], ' ') == a + " " + b + " " + c + " " + d + " " + e
  {
    assert [a, b, c, d, e][1..] == [b, c, d, e];
    assert [b, c, d, e][1..] == [c, d, e];
    JoinThree(c, d, e);
  }

  /** An external line, `external <kind> <name> = 0x<h>`, is its five words joined by spaces. */
  lemma ExternalLineWords(kind: Text, name: Text, h: Text)
    ensures "external " + kind + " " + name + " = 0x" + h == Join(["external", kind, name, "=", "0x" + h], ' ')
  {
    JoinFive("external", kind, name, "=", "0x" + h);
    assert "external " + kind + " " + name + " = 0x" + h == "external" + " " + kind + " " + name + " " + "=" + " " + ("0x" + h);
  }

  lemma SectionLineWords(name: Text, h: Text)
    ensures name + " = 0x" + h == Join([name, "=", "0x" + h], ' ')
  {
    JoinThree(name, "=", "0x" + h);
    assert name + " = 0x" + h == name + " " + "=" + " " + ("0x" + h);
  }

  /** A map line is its words with one space between each two. */
  lemma MapLineWords(m: MapEntry)
    ensures MapLine(m) == Join(MapWords(m), ' ')
  {
    match m.kind
    case VarKind => ExternalLineWords("var", m.name, Hex4(m.address));
    case ConstKind => ExternalLineWords("const", m.name, Hex4(m.address));
    case SectionKind => SectionLineWords(m.name, Hex4(m.address));
  }

  /** Words joined by single spaces: no comment mark, and no white space at either end. */
  lemma {:induction false} JoinedWords(ws: seq<Text>)
    requires Words(ws)
    ensures var s := Join(ws, ' ');
      |s| > 0 && !IsSpace(s[0]) && !IsSpace(s[|s| - 1]) && forall i :: 0 <= i < |s| ==> s[i] != ';'
    decreases |ws|
  {
    if |ws| > 1 {
      var w := ws[0];
      var rest := Join(ws[1..], ' ');
      assert forall k :: 1 <= k < |ws| ==> ws[k] == ws[1..][k - 1];
      JoinedWords(ws[1..]);
      var s := w + [' '] + rest;
      assert Join(ws, ' ') == s;
      forall i | 0 <= i < |s|
        ensures s[i] != ';'
      {
        if i < |w| {
          assert s[i] == w[i];
        } else if i > |w| {
          assert s[i] == rest[i - |w| - 1];
        }
      }
      assert s[0] == w[0] && s[|s| - 1] == rest[|rest| - 1];
    }
  }

  /** The first white space after a run of other characters is the one that ends the run. */
  lemma {:induction false} FirstSpaceAfter(w: Text, rest: Text)
    requires forall i :: 0 <= i < |w| ==> !IsSpace(w[i])
    ensures FirstSpace(w + [' '] + rest) == Some(|w|)
    decreases |w|
  {
    var s := w + [' '] + rest;
    if |w| > 0 {
      assert s[1..] == w[1..] + [' '] + rest;
      FirstSpaceAfter(w[1..], rest);
    }
  }

  /** One space before a text that does not start with white space is all `TrimStart` removes. */
  lemma TrimOneSpace(rest: Text)
    requires |rest| > 0 && !IsSpace(rest[0])
    ensures TrimStart([' '] + rest) == rest
  {
    assert ([' '] + rest)[1..] == rest;
    TrimStartKeeps(rest);
  }

  /** One step of splitting: the piece before the first white space, then the rest split. */
  lemma SplitStep(s: Text, k: nat)
    requires FirstSpace(s) == Some(k)
    ensures k < |s| && Parser.SplitSpaces(s) == [s[..k]] + Parser.SplitSpaces(TrimStart(s[k..]))
  {
  }

  /** A word, one space and a text that starts with something else split into the word and the text's pieces. */
  lemma SplitCons(w: Text, rest: Text)
    requires Word(w) && |rest| > 0 && !IsSpace(rest[0])
    ensures Parser.SplitSpaces(w + [' '] + rest) == [w] + Parser.SplitSpaces(rest)
  {
    var s := w + [' '] + rest;
    var after := [' '] + rest;
    assert s == w + after;
    FirstSpaceAfter(w, rest);
    assert s[..|w|] == w && s[|w|..] == after;
    TrimOneSpace(rest);
    SplitStep(s, |w|);
  }

  /** Splitting at white space takes words joined by single spaces apart again. */
  lemma {:induction false} SplitJoined(ws: seq<Text>)
    requires Words(ws)
    ensures Parser.SplitSpaces(Join(ws, ' ')) == ws
    decreases |ws|
  {
    var w := ws[0];
    if |ws| == 1 {
      assert FirstSpace(w).None?;
    } else {
      var tail := ws[1..];
      assert Words(tail) by {
        assert forall k :: 1 <= k < |ws| ==> ws[k] == tail[k - 1];
      }
      JoinedWords(tail);
      SplitJoined(tail);
      assert Join(ws, ' ') == w + [' '] + Join(tail, ' ');
      SplitCons(w, Join(tail, ' '));
      assert [w] + tail == ws;
    }
  }

  /** A written map line survives the trim of reading and comment stripping, and splits into its words. */
  lemma MapLineSplits(m: MapEntry)
    requires Readable(m)
    ensures Trim(MapLine(m)) == MapLine(m)
    ensures Parser.StripComment(MapLine(m)) == MapLine(m)
    ensures Parser.SplitSpaces(MapLine(m)) == MapWords(m)
  {
    var ws := MapWords(m);
    MapWordsAreWords(m);
    MapLineWords(m);
    JoinedWords(ws);
    var l := MapLine(m);
    assert Trimmed(l);
    TrimKeepsTrimmed(l);
    assert NoUnescaped(l, ';');
    Parser.StripCommentClean(l);
    SplitJoined(ws);
  }

  // ----- the map file read back -----

  /** What reading one map line does to the program: a fixed entry of the line's kind, refused if its name is taken. */
  function ReadEntry(dl: DataList, path: Text, m: MapEntry): Result<DataList, Parser.ParseError> {
    var e := Entry(m.name, Fixed(m.address));
    var added := match m.kind
      case VarKind => AddGlobalRamItem(dl, e)
      case ConstKind => AddGlobalFlashItem(dl, e)
      case SectionKind => AddGlobalCodeSection(dl, e);
    if added.1 then Success(added.0) else Failure(Parser.Reuse(m.name, path))
  }

  /** Reading the lines in turn, stopping at the first refused one. */
  function ReadEntries(dl: DataList, path: Text, ms: seq<MapEntry>): Result<DataList, Parser.ParseError>
    decreases |ms|
  {
    if |ms| == 0 then Success(dl)
    else
      var next :- ReadEntry(dl, path, ms[0]);
      ReadEntries(next, path, ms[1..])
  }

  /** The parser takes a written line's words as the fixed entry they were written from. */
  lemma MapWordsParse(dl: DataList, path: Text, j: nat, m: MapEntry)
    requires Readable(m)
    ensures Parser.ParseMap(dl, path, j, MapWords(m)) == ReadEntry(dl, path, m)
  {
    HexWordReads(m.address);
    assert SameText("external", "external") && SameText("var", "var") && SameText("const", "const");
    assert !SameText("const", "var") by {
      assert |Folded("const")| != |Folded("var")|;
    }
  }

  /** A written line, read back with `map`, is the fixed entry it was written from. */
  lemma MapLineReads(dl: DataList, path: Text, j: nat, m: MapEntry)
    requires Readable(m)
    ensures Parser.ParseMap(dl, path, j, Parser.SplitSpaces(Parser.StripComment(Trim(MapLine(m))))) == ReadEntry(dl, path, m)
  {
    MapLineSplits(m);
    MapWordsParse(dl, path, j, m);
  }

  /** The lines of a map file as the parser sees them: each one trimmed. */
  function ReadBack(lines: seq<Text>): (r: seq<Text>)
    ensures |r| == |lines|
  {
    seq(|lines|, i requires 0 <= i < |lines| => Trim(lines[i]))
  }

  /** One written line, met by the parser's loop over a map file. */
  lemma MapLineStep(dl: DataList, path: Text, lines: seq<Text>, j: nat, m: MapEntry)
    requires j < |lines| && Readable(m) && lines[j] == Trim(MapLine(m))
    ensures var read := ReadEntry(dl, path, m);
      && (read.Failure? ==> Parser.ParseMapLines(dl, path, lines, j) == Failure(read.error))
      && (read.Success? ==> Parser.ParseMapLines(dl, path, lines, j) == Parser.ParseMapLines(read.value, path, lines, j + 1))
  {
    var l := MapLine(m);
    MapLineSplits(m);
    MapWordsAreWords(m);
    MapLineWords(m);
    JoinedWords(MapWords(m));
    assert Parser.StripComment(lines[j]) == l && |l| > 0;
    MapWordsParse(dl, path, j, m);
  }

  /** Reading a written map file from line j on is reading its entries from j on. */
  lemma {:induction false} MapLinesRead(dl: DataList, path: Text, ms: seq<MapEntry>, j: nat)
    requires j <= |ms| && forall i :: 0 <= i < |ms| ==> Readable(ms[i])
    ensures var lines := ReadBack(seq(|ms|, i requires 0 <= i < |ms| => MapLine(ms[i])));
      Parser.ParseMapLines(dl, path, lines, j) == ReadEntries(dl, path, ms[j..])
    decreases |ms| - j
  {
    var lines := ReadBack(seq(|ms|, i requires 0 <= i < |ms| => MapLine(ms[i])));
    if j < |ms| {
      var m := ms[j];
      assert lines[j] == Trim(MapLine(m));
      MapLineStep(dl, path, lines, j, m);
      assert ms[j..][0] == m && ms[j..][1..] == ms[j + 1..];
      var read := ReadEntry(dl, path, m);
      if read.Success? {
        MapLinesRead(read.value, path, ms, j + 1);
      }
    }
  }

  /**
   * The map of a linked BIOS or OS, read back by the parser of a later program:
   * the parser meets the entries in the order they were written and adds each as
   * a fixed entry at its linked address.
   */
  lemma MapRoundTrip(dl: DataList, dl0: DataList, path: Text)
    requires Link(dl).Success? && ExternalsLocal(dl)
    requires forall m :: m in MapEntries(dl) ==> MapName(m.kind, m.name)
    ensures Parser.ParseMapLines(dl0, path, ReadBack(MapLines(dl)), 0) == ReadEntries(dl0, path, MapEntries(dl))
  {
    var ms := MapEntries(dl);
    MapInRegion(dl);
    forall i | 0 <= i < |ms|
      ensures Readable(ms[i])
    {
      assert ms[i] in ms;
    }
    assert MapLines(dl) == seq(|ms|, i requires 0 <= i < |ms| => MapLine(ms[i]));
    MapLinesRead(dl0, path, ms, 0);
    assert ms[0..] == ms;
  }

  /** An entry read keeps what was there and adds the line's name, at the line's address, to the list of its kind. */
  lemma ReadEntryAdds(dl: DataList, path: Text, m: MapEntry)
    requires ReadEntry(dl, path, m).Success?
    ensures var r := ReadEntry(dl, path, m).value;
      r.files == dl.files && r.mode == dl.mode
      && r.globalRam == dl.globalRam + (if m.kind == VarKind then [Entry(m.name, Fixed(m.address))] else [])
      && r.globalFlash == dl.globalFlash + (if m.kind == ConstKind then [Entry(m.name, Fixed(m.address))] else [])
      && r.globalSections == dl.globalSections + (if m.kind == SectionKind then [Entry(m.name, Fixed(m.address))] else [])
  {
  }

  /** The fixed entries of one kind that a run of map lines adds, in order. */
  function FixedEntries(ms: seq<MapEntry>, kind: Kind): (r: seq<Entry>)
    ensures |r| <= |ms|
  {
    if |ms| == 0 then []
    else (if ms[0].kind == kind then [Entry(ms[0].name, Fixed(ms[0].address))] else []) + FixedEntries(ms[1..], kind)
  }

  /** A map read without a refusal appends, per kind, exactly the lines' fixed entries, in the order written. */
  lemma {:induction false} ReadEntriesAppend(dl: DataList, path: Text, ms: seq<MapEntry>)
    requires ReadEntries(dl, path, ms).Success?
    ensures var r := ReadEntries(dl, path, ms).value;
      r.files == dl.files && r.mode == dl.mode
      && r.globalRam == dl.globalRam + FixedEntries(ms, VarKind)
      && r.globalFlash == dl.globalFlash + FixedEntries(ms, ConstKind)
      && r.globalSections == dl.globalSections + FixedEntries(ms, SectionKind)
    decreases |ms|
  {
    if |ms| > 0 {
      var next := ReadEntry(dl, path, ms[0]).value;
      ReadEntryAdds(dl, path, ms[0]);
      ReadEntriesAppend(next, path, ms[1..]);
    }
  }
}

=== FILE: bytes.dfy ===
/** Bytes made from small numbers. */
module Bytes {

  /**
   * A number below 256 as a byte, counted up one at a time: the solver handles this
   * recursion far more cheaply than a conversion from an unbounded integer.
   */
  function ByteOf(n: nat): (v: bv8)
    requires n < 256
    ensures v as nat == n
  {
    if n == 0 then 0 else ByteOf(n - 1) + 1
  }
}

=== FILE: compiler.dfy ===
/**
 * The assembler's compiler: operand parsers, the parameter classifier, the
 * instruction matcher, the two-pass instruction encoder and the sizing of
 * flash and RAM items.
 *
 * An instruction is encoded as its opcode, with the register fields of the
 * first-pass arguments ORed into bits 0-1 and those of the second-pass
 * arguments into bits 2-3, followed by the payload bytes of the first-pass
 * arguments, then those of the second-pass arguments, then one opcode per
 * sub-instruction. A label operand leaves two zero bytes and records where
 * they are, for the linker to patch.
 */
module Compiler {
  import opened Wrappers
  import opened AsmText
  import opened AsmInstruction
  import opened AsmData

  // ----- operand parsers -----

  /** The register names in code order: A, B, X, Y. */
  function RegisterName(code: nat): Text
    requires code < 4
  {
    ["a", "b", "x", "y"][code]
  }

  /** `parseParamAB`: a or b in either case, as 0 or 1. */
  function ParamAb(p: Text): (r: Option<bv8>)
    ensures r.Some? ==> r.value < 2 && SameText(p, RegisterName(r.value as nat))
    ensures r.None? ==> forall k :: 0 <= k < 2 ==> !SameText(p, RegisterName(k))
  {
    if SameText(p, "a") then Some(0) else if SameText(p, "b") then Some(1) else None
  }

  /** `parseParamABXY`: a, b, x or y in either case, as 0 to 3. */
  function ParamAbxy(p: Text): (r: Option<bv8>)
    ensures r.Some? ==> r.value < 4 && SameText(p, RegisterName(r.value as nat))
    ensures r.None? ==> forall k :: 0 <= k < 4 ==> !SameText(p, RegisterName(k))
  {
    if SameText(p, "a") then Some(0)
    else if SameText(p, "b") then Some(1)
    else if SameText(p, "x") then Some(2)
    else if SameText(p, "y") then Some(3)
    else None
  }

  /** A character literal's code when the Latin-1 conversion yields a positive signed char. */
  function CharCode(p: Text): Option<nat>
    requires IsCharLiteral(p)
  {
    if 0 < p[1] as int < 128 then Some(p[1] as int) else None
  }

  /** The number a decimal, `0b`, `0x` or character literal denotes, before any range check. */
  function LiteralNumber(p: Text): Option<nat> {
    if IsDecimal(p) then ToUInt(p, 10)
    else if IsBinaryLiteral(p) then ToUInt(p[2..], 2)
    else if IsHexLiteral(p) then ToUInt(p[2..], 16)
    else if IsCharLiteral(p) then CharCode(p)
    else None
  }

  /** `parseParamVal256`: a literal whose value is below 256. */
  function ParamVal256(p: Text): (r: Option<Byte>)
    ensures r.Some? <==> LiteralNumber(p).Some? && LiteralNumber(p).value < 256
    ensures r.Some? ==> r.value == LiteralNumber(p).value
  {
    match LiteralNumber(p)
    case Some(n) => if n < 256 then Some(n) else None
    case None => None
  }

  /** An address as its low and high byte. */
  function SplitAddress(n: nat): (r: (Byte, Byte))
    requires n < MemorySize
    ensures r.0 + 256 * r.1 == n
  {
    (n % 256, n / 256)
  }

  /** `parseParamAddr`: only a `0x` literal below 65536, split into its low and high byte. */
  function ParamAddr(p: Text): (r: Option<(Byte, Byte)>)
    ensures r.Some? <==> IsHexLiteral(p) && Value(p[2..], 16) < MemorySize
    ensures r.Some? ==> r.value.0 + 256 * r.value.1 == Value(p[2..], 16)
  {
    match HexAddress(p)
    case Some(n) => Some(SplitAddress(n))
    case None => None
  }

  // ----- label operands -----

  /** `.name`: a code section. */
  predicate IsCodeLabel(p: Text) {
    |p| > 1 && p[0] == '.' && IsName(p[1..])
  }

  /** `*name`: a flash or RAM item. */
  predicate IsMemoryLabel(p: Text) {
    |p| > 1 && p[0] == '*' && IsName(p[1..])
  }

  /** `*name[digits]`: an element of a flash or RAM item. The bracket is the first one, since names have none. */
  predicate IsIndexedLabel(p: Text) {
    |p| > 1 && p[0] == '*' && p[|p| - 1] == ']'
    && match IndexOf(p, '[')
       case Some(k) => 1 < k < |p| - 2 && IsName(p[1..k]) && IsDecimal(p[k + 1..|p| - 1])
       case None => false
  }

  /** `isAddrLabel` */
  predicate IsAddrLabel(p: Text) {
    IsCodeLabel(p) || IsMemoryLabel(p) || IsIndexedLabel(p)
  }

  // ----- classification and matching -----

  predicate IsRegisterText(p: Text) {
    |p| == 1 && p[0] in "abxyABXY"
  }

  /** `checkParamType`: the argument types a parameter may stand for. */
  function ParamTypes(p: Text): (ts: set<ArgType>)
    ensures TypeAb in ts ==> TypeAbxy in ts
    ensures TypeAbxy in ts ==> ts <= {TypeAbxy, TypeAb}
  {
    if IsRegisterText(p) then {TypeAbxy} + (if p[0] in "abAB" then {TypeAb} else {})
    else if IsDecimal(p) || IsBinaryLiteral(p) || IsHexLiteral(p) || IsCharLiteral(p) then
      {TypeVal256} + (if IsHexLiteral(p) then {TypeAddr} else {})
    else if IsAddrLabel(p) then {TypeAddr}
    else {}
  }

  /** A mnemonic and parameter list fit an instruction: same name ignoring case, same arity, each type admitted. */
  predicate Matches(ins: Instruction, name: Text, params: seq<Text>) {
    SameText(ins.name, name) && |ins.types| == |params|
    && forall i :: 0 <= i < |params| ==> ins.types[i] in ParamTypes(params[i])
  }

  /** The first entry at or after `from` that fits. */
  function FindFrom(table: seq<Instruction>, name: Text, params: seq<Text>, from: nat): (r: Option<nat>)
    requires from <= |table|
    ensures r.Some? ==> from <= r.value < |table| && Matches(table[r.value], name, params)
    ensures r.Some? ==> forall j :: from <= j < r.value ==> !Matches(table[j], name, params)
    ensures r.None? ==> forall j :: from <= j < |table| ==> !Matches(table[j], name, params)
    decreases |table| - from
  {
    if from == |table| then None
    else if Matches(table[from], name, params) then Some(from)
    else FindFrom(table, name, params, from + 1)
  }

  /** `findInstruction`: the first table entry that fits, if any. */
  function FindInstruction(table: seq<Instruction>, name: Text, params: seq<Text>): (r: Option<nat>)
    ensures r.Some? ==> r.value < |table| && Matches(table[r.value], name, params)
    ensures r.Some? ==> forall j :: 0 <= j < r.value ==> !Matches(table[j], name, params)
    ensures r.None? ==> forall j :: 0 <= j < |table| ==> !Matches(table[j], name, params)
  {
    FindFrom(table, name, params, 0)
  }

  // ----- encoding -----

  /** The opcode, the payload and the label slots gathered so far. */
  datatype Acc = Acc(opcode: bv8, payload: seq<Byte>, fills: seq<Fill>)

  /** The slots of every label except the given one. */
  function Without(fills: seq<Fill>, target: Text): (r: seq<Fill>)
    ensures forall f :: f in r <==> f in fills && f.target != target
  {
    if |fills| == 0 then []
    else Without(fills[..|fills| - 1], target) + (if fills[|fills| - 1].target == target then [] else [fills[|fills| - 1]])
  }

  /** `QHash::insert`: a label keeps only its latest slot. */
  function Insert(fills: seq<Fill>, target: Text, offset: nat): (r: seq<Fill>)
    ensures forall f :: f in r <==> f == Fill(target, offset) || (f in fills && f.target != target)
  {
    Without(fills, target) + [Fill(target, offset)]
  }

  predicate IsFirst(a: Arg) {
    a == Abxy0 || a == Ab0 || a == Val0 || a == Addr0
  }

  predicate IsSecond(a: Arg) {
    a == Abxy1 || a == Ab1 || a == Val1 || a == Addr1
  }

  predicate IsRegister(a: Arg) {
    a == Abxy0 || a == Ab0 || a == Abxy1 || a == Ab1
  }

  /** The arguments a pass reads a parameter for; sub-instructions read register arguments only. */
  predicate Handled(a: Arg, second: bool, registersOnly: bool) {
    (if second then IsSecond(a) else IsFirst(a)) && (IsRegister(a) || !registersOnly)
  }

  /** One argument of a pass: a register field ORed into the opcode, or payload bytes appended. */
  function EncodeArg(a: Arg, p: Text, second: bool, acc: Acc): Option<Acc> {
    if a == Ab0 || a == Ab1 || a == Abxy0 || a == Abxy1 then
      var v :- if a == Ab0 || a == Ab1 then ParamAb(p) else ParamAbxy(p);
      Some(acc.(opcode := acc.opcode | (if second then v << 2 else v)))
    else if a == Val0 || a == Val1 then
      var v :- ParamVal256(p);
      Some(acc.(payload := acc.payload + [v]))
    else if IsAddrLabel(p) then
      Some(Acc(acc.opcode, acc.payload + [0, 0], Insert(acc.fills, p, |acc.payload| + 1)))
    else
      var w :- ParamAddr(p);
      Some(acc.(payload := acc.payload + [w.0, w.1]))
  }

  /**
   * One pass over the argument slots from slot i. Parameter i belongs to slot i; a handled
   * slot without a parameter is an error (the assembler would index past its list).
   */
  function PassFrom(args: seq<Arg>, params: seq<Text>, second: bool, registersOnly: bool, i: nat, acc: Acc): Option<Acc>
    requires i <= |args|
    decreases |args| - i
  {
    if i == |args| then Some(acc)
    else if !Handled(args[i], second, registersOnly) then PassFrom(args, params, second, registersOnly, i + 1, acc)
    else if i >= |params| then None
    else
      var next :- EncodeArg(args[i], params[i], second, acc);
      PassFrom(args, params, second, registersOnly, i + 1, next)
  }

  /** `compileSubInstruction`: the sub-instruction's opcode with its register fields from the parent's parameters. */
  function CompileSub(sub: Instruction, params: seq<Text>): Option<bv8> {
    var first :- PassFrom(sub.args, params, false, true, 0, Acc(sub.opcode, [], []));
    var second :- PassFrom(sub.args, params, true, true, 0, first);
    Some(second.opcode)
  }

  function CompileSubs(subs: seq<Instruction>, params: seq<Text>): (r: Option<seq<Byte>>)
    ensures r.Some? ==> |r.value| == |subs|
  {
    if |subs| == 0 then Some([])
    else
      var head :- CompileSub(subs[0], params);
      var tail :- CompileSubs(subs[1..], params);
      Some([head as int] + tail)
  }

  /** The bytes of one instruction and the label slots, added to the slots already recorded. */
  function Encode(ins: Instruction, params: seq<Text>, fills: seq<Fill>): Option<(seq<Byte>, seq<Fill>)> {
    var first :- PassFrom(ins.args, params, false, false, 0, Acc(ins.opcode, [], fills));
    var second :- PassFrom(ins.args, params, true, false, 0, first);
    var tail :- CompileSubs(ins.subs, params);
    Some(([second.opcode as int] + second.payload + tail, second.fills))
  }

  /** `compileInstruction`: find the instruction, encode it, and append the bytes to the item. */
  function CompileInstruction(table: seq<Instruction>, item: CodeItem): Option<CodeItem> {
    var k :- FindInstruction(table, item.name, item.params);
    var encoded :- Encode(table[k], item.params, item.fills);
    Some(item.(bytes := item.bytes + encoded.0, fills := encoded.1))
  }

  // ----- what the encoder guarantees -----

  /** Payload bytes an argument contributes in the main instruction. */
  function PayloadWidth(a: Arg): nat {
    if a == Val0 || a == Val1 then 1 else if a == Addr0 || a == Addr1 then 2 else 0
  }

  /** Payload bytes of the slots from i on that a pass handles. */
  function PassWidth(args: seq<Arg>, second: bool, i: nat): nat
    requires i <= |args|
    decreases |args| - i
  {
    if i == |args| then 0
    else (if (if second then IsSecond(args[i]) else IsFirst(args[i])) then PayloadWidth(args[i]) else 0) + PassWidth(args, second, i + 1)
  }

  /** Every recorded slot lies in the payload and still holds its two zero bytes, and names a label. */
  predicate SlotsZero(payload: seq<Byte>, fills: seq<Fill>) {
    forall f :: f in fills ==>
      (1 <= f.offset && f.offset + 1 <= |payload|
       && payload[f.offset - 1] == 0 && payload[f.offset] == 0 && IsAddrLabel(f.target))
  }

  lemma SlotsZeroGrow(payload: seq<Byte>, fills: seq<Fill>, more: seq<Byte>)
    requires SlotsZero(payload, fills)
    ensures SlotsZero(payload + more, fills)
  {
    forall f | f in fills
      ensures (payload + more)[f.offset - 1] == 0 && (payload + more)[f.offset] == 0
    {
      assert (payload + more)[f.offset - 1] == payload[f.offset - 1];
      assert (payload + more)[f.offset] == payload[f.offset];
    }
  }

  /** One argument adds exactly its payload width, and keeps every slot pointing at zero bytes. */
  lemma EncodeArgShape(a: Arg, p: Text, second: bool, acc: Acc)
    requires if second then IsSecond(a) else IsFirst(a)
    requires SlotsZero(acc.payload, acc.fills)
    requires EncodeArg(a, p, second, acc).Some?
    ensures var next := EncodeArg(a, p, second, acc).value;
      |next.payload| == |acc.payload| + PayloadWidth(a) && next.payload[..|acc.payload|] == acc.payload
      && SlotsZero(next.payload, next.fills)
  {
    var next := EncodeArg(a, p, second, acc).value;
    if a == Addr0 || a == Addr1 {
      SlotsZeroGrow(acc.payload, acc.fills, next.payload[|acc.payload|..]);
      assert next.payload == acc.payload + next.payload[|acc.payload|..];
    } else if a == Val0 || a == Val1 {
      SlotsZeroGrow(acc.payload, acc.fills, next.payload[|acc.payload|..]);
      assert next.payload == acc.payload + next.payload[|acc.payload|..];
    }
  }

  /** A pass of the main instruction appends exactly the payload of its slots and keeps the slot invariant. */
  lemma {:induction false} PassShape(args: seq<Arg>, params: seq<Text>, second: bool, i: nat, acc: Acc)
    requires i <= |args|
    requires SlotsZero(acc.payload, acc.fills)
    requires PassFrom(args, params, second, false, i, acc).Some?
    ensures var out := PassFrom(args, params, second, false, i, acc).value;
      |out.payload| == |acc.payload| + PassWidth(args, second, i) && out.payload[..|acc.payload|] == acc.payload
      && SlotsZero(out.payload, out.fills)
    decreases |args| - i
  {
    if i < |args| {
      if !Handled(args[i], second, false) {
        PassShape(args, params, second, i + 1, acc);
      } else {
        var next := EncodeArg(args[i], params[i], second, acc).value;
        EncodeArgShape(args[i], params[i], second, acc);
        PassShape(args, params, second, i + 1, next);
        var out := PassFrom(args, params, second, false, i + 1, next).value;
        assert out.payload[..|acc.payload|] == out.payload[..|next.payload|][..|acc.payload|];
      }
    }
  }

  /**
   * An encoded instruction is one opcode, the payload of both passes and one byte per
   * sub-instruction; every new label slot points at two zero bytes inside the payload.
   */
  lemma EncodeShape(ins: Instruction, params: seq<Text>)
    requires Encode(ins, params, []).Some?
    ensures var (bytes, fills) := Encode(ins, params, []).value;
      |bytes| == 1 + PassWidth(ins.args, false, 0) + PassWidth(ins.args, true, 0) + |ins.subs|
      && forall f :: f in fills ==>
        (IsAddrLabel(f.target) && 1 <= f.offset && f.offset + 1 < |bytes|
         && bytes[f.offset] == 0 && bytes[f.offset + 1] == 0)
  {
    var first := PassFrom(ins.args, params, false, false, 0, Acc(ins.opcode, [], [])).value;
    PassShape(ins.args, params, false, 0, Acc(ins.opcode, [], []));
    var second := PassFrom(ins.args, params, true, false, 0, first).value;
    PassShape(ins.args, params, true, 0, first);
    var tail := CompileSubs(ins.subs, params).value;
    var bytes: seq<Byte> := [second.opcode as int] + second.payload + tail;
    assert Encode(ins, params, []).value == (bytes, second.fills);
    forall f | f in second.fills
      ensures bytes[f.offset] == 0 && bytes[f.offset + 1] == 0
    {
      assert bytes[f.offset] == second.payload[f.offset - 1];
      assert bytes[f.offset + 1] == second.payload[f.offset];
    }
  }

  // ----- operand round trips -----

  lemma SameTextSingle(p: Text, c: char)
    requires 'a' <= c <= 'z'
    ensures SameText(p, [c]) <==> p == [c] || p == [(c as int - 32) as char]
  {
    SameTextCharwise(p, [c]);
  }

  /** A parameter classifies as a register exactly when the register parsers accept it. */
  lemma RegisterTypesSound(p: Text)
    ensures TypeAbxy in ParamTypes(p) <==> ParamAbxy(p).Some?
    ensures TypeAb in ParamTypes(p) <==> ParamAb(p).Some?
  {
    SameTextSingle(p, 'a');
    SameTextSingle(p, 'b');
    SameTextSingle(p, 'x');
    SameTextSingle(p, 'y');
  }

  /** Every register name, in either case, parses back to its code. */
  lemma RegisterRoundTrip(code: nat)
    requires code < 4
    ensures ParamAbxy(RegisterName(code)) == Some(code as bv8)
    ensures code < 2 ==> ParamAb(RegisterName(code)) == Some(code as bv8)
    ensures code >= 2 ==> ParamAb(RegisterName(code)) == None
  {
    var p := RegisterName(code);
    SameTextSingle(p, 'a');
    SameTextSingle(p, 'b');
    SameTextSingle(p, 'x');
    SameTextSingle(p, 'y');
  }

  /** Decimal text parses as a byte exactly when the number is below 256. */
  lemma Val256Decimal(n: nat)
    ensures ParamVal256(Decimal(n)) == if n < 256 then Some(n) else None
  {
    DecimalValue(n);
  }

  /** A `0x` literal is a byte below 256 and an address below 65536, split little-endian. */
  lemma HexRoundTrip(n: nat)
    ensures ParamVal256(Hex(n)) == if n < 256 then Some(n) else None
    ensures ParamAddr(Hex(n)) == if n < MemorySize then Some(SplitAddress(n)) else None
  {
    var s := Hex(n);
    HexDigitsValue(n);
    assert s[2..] == HexDigits(n);
    assert !IsDecimal(s) by { assert !IsDecimalDigit(s[1]); }
    assert !IsBinaryLiteral(s) by { assert s[..2][1] == 'x'; }
  }

  /** A character literal stands for its code when that is 1 to 127; any other character is refused. */
  lemma Val256Char(c: char)
    requires c != '\n'
    ensures ParamVal256(['\'', c, '\'']) == if 0 < c as int < 128 then Some(c as int) else None
  {
    var p := ['\'', c, '\''];
    assert !IsDecimal(p) by { assert !IsDecimalDigit(p[0]); }
    assert !IsBinaryLiteral(p) && !IsHexLiteral(p) by { assert p[..2][0] == '\''; }
  }

  /** Any parameter the classifier accepts as an address is a label or a `0x` literal, and vice versa. */
  lemma AddressTypeSound(p: Text)
    ensures TypeAddr in ParamTypes(p) <==> IsAddrLabel(p) || IsHexLiteral(p)
  {
    if IsAddrLabel(p) {
      assert !IsDecimal(p) && !IsCharLiteral(p) by { assert p[0] == '.' || p[0] == '*'; }
      assert !IsBinaryLiteral(p) && !IsHexLiteral(p) by { assert p[..2][0] == p[0]; }
    }
    if IsHexLiteral(p) {
      assert !IsRegisterText(p);
    }
  }

  // ----- flash and RAM items -----

  /** `compileRam`: one byte without a suffix, else the decimal size if it converts. */
  function RamSize(arraySize: Text): (r: Option<nat>)
    ensures |arraySize| == 0 ==> r == Some(1)
    ensures |arraySize| > 0 ==> (r.Some? <==> IsDecimal(arraySize) && Value(arraySize, 10) < UIntLimit)
    ensures |arraySize| > 0 && r.Some? ==> r.value == Value(arraySize, 10)
  {
    if |arraySize| == 0 then Some(1)
    else if IsDecimal(arraySize) then ToUInt(arraySize, 10)
    else None
  }

  function CompileRam(v: RamItem): Option<RamItem> {
    var size :- RamSize(v.arraySize);
    Some(v.(size := size))
  }

  /** `^(".+")$`: a double-quoted string of at least one character and no line feed. */
  predicate IsStringLiteral(v: Text) {
    |v| >= 3 && v[0] == '"' && v[|v| - 1] == '"' && forall i :: 0 < i < |v| - 1 ==> v[i] != '\n'
  }

  /** The bytes of the characters of s, each of which must be a positive signed Latin-1 char. */
  function CharBytes(s: Text): (r: Option<seq<Byte>>)
    ensures r.Some? <==> forall i :: 0 <= i < |s| ==> 0 < s[i] as int < 128
    ensures r.Some? ==> |r.value| == |s| && forall i :: 0 <= i < |s| ==> r.value[i] == s[i] as int
  {
    if |s| == 0 then Some([])
    else if 0 < s[0] as int < 128 then
      match CharBytes(s[1..])
      case Some(rest) => Some([s[0] as int] + rest)
      case None => None
    else None
  }

  /** Each value through `parseParamVal256`, in order. */
  function ValueBytes(values: seq<Text>): (r: Option<seq<Byte>>)
    ensures r.Some? <==> forall i :: 0 <= i < |values| ==> ParamVal256(values[i]).Some?
    ensures r.Some? ==> |r.value| == |values| && forall i :: 0 <= i < |values| ==> r.value[i] == ParamVal256(values[i]).value
  {
    if |values| == 0 then Some([])
    else
      match ParamVal256(values[0])
      case None => None
      case Some(b) =>
        match ValueBytes(values[1..])
        case Some(rest) => Some([b] + rest)
        case None => None
  }

  /** `compileFlash` for one item: a single quoted string becomes its characters and a NUL, else a list of bytes. */
  function FlashBytes(values: seq<Text>): Option<seq<Byte>> {
    if |values| == 1 && IsStringLiteral(values[0]) then
      var chars :- CharBytes(values[0][1..|values[0]| - 1]);
      Some(chars + [0])
    else if |values| == 0 then None
    else ValueBytes(values)
  }

  function CompileFlash(f: FlashItem): Option<FlashItem> {
    var bytes :- FlashBytes(f.values);
    Some(f.(bytes := f.bytes + bytes))
  }

  /** A quoted ASCII string is stored as its characters followed by one zero byte. */
  lemma StringConstant(s: Text)
    requires |s| > 0 && forall i :: 0 <= i < |s| ==> 0 < s[i] as int < 128 && s[i] != '\n'
    ensures var v := "\"" + s + "\"";
      FlashBytes([v]).Some? && |FlashBytes([v]).value| == |s| + 1
      && FlashBytes([v]).value[|s|] == 0
      && forall i :: 0 <= i < |s| ==> FlashBytes([v]).value[i] == s[i] as int
  {
    var v := "\"" + s + "\"";
    assert v[1..|v| - 1] == s;
    assert IsStringLiteral(v) by {
      forall i | 0 < i < |v| - 1 ensures v[i] != '\n' { assert v[i] == s[i - 1]; }
    }
  }

  // ----- whole files -----

  function CompileRams(rs: seq<RamItem>): (r: Option<seq<RamItem>>)
    ensures r.Some? ==> |r.value| == |rs| && forall i :: 0 <= i < |rs| ==> r.value[i].name == rs[i].name
  {
    if |rs| == 0 then Some([])
    else
      var head :- CompileRam(rs[0]);
      var tail :- CompileRams(rs[1..]);
      Some([head] + tail)
  }

  function CompileFlashes(fs: seq<FlashItem>): (r: Option<seq<FlashItem>>)
    ensures r.Some? ==> |r.value| == |fs| && forall i :: 0 <= i < |fs| ==> r.value[i].name == fs[i].name
  {
    if |fs| == 0 then Some([])
    else
      var head :- CompileFlash(fs[0]);
      var tail :- CompileFlashes(fs[1..]);
      Some([head] + tail)
  }

  function CompileItems(table: seq<Instruction>, items: seq<CodeItem>): (r: Option<seq<CodeItem>>)
    ensures r.Some? ==> |r.value| == |items|
  {
    if |items| == 0 then Some([])
    else
      var head :- CompileInstruction(table, items[0]);
      var tail :- CompileItems(table, items[1..]);
      Some([head] + tail)
  }

  function CompileSections(table: seq<Instruction>, ss: seq<CodeSection>): (r: Option<seq<CodeSection>>)
    ensures r.Some? ==> |r.value| == |ss| && forall i :: 0 <= i < |ss| ==> r.value[i].name == ss[i].name
  {
    if |ss| == 0 then Some([])
    else
      var items :- CompileItems(table, ss[0].items);
      var tail :- CompileSections(table, ss[1..]);
      Some([ss[0].(items := items)] + tail)
  }

  /** One file: RAM items, then flash items, then code, stopping at the first error. Names are kept. */
  function CompileData(table: seq<Instruction>, d: Data): (r: Option<Data>)
    ensures r.Some? ==> r.value.fileName == d.fileName
    ensures r.Some? ==> SectionNames(r.value.sections) == SectionNames(d.sections)
    ensures r.Some? ==> FlashNames(r.value.flash) == FlashNames(d.flash) && RamNames(r.value.ram) == RamNames(d.ram)
  {
    var ram :- CompileRams(d.ram);
    var flash :- CompileFlashes(d.flash);
    var sections :- CompileSections(table, d.sections);
    Some(Data(d.fileName, sections, flash, ram))
  }

  function CompileFiles(table: seq<Instruction>, files: seq<Data>): (r: Option<seq<Data>>)
    ensures r.Some? ==> |r.value| == |files|
  {
    if |files| == 0 then Some([])
    else
      var head :- CompileData(table, files[0]);
      var tail :- CompileFiles(table, files[1..]);
      Some([head] + tail)
  }

  /** `Compiler::compile`: every file in order; the name lists are untouched. */
  function Compile(table: seq<Instruction>, dl: DataList): (r: Option<DataList>)
    ensures r.Some? ==> r.value == dl.(files := r.value.files) && |r.value.files| == |dl.files|
  {
    var files :- CompileFiles(table, dl.files);
    Some(dl.(files := files))
  }
}

=== FILE: control_word.dfy ===
/**
 * One microcode step of the XiPU control unit and its two-byte control word.
 *
 * The generator packs a step into the pair (code0, code1) and the emulator
 * unpacks the pair with its own masks; both sides number the bus lines the
 * same way, so the packing is a bijection between steps (with a 4-bit ALU
 * select) and byte pairs.
 */
module ControlWord {

  /** Line driving the main read bus (AR). */
  datatype ReadBus = ReadAbxy | ReadD | ReadIn | ReadT | ReadRam | ReadPc | ReadSp | ReadBp

  /** Line taking the main write bus (AW); some lines are actions rather than registers. */
  datatype WriteBus =
    | WriteNone | WriteAbxy | WriteD | WriteOut | WriteAluT | Rpc | WriteI | WriteRam
    | WritePc | WriteSp | WriteBp | WriteMa | PcPlus | SpPlus | SpMinus | RpcPlus

  /**
   * The secondary bus line. The same bit selects the ALU's B operand (AB or D)
   * and the half of a register pair (High shares the value of AB, Low that of D).
   */
  datatype SideBus = SideAb | SideD

  /** Line driving the 16-bit address bus (C). */
  datatype AddrBus = AddrPc | AddrMa | AddrSp | AddrXy

  const High: SideBus := SideAb
  const Low: SideBus := SideD

  /** A step as the generator describes it; `aluS` is the raw byte handed to the constructor. */
  datatype Step = Step(ar: ReadBus, aw: WriteBus, b: SideBus, c: AddrBus, aluS: bv8, aluM: bool, aluC: bool)

  /** The two control bytes of a step: bank 0 and bank 1 of the microcode ROM. */
  datatype UCode = UCode(code0: bv8, code1: bv8)

  /** The constructor's defaults: address bus PC, B line 0, ALU select 0, M and C low. */
  function Plain(ar: ReadBus, aw: WriteBus): Step {
    Step(ar, aw, SideAb, AddrPc, 0, false, false)
  }

  function PlainB(ar: ReadBus, aw: WriteBus, b: SideBus): Step {
    Step(ar, aw, b, AddrPc, 0, false, false)
  }

  function Addressed(ar: ReadBus, aw: WriteBus, c: AddrBus): Step {
    Step(ar, aw, SideAb, c, 0, false, false)
  }

  function Alu(ar: ReadBus, b: SideBus, s: bv8, m: bool, carry: bool): Step {
    Step(ar, WriteAluT, b, AddrPc, s, m, carry)
  }

  // ----- numbering shared by step.h and cpu.h -----

  function ReadBusCode(r: ReadBus): (n: bv8)
    ensures n < 8
  {
    match r
    case ReadAbxy => 0
    case ReadD => 1
    case ReadIn => 2
    case ReadT => 3
    case ReadRam => 4
    case ReadPc => 5
    case ReadSp => 6
    case ReadBp => 7
  }

  function ReadBusOf(n: bv8): (r: ReadBus)
    requires n < 8
    ensures ReadBusCode(r) == n
  {
    if n == 0 then ReadAbxy
    else if n == 1 then ReadD
    else if n == 2 then ReadIn
    else if n == 3 then ReadT
    else if n == 4 then ReadRam
    else if n == 5 then ReadPc
    else if n == 6 then ReadSp
    else ReadBp
  }

  function WriteBusCode(w: WriteBus): (n: bv8)
    ensures n < 16
  {
    match w
    case WriteNone => 0
    case WriteAbxy => 1
    case WriteD => 2
    case WriteOut => 3
    case WriteAluT => 4
    case Rpc => 5
    case WriteI => 6
    case WriteRam => 7
    case WritePc => 8
    case WriteSp => 9
    case WriteBp => 10
    case WriteMa => 11
    case PcPlus => 12
    case SpPlus => 13
    case SpMinus => 14
    case RpcPlus => 15
  }

  function WriteBusOf(n: bv8): (w: WriteBus)
    requires n < 16
    ensures WriteBusCode(w) == n
  {
    if n == 0 then WriteNone
    else if n == 1 then WriteAbxy
    else if n == 2 then WriteD
    else if n == 3 then WriteOut
    else if n == 4 then WriteAluT
    else if n == 5 then Rpc
    else if n == 6 then WriteI
    else if n == 7 then WriteRam
    else if n == 8 then WritePc
    else if n == 9 then WriteSp
    else if n == 10 then WriteBp
    else if n == 11 then WriteMa
    else if n == 12 then PcPlus
    else if n == 13 then SpPlus
    else if n == 14 then SpMinus
    else RpcPlus
  }

  function SideBusCode(b: SideBus): (n: bv8)
    ensures n < 2
  {
    match b
    case SideAb => 0
    case SideD => 1
  }

  function SideBusOf(n: bv8): (b: SideBus)
    requires n < 2
    ensures SideBusCode(b) == n
  {
    if n == 0 then SideAb else SideD
  }

  function AddrBusCode(c: AddrBus): (n: bv8)
    ensures n < 4
  {
    match c
    case AddrPc => 0
    case AddrMa => 1
    case AddrSp => 2
    case AddrXy => 3
  }

  function AddrBusOf(n: bv8): (c: AddrBus)
    requires n < 4
    ensures AddrBusCode(c) == n
  {
    if n == 0 then AddrPc
    else if n == 1 then AddrMa
    else if n == 2 then AddrSp
    else AddrXy
  }

  /** The numbering is a bijection: decoding a line's number gives the line back. */
  lemma CodesAreBijective(r: ReadBus, w: WriteBus, b: SideBus, c: AddrBus)
    ensures ReadBusOf(ReadBusCode(r)) == r
    ensures WriteBusOf(WriteBusCode(w)) == w
    ensures SideBusOf(SideBusCode(b)) == b
    ensures AddrBusOf(AddrBusCode(c)) == c
  {
  }

  // ----- packing and unpacking -----

  function BoolBit(x: bool): bv8 {
    if x then 1 else 0
  }

  /** Packs a step the way the generator's Step constructor does. */
  function Encode(st: Step): (u: UCode)
    ensures u.code0 & 0x07 == ReadBusCode(st.ar)
    ensures (u.code0 & 0x78) >> 3 == WriteBusCode(st.aw)
    ensures (u.code0 & 0x80) >> 7 == SideBusCode(st.b)
    ensures u.code1 & 0x03 == AddrBusCode(st.c)
    ensures (u.code1 & 0x3C) >> 2 == st.aluS & 0x0F
    ensures (u.code1 & 0x40 != 0) == st.aluM
    ensures (u.code1 & 0x80 != 0) == st.aluC
  {
    UCode(
      (ReadBusCode(st.ar) << 0) | (WriteBusCode(st.aw) << 3) | (SideBusCode(st.b) << 7),
      (AddrBusCode(st.c) << 0) | ((st.aluS & 0x0F) << 2) | (BoolBit(st.aluM) << 6) | (BoolBit(st.aluC) << 7))
  }

  /** Unpacks a control word with the emulator's masks and shifts. */
  function Decode(u: UCode): (st: Step)
    ensures st.aluS < 16
  {
    Step(
      ReadBusOf((u.code0 & 0x07) >> 0),
      WriteBusOf((u.code0 & 0x78) >> 3),
      SideBusOf((u.code0 & 0x80) >> 7),
      AddrBusOf((u.code1 & 0x03) >> 0),
      (u.code1 & 0x3C) >> 2,
      u.code1 & 0x40 != 0,
      u.code1 & 0x80 != 0)
  }

  /** A step's ALU select as the control word carries it: only the low four bits survive. */
  function Truncated(st: Step): Step {
    st.(aluS := st.aluS & 0x0F)
  }

  lemma DecodeEncodeFields(st: Step)
    ensures Decode(Encode(st)).ar == st.ar
    ensures Decode(Encode(st)).aw == st.aw
    ensures Decode(Encode(st)).b == st.b
    ensures Decode(Encode(st)).c == st.c
  {
    var u := Encode(st);
    CodesAreBijective(st.ar, st.aw, st.b, st.c);
    assert (u.code0 & 0x07) >> 0 == ReadBusCode(st.ar);
    assert (u.code1 & 0x03) >> 0 == AddrBusCode(st.c);
  }

  /** The emulator reads back exactly the step the generator packed, up to the 4-bit select. */
  lemma DecodeEncode(st: Step)
    ensures Decode(Encode(st)) == Truncated(st)
  {
    DecodeEncodeFields(st);
  }

  /** Every byte pair is the packing of some step: re-encoding a decoded word gives it back. */
  lemma EncodeDecode(u: UCode)
    ensures Encode(Decode(u)) == u
  {
    var st := Decode(u);
    var e := Encode(st);
    assert e.code0 == u.code0 by {
      assert e.code0 == ((u.code0 & 0x07) | (((u.code0 & 0x78) >> 3) << 3) | (((u.code0 & 0x80) >> 7) << 7));
    }
    assert e.code1 == u.code1 by {
      assert BoolBit(st.aluM) << 6 == u.code1 & 0x40;
      assert BoolBit(st.aluC) << 7 == u.code1 & 0x80;
      assert e.code1 == ((u.code1 & 0x03) | ((((u.code1 & 0x3C) >> 2) & 0x0F) << 2) | (u.code1 & 0x40) | (u.code1 & 0x80));
    }
  }

  /** Fields occupy disjoint bit ranges: two steps with equal control words agree on every field. */
  lemma EncodeInjective(s1: Step, s2: Step)
    requires Encode(s1) == Encode(s2)
    ensures Truncated(s1) == Truncated(s2)
  {
    DecodeEncode(s1);
    DecodeEncode(s2);
  }

  /** The constructor's defaults leave bank 1 at zero, and the all-zero word is the idle step. */
  lemma DefaultsAreZero(ar: ReadBus, aw: WriteBus)
    ensures Encode(Plain(ar, aw)).code1 == 0
    ensures Encode(Plain(ar, aw)).code0 & 0x80 == 0
    ensures Decode(UCode(0, 0)) == Plain(ReadAbxy, WriteNone)
  {
  }
}

=== FILE: cpu.dfy ===
/**
 * The emulator's CPU: the register file, the memory map, and the control unit
 * that reads one micro-step per clock tick from the two microcode banks and
 * drives the buses as the decoded step says.
 *
 * A micro-step is split in three: `Fetched` reads and decodes the control
 * word the step counter and the flags select, `Effect` performs one decoded
 * step on the machine, and `Tick` advances the tick counter and toggles the
 * clock input bit. `Execute` runs micro-steps until the step counter is back
 * at zero, which is one instruction; `Interval` is one timer period.
 */
module Cpu {
  import opened Wrappers
  import opened ControlWord
  import opened Alu
  import URomData

  const BiosSize: nat := 2048
  const MemorySize: nat := 65536
  /** The stack pointer's high byte is always ORed with this page. */
  const StackPage: bv8 := 0xF0
  /** Clock ticks processed in one timer period of 125 ms at 1 MHz. */
  const TicksPerInterval: nat := 125000
  /** Clock ticks between two toggles of the clock input bit. */
  const ClockTicksPerInterval: nat := 125000
  /** The clock bit of the input register. */
  const ClockBit: bv8 := 0x10
  /** Bit 7 of the instruction register selects the flag bank. */
  const BankSelect: bv8 := 0x80

  datatype Flags = Flags(c: bool, z: bool)

  /** The register file; `input` and `output` are the IN and OUT registers. */
  datatype Regs = Regs(
    a: bv8, b: bv8, x: bv8, y: bv8, d: bv8, t: bv8,
    bank0: Flags, bank1: Flags,
    i: bv8,
    pch: bv8, pcl: bv8, sph: bv8, spl: bv8, maxSp: nat,
    bpl: bv8, bph: bv8, mah: bv8, mal: bv8,
    input: bv8, output: bv8)

  /** The CPU with its memories; the microcode banks and the BIOS are loaded from outside. */
  datatype Machine = Machine(reg: Regs, ram: seq<bv8>, bios: seq<bv8>, urom0: seq<bv8>, urom1: seq<bv8>, ticks: nat) {
    predicate Valid() {
      |ram| == MemorySize && |bios| == BiosSize && |urom0| == URomData.URomSize && |urom1| == URomData.URomSize
    }
  }

  // ----- reset and the input slot -----

  /**
   * Clears RAM and every register except the base pointer, which reset leaves as it was;
   * the stack pointer starts at 0xF000. The ROMs and the BIOS are kept.
   */
  function Reset(m: Machine): (r: Machine)
    requires m.Valid()
    ensures r.Valid()
  {
    var reg := m.reg;
    Machine(
      Regs(0, 0, 0, 0, 0, 0, Flags(false, false), Flags(false, false), 0,
           0, 0, StackPage, 0, 0, reg.bpl, reg.bph, 0, 0, 0, 0),
      seq(MemorySize, _ => 0), m.bios, m.urom0, m.urom1, 0)
  }

  /** A new input byte from the I/O bus: every bit but the clock bit, and only once the CPU has ticked. */
  function InSlot(m: Machine, v: bv8): (r: Machine)
    ensures r.reg.input & ClockBit == m.reg.input & ClockBit
    ensures m.ticks > 0 ==> r.reg.input & !ClockBit == v & !ClockBit
    ensures m.ticks == 0 ==> r == m
    ensures r.(reg := r.reg.(input := m.reg.input)) == m
  {
    if m.ticks > 0 then m.(reg := m.reg.(input := (m.reg.input & ClockBit) | (v & !ClockBit))) else m
  }

  // ----- registers and memory -----

  /** A 16-bit value from its high and low bytes. */
  function Word(hi: bv8, lo: bv8): (w: nat)
    ensures w < MemorySize
  {
    hi as nat * 256 + lo as nat
  }

  function Pc(reg: Regs): nat {
    Word(reg.pch, reg.pcl)
  }

  function Sp(reg: Regs): nat {
    Word(reg.sph, reg.spl)
  }

  /** PC plus one on the PCH:PCL pair: PCL wraps and carries into PCH, and 0xFFFF wraps to 0x0000. */
  function PcPlusOne(reg: Regs): (r: Regs)
    ensures r.(pch := reg.pch, pcl := reg.pcl) == reg
  {
    reg.(pcl := reg.pcl + 1, pch := if reg.pcl == 0xFF then reg.pch + 1 else reg.pch)
  }

  /** The 16-bit address the step's address-bus selection puts on the memory. */
  function Address(reg: Regs, c: AddrBus): (p: nat)
    ensures p < MemorySize
  {
    match c
    case AddrPc => Pc(reg)
    case AddrMa => Word(reg.mah, reg.mal)
    case AddrSp => Sp(reg)
    case AddrXy => Word(reg.y, reg.x)
  }

  /** A read below 0x0800 comes from the BIOS, any other from RAM. */
  function Load(m: Machine, p: nat): bv8
    requires m.Valid() && p < MemorySize
  {
    if p < BiosSize then m.bios[p] else m.ram[p]
  }

  /** A write below 0x0800 is ignored: the BIOS is read-only. */
  function Store(m: Machine, p: nat, v: bv8): (r: Machine)
    requires m.Valid() && p < MemorySize
    ensures r.Valid()
  {
    if p >= BiosSize then m.(ram := m.ram[p := v]) else m
  }

  /** One of A, B, X, Y by its two-bit number. */
  function Register(reg: Regs, n: bv8): bv8 {
    if n & 3 == 0 then reg.a else if n & 3 == 1 then reg.b else if n & 3 == 2 then reg.x else reg.y
  }

  function WithRegister(reg: Regs, n: bv8, v: bv8): (r: Regs)
    ensures Register(r, n) == v
    ensures r.(a := reg.a, b := reg.b, x := reg.x, y := reg.y) == reg
  {
    if n & 3 == 0 then reg.(a := v) else if n & 3 == 1 then reg.(b := v) else if n & 3 == 2 then reg.(x := v) else reg.(y := v)
  }

  /** The flag bank bit 7 of I selects. */
  function Selected(reg: Regs): Flags {
    if reg.i & BankSelect != 0 then reg.bank1 else reg.bank0
  }

  function WithSelected(reg: Regs, f: Flags): (r: Regs)
    ensures Selected(r) == f
    ensures r.(bank0 := reg.bank0, bank1 := reg.bank1) == reg
  {
    var high := reg.i & BankSelect != 0;
    reg.(bank1 := if high then f else reg.bank1, bank0 := if high then reg.bank0 else f)
  }

  function BitOf(b: bool): nat {
    if b then 1 else 0
  }

  // ----- the control unit -----

  /** The microcode address: opcode in bits 0-7, step counter in 8-11, C in 12, Z in 13. */
  function URomAddress(reg: Regs, cycle: bv8): (p: nat)
    ensures p < URomData.URomSize
    ensures p == URomData.EntryAddress(reg.i as nat, (cycle & 0x0F) as nat, BitOf(Selected(reg).c), BitOf(Selected(reg).z))
  {
    reg.i as nat + (cycle & 0x0F) as nat * 256 + BitOf(Selected(reg).c) * 4096 + BitOf(Selected(reg).z) * 8192
  }

  /** The decoded control word for this step counter value and the current flags. */
  function Fetched(m: Machine, cycle: bv8): Step
    requires m.Valid()
  {
    var p := URomAddress(m.reg, cycle);
    Decode(UCode(m.urom0[p], m.urom1[p]))
  }

  /** The value on the main read bus; ABXY takes the second operand field when it is also the write target. */
  function BusValue(m: Machine, st: Step): bv8
    requires m.Valid()
  {
    var reg := m.reg;
    match st.ar
    case ReadAbxy => Register(reg, if st.aw == WriteAbxy then (reg.i & 0x0C) >> 2 else reg.i & 0x03)
    case ReadD => reg.d
    case ReadIn => reg.input
    case ReadT => reg.t
    case ReadRam => Load(m, Address(reg, st.c))
    case ReadPc => if st.b == Low then reg.pcl else reg.pch
    case ReadSp => if st.b == Low then reg.spl else reg.sph
    case ReadBp => if st.b == Low then reg.bpl else reg.bph
  }

  /** The value on the side bus: A or B by bit 2 of I, or D. */
  function SideValue(reg: Regs, st: Step): bv8 {
    if st.b == SideAb then (if (reg.i & 0x04) >> 2 == 0 then reg.a else reg.b) else reg.d
  }

  /** What one decoded step did: the machine after it, the byte it sent to OUT, and whether it ended the instruction. */
  datatype Moved = Moved(m: Machine, emitted: Option<bv8>, ends: bool)

  /** One decoded step, before the tick. */
  function Effect(m: Machine, st: Step): (r: Moved)
    requires m.Valid()
    ensures r.m.Valid()
  {
    var v := BusValue(m, st);
    Apply(m, st, v, Address(m.reg, st.c), AluByte(v, SideValue(m.reg, st), (st.aluS & 0x0F) as bv4, st.aluM, st.aluC))
  }

  /**
   * The write side of a step, given the value on the read bus, the address on the address bus
   * and the ALU's outputs for the two operand buses.
   */
  function Apply(m: Machine, st: Step, v: bv8, addr: nat, alu: ByteOut): (r: Moved)
    requires m.Valid() && addr < MemorySize
    ensures r.m.Valid()
  {
    var reg := m.reg;
    match st.aw
    case WriteNone => Moved(m, None, false)
    case WriteAbxy => Moved(m.(reg := WithRegister(reg, reg.i & 0x03, v)), None, false)
    case WriteD => Moved(m.(reg := reg.(d := v)), None, false)
    case WriteOut => Moved(m.(reg := reg.(output := v)), Some(v), false)
    case WriteAluT => Moved(m.(reg := WithSelected(reg.(t := alu.t), Flags(alu.carry, alu.zero))), None, false)
    case Rpc => Moved(m, None, true)
    case WriteI => Moved(m.(reg := reg.(i := v)), None, false)
    case WriteRam => Moved(Store(m, addr, v), None, false)
    case WritePc => Moved(m.(reg := reg.(pcl := if st.b == Low then v else reg.pcl, pch := if st.b == Low then reg.pch else v)), None, false)
    case WriteSp => Moved(m.(reg := reg.(spl := if st.b == Low then v else reg.spl, sph := if st.b == Low then reg.sph else StackPage | v)), None, false)
    case WriteBp => Moved(m.(reg := reg.(bpl := if st.b == Low then v else reg.bpl, bph := if st.b == Low then reg.bph else v)), None, false)
    case WriteMa => Moved(m.(reg := reg.(mal := if st.b == Low then v else reg.mal, mah := if st.b == Low then reg.mah else v)), None, false)
    case PcPlus => Moved(m.(reg := PcPlusOne(reg)), None, false)
    case SpPlus =>
      var spl := reg.spl + 1;
      var top := Word(reg.sph, spl);
      Moved(m.(reg := reg.(spl := spl, maxSp := if reg.maxSp < top then top else reg.maxSp)), None, false)
    case SpMinus => Moved(m.(reg := reg.(spl := reg.spl - 1)), None, false)
    case RpcPlus => Moved(m.(reg := PcPlusOne(reg)), None, true)
  }

  /** A step's effect reads only the low four bits of the ALU select field, the bits the banks keep. */
  lemma EffectTruncated(m: Machine, st: Step)
    requires m.Valid()
    ensures Effect(m, Truncated(st)) == Effect(m, st)
  {
    var tr := Truncated(st);
    assert (tr.aluS & 0x0F) as bv4 == (st.aluS & 0x0F) as bv4;
    assert BusValue(m, tr) == BusValue(m, st);
    assert SideValue(m.reg, tr) == SideValue(m.reg, st);
    var v := BusValue(m, st);
    ApplyReadsFields(m, tr, st, v, Address(m.reg, st.c), AluByte(v, SideValue(m.reg, st), (st.aluS & 0x0F) as bv4, st.aluM, st.aluC));
  }

  /** Performing a decoded control word is performing the step it was packed from. */
  lemma PerformTruncated(m: Machine, st: Step, cycle: bv8)
    requires m.Valid()
    ensures Perform(m, Truncated(st), cycle) == Perform(m, st, cycle)
  {
    EffectTruncated(m, st);
  }

  /** The write side looks only at the step's write target and side-bus line. */
  lemma ApplyReadsFields(m: Machine, st: Step, st': Step, v: bv8, addr: nat, alu: ByteOut)
    requires m.Valid() && addr < MemorySize && st.aw == st'.aw && st.b == st'.b
    ensures Apply(m, st, v, addr, alu) == Apply(m, st', v, addr, alu)
  {
  }

  /** A step never writes the ROMs or the BIOS and takes no tick of its own. */
  lemma EffectFrame(m: Machine, st: Step)
    requires m.Valid()
    ensures Effect(m, st).m.bios == m.bios && Effect(m, st).m.urom0 == m.urom0 && Effect(m, st).m.urom1 == m.urom1
    ensures Effect(m, st).m.ticks == m.ticks
  {
    var v := BusValue(m, st);
    ApplyFrame(m, st, v, Address(m.reg, st.c), AluByte(v, SideValue(m.reg, st), (st.aluS & 0x0F) as bv4, st.aluM, st.aluC));
  }

  lemma ApplyFrame(m: Machine, st: Step, v: bv8, addr: nat, alu: ByteOut)
    requires m.Valid() && addr < MemorySize
    ensures Apply(m, st, v, addr, alu).m.bios == m.bios && Apply(m, st, v, addr, alu).m.urom0 == m.urom0
    ensures Apply(m, st, v, addr, alu).m.urom1 == m.urom1 && Apply(m, st, v, addr, alu).m.ticks == m.ticks
  {
  }

  /** One clock tick: the counter advances and every 125000th tick toggles the clock input bit. */
  function Tick(m: Machine): (r: Machine)
    ensures r.ticks == m.ticks + 1
    ensures r.reg.input == if r.ticks % ClockTicksPerInterval == 0 then m.reg.input ^ ClockBit else m.reg.input
    ensures r.(ticks := m.ticks, reg := r.reg.(input := m.reg.input)) == m
  {
    var ticks := m.ticks + 1;
    m.(ticks := ticks, reg := m.reg.(input := if ticks % ClockTicksPerInterval == 0 then m.reg.input ^ ClockBit else m.reg.input))
  }

  /** The machine after one micro-step, the next step counter value and the byte sent to OUT, if any. */
  datatype Stepped = Stepped(m: Machine, cycle: bv8, emitted: Option<bv8>)

  /** A decoded step followed by the tick, whatever the step counter says. */
  function Ticked(m: Machine, st: Step): (r: Moved)
    requires m.Valid()
    ensures r.m.Valid()
    ensures r.m.ticks == m.ticks + 1
  {
    EffectFrame(m, st);
    var moved := Effect(m, st);
    Moved(Tick(moved.m), moved.emitted, moved.ends)
  }

  /** A decoded step followed by the tick: the step counter advances, or restarts at zero when the step ends the instruction. */
  function Perform(m: Machine, st: Step, cycle: bv8): (r: Stepped)
    requires m.Valid()
    ensures r.m.Valid()
    ensures r.m.ticks == m.ticks + 1
    ensures r.cycle == 0 || r.cycle as int == cycle as int + 1
  {
    var t := Ticked(m, st);
    Stepped(t.m, if t.ends then 0 else cycle + 1, t.emitted)
  }

  /** One micro-step: the step the banks hold for this counter value and these flags, performed. */
  function MicroStep(m: Machine, cycle: bv8): (r: Stepped)
    requires m.Valid()
  {
    Perform(m, Fetched(m, cycle), cycle)
  }

  /** The outcome of several micro-steps: the machine, the bytes sent to OUT in order, and the ticks taken. */
  datatype Run = Run(m: Machine, emitted: seq<bv8>, ticks: nat)

  function Emitted(e: Option<bv8>): seq<bv8> {
    if e.Some? then [e.value] else []
  }

  /**
   * One instruction: micro-steps from `cycle` until the step counter is zero again. The eight-bit
   * counter wraps, so an instruction that never restarts it still ends after 256 micro-steps.
   */
  function Execute(m: Machine, cycle: bv8): (r: Run)
    requires m.Valid()
    ensures r.m.Valid()
    ensures 1 <= r.ticks <= 256 - cycle as nat
    ensures r.m.ticks == m.ticks + r.ticks
    decreases 256 - cycle as nat
  {
    var s := MicroStep(m, cycle);
    if s.cycle == 0 then Run(s.m, Emitted(s.emitted), 1)
    else
      var rest := Execute(s.m, s.cycle);
      Run(rest.m, Emitted(s.emitted) + rest.emitted, 1 + rest.ticks)
  }

  /** One timer period: whole instructions until 125000 ticks have passed, or one instruction in step mode. */
  function Interval(m: Machine, tick: nat, stepMode: bool): (r: Run)
    requires m.Valid()
    ensures r.m.Valid()
    ensures r.m.ticks == m.ticks + r.ticks
    ensures tick < TicksPerInterval && !stepMode ==> tick + r.ticks >= TicksPerInterval
    decreases TicksPerInterval - tick, 1
  {
    if tick >= TicksPerInterval then Run(m, [], 0)
    else
      var ins := Execute(m, 0);
      if stepMode then ins else Continue(ins, tick)
  }

  /** The period's tick count after an instruction of `ticks` ticks that started at `tick`. */
  function TickAfter(tick: nat, ticks: nat): nat {
    tick + ticks
  }

  /** The rest of a period whose instruction `ins` started at `tick`: the instructions after it, appended. */
  function Continue(ins: Run, tick: nat): (r: Run)
    requires ins.m.Valid() && 1 <= ins.ticks && tick < TicksPerInterval
    ensures r.m.Valid()
    ensures r.m.ticks + ins.ticks == ins.m.ticks + r.ticks
    ensures tick + r.ticks >= TicksPerInterval
    decreases TicksPerInterval - tick, 0
  {
    var rest := Interval(ins.m, TickAfter(tick, ins.ticks), false);
    Run(rest.m, ins.emitted + rest.emitted, ins.ticks + rest.ticks)
  }

  /** Helper: a period that has not yet run out is its instruction, then the rest of it unless in step mode. */
  lemma IntervalUnfolds(m: Machine, tick: nat, stepMode: bool)
    requires m.Valid() && tick < TicksPerInterval
    ensures var ins := Execute(m, 0);
      Interval(m, tick, stepMode) == if stepMode then ins else Continue(ins, tick)
  {
  }

  /** Helper: the rest of a period, unfolded once. */
  lemma ContinueUnfolds(ins: Run, tick: nat)
    requires ins.m.Valid() && 1 <= ins.ticks && tick < TicksPerInterval
    ensures var rest := Interval(ins.m, TickAfter(tick, ins.ticks), false);
      Continue(ins, tick) == Run(rest.m, ins.emitted + rest.emitted, ins.ticks + rest.ticks)
  {
  }

  // ----- properties of a step -----

  /** PC+1 and RPC+1 advance PC and change nothing else; RPC+1 also ends the instruction. */
  lemma EffectAdvance(m: Machine, st: Step)
    requires m.Valid() && (st.aw == PcPlus || st.aw == RpcPlus)
    ensures Effect(m, st) == Moved(m.(reg := PcPlusOne(m.reg)), None, st.aw == RpcPlus)
  {
  }

  /** RPC ends the instruction and changes nothing. */
  lemma EffectRestart(m: Machine, st: Step)
    requires m.Valid() && st.aw == Rpc
    ensures Effect(m, st) == Moved(m, None, true)
  {
  }

  /** A write to D latches the read bus: the byte under the address bus for a RAM read, D itself for a D read. */
  lemma EffectLoadD(m: Machine, st: Step)
    requires m.Valid() && st.aw == WriteD && (st.ar == ReadRam || st.ar == ReadD)
    ensures Effect(m, st) == Moved(m.(reg := m.reg.(d := if st.ar == ReadRam then Load(m, Address(m.reg, st.c)) else m.reg.d)), None, false)
  {
  }

  /** A write to PC latches the read bus into the byte the side line selects. */
  lemma EffectLoadPc(m: Machine, st: Step)
    requires m.Valid() && st.aw == WritePc && (st.ar == ReadRam || st.ar == ReadD)
    ensures var v := if st.ar == ReadRam then Load(m, Address(m.reg, st.c)) else m.reg.d;
      Effect(m, st) == Moved(m.(reg := if st.b == Low then m.reg.(pcl := v) else m.reg.(pch := v)), None, false)
  {
  }

  /** A write to I latches the read bus; the fetch step reads the byte under PC. */
  lemma EffectLoadI(m: Machine, st: Step)
    requires m.Valid() && st.aw == WriteI && st.ar == ReadRam
    ensures Effect(m, st) == Moved(m.(reg := m.reg.(i := Load(m, Address(m.reg, st.c)))), None, false)
  {
  }

  /** The 16-bit increment: PCH:PCL plus one, 0xFFFF wrapping to 0x0000. */
  lemma PcPlusOneAdvances(reg: Regs)
    ensures Pc(PcPlusOne(reg)) == (Pc(reg) + 1) % MemorySize
  {
    WordSucc(reg.pch, reg.pcl);
  }

  /** Adding one to the low byte, carrying into the high byte, is the 16-bit successor modulo 65536. */
  lemma WordSucc(hi: bv8, lo: bv8)
    ensures Word(if lo == 0xFF then hi + 1 else hi, lo + 1) == (Word(hi, lo) + 1) % MemorySize
  {
    if lo != 0xFF {
      WordSuccLow(hi, lo);
    } else if hi != 0xFF {
      WordSuccCarry(hi, lo);
    } else {
      WordSuccTop(hi, lo);
    }
  }

  lemma WordSuccLow(hi: bv8, lo: bv8)
    requires lo != 0xFF
    ensures Word(hi, lo + 1) == (Word(hi, lo) + 1) % MemorySize
  {
    ByteSucc(lo);
    SmallMod(Word(hi, lo) + 1);
  }

  lemma WordSuccCarry(hi: bv8, lo: bv8)
    requires hi != 0xFF && lo == 0xFF
    ensures Word(hi + 1, lo + 1) == (Word(hi, lo) + 1) % MemorySize
  {
    ByteSucc(hi);
    SmallMod(Word(hi, lo) + 1);
  }

  lemma WordSuccTop(hi: bv8, lo: bv8)
    requires hi == 0xFF && lo == 0xFF
    ensures Word(hi + 1, lo + 1) == (Word(hi, lo) + 1) % MemorySize
  {
  }

  lemma SmallMod(n: nat)
    requires n < MemorySize
    ensures n % MemorySize == n
  {
  }

  lemma ByteSucc(x: bv8)
    requires x != 0xFF
    ensures (x + 1) as nat == x as nat + 1
  {
  }

  /** A read after a write sees the written byte at a RAM address and the old contents everywhere else. */
  lemma LoadAfterStore(m: Machine, p: nat, v: bv8, q: nat)
    requires m.Valid() && p < MemorySize && q < MemorySize
    ensures Load(Store(m, p, v), q) == if q == p && p >= BiosSize then v else Load(m, q)
  {
  }

  /** Only RPC and RPC+1 end an instruction, and only OUT sends a byte, the value it latched. */
  lemma EffectSequencing(m: Machine, st: Step)
    requires m.Valid()
    ensures Effect(m, st).ends <==> st.aw == Rpc || st.aw == RpcPlus
    ensures Effect(m, st).emitted.Some? <==> st.aw == WriteOut
    ensures Effect(m, st).emitted.Some? ==> Effect(m, st).emitted.value == Effect(m, st).m.reg.output
  {
    ApplySequencing(m, st, BusValue(m, st), Address(m.reg, st.c), AluByte(BusValue(m, st), SideValue(m.reg, st), (st.aluS & 0x0F) as bv4, st.aluM, st.aluC));
  }

  lemma ApplySequencing(m: Machine, st: Step, v: bv8, addr: nat, alu: ByteOut)
    requires m.Valid() && addr < MemorySize
    ensures Apply(m, st, v, addr, alu).ends <==> st.aw == Rpc || st.aw == RpcPlus
    ensures Apply(m, st, v, addr, alu).emitted.Some? <==> st.aw == WriteOut
    ensures Apply(m, st, v, addr, alu).emitted.Some? ==> Apply(m, st, v, addr, alu).emitted.value == Apply(m, st, v, addr, alu).m.reg.output
  {
  }

  /** Only a write to I changes the opcode, and only ALU_T changes a flag. */
  lemma EffectKeepsControl(m: Machine, st: Step)
    requires m.Valid()
    ensures st.aw != WriteI ==> Effect(m, st).m.reg.i == m.reg.i
    ensures st.aw != WriteAluT ==> Effect(m, st).m.reg.bank0 == m.reg.bank0 && Effect(m, st).m.reg.bank1 == m.reg.bank1
  {
    ApplyKeepsControl(m, st, BusValue(m, st), Address(m.reg, st.c), AluByte(BusValue(m, st), SideValue(m.reg, st), (st.aluS & 0x0F) as bv4, st.aluM, st.aluC));
  }

  lemma ApplyKeepsControl(m: Machine, st: Step, v: bv8, addr: nat, alu: ByteOut)
    requires m.Valid() && addr < MemorySize
    ensures st.aw != WriteI ==> Apply(m, st, v, addr, alu).m.reg.i == m.reg.i
    ensures st.aw != WriteAluT ==> Apply(m, st, v, addr, alu).m.reg.bank0 == m.reg.bank0 && Apply(m, st, v, addr, alu).m.reg.bank1 == m.reg.bank1
  {
  }

  /**
   * ALU_T writes T and only the flag bank bit 7 of I selects: Z is set exactly when the result is
   * all ones (the A=B output of the two 74181 slices).
   */
  lemma AluStepFlags(m: Machine, st: Step)
    requires m.Valid() && st.aw == WriteAluT
    ensures var r := Effect(m, st).m.reg;
      (Selected(r).z <==> r.t == 0xFF)
      && (if m.reg.i & BankSelect != 0 then r.bank0 == m.reg.bank0 else r.bank1 == m.reg.bank1)
      && r.i == m.reg.i
  {
    var v := BusValue(m, st);
    var out := AluByte(v, SideValue(m.reg, st), (st.aluS & 0x0F) as bv4, st.aluM, st.aluC);
    AluZeroIsAllOnes(v, SideValue(m.reg, st), (st.aluS & 0x0F) as bv4, st.aluM, st.aluC);
    ApplyAluFlags(m, st, v, Address(m.reg, st.c), out);
  }

  lemma AluZeroIsAllOnes(a: bv8, b: bv8, s: bv4, mode: bool, c: bool)
    ensures AluByte(a, b, s, mode, c).zero <==> AluByte(a, b, s, mode, c).t == 0xFF
  {
    AluByteMatchesReference(a, b, s, mode, c);
  }

  lemma ApplyAluFlags(m: Machine, st: Step, v: bv8, addr: nat, alu: ByteOut)
    requires m.Valid() && addr < MemorySize && st.aw == WriteAluT
    ensures var r := Apply(m, st, v, addr, alu).m.reg;
      Selected(r) == Flags(alu.carry, alu.zero) && r.t == alu.t
      && (if m.reg.i & BankSelect != 0 then r.bank0 == m.reg.bank0 else r.bank1 == m.reg.bank1)
      && r.i == m.reg.i
  {
  }

  // ----- the stack page -----

  /** SPH always has its high nibble set, so the stack stays within 0xF000-0xFFFF. */
  predicate StackInPage(reg: Regs) {
    reg.sph & StackPage == StackPage
  }

  lemma StackAddress(reg: Regs)
    requires StackInPage(reg)
    ensures Sp(reg) >= 0xF000
  {
  }

  /** Reset puts SP at 0xF000 and clears the flags, PC and RAM; BP keeps its value. */
  lemma ResetState(m: Machine)
    requires m.Valid()
    ensures StackInPage(Reset(m).reg) && Sp(Reset(m).reg) == 0xF000
    ensures Pc(Reset(m).reg) == 0 && Reset(m).reg.bank0 == Flags(false, false) && Reset(m).reg.bank1 == Flags(false, false)
    ensures Reset(m).reg.bpl == m.reg.bpl && Reset(m).reg.bph == m.reg.bph
    ensures forall k :: 0 <= k < MemorySize ==> Reset(m).ram[k] == 0
  {
  }

  /** No step moves SP out of its page: writes to SPH are ORed with 0xF0 and SP+1, SP-1 only change SPL. */
  lemma EffectKeepsStack(m: Machine, st: Step)
    requires m.Valid() && StackInPage(m.reg)
    ensures StackInPage(Effect(m, st).m.reg)
    ensures st.aw == SpPlus || st.aw == SpMinus ==> Effect(m, st).m.reg.sph == m.reg.sph
  {
    ApplyKeepsStack(m, st, BusValue(m, st), Address(m.reg, st.c), AluByte(BusValue(m, st), SideValue(m.reg, st), (st.aluS & 0x0F) as bv4, st.aluM, st.aluC));
  }

  lemma ApplyKeepsStack(m: Machine, st: Step, v: bv8, addr: nat, alu: ByteOut)
    requires m.Valid() && addr < MemorySize && StackInPage(m.reg)
    ensures StackInPage(Apply(m, st, v, addr, alu).m.reg)
    ensures st.aw == SpPlus || st.aw == SpMinus ==> Apply(m, st, v, addr, alu).m.reg.sph == m.reg.sph
  {
    ApplySph(m, st, v, addr, alu);
    PageKept(v);
  }

  /** Only a write of the high byte of SP changes SPH, and it stores the value with the page bits set. */
  lemma ApplySph(m: Machine, st: Step, v: bv8, addr: nat, alu: ByteOut)
    requires m.Valid() && addr < MemorySize
    ensures Apply(m, st, v, addr, alu).m.reg.sph == if st.aw == WriteSp && st.b != Low then StackPage | v else m.reg.sph
  {
    var r := Apply(m, st, v, addr, alu).m.reg;
    match st.aw
    case WriteRam =>
      assert r == m.reg;
    case _ =>
  }

  lemma PageKept(v: bv8)
    ensures (StackPage | v) & StackPage == StackPage
  {
  }

  lemma {:induction false} ExecuteKeepsStack(m: Machine, cycle: bv8)
    requires m.Valid() && StackInPage(m.reg)
    ensures StackInPage(Execute(m, cycle).m.reg)
    decreases 256 - cycle as nat
  {
    var s := MicroStep(m, cycle);
    EffectKeepsStack(m, Fetched(m, cycle));
    if s.cycle != 0 {
      ExecuteKeepsStack(s.m, s.cycle);
    }
  }

  /** Whatever the microcode, the BIOS and RAM below 0x0800 are never written. */
  lemma {:induction false} ExecuteKeepsBios(m: Machine, cycle: bv8)
    requires m.Valid()
    ensures Execute(m, cycle).m.bios == m.bios
    ensures forall k :: 0 <= k < BiosSize ==> Execute(m, cycle).m.ram[k] == m.ram[k]
    ensures Execute(m, cycle).m.urom0 == m.urom0 && Execute(m, cycle).m.urom1 == m.urom1
    decreases 256 - cycle as nat
  {
    var s := MicroStep(m, cycle);
    EffectFrame(m, Fetched(m, cycle));
    EffectKeepsLowRam(m, Fetched(m, cycle));
    if s.cycle != 0 {
      ExecuteKeepsBios(s.m, s.cycle);
    }
  }

  lemma EffectKeepsLowRam(m: Machine, st: Step)
    requires m.Valid()
    ensures forall k :: 0 <= k < BiosSize ==> Effect(m, st).m.ram[k] == m.ram[k]
  {
    ApplyKeepsLowRam(m, st, BusValue(m, st), Address(m.reg, st.c), AluByte(BusValue(m, st), SideValue(m.reg, st), (st.aluS & 0x0F) as bv4, st.aluM, st.aluC));
  }

  lemma ApplyKeepsLowRam(m: Machine, st: Step, v: bv8, addr: nat, alu: ByteOut)
    requires m.Valid() && addr < MemorySize
    ensures forall k :: 0 <= k < BiosSize ==> Apply(m, st, v, addr, alu).m.ram[k] == m.ram[k]
  {
  }
}

=== FILE: emulator.dfy ===
/*
 * The emulator's wiring of the CPU to the I/O board (tools/emu/src/emu.cpp:55-56).
 *
 * Both objects live on the emulator's one thread, so the two connections are
 * direct calls. A byte the CPU writes to OUT (cpu.cpp:506-511) is served by the
 * board inside that micro-step (io.cpp:682-804). When the byte carries the strobe
 * bit, the board offers its IN byte back through `CPU::inSlot` (cpu.cpp:283-289)
 * before the micro-step's tick (cpu.cpp:619-624), so the very next micro-step
 * already reads the answer.
 *
 * The file system and the clock the board calls into are a `Host` per served
 * request, numbered by how many strobed requests the board has served.
 */
module Emulator {
  import Cpu
  import IoBoard
  import Nibble

  /** The CPU, the board, and the number of strobed requests the board has served. */
  datatype System = System(cpu: Cpu.Machine, board: IoBoard.Board, served: nat)

  predicate Valid(s: System) {
    s.cpu.Valid() && IoBoard.Valid(s.board)
  }

  predicate Strobed(out: bv8) {
    out & Nibble.StrobeBit != 0
  }

  /** No byte of the list carries the strobe bit, so the board answers none of them. */
  predicate Unstrobed(bytes: seq<bv8>) {
    |bytes| == 0 || (!Strobed(bytes[0]) && Unstrobed(bytes[1..]))
  }

  /** The CPU after the board's answer and the board's outcome. */
  datatype Reply = Reply(cpu: Cpu.Machine, outcome: IoBoard.Outcome)

  /**
   * `IO::outSlot` followed by `CPU::inSlot`: the board serves the byte, and after a
   * strobed request the CPU takes the board's IN byte, all but the clock bit.
   */
  function ServeOut(m: Cpu.Machine, b: IoBoard.Board, out: bv8, host: IoBoard.Host): (r: Reply)
    requires IoBoard.Valid(b)
    ensures IoBoard.Valid(r.outcome.board)
    ensures !Strobed(out) ==> r == Reply(m, IoBoard.Outcome(b, IoBoard.NoEffect))
    ensures Strobed(out) ==> r.outcome.board.port & Nibble.CompleteBit != b.port & Nibble.CompleteBit
    ensures r.cpu.reg.input & Cpu.ClockBit == m.reg.input & Cpu.ClockBit
    ensures Strobed(out) && m.ticks > 0 ==> r.cpu.reg.input & !Cpu.ClockBit == r.outcome.board.port & !Cpu.ClockBit
    ensures r.cpu.(reg := r.cpu.reg.(input := m.reg.input)) == m
  {
    IoBoard.StepKeeps(b, out, host);
    var o := IoBoard.Step(b, out, host);
    if Strobed(out) then Reply(Cpu.InSlot(m, o.board.port), o) else Reply(m, o)
  }

  /** The wired machine after one micro-step, the next step counter value and the board's effects. */
  datatype Stepped = Stepped(s: System, cycle: bv8, effects: seq<IoBoard.Effect>)

  /**
   * The board's side of a micro-step, then the tick: `moved` is the CPU's step
   * before its tick, and a byte it wrote to OUT is served in between.
   */
  function Wire(moved: Cpu.Moved, s: System, cycle: bv8, host: nat -> IoBoard.Host): (r: Stepped)
    requires moved.m.Valid() && IoBoard.Valid(s.board)
    ensures Valid(r.s)
    ensures r.s.cpu.ticks == moved.m.ticks + 1
    ensures r.s.served == s.served + |r.effects| && |r.effects| <= 1
    ensures r.cycle == if moved.ends then 0 else cycle + 1
  {
    var next: bv8 := if moved.ends then 0 else cycle + 1;
    if moved.emitted.None? then
      Stepped(System(Cpu.Tick(moved.m), s.board, s.served), next, [])
    else
      var out := moved.emitted.value;
      var r := ServeOut(moved.m, s.board, out, host(s.served));
      if Strobed(out) then
        Stepped(System(Cpu.Tick(r.cpu), r.outcome.board, s.served + 1), next, [r.outcome.effect])
      else
        Stepped(System(Cpu.Tick(r.cpu), r.outcome.board, s.served), next, [])
  }

  /**
   * A wired micro-step `st` follows the CPU's: the same next step counter, and when the CPU
   * sends no strobed byte, the CPU's machine with the board and its count untouched.
   */
  predicate Follows(s: System, cycle: bv8, st: Stepped)
    requires s.cpu.Valid()
  {
    var c := Cpu.MicroStep(s.cpu, cycle);
    && st.cycle == c.cycle
    && (c.emitted.None? || !Strobed(c.emitted.value) ==> st.s == System(c.m, s.board, s.served) && st.effects == [])
  }

  /**
   * One micro-step of the wired machine: the CPU's step, the board's service of a byte written
   * to OUT, then the tick. It is the CPU's micro-step apart from IN's bits; when the step sends
   * no strobed byte it is exactly the CPU's micro-step and the board is untouched.
   */
  function MicroStep(s: System, cycle: bv8, host: nat -> IoBoard.Host): (r: Stepped)
    requires Valid(s)
    ensures Valid(r.s)
    ensures r.s.cpu.ticks == s.cpu.ticks + 1
    ensures r.s.served == s.served + |r.effects| && |r.effects| <= 1
    ensures var c := Cpu.MicroStep(s.cpu, cycle); r.s.cpu.(reg := r.s.cpu.reg.(input := c.m.reg.input)) == c.m
    ensures Follows(s, cycle, r)
  {
    Split(s.cpu, cycle);
    var moved := Cpu.Effect(s.cpu, Cpu.Fetched(s.cpu, cycle));
    WireAgrees(moved, s, cycle, host);
    Wire(moved, s, cycle, host)
  }

  /** The outcome of several micro-steps: the wired machine, the board's effects in order, and the ticks taken. */
  datatype Run = Run(s: System, effects: seq<IoBoard.Effect>, ticks: nat)

  /**
   * One instruction of the wired machine: micro-steps from `cycle` until the step counter is
   * zero again. An instruction that sends no strobed byte is the CPU's instruction, with the
   * board untouched.
   */
  function Execute(s: System, cycle: bv8, host: nat -> IoBoard.Host): (r: Run)
    requires Valid(s)
    ensures Valid(r.s)
    ensures 1 <= r.ticks
    ensures r.s.cpu.ticks == s.cpu.ticks + r.ticks
    ensures r.s.served == s.served + |r.effects|
    ensures var c := Cpu.Execute(s.cpu, cycle);
      Unstrobed(c.emitted) ==> r == Run(System(c.m, s.board, s.served), [], c.ticks)
    decreases 256 - cycle as nat
  {
    var st := MicroStep(s, cycle, host);
    var quiet := Unstrobed(Cpu.Execute(s.cpu, cycle).emitted);
    if st.cycle == 0 then
      var r := Run(st.s, st.effects, 1);
      if quiet then LastStepAgrees(s, cycle, st); r else r
    else
      var rest := Execute(st.s, st.cycle, host);
      var r := Run(rest.s, st.effects + rest.effects, 1 + rest.ticks);
      if quiet then NextStepAgrees(s, cycle, st, rest); r else r
  }

  /**
   * One timer period of the wired machine: whole instructions until 125000 ticks have passed,
   * or one in step mode. A period that sends no strobed byte is the CPU's period, with the
   * board untouched.
   */
  function Interval(s: System, tick: nat, stepMode: bool, host: nat -> IoBoard.Host): (r: Run)
    requires Valid(s)
    ensures Valid(r.s)
    ensures r.s.cpu.ticks == s.cpu.ticks + r.ticks
    ensures r.s.served == s.served + |r.effects|
    ensures tick < Cpu.TicksPerInterval && !stepMode ==> tick + r.ticks >= Cpu.TicksPerInterval
    ensures var c := Cpu.Interval(s.cpu, tick, stepMode);
      Unstrobed(c.emitted) ==> r == Run(System(c.m, s.board, s.served), [], c.ticks)
    decreases Cpu.TicksPerInterval - tick, 3
  {
    if tick >= Cpu.TicksPerInterval then Run(s, [], 0)
    else
      var ins := Execute(s, 0, host);
      if stepMode then
        if Unstrobed(Cpu.Interval(s.cpu, tick, true).emitted) then StepAgrees(s, tick, host); ins else ins
      else
        if Unstrobed(Cpu.Interval(s.cpu, tick, false).emitted) then PeriodAgrees(s, tick, host); Continue(ins, tick, host)
        else Continue(ins, tick, host)
  }

  /**
   * The rest of a wired period whose instruction `ins` started at `tick`: the instructions
   * after it, appended. After an instruction `c` of the CPU alone that had no effects, the
   * rest is the CPU's rest of the period when that sends no strobed byte.
   */
  function Continue(ins: Run, tick: nat, host: nat -> IoBoard.Host): (r: Run)
    requires Valid(ins.s) && 1 <= ins.ticks && tick < Cpu.TicksPerInterval
    ensures Valid(r.s)
    ensures r.s.cpu.ticks + ins.ticks == ins.s.cpu.ticks + r.ticks
    ensures r.s.served + |ins.effects| == ins.s.served + |r.effects|
    ensures tick + r.ticks >= Cpu.TicksPerInterval
    ensures forall c: Cpu.Run | ins == Run(System(c.m, ins.s.board, ins.s.served), [], c.ticks)
      && Unstrobed(Cpu.Continue(c, tick).emitted) ::
        r == Run(System(Cpu.Continue(c, tick).m, ins.s.board, ins.s.served), [], Cpu.Continue(c, tick).ticks)
    decreases Cpu.TicksPerInterval - tick, 0
  {
    var rest := Interval(ins.s, Cpu.TickAfter(tick, ins.ticks), false, host);
    ContinueAgrees(ins, tick, rest);
    Run(rest.s, ins.effects + rest.effects, ins.ticks + rest.ticks)
  }

  // ----- the wiring against the CPU alone -----

  /** Helper: a tick commutes with a change of IN's bits, since it only counts and toggles the clock bit. */
  lemma TickInput(m: Cpu.Machine, input: bv8)
    ensures var t := Cpu.Tick(m.(reg := m.reg.(input := input)));
      t.(reg := t.reg.(input := Cpu.Tick(m).reg.input)) == Cpu.Tick(m)
    ensures Cpu.Tick(m.(reg := m.reg.(input := input))).reg.input & !Cpu.ClockBit == input & !Cpu.ClockBit
  {
    ClockCleared(input);
  }

  /** Helper: toggling the clock bit leaves the other bits. */
  lemma ClockCleared(x: bv8)
    ensures (x ^ Cpu.ClockBit) & !Cpu.ClockBit == x & !Cpu.ClockBit
  {
  }

  /**
   * Helper: the CPU's micro-step is its pre-tick step followed by the tick, and the
   * wired micro-step is the same pre-tick step with the board in between.
   */
  lemma Split(m: Cpu.Machine, cycle: bv8)
    requires m.Valid()
    ensures var moved := Cpu.Effect(m, Cpu.Fetched(m, cycle));
      && moved.m.Valid() && moved.m.ticks == m.ticks
      && Cpu.MicroStep(m, cycle) == Cpu.Stepped(Cpu.Tick(moved.m), if moved.ends then 0 else cycle + 1, moved.emitted)
  {
    Cpu.EffectFrame(m, Cpu.Fetched(m, cycle));
  }

  /** The board's side changes only IN's bits of the ticked machine, and nothing at all without a strobed byte. */
  lemma WireAgrees(moved: Cpu.Moved, s: System, cycle: bv8, host: nat -> IoBoard.Host)
    requires moved.m.Valid() && IoBoard.Valid(s.board)
    ensures var r := Wire(moved, s, cycle, host);
      var t := Cpu.Tick(moved.m);
      && r.cycle == (if moved.ends then 0 else cycle + 1)
      && r.s.cpu.(reg := r.s.cpu.reg.(input := t.reg.input)) == t
      && (moved.emitted.None? || !Strobed(moved.emitted.value) ==>
            r.s.cpu == t && r.s.board == s.board && r.effects == [] && r.s.served == s.served)
  {
    if moved.emitted.Some? {
      var r := ServeOut(moved.m, s.board, moved.emitted.value, host(s.served));
      assert r.cpu == moved.m.(reg := moved.m.reg.(input := r.cpu.reg.input));
      TickInput(moved.m, r.cpu.reg.input);
    }
  }

  /** After a strobed byte the ticked machine's IN holds the board's answer, all but the clock bit. */
  lemma WireReply(moved: Cpu.Moved, s: System, cycle: bv8, host: nat -> IoBoard.Host)
    requires moved.m.Valid() && IoBoard.Valid(s.board) && moved.m.ticks > 0
    requires moved.emitted.Some? && Strobed(moved.emitted.value)
    ensures var r := Wire(moved, s, cycle, host);
      var o := IoBoard.Step(s.board, moved.emitted.value, host(s.served));
      && r.s.board == o.board && r.effects == [o.effect] && r.s.served == s.served + 1
      && r.s.cpu.reg.input & !Cpu.ClockBit == o.board.port & !Cpu.ClockBit
      && o.board.port & Nibble.CompleteBit != s.board.port & Nibble.CompleteBit
  {
    var r := ServeOut(moved.m, s.board, moved.emitted.value, host(s.served));
    assert r.cpu == moved.m.(reg := moved.m.reg.(input := r.cpu.reg.input));
    TickInput(moved.m, r.cpu.reg.input);
  }

  /**
   * After a micro-step that sends a strobed byte, IN already holds the board's
   * answer (all but the clock bit), its complete bit has flipped, and the board
   * reports the request's effect.
   */
  lemma ReplyReachesIn(s: System, cycle: bv8, host: nat -> IoBoard.Host)
    requires Valid(s) && s.cpu.ticks > 0
    requires var c := Cpu.MicroStep(s.cpu, cycle); c.emitted.Some? && Strobed(c.emitted.value)
    ensures var r := MicroStep(s, cycle, host);
      var o := IoBoard.Step(s.board, Cpu.MicroStep(s.cpu, cycle).emitted.value, host(s.served));
      && r.s.board == o.board && r.effects == [o.effect] && r.s.served == s.served + 1
      && r.s.cpu.reg.input & !Cpu.ClockBit == r.s.board.port & !Cpu.ClockBit
      && r.s.board.port & Nibble.CompleteBit != s.board.port & Nibble.CompleteBit
  {
    Split(s.cpu, cycle);
    WireReply(Cpu.Effect(s.cpu, Cpu.Fetched(s.cpu, cycle)), s, cycle, host);
  }

  /** Helper: a list is unstrobed exactly when both its parts are. */
  lemma {:induction false} UnstrobedAppend(a: seq<bv8>, b: seq<bv8>)
    ensures Unstrobed(a + b) <==> Unstrobed(a) && Unstrobed(b)
    decreases |a|
  {
    if |a| == 0 {
      assert a + b == b;
    } else {
      assert (a + b)[0] == a[0] && (a + b)[1..] == a[1..] + b;
      UnstrobedAppend(a[1..], b);
    }
  }

  /** Helper: the CPU's instruction, unfolded once, with its first byte unstrobed and its rest unstrobed too. */
  lemma FirstStep(m: Cpu.Machine, cycle: bv8) returns (c: Cpu.Stepped)
    requires m.Valid() && Unstrobed(Cpu.Execute(m, cycle).emitted)
    ensures c == Cpu.MicroStep(m, cycle) && c.m.Valid()
    ensures c.emitted.None? || !Strobed(c.emitted.value)
    ensures c.cycle == 0 ==> Cpu.Execute(m, cycle) == Cpu.Run(c.m, Cpu.Emitted(c.emitted), 1)
    ensures c.cycle != 0 ==> Unstrobed(Cpu.Execute(c.m, c.cycle).emitted)
    ensures c.cycle != 0 ==> var rest := Cpu.Execute(c.m, c.cycle);
      Cpu.Execute(m, cycle) == Cpu.Run(rest.m, Cpu.Emitted(c.emitted) + rest.emitted, 1 + rest.ticks)
  {
    c := Cpu.MicroStep(m, cycle);
    if c.cycle != 0 {
      UnstrobedAppend(Cpu.Emitted(c.emitted), Cpu.Execute(c.m, c.cycle).emitted);
    }
    if c.emitted.Some? {
      assert Cpu.Emitted(c.emitted) == [c.emitted.value];
    }
  }

  /** Helper: an unstrobed instruction whose first micro-step `st` ends it runs as on the CPU alone. */
  lemma LastStepAgrees(s: System, cycle: bv8, st: Stepped)
    requires s.cpu.Valid() && Follows(s, cycle, st) && st.cycle == 0
    requires Unstrobed(Cpu.Execute(s.cpu, cycle).emitted)
    ensures var c := Cpu.Execute(s.cpu, cycle);
      Run(st.s, st.effects, 1) == Run(System(c.m, s.board, s.served), [], c.ticks)
  {
    var c := FirstStep(s.cpu, cycle);
  }

  /**
   * Helper: an unstrobed instruction whose first micro-step `st` does not end it runs as on
   * the CPU alone, given that its remaining micro-steps `rest` do.
   */
  lemma NextStepAgrees(s: System, cycle: bv8, st: Stepped, rest: Run)
    requires s.cpu.Valid() && Follows(s, cycle, st) && st.cycle != 0 && st.s.cpu.Valid()
    requires var c := Cpu.Execute(st.s.cpu, st.cycle);
      Unstrobed(c.emitted) ==> rest == Run(System(c.m, st.s.board, st.s.served), [], c.ticks)
    requires Unstrobed(Cpu.Execute(s.cpu, cycle).emitted)
    ensures var c := Cpu.Execute(s.cpu, cycle);
      Run(rest.s, st.effects + rest.effects, 1 + rest.ticks) == Run(System(c.m, s.board, s.served), [], c.ticks)
  {
    var c := FirstStep(s.cpu, cycle);
    assert st.effects + rest.effects == [];
  }

  /** Helper: the rest of a period is unstrobed only when its first instruction and the periods after it are. */
  lemma ContinueSplits(ins: Cpu.Run, tick: nat)
    requires ins.m.Valid() && 1 <= ins.ticks && tick < Cpu.TicksPerInterval
    requires Unstrobed(Cpu.Continue(ins, tick).emitted)
    ensures Unstrobed(ins.emitted) && Unstrobed(Cpu.Interval(ins.m, Cpu.TickAfter(tick, ins.ticks), false).emitted)
  {
    Cpu.ContinueUnfolds(ins, tick);
    UnstrobedAppend(ins.emitted, Cpu.Interval(ins.m, Cpu.TickAfter(tick, ins.ticks), false).emitted);
  }

  /**
   * Helper: when the periods after an instruction `c` with no effects ran as on the CPU alone,
   * so did the whole rest of the period, whichever CPU instruction `c` the wired one matches.
   */
  lemma ContinueAgrees(ins: Run, tick: nat, rest: Run)
    requires Valid(ins.s) && 1 <= ins.ticks && tick < Cpu.TicksPerInterval
    requires var c := Cpu.Interval(ins.s.cpu, Cpu.TickAfter(tick, ins.ticks), false);
      Unstrobed(c.emitted) ==> rest == Run(System(c.m, ins.s.board, ins.s.served), [], c.ticks)
    ensures forall c: Cpu.Run | ins == Run(System(c.m, ins.s.board, ins.s.served), [], c.ticks)
      && Unstrobed(Cpu.Continue(c, tick).emitted) ::
        Run(rest.s, ins.effects + rest.effects, ins.ticks + rest.ticks)
          == Run(System(Cpu.Continue(c, tick).m, ins.s.board, ins.s.served), [], Cpu.Continue(c, tick).ticks)
  {
    forall c: Cpu.Run | ins == Run(System(c.m, ins.s.board, ins.s.served), [], c.ticks)
      && Unstrobed(Cpu.Continue(c, tick).emitted)
      ensures Run(rest.s, ins.effects + rest.effects, ins.ticks + rest.ticks)
          == Run(System(Cpu.Continue(c, tick).m, ins.s.board, ins.s.served), [], Cpu.Continue(c, tick).ticks)
    {
      ContinueAgreesAt(ins.s.board, ins.s.served, c, tick, rest);
    }
  }

  /** Helper: `ContinueAgrees` for one CPU instruction `c`. */
  lemma ContinueAgreesAt(board: IoBoard.Board, served: nat, c: Cpu.Run, tick: nat, rest: Run)
    requires c.m.Valid() && 1 <= c.ticks && tick < Cpu.TicksPerInterval
    requires var after := Cpu.Interval(c.m, Cpu.TickAfter(tick, c.ticks), false);
      Unstrobed(after.emitted) ==> rest == Run(System(after.m, board, served), [], after.ticks)
    requires Unstrobed(Cpu.Continue(c, tick).emitted)
    ensures Run(rest.s, [] + rest.effects, c.ticks + rest.ticks)
      == Run(System(Cpu.Continue(c, tick).m, board, served), [], Cpu.Continue(c, tick).ticks)
  {
    ContinueSplits(c, tick);
    Cpu.ContinueUnfolds(c, tick);
    assert [] + rest.effects == [];
  }

  /** Helper: in step mode an unstrobed period is one unstrobed instruction, which runs as on the CPU alone. */
  lemma StepAgrees(s: System, tick: nat, host: nat -> IoBoard.Host)
    requires Valid(s) && tick < Cpu.TicksPerInterval && Unstrobed(Cpu.Interval(s.cpu, tick, true).emitted)
    ensures var c := Cpu.Interval(s.cpu, tick, true);
      Execute(s, 0, host) == Run(System(c.m, s.board, s.served), [], c.ticks)
  {
    Cpu.IntervalUnfolds(s.cpu, tick, true);
  }

  /** Helper: an unstrobed period is an unstrobed instruction and an unstrobed rest, each run as on the CPU alone. */
  lemma PeriodAgrees(s: System, tick: nat, host: nat -> IoBoard.Host)
    requires Valid(s) && tick < Cpu.TicksPerInterval && Unstrobed(Cpu.Interval(s.cpu, tick, false).emitted)
    ensures var c := Cpu.Interval(s.cpu, tick, false);
      Continue(Execute(s, 0, host), tick, host) == Run(System(c.m, s.board, s.served), [], c.ticks)
    decreases Cpu.TicksPerInterval - tick, 2
  {
    var c := Cpu.Execute(s.cpu, 0);
    Cpu.IntervalUnfolds(s.cpu, tick, false);
    ContinueSplits(c, tick);
  }
}

=== FILE: execution.dfy ===
/**
 * What the control unit makes of the microcode: when the banks loaded in the
 * CPU hold an instruction's steps at the entries its opcode and the current
 * flags select, `Cpu.Execute` performs exactly those steps, in order, up to
 * the first one that restarts the step counter.
 *
 * `RunSteps` is that reference reading of a step list. `Agrees` says the
 * banks deliver the list along the run, and `ExecuteAgrees` turns it into
 * equality with the CPU; `Serves` and `HoldsServes` obtain it from the
 * generator's `Holds`, and `StableAgrees` from `Serves` for lists that keep
 * the opcode and the flags the entries were chosen by. The last part applies
 * this to the conditional jumps, NOP and HALT.
 */
module Execution {
  import opened Wrappers
  import opened ControlWord
  import opened Cpu
  import URomData
  import URom
  import Microcode

  // ----- the reference reading of a step list -----

  /** The steps from index `k` on, each followed by a tick, up to the first that ends the instruction or the last. */
  function RunSteps(m: Machine, steps: seq<Step>, k: nat): (r: Run)
    requires m.Valid() && k < |steps|
    ensures r.m.Valid()
    ensures 1 <= r.ticks <= |steps| - k
    ensures r.m.ticks == m.ticks + r.ticks
    decreases |steps| - k
  {
    var t := Ticked(m, steps[k]);
    if Microcode.EndsInstruction(steps[k]) || k + 1 == |steps| then Run(t.m, Emitted(t.emitted), 1)
    else
      var rest := RunSteps(t.m, steps, k + 1);
      Run(rest.m, Emitted(t.emitted) + rest.emitted, 1 + rest.ticks)
  }

  /** The first index from `k` on whose step ends the instruction, or the last index. */
  function FirstEnd(steps: seq<Step>, k: nat): (e: nat)
    requires k < |steps|
    ensures k <= e < |steps|
    ensures Microcode.EndsInstruction(steps[e]) || e == |steps| - 1
    ensures forall j :: k <= j < e ==> !Microcode.EndsInstruction(steps[j])
    decreases |steps| - k
  {
    if Microcode.EndsInstruction(steps[k]) || k + 1 == |steps| then k else FirstEnd(steps, k + 1)
  }

  /** The run takes one tick per step up to and including the first that ends the instruction. */
  lemma {:induction false} RunStepsTicks(m: Machine, steps: seq<Step>, k: nat)
    requires m.Valid() && k < |steps|
    ensures k + RunSteps(m, steps, k).ticks == FirstEnd(steps, k) + 1
    decreases |steps| - k
  {
    if !(Microcode.EndsInstruction(steps[k]) || k + 1 == |steps|) {
      RunStepsTicks(Ticked(m, steps[k]).m, steps, k + 1);
    }
  }

  // ----- the banks deliver the steps -----

  /**
   * Along the reference run from `cycle`, the control word the CPU fetches is each step in
   * turn, and the run stops at a step that ends the instruction rather than at the end of the list.
   */
  predicate Agrees(m: Machine, steps: seq<Step>, cycle: bv8)
    requires m.Valid() && cycle as nat < |steps| <= 256
    decreases |steps| - cycle as nat
  {
    var s := Perform(m, steps[cycle], cycle);
    Fetched(m, cycle) == Truncated(steps[cycle])
    && (s.cycle == 0 || (cycle as nat + 1 < |steps| && (ByteSucc(cycle); Agrees(s.m, steps, s.cycle))))
  }

  /** When the banks deliver the list, the CPU's instruction is the reference run of the list. */
  lemma {:induction false} ExecuteAgrees(m: Machine, steps: seq<Step>, cycle: bv8)
    requires m.Valid() && cycle as nat < |steps| <= 256
    requires Agrees(m, steps, cycle)
    ensures Execute(m, cycle) == RunSteps(m, steps, cycle as nat)
    decreases |steps| - cycle as nat
  {
    var t := AgreedStep(m, steps, cycle);
    var s := MicroStep(m, cycle);
    if s.cycle != 0 {
      ExecuteAgrees(s.m, steps, s.cycle);
    }
    if s.cycle == 0 {
      ExecuteStops(m, steps, cycle, t);
    } else {
      ExecuteContinues(m, steps, cycle, t);
    }
  }

  /** A micro-step that restarts the counter is the whole instruction, and the reference run stops there too. */
  lemma ExecuteStops(m: Machine, steps: seq<Step>, cycle: bv8, t: Moved)
    requires m.Valid() && cycle as nat < |steps| <= 256
    requires t == Ticked(m, steps[cycle])
    requires MicroStep(m, cycle).m == t.m && MicroStep(m, cycle).emitted == t.emitted
    requires MicroStep(m, cycle).cycle == 0
    requires Microcode.EndsInstruction(steps[cycle]) || cycle as nat + 1 == |steps|
    ensures Execute(m, cycle) == RunSteps(m, steps, cycle as nat)
  {
  }

  /** Otherwise both runs go on from the same machine, and agree once their rests do. */
  lemma ExecuteContinues(m: Machine, steps: seq<Step>, cycle: bv8, t: Moved)
    requires m.Valid() && cycle as nat + 1 < |steps| <= 256
    requires t == Ticked(m, steps[cycle]) && !Microcode.EndsInstruction(steps[cycle])
    requires MicroStep(m, cycle).m == t.m && MicroStep(m, cycle).emitted == t.emitted
    requires MicroStep(m, cycle).cycle != 0 && MicroStep(m, cycle).cycle as nat == cycle as nat + 1
    requires Execute(t.m, MicroStep(m, cycle).cycle) == RunSteps(t.m, steps, cycle as nat + 1)
    ensures Execute(m, cycle) == RunSteps(m, steps, cycle as nat)
  {
  }

  /**
   * One agreed micro-step is the reference step: same machine, same output, and the counter
   * restarts exactly where the reference run stops.
   */
  lemma AgreedStep(m: Machine, steps: seq<Step>, cycle: bv8) returns (t: Moved)
    requires m.Valid() && cycle as nat < |steps| <= 256
    requires Agrees(m, steps, cycle)
    ensures t == Ticked(m, steps[cycle])
    ensures MicroStep(m, cycle).m == t.m && MicroStep(m, cycle).emitted == t.emitted
    ensures MicroStep(m, cycle).cycle == 0 <==> Microcode.EndsInstruction(steps[cycle]) || cycle as nat + 1 == |steps|
    ensures MicroStep(m, cycle).cycle != 0 ==>
      (MicroStep(m, cycle).cycle as nat == cycle as nat + 1 && Agrees(MicroStep(m, cycle).m, steps, MicroStep(m, cycle).cycle))
  {
    PerformTruncated(m, steps[cycle], cycle);
    EffectSequencing(m, steps[cycle]);
    t := Ticked(m, steps[cycle]);
    if cycle != 0xFF {
      ByteSucc(cycle);
    }
  }

  /** The banks hold the list in column `column` for every flag pair the two flag conditions accept. */
  predicate Serves(m: Machine, column: nat, steps: seq<Step>, fc: URomData.Flag, fz: URomData.Flag)
    requires m.Valid() && column < URomData.InstructionQuantity
  {
    |steps| <= URomData.CycleQuantity
    && forall s: nat, c: nat, z: nat | s < |steps| && c < 2 && z < 2 && fc.Accepts(c) && fz.Accepts(z) ::
      Decode(UCode(m.urom0[URomData.EntryAddress(column, s, c, z)], m.urom1[URomData.EntryAddress(column, s, c, z)]))
        == Truncated(steps[s])
  }

  /** A table that holds a description, loaded into the banks, serves its steps in each of its columns. */
  lemma HoldsServes(t: URomData.Table, m: Machine, ins: URomData.Instruction, i: nat)
    requires t.Valid() && m.Valid() && m.urom0 == t.code0 && m.urom1 == t.code1
    requires URom.Holds(t, ins) && i < URomData.Width(ins) && |ins.steps| <= URomData.CycleQuantity
    ensures Serves(m, URomData.Column(ins.opcode, i), ins.steps, ins.c, ins.z)
  {
    var col := URomData.Column(ins.opcode, i);
    forall s: nat, c: nat, z: nat | s < |ins.steps| && c < 2 && z < 2 && ins.c.Accepts(c) && ins.z.Accepts(z)
      ensures Decode(UCode(m.urom0[URomData.EntryAddress(col, s, c, z)], m.urom1[URomData.EntryAddress(col, s, c, z)]))
        == Truncated(ins.steps[s])
    {
      assert URomData.Offset(ins.opcode, i, s, c, z) == URomData.EntryAddress(col, s, c, z);
      DecodeEncode(ins.steps[s]);
    }
  }

  /** Every step of the list from `cycle` on keeps I, and changes the flags only if the entries ignore them. */
  predicate Steady(steps: seq<Step>, cycle: nat, fc: URomData.Flag, fz: URomData.Flag) {
    forall s :: cycle <= s < |steps| ==>
      steps[s].aw != WriteI && (steps[s].aw == WriteAluT ==> fc == URomData.Any && fz == URomData.Any)
  }

  /** The flag pair the CPU presents to the banks now. */
  predicate FlagsAccepted(reg: Regs, fc: URomData.Flag, fz: URomData.Flag) {
    fc.Accepts(BitOf(Selected(reg).c)) && fz.Accepts(BitOf(Selected(reg).z))
  }

  /**
   * A list the banks serve in the column of I, for the flags the CPU presents, whose steps keep
   * I and the accepted flags and whose last step ends the instruction, is delivered step by step.
   */
  lemma {:induction false} StableAgrees(m: Machine, steps: seq<Step>, cycle: bv8, fc: URomData.Flag, fz: URomData.Flag)
    requires m.Valid() && cycle as nat < |steps|
    requires Serves(m, m.reg.i as nat, steps, fc, fz) && FlagsAccepted(m.reg, fc, fz)
    requires Steady(steps, cycle as nat, fc, fz) && Microcode.EndsInstruction(steps[|steps| - 1])
    ensures Agrees(m, steps, cycle)
    decreases |steps| - cycle as nat
  {
    ServedFetch(m, steps, cycle, fc, fz);
    var s := SteadyStep(m, steps, cycle, fc, fz);
    if s.cycle != 0 {
      StableAgrees(s.m, steps, s.cycle, fc, fz);
    }
  }

  /** The CPU fetches the served step: I selects the column, the step counter the row, the flags the half. */
  lemma ServedFetch(m: Machine, steps: seq<Step>, cycle: bv8, fc: URomData.Flag, fz: URomData.Flag)
    requires m.Valid() && cycle as nat < |steps|
    requires Serves(m, m.reg.i as nat, steps, fc, fz) && FlagsAccepted(m.reg, fc, fz)
    ensures Fetched(m, cycle) == Truncated(steps[cycle])
  {
    var c := BitOf(Selected(m.reg).c);
    var z := BitOf(Selected(m.reg).z);
    LowNibble(cycle);
    assert URomAddress(m.reg, cycle) == URomData.EntryAddress(m.reg.i as nat, cycle as nat, c, z);
  }

  /**
   * A steady step keeps the banks, I and the acceptance of the flags, so the list is still
   * served; and unless it ends the instruction the list goes on and the counter counts.
   */
  lemma SteadyStep(m: Machine, steps: seq<Step>, cycle: bv8, fc: URomData.Flag, fz: URomData.Flag) returns (s: Stepped)
    requires m.Valid() && cycle as nat < |steps|
    requires Serves(m, m.reg.i as nat, steps, fc, fz) && FlagsAccepted(m.reg, fc, fz)
    requires Steady(steps, cycle as nat, fc, fz) && Microcode.EndsInstruction(steps[|steps| - 1])
    ensures s == Perform(m, steps[cycle], cycle)
    ensures Serves(s.m, s.m.reg.i as nat, steps, fc, fz) && FlagsAccepted(s.m.reg, fc, fz)
    ensures s.cycle != 0 ==> cycle as nat + 1 < |steps| && s.cycle as nat == cycle as nat + 1
  {
    var t := TickedControl(m, steps[cycle]);
    s := Perform(m, steps[cycle], cycle);
    ServesKept(m, s.m, steps, fc, fz);
    FlagsKept(m.reg, s.m.reg, fc, fz);
    if s.cycle != 0 {
      ByteSucc(cycle);
    }
  }

  /** What a step and its tick keep of the control unit, and when they end the instruction. */
  lemma TickedControl(m: Machine, st: Step) returns (t: Moved)
    requires m.Valid()
    ensures t == Ticked(m, st)
    ensures t.m.urom0 == m.urom0 && t.m.urom1 == m.urom1
    ensures st.aw != WriteI ==> t.m.reg.i == m.reg.i
    ensures st.aw != WriteAluT ==> t.m.reg.bank0 == m.reg.bank0 && t.m.reg.bank1 == m.reg.bank1
    ensures t.ends <==> Microcode.EndsInstruction(st)
  {
    EffectFrame(m, st);
    EffectKeepsControl(m, st);
    EffectSequencing(m, st);
    t := Ticked(m, st);
  }

  /** The same banks and the same I serve the same list. */
  lemma ServesKept(m: Machine, n: Machine, steps: seq<Step>, fc: URomData.Flag, fz: URomData.Flag)
    requires m.Valid() && n.Valid() && n.urom0 == m.urom0 && n.urom1 == m.urom1 && n.reg.i == m.reg.i
    requires Serves(m, m.reg.i as nat, steps, fc, fz)
    ensures Serves(n, n.reg.i as nat, steps, fc, fz)
  {
  }

  /** Flags still accepted: I and the flag banks kept, or both conditions accept anything. */
  lemma FlagsKept(reg: Regs, reg': Regs, fc: URomData.Flag, fz: URomData.Flag)
    requires FlagsAccepted(reg, fc, fz) && reg'.i == reg.i
    requires (reg'.bank0 == reg.bank0 && reg'.bank1 == reg.bank1) || (fc == URomData.Any && fz == URomData.Any)
    ensures FlagsAccepted(reg', fc, fz)
  {
  }

  /** A step counter below sixteen is its own low nibble. */
  lemma LowNibble(k: bv8)
    requires k as nat < 16
    ensures (k & 0x0F) as nat == k as nat
  {
  }

  // ----- single steps inside a run -----

  /** PC+1 in the middle of a run: PC advances, and the run goes on from the next step with nothing emitted. */
  lemma AdvanceRun(m: Machine, steps: seq<Step>, k: nat) returns (n: Machine)
    requires m.Valid() && k + 1 < |steps| && steps[k].aw == PcPlus
    ensures n.Valid()
    ensures Pc(n.reg) == (Pc(m.reg) + 1) % MemorySize
    ensures n.ram == m.ram && n.bios == m.bios && n.reg.d == m.reg.d
    ensures var rest := RunSteps(n, steps, k + 1);
      RunSteps(m, steps, k) == Run(rest.m, rest.emitted, 1 + rest.ticks)
  {
    EffectAdvance(m, steps[k]);
    PcPlusOneAdvances(m.reg);
    n := Ticked(m, steps[k]).m;
  }

  /** RPC+1 as the last step of a run: PC advances past the instruction and the run ends. */
  lemma AdvanceEnd(m: Machine, steps: seq<Step>, k: nat) returns (n: Machine)
    requires m.Valid() && k < |steps| && steps[k].aw == RpcPlus
    ensures n.Valid()
    ensures Pc(n.reg) == (Pc(m.reg) + 1) % MemorySize
    ensures n.ram == m.ram && n.bios == m.bios
    ensures RunSteps(m, steps, k) == Run(n, [], 1)
  {
    EffectAdvance(m, steps[k]);
    PcPlusOneAdvances(m.reg);
    n := Ticked(m, steps[k]).m;
  }

  /** RPC as the last step of a run: the run ends with PC where it was. */
  lemma RestartEnd(m: Machine, steps: seq<Step>, k: nat) returns (n: Machine)
    requires m.Valid() && k < |steps| && steps[k].aw == Rpc
    ensures n.Valid()
    ensures Pc(n.reg) == Pc(m.reg)
    ensures n.ram == m.ram && n.bios == m.bios
    ensures RunSteps(m, steps, k) == Run(n, [], 1)
  {
    EffectRestart(m, steps[k]);
    n := Ticked(m, steps[k]).m;
  }

  /** A RAM read at PC into D in the middle of a run. */
  lemma LoadDRun(m: Machine, steps: seq<Step>, k: nat) returns (n: Machine)
    requires m.Valid() && k + 1 < |steps|
    requires steps[k].aw == WriteD && steps[k].ar == ReadRam && steps[k].c == AddrPc
    ensures n.Valid()
    ensures n.reg.d == Load(m, Pc(m.reg)) && Pc(n.reg) == Pc(m.reg)
    ensures n.ram == m.ram && n.bios == m.bios
    ensures var rest := RunSteps(n, steps, k + 1);
      RunSteps(m, steps, k) == Run(rest.m, rest.emitted, 1 + rest.ticks)
  {
    EffectLoadD(m, steps[k]);
    n := Ticked(m, steps[k]).m;
  }

  /** A RAM read at PC, or D, into one byte of PC in the middle of a run. */
  lemma LoadPcRun(m: Machine, steps: seq<Step>, k: nat) returns (n: Machine)
    requires m.Valid() && k + 1 < |steps| && steps[k].aw == WritePc
    requires (steps[k].ar == ReadRam && steps[k].c == AddrPc) || steps[k].ar == ReadD
    ensures n.Valid()
    ensures var st := steps[k]; var v := if st.ar == ReadRam then Load(m, Pc(m.reg)) else m.reg.d;
      n.reg.pcl == (if st.b == Low then v else m.reg.pcl) && n.reg.pch == (if st.b == Low then m.reg.pch else v)
    ensures n.ram == m.ram && n.bios == m.bios && n.reg.d == m.reg.d
    ensures var rest := RunSteps(n, steps, k + 1);
      RunSteps(m, steps, k) == Run(rest.m, rest.emitted, 1 + rest.ticks)
  {
    var st := steps[k];
    EffectLoadPc(m, st);
    var t := Ticked(m, st);
    assert t.emitted == None && !Microcode.EndsInstruction(st);
    n := t.m;
  }

  // ----- whole instructions, from the step after the fetch -----

  /** A run that leaves memory alone, sends nothing to OUT, takes `ticks` ticks and ends with PC at `pc`. */
  predicate Lands(m: Machine, r: Run, pc: nat, ticks: nat)
    requires m.Valid()
  {
    r.m.Valid() && Pc(r.m.reg) == pc && r.m.ram == m.ram && r.m.bios == m.bios && r.emitted == [] && r.ticks == ticks
  }

  /** Adding `j` more to an address reached modulo 65536 is adding `j` more before the wrap. */
  lemma WrapAdd(p: nat, k: nat, q: nat, j: nat, r: nat)
    requires q == (p + k) % MemorySize && j < MemorySize && r == (q + j) % MemorySize
    ensures r == (p + k + j) % MemorySize
  {
    var n := (p + k) / MemorySize;
    assert p + k == n * MemorySize + q;
    if q + j < MemorySize {
      assert p + k + j == n * MemorySize + (q + j);
    } else {
      assert p + k + j == (n + 1) * MemorySize + (q + j - MemorySize);
    }
  }

  /** Two machines with the same RAM and BIOS read the same byte everywhere. */
  lemma SameLoad(m: Machine, n: Machine, p: nat)
    requires m.Valid() && n.Valid() && n.ram == m.ram && n.bios == m.bios && p < MemorySize
    ensures Load(n, p) == Load(m, p)
  {
  }

  /** A step that leaves memory alone, before a run that lands, lands where that run does, one tick later. */
  lemma LandsThen(m: Machine, n: Machine, r: Run, pc: nat, t: nat)
    requires m.Valid() && n.Valid() && n.ram == m.ram && n.bios == m.bios && Lands(n, r, pc, t)
    ensures Lands(m, Run(r.m, r.emitted, 1 + r.ticks), pc, t + 1)
  {
  }

  /**
   * A step that moves PC on by `k` without touching memory, before a run that lands `j`
   * further on, lands `k + j` on from where the step started.
   */
  lemma LandsAfter(m: Machine, n: Machine, r: Run, k: nat, j: nat, t: nat)
    requires m.Valid() && n.Valid() && j < MemorySize
    requires Pc(n.reg) == (Pc(m.reg) + k) % MemorySize && n.ram == m.ram && n.bios == m.bios
    requires Lands(n, r, (Pc(n.reg) + j) % MemorySize, t)
    ensures Lands(m, Run(r.m, r.emitted, 1 + r.ticks), (Pc(m.reg) + k + j) % MemorySize, t + 1)
  {
    WrapAdd(Pc(m.reg), k, Pc(n.reg), j, Pc(r.m.reg));
  }

  /** The shape of a skipped jump after its fetch: PC+1 twice, then RPC+1. */
  predicate SkipShape(steps: seq<Step>) {
    |steps| == 4 && steps[1].aw == PcPlus && steps[2].aw == PcPlus && steps[3].aw == RpcPlus
  }

  /** The last step of a skipped jump: RPC+1 moves PC past the second address byte. */
  lemma SkippedLast(m: Machine, steps: seq<Step>)
    requires m.Valid() && SkipShape(steps)
    ensures Lands(m, RunSteps(m, steps, 3), (Pc(m.reg) + 1) % MemorySize, 1)
  {
    var n := AdvanceEnd(m, steps, 3);
  }

  /** The second address byte of a skipped jump is stepped over too. */
  lemma SkippedSecond(m: Machine, steps: seq<Step>)
    requires m.Valid() && SkipShape(steps)
    ensures Lands(m, RunSteps(m, steps, 2), (Pc(m.reg) + 2) % MemorySize, 2)
  {
    var n := AdvanceRun(m, steps, 2);
    SkippedLast(n, steps);
    LandsAfter(m, n, RunSteps(n, steps, 3), 1, 1, 1);
  }

  /** The skipped half of a conditional jump: PC steps over the opcode and both address bytes in three ticks. */
  lemma SkippedRun(m: Machine, steps: seq<Step>)
    requires m.Valid() && SkipShape(steps)
    ensures Lands(m, RunSteps(m, steps, 1), (Pc(m.reg) + 3) % MemorySize, 3)
  {
    var n := AdvanceRun(m, steps, 1);
    SkippedSecond(n, steps);
    LandsAfter(m, n, RunSteps(n, steps, 2), 1, 2, 2);
  }

  /**
   * The shape of a taken jump after its fetch: PC+1, the low address byte into D, PC+1,
   * the high address byte into PCH, D into PCL, then RPC.
   */
  predicate TakeShape(steps: seq<Step>) {
    |steps| == 7
    && steps[1].aw == PcPlus
    && steps[2].aw == WriteD && steps[2].ar == ReadRam && steps[2].c == AddrPc
    && steps[3].aw == PcPlus
    && steps[4].aw == WritePc && steps[4].ar == ReadRam && steps[4].c == AddrPc && steps[4].b != Low
    && steps[5].aw == WritePc && steps[5].ar == ReadD && steps[5].b == Low
    && steps[6].aw == Rpc
  }

  /** The last step of a taken jump restarts at the PC it finds. */
  lemma TakenLast(m: Machine, steps: seq<Step>)
    requires m.Valid() && TakeShape(steps)
    ensures Lands(m, RunSteps(m, steps, 6), Pc(m.reg), 1)
  {
    var n := RestartEnd(m, steps, 6);
  }

  /** D goes into PCL. */
  lemma TakenLow(m: Machine, steps: seq<Step>)
    requires m.Valid() && TakeShape(steps)
    ensures Lands(m, RunSteps(m, steps, 5), Word(m.reg.pch, m.reg.d), 2)
  {
    assert steps[5].aw == WritePc && steps[5].ar == ReadD && steps[5].b == Low;
    var n := LoadPcRun(m, steps, 5);
    assert n.reg.pcl == m.reg.d && n.reg.pch == m.reg.pch;
    TakenLast(n, steps);
    var rest := RunSteps(n, steps, 6);
    LandsThen(m, n, rest, Pc(n.reg), 1);
  }

  /** The byte at PC goes into PCH. */
  lemma TakenHigh(m: Machine, steps: seq<Step>)
    requires m.Valid() && TakeShape(steps)
    ensures Lands(m, RunSteps(m, steps, 4), Word(Load(m, Pc(m.reg)), m.reg.d), 3)
  {
    var n := LoadPcRun(m, steps, 4);
    TakenLow(n, steps);
    LandsThen(m, n, RunSteps(n, steps, 5), Word(n.reg.pch, n.reg.d), 2);
  }

  /** PC moves on to the high address byte. */
  lemma TakenSecond(m: Machine, steps: seq<Step>)
    requires m.Valid() && TakeShape(steps)
    ensures Lands(m, RunSteps(m, steps, 3), Word(Load(m, (Pc(m.reg) + 1) % MemorySize), m.reg.d), 4)
  {
    var n := AdvanceRun(m, steps, 3);
    TakenHigh(n, steps);
    SecondTarget(m, n);
    LandsThen(m, n, RunSteps(n, steps, 4), Word(Load(n, Pc(n.reg)), n.reg.d), 3);
  }

  /** After PC+1 the high address byte sits at PC, without a change to memory or D. */
  lemma SecondTarget(m: Machine, n: Machine)
    requires m.Valid() && n.Valid() && n.ram == m.ram && n.bios == m.bios && n.reg.d == m.reg.d
    requires Pc(n.reg) == (Pc(m.reg) + 1) % MemorySize
    ensures Word(Load(n, Pc(n.reg)), n.reg.d) == Word(Load(m, (Pc(m.reg) + 1) % MemorySize), m.reg.d)
  {
    SameLoad(m, n, Pc(n.reg));
  }

  /** The low address byte goes into D. */
  lemma TakenAddress(m: Machine, steps: seq<Step>)
    requires m.Valid() && TakeShape(steps)
    ensures Lands(m, RunSteps(m, steps, 2), Word(Load(m, (Pc(m.reg) + 1) % MemorySize), Load(m, Pc(m.reg))), 5)
  {
    var n := LoadDRun(m, steps, 2);
    TakenSecond(n, steps);
    AddressTarget(m, n);
    LandsThen(m, n, RunSteps(n, steps, 3), Word(Load(n, (Pc(n.reg) + 1) % MemorySize), n.reg.d), 4);
  }

  /**
   * The taken half of a conditional jump: PC becomes the address stored after the opcode,
   * low byte first, in six ticks.
   */
  lemma TakenRun(m: Machine, steps: seq<Step>)
    requires m.Valid() && TakeShape(steps)
    ensures Lands(m, RunSteps(m, steps, 1), JumpTarget(m, Pc(m.reg)), 6)
  {
    var n := AdvanceRun(m, steps, 1);
    TakenAddress(n, steps);
    TakenTarget(m, n);
    LandsThen(m, n, RunSteps(n, steps, 2), Word(Load(n, (Pc(n.reg) + 1) % MemorySize), Load(n, Pc(n.reg))), 5);
  }

  /** After the low address byte is in D, the target is that byte under the one after it. */
  lemma AddressTarget(m: Machine, n: Machine)
    requires m.Valid() && n.Valid() && n.ram == m.ram && n.bios == m.bios
    requires Pc(n.reg) == Pc(m.reg) && n.reg.d == Load(m, Pc(m.reg))
    ensures Word(Load(n, (Pc(n.reg) + 1) % MemorySize), n.reg.d) == Word(Load(m, (Pc(m.reg) + 1) % MemorySize), Load(m, Pc(m.reg)))
  {
    var b := (Pc(n.reg) + 1) % MemorySize;
    assert b == (Pc(m.reg) + 1) % MemorySize;
    SameLoad(m, n, b);
  }

  /** After the first PC+1 the two address bytes sit at PC and PC+1, without a change to memory. */
  lemma TakenTarget(m: Machine, n: Machine)
    requires m.Valid() && n.Valid() && n.ram == m.ram && n.bios == m.bios
    requires Pc(n.reg) == (Pc(m.reg) + 1) % MemorySize
    ensures Word(Load(n, (Pc(n.reg) + 1) % MemorySize), Load(n, Pc(n.reg))) == JumpTarget(m, Pc(m.reg))
  {
    var a := Pc(n.reg);
    var b := (a + 1) % MemorySize;
    WrapAdd(Pc(m.reg), 1, a, 1, b);
    assert b == (Pc(m.reg) + 2) % MemorySize;
    SameLoad(m, n, a);
    SameLoad(m, n, b);
  }

  /** The conditional jumps' two step lists have the shapes above. */
  lemma JumpShapes(fc: URomData.Flag, fz: URomData.Flag)
    ensures TakeShape(Microcode.JumpTaken) && SkipShape(Microcode.JumpSkipped)
    ensures Steady(Microcode.JumpTaken, 1, fc, fz) && Steady(Microcode.JumpSkipped, 1, fc, fz)
    ensures Microcode.EndsInstruction(Microcode.JumpTaken[6]) && Microcode.EndsInstruction(Microcode.JumpSkipped[3])
  {
  }

  // ----- the generated microcode, executed -----

  /**
   * A description the table holds, once its opcode is in I and the CPU presents flags it
   * accepts, executes from the step after the fetch as its reference run, provided its steps
   * keep I, leave the flags alone unless they ignore them, and end with a restart.
   */
  lemma ExecutesHeld(t: URomData.Table, m: Machine, ins: URomData.Instruction)
    requires t.Valid() && m.Valid() && m.urom0 == t.code0 && m.urom1 == t.code1
    requires URom.Holds(t, ins) && m.reg.i == ins.opcode
    requires 2 <= |ins.steps| <= URomData.CycleQuantity && FlagsAccepted(m.reg, ins.c, ins.z)
    requires Steady(ins.steps, 1, ins.c, ins.z) && Microcode.EndsInstruction(ins.steps[|ins.steps| - 1])
    ensures Execute(m, 1) == RunSteps(m, ins.steps, 1)
  {
    HoldsServes(t, m, ins, 0);
    URom.OwnColumn(ins.opcode);
    StableAgrees(m, ins.steps, 1, ins.c, ins.z);
    ExecuteAgrees(m, ins.steps, 1);
  }

  /** The flag condition a jump variant was generated for accepts the flag it was generated for. */
  lemma FlagOfAccepts(b: bool)
    ensures Microcode.FlagOf(b).Accepts(BitOf(b))
    ensures !Microcode.FlagOf(b).Accepts(BitOf(!b))
  {
  }

  /** A held description with the taken-jump steps jumps to the address after its opcode. */
  lemma HeldTaken(t: URomData.Table, m: Machine, ins: URomData.Instruction)
    requires t.Valid() && m.Valid() && m.urom0 == t.code0 && m.urom1 == t.code1
    requires URom.Holds(t, ins) && m.reg.i == ins.opcode && ins.steps == Microcode.JumpTaken
    requires FlagsAccepted(m.reg, ins.c, ins.z)
    ensures Lands(m, Execute(m, 1), JumpTarget(m, Pc(m.reg)), 6)
  {
    JumpShapes(ins.c, ins.z);
    ExecutesHeld(t, m, ins);
    TakenRun(m, ins.steps);
  }

  /** A held description with the skipped-jump steps steps over the address after its opcode. */
  lemma HeldSkipped(t: URomData.Table, m: Machine, ins: URomData.Instruction)
    requires t.Valid() && m.Valid() && m.urom0 == t.code0 && m.urom1 == t.code1
    requires URom.Holds(t, ins) && m.reg.i == ins.opcode && ins.steps == Microcode.JumpSkipped
    requires FlagsAccepted(m.reg, ins.c, ins.z)
    ensures Lands(m, Execute(m, 1), StepOver(Pc(m.reg)), 3)
  {
    JumpShapes(ins.c, ins.z);
    ExecutesHeld(t, m, ins);
    SkippedRun(m, ins.steps);
  }

  /**
   * JMP addr: with the generated microcode loaded and the opcode fetched, the CPU jumps to the
   * little-endian address after the opcode in six ticks, leaving memory alone.
   */
  lemma JumpAlwaysExecutes(t: URomData.Table, m: Machine)
    requires t.Valid() && m.Valid() && m.urom0 == t.code0 && m.urom1 == t.code1
    requires URom.Holds(t, Microcode.JumpAlways) && m.reg.i == Microcode.JumpAlways.opcode
    ensures Lands(m, Execute(m, 1), JumpTarget(m, Pc(m.reg)), 6)
  {
    HeldTaken(t, m, Microcode.JumpAlways);
  }

  /**
   * A conditional jump: with all four flag variants generated and the opcode fetched, the CPU
   * jumps to the address after the opcode in six ticks when the flags it presents satisfy the
   * condition, and otherwise steps over the address in three.
   */
  lemma ConditionalJumpExecutes(t: URomData.Table, m: Machine, cond: Microcode.Condition)
    requires t.Valid() && m.Valid() && m.urom0 == t.code0 && m.urom1 == t.code1
    requires forall c: bool, z: bool :: URom.Holds(t, Microcode.Jump(cond, c, z))
    requires m.reg.i == cond.Opcode()
    ensures var f := Selected(m.reg);
      if cond.Taken(f.c, f.z) then Lands(m, Execute(m, 1), JumpTarget(m, Pc(m.reg)), 6)
      else Lands(m, Execute(m, 1), StepOver(Pc(m.reg)), 3)
  {
    var f := Selected(m.reg);
    var ins := Microcode.Jump(cond, f.c, f.z);
    FlagOfAccepts(f.c);
    FlagOfAccepts(f.z);
    if cond.Taken(f.c, f.z) {
      HeldTaken(t, m, ins);
    } else {
      HeldSkipped(t, m, ins);
    }
  }

  /** NOP, the filler of every undefined opcode: PC moves to the next byte in one tick after the fetch. */
  lemma NopExecutes(t: URomData.Table, m: Machine, op: bv8)
    requires t.Valid() && m.Valid() && m.urom0 == t.code0 && m.urom1 == t.code1
    requires URom.Holds(t, Microcode.Nop(op)) && m.reg.i == op
    ensures Lands(m, Execute(m, 1), (Pc(m.reg) + 1) % MemorySize, 1)
  {
    ExecutesHeld(t, m, Microcode.Nop(op));
    var n := AdvanceEnd(m, Microcode.Nop(op).steps, 1);
  }

  /** HALT: the instruction restarts at its own opcode, so the CPU fetches HALT again and again. */
  lemma HaltExecutes(t: URomData.Table, m: Machine)
    requires t.Valid() && m.Valid() && m.urom0 == t.code0 && m.urom1 == t.code1
    requires URom.Holds(t, Microcode.Halt) && m.reg.i == Microcode.Halt.opcode
    ensures Lands(m, Execute(m, 1), Pc(m.reg), 1)
  {
    ExecutesHeld(t, m, Microcode.Halt);
    var n := RestartEnd(m, Microcode.Halt.steps, 1);
  }

  // ----- whole instructions, fetch included -----

  /**
   * The fetch: when the banks give FETCH for step zero, the CPU loads the byte at PC into I,
   * keeps PC, memory and the flag banks, and goes on from step one.
   */
  lemma FetchStep(m: Machine) returns (n: Machine)
    requires m.Valid() && Fetched(m, 0) == Truncated(Microcode.Fetch)
    ensures n.Valid() && n == MicroStep(m, 0).m
    ensures n.reg.i == Load(m, Pc(m.reg)) && Pc(n.reg) == Pc(m.reg)
    ensures n.ram == m.ram && n.bios == m.bios && n.urom0 == m.urom0 && n.urom1 == m.urom1
    ensures n.reg.bank0 == m.reg.bank0 && n.reg.bank1 == m.reg.bank1
    ensures forall pc: nat, t: nat :: Lands(n, Execute(n, 1), pc, t) ==> Lands(m, Execute(m, 0), pc, t + 1)
  {
    PerformTruncated(m, Microcode.Fetch, 0);
    EffectLoadI(m, Microcode.Fetch);
    n := MicroStep(m, 0).m;
    var rest := Execute(n, 1);
    assert Execute(m, 0) == Run(rest.m, [] + rest.emitted, 1 + rest.ticks);
    assert [] + rest.emitted == rest.emitted;
  }

  /** The little-endian address in the two bytes after the opcode at `p`. */
  function JumpTarget(m: Machine, p: nat): nat
    requires m.Valid() && p < MemorySize
  {
    Word(Load(m, (p + 2) % MemorySize), Load(m, (p + 1) % MemorySize))
  }

  /** Memory kept: the address bytes after an opcode are the same. */
  lemma TargetKept(m: Machine, n: Machine, p: nat)
    requires m.Valid() && n.Valid() && n.ram == m.ram && n.bios == m.bios && p < MemorySize
    ensures JumpTarget(n, p) == JumpTarget(m, p)
  {
  }

  /** The address just past a three-byte instruction at `p`. */
  function StepOver(p: nat): nat {
    (p + 3) % MemorySize
  }

  /** The conditional jump opcodes have bit 7 set, so they test the flags of bank one. */
  lemma ConditionBank(reg: Regs, cond: Microcode.Condition)
    requires reg.i == cond.Opcode()
    ensures Selected(reg) == reg.bank1
  {
  }

  /**
   * JMP addr as a whole: FETCH at step zero, the JMP opcode at PC and its microcode generated
   * take the CPU to the little-endian address after the opcode in seven ticks.
   */
  lemma JumpInstruction(t: URomData.Table, m: Machine)
    requires t.Valid() && m.Valid() && m.urom0 == t.code0 && m.urom1 == t.code1
    requires URom.Holds(t, Microcode.JumpAlways) && Fetched(m, 0) == Truncated(Microcode.Fetch)
    requires Load(m, Pc(m.reg)) == Microcode.JumpAlways.opcode
    ensures Lands(m, Execute(m, 0), JumpTarget(m, Pc(m.reg)), 7)
  {
    var n := FetchStep(m);
    JumpAlwaysExecutes(t, n);
    TargetKept(m, n, Pc(m.reg));
  }

  /** A conditional jump whose condition holds on the flags of bank one, fetch included. */
  lemma ConditionalJumpTaken(t: URomData.Table, m: Machine, cond: Microcode.Condition)
    requires t.Valid() && m.Valid() && m.urom0 == t.code0 && m.urom1 == t.code1
    requires forall c: bool, z: bool :: URom.Holds(t, Microcode.Jump(cond, c, z))
    requires Fetched(m, 0) == Truncated(Microcode.Fetch) && Load(m, Pc(m.reg)) == cond.Opcode()
    requires cond.Taken(m.reg.bank1.c, m.reg.bank1.z)
    ensures Lands(m, Execute(m, 0), JumpTarget(m, Pc(m.reg)), 7)
  {
    var n := FetchStep(m);
    ConditionBank(n.reg, cond);
    ConditionalJumpExecutes(t, n, cond);
    TargetKept(m, n, Pc(m.reg));
  }

  /** A conditional jump whose condition fails on the flags of bank one, fetch included. */
  lemma ConditionalJumpSkipped(t: URomData.Table, m: Machine, cond: Microcode.Condition)
    requires t.Valid() && m.Valid() && m.urom0 == t.code0 && m.urom1 == t.code1
    requires forall c: bool, z: bool :: URom.Holds(t, Microcode.Jump(cond, c, z))
    requires Fetched(m, 0) == Truncated(Microcode.Fetch) && Load(m, Pc(m.reg)) == cond.Opcode()
    requires !cond.Taken(m.reg.bank1.c, m.reg.bank1.z)
    ensures Lands(m, Execute(m, 0), StepOver(Pc(m.reg)), 4)
  {
    var n := FetchStep(m);
    ConditionBank(n.reg, cond);
    ConditionalJumpExecutes(t, n, cond);
  }

  /**
   * A conditional jump as a whole: the CPU tests the flags of bank one, and jumps in seven
   * ticks or steps over the address in four.
   */
  lemma ConditionalJumpInstruction(t: URomData.Table, m: Machine, cond: Microcode.Condition)
    requires t.Valid() && m.Valid() && m.urom0 == t.code0 && m.urom1 == t.code1
    requires forall c: bool, z: bool :: URom.Holds(t, Microcode.Jump(cond, c, z))
    requires Fetched(m, 0) == Truncated(Microcode.Fetch) && Load(m, Pc(m.reg)) == cond.Opcode()
    ensures var f := m.reg.bank1;
      Lands(m, Execute(m, 0), if cond.Taken(f.c, f.z) then JumpTarget(m, Pc(m.reg)) else StepOver(Pc(m.reg)),
        if cond.Taken(f.c, f.z) then 7 else 4)
  {
    if cond.Taken(m.reg.bank1.c, m.reg.bank1.z) {
      ConditionalJumpTaken(t, m, cond);
    } else {
      ConditionalJumpSkipped(t, m, cond);
    }
  }
}

=== FILE: fifo.dfy ===
/**
 * The unbounded byte queues of the emulator's keyboard and serial port: taking
 * from an empty queue yields 0 and leaves it empty.
 */
module Fifo {

  /** The oldest byte and the rest of the queue; 0 and the empty queue when there is none. */
  function Take(queue: seq<bv8>): (r: (bv8, seq<bv8>))
    ensures queue != [] ==> r.0 == queue[0] && r.1 == queue[1..]
    ensures queue == [] ==> r.0 == 0 && r.1 == []
  {
    if queue == [] then (0, []) else (queue[0], queue[1..])
  }

  /** Taking n bytes, one after the other: the bytes taken and the queue left. */
  function TakeAll(queue: seq<bv8>, n: nat): (r: (seq<bv8>, seq<bv8>))
    ensures |r.0| == n
  {
    if n == 0 then ([], queue)
    else
      var (b, rest) := Take(queue);
      var more := TakeAll(rest, n - 1);
      ([b] + more.0, more.1)
  }

  /** n zero bytes. */
  function Zeros(n: nat): (z: seq<bv8>)
    ensures |z| == n && forall i :: 0 <= i < n ==> z[i] == 0
  {
    seq(n, _ => 0)
  }

  /** Taking bytes returns the queue's oldest ones in order, then zeros once it is empty. */
  lemma {:induction false} TakeAllInOrder(queue: seq<bv8>, n: nat)
    ensures n <= |queue| ==> TakeAll(queue, n) == (queue[..n], queue[n..])
    ensures n > |queue| ==> TakeAll(queue, n) == (queue + Zeros(n - |queue|), [])
  {
    if n > 0 {
      TakeAllInOrder(Take(queue).1, n - 1);
      if queue != [] {
        assert queue == [queue[0]] + queue[1..];
        if n <= |queue| {
          assert queue[..n] == [queue[0]] + queue[1..][..n - 1];
        } else {
          assert queue + Zeros(n - |queue|) == [queue[0]] + (queue[1..] + Zeros(n - |queue|));
        }
      } else {
        assert [] + Zeros(n - 1) == Zeros(n - 1);
        assert Zeros(n) == [0] + Zeros(n - 1);
        assert queue + Zeros(n) == Zeros(n);
      }
    }
  }

  /** Taking exactly what is queued returns all of it and leaves nothing. */
  lemma TakeEverything(queue: seq<bv8>)
    ensures TakeAll(queue, |queue|) == (queue, [])
  {
    TakeAllInOrder(queue, |queue|);
    assert queue[..|queue|] == queue;
  }
}

=== FILE: fs_name.dfy ===
/**
 * The firmware's file-name buffer and the paths it builds from it. The firmware
 * keeps names as C strings: a fixed array of 27 bytes (room for the longest path,
 * two 12-character names, a separator and a leading slash, plus the terminator)
 * with the length kept beside it and a 0 byte after the last character. A path is
 * built by copying the directory's C string, a '/', then the name's C string, and
 * terminating it.
 */
module FsName {
  import IoBoard

  /** The longest path: two names, a separator and a leading slash. */
  const PathMaxLength: nat := 2 * IoBoard.NameMaxLength + 2
  const Slash: bv8 := 0x2F

  /** "/os.bin", "/app" and "/file" as C strings. */
  const OsPath: seq<bv8> := [0x2F, 0x6F, 0x73, 0x2E, 0x62, 0x69, 0x6E, 0x00]
  const AppDir: seq<bv8> := [0x2F, 0x61, 0x70, 0x70, 0x00]
  const FileDir: seq<bv8> := [0x2F, 0x66, 0x69, 0x6C, 0x65, 0x00]

  // ----- C strings -----

  /** A byte array holding a C string: some byte is 0. */
  predicate Terminated(s: seq<bv8>) {
    exists i :: 0 <= i < |s| && s[i] == 0
  }

  /** The C string an array holds: the bytes before the first 0. */
  function CString(s: seq<bv8>): (c: seq<bv8>)
    ensures |c| <= |s|
  {
    if s == [] || s[0] == 0 then [] else [s[0]] + CString(s[1..])
  }

  /** The C string of a terminated array ends at its first 0 and copies the bytes before it. */
  lemma {:induction false} CStringEnds(s: seq<bv8>)
    requires Terminated(s)
    ensures |CString(s)| < |s| && s[|CString(s)|] == 0
    ensures forall k :: 0 <= k < |CString(s)| ==> CString(s)[k] == s[k] && s[k] != 0
  {
    var i :| 0 <= i < |s| && s[i] == 0;
    if s[0] != 0 {
      assert s[1..][i - 1] == 0;
      CStringEnds(s[1..]);
    }
  }

  /** An array whose first 0 is at k holds the C string of its first k bytes. */
  lemma {:induction false} CStringAt(s: seq<bv8>, k: nat)
    requires k < |s| && s[k] == 0 && forall i :: 0 <= i < k ==> s[i] != 0
    ensures CString(s) == s[..k]
  {
    if k > 0 {
      CStringAt(s[1..], k - 1);
      assert s[..k] == [s[0]] + s[1..][..k - 1];
    }
  }

  // ----- the name buffer -----

  /** The name array and its length. */
  datatype NameBuffer = NameBuffer(chars: seq<bv8>, length: nat)

  /**
   * What the firmware keeps: a 27-byte array, at most 12 characters, each
   * printable ASCII, and a 0 right after the last one.
   */
  predicate Ok(n: NameBuffer) {
    && |n.chars| == PathMaxLength + 1 && n.length <= IoBoard.NameMaxLength && n.chars[n.length] == 0
    && forall i :: 0 <= i < n.length ==> IoBoard.NameMinCode <= n.chars[i] <= IoBoard.NameMaxCode
  }

  /** The name the buffer holds. */
  function Name(n: NameBuffer): (name: seq<bv8>)
    requires Ok(n)
    ensures IoBoard.NameOk(name) && |name| == n.length
  {
    n.chars[..n.length]
  }

  /** The buffer at start-up: all zeros. */
  function Initial(): (n: NameBuffer)
    ensures Ok(n) && Name(n) == []
  {
    NameBuffer(seq(PathMaxLength + 1, _ => 0), 0)
  }

  /** Forget the name: terminate at 0 and set the length to 0. */
  function Reset(n: NameBuffer): (r: NameBuffer)
    requires Ok(n)
    ensures Ok(r) && Name(r) == []
  {
    NameBuffer(n.chars[0 := 0], 0)
  }

  /** Append a byte when the name is shorter than 12 and the byte is printable ASCII, and re-terminate. */
  function Append(n: NameBuffer, d: bv8): (r: NameBuffer)
    requires Ok(n)
    ensures Ok(r)
  {
    if n.length < IoBoard.NameMaxLength && IoBoard.NameMinCode <= d <= IoBoard.NameMaxCode then
      NameBuffer(n.chars[n.length := d][n.length + 1 := 0], n.length + 1)
    else n
  }

  /** The buffer reads as the C string it is meant to hold. */
  lemma NameIsCString(n: NameBuffer)
    requires Ok(n)
    ensures CString(n.chars) == Name(n)
  {
    CStringAt(n.chars, n.length);
  }

  /** Appending follows the emulator's rule for names: the byte is added exactly when it would be there. */
  lemma AppendAgrees(n: NameBuffer, d: bv8)
    requires Ok(n)
    ensures Name(Append(n, d)) == IoBoard.AppendName(Name(n), d)
  {
    var r := Append(n, d);
    if r != n {
      assert Name(r) == Name(n) + [d];
    }
  }

  // ----- paths -----

  /** The path built from a directory and a name: directory, '/', name, then the terminator. */
  function Path(dir: seq<bv8>, file: seq<bv8>): (path: seq<bv8>)
    ensures |path| == |CString(dir)| + |CString(file)| + 2
  {
    CString(dir) + [Slash] + CString(file) + [0]
  }

  /** Copy the C string src into the buffer from position at on, stopping at its terminator. */
  method CopyString(buffer: seq<bv8>, at: nat, src: seq<bv8>) returns (r: seq<bv8>)
    requires Terminated(src) && at + |CString(src)| <= |buffer|
    ensures |r| == |buffer|
    ensures forall k :: 0 <= k < |r| ==>
      r[k] == if at <= k < at + |CString(src)| then CString(src)[k - at] else buffer[k]
  {
    CStringEnds(src);
    ghost var c := CString(src);
    r := buffer;
    var j := 0;
    while src[j] != 0
      invariant 0 <= j <= |c| && |r| == |buffer|
      invariant forall k :: 0 <= k < |r| ==> r[k] == if at <= k < at + j then c[k - at] else buffer[k]
      decreases |c| - j
    {
      r := r[at + j := src[j]];
      j := j + 1;
    }
  }

  /**
   * Copy the directory's C string, a '/', the name's C string and a terminator into
   * the start of the buffer; the rest of the buffer keeps its bytes.
   */
  method CreatePath(buffer: seq<bv8>, dir: seq<bv8>, file: seq<bv8>) returns (path: seq<bv8>)
    requires Terminated(dir) && Terminated(file)
    requires |CString(dir)| + |CString(file)| + 2 <= |buffer|
    ensures |path| == |buffer|
    ensures forall k :: 0 <= k < |path| ==> path[k] == if k < |Path(dir, file)| then Path(dir, file)[k] else buffer[k]
  {
    ghost var d, f := CString(dir), CString(file);
    var withDir := CopyString(buffer, 0, dir);
    var n := |CString(dir)|;
    var withSlash := withDir[n := Slash];
    var withFile := CopyString(withSlash, n + 1, file);
    path := withFile[n + 1 + |CString(file)| := 0];
    ghost var p := Path(dir, file);
    forall k | 0 <= k < |path|
      ensures path[k] == if k < |p| then p[k] else buffer[k]
    {
      if k < n {
        assert p[k] == d[k];
      } else if k == n {
        assert p[k] == Slash;
      } else if k < n + 1 + |f| {
        assert p[k] == f[k - n - 1];
      }
    }
  }

  /**
   * The paths built from a valid name are "/app/" or "/file/", the name and the
   * terminator, and both fit the 27-byte path buffer.
   */
  lemma PathsFit(n: NameBuffer)
    requires Ok(n)
    ensures Terminated(AppDir) && Terminated(FileDir) && Terminated(n.chars)
    ensures |Path(AppDir, n.chars)| <= PathMaxLength + 1 && |Path(FileDir, n.chars)| <= PathMaxLength + 1
    ensures Path(AppDir, n.chars) == [0x2F, 0x61, 0x70, 0x70, 0x2F] + Name(n) + [0]
    ensures Path(FileDir, n.chars) == [0x2F, 0x66, 0x69, 0x6C, 0x65, 0x2F] + Name(n) + [0]
  {
    assert AppDir[4] == 0 && FileDir[5] == 0;
    NameIsCString(n);
    CStringAt(AppDir, 4);
    CStringAt(FileDir, 5);
    assert AppDir[..4] + [Slash] == [0x2F, 0x61, 0x70, 0x70, 0x2F];
    assert FileDir[..5] + [Slash] == [0x2F, 0x66, 0x69, 0x6C, 0x65, 0x2F];
  }
}

=== FILE: io_board.dfy ===
/**
 * The emulator's I/O board: it receives the CPU's OUT byte, decodes the nibble
 * request (see module Nibble), and serves it from a set of virtual registers that
 * front the LCD, the keyboard, the serial port, the speaker, the two LEDs, the
 * real-time clock and the file system. Every handled request flips IN bit 7; the
 * keyboard and the serial port raise and clear IN bits 5 and 6 when they have data.
 *
 * The clock and the file system live on the host and are not modelled: the step
 * that uses one names the call in its `Effect` and takes the host's answer from a
 * `Host` parameter. A byte sent on the serial port is reported the same way.
 */
module IoBoard {
  import opened Wrappers
  import opened Nibble
  import Lcd
  import Bytes
  import Keyboard
  import Rs232
  import Speaker

  // ----- register addresses -----
  const RegCommand: bv4 := 0
  const RegStatus: bv4 := 1
  const RegFieldAddress: bv4 := 2
  const RegField: bv4 := 3
  const RegKeyboard: bv4 := 4
  const RegLcdColor: bv4 := 5
  const RegLcdCursorX: bv4 := 6
  const RegLcdCursorY: bv4 := 7
  const RegLcdChar: bv4 := 8
  const RegRs232: bv4 := 9
  const RegFs: bv4 := 10

  // ----- commands written to the low half -----
  const FsOpenOs: bv4 := 0
  const FsResetName: bv4 := 1
  const FsOpenApp: bv4 := 2
  const FsOpenFile: bv4 := 3
  const FsListApp: bv4 := 4
  const FsListFile: bv4 := 5

  // ----- commands written to the high half -----
  const LedRunOff: bv4 := 0
  const LedRunOn: bv4 := 1
  const LedErrorOff: bv4 := 2
  const LedErrorOn: bv4 := 3
  const LcdClear: bv4 := 4
  const LcdRefresh: bv4 := 5
  const LcdScrollDown: bv4 := 6
  const LcdNewLine: bv4 := 7
  const RtcWrite: bv4 := 8
  const RtcRead: bv4 := 9
  const SpeakerPlay: bv4 := 11
  const SpeakerPause: bv4 := 12
  const SpeakerClear: bv4 := 13
  const SpeakerAddNote: bv4 := 14
  const SpeakerGetBufferFree: bv4 := 15

  // ----- status addresses: the low half and the high half each have their own -----
  const FsStatus: bv4 := 0
  const LedRunEnabled: bv4 := 0
  const LedErrorEnabled: bv4 := 1
  const SpeakerIsPlaying: bv4 := 2

  // ----- field addresses -----
  const FieldFsSizeLow: bv4 := 0
  const FieldFsSizeHigh: bv4 := 1
  const FieldRtcYear: bv4 := 4
  const FieldRtcMonth: bv4 := 5
  const FieldRtcDay: bv4 := 6
  const FieldRtcHour: bv4 := 7
  const FieldRtcMinute: bv4 := 8
  const FieldRtcSecond: bv4 := 9
  /** Read: the speaker's free space. Written: the note code. */
  const FieldSpeakerBufferFree: bv4 := 12
  const FieldSpeakerNote: bv4 := 12
  const FieldSpeakerTime: bv4 := 13
  const FieldSpeakerFill: bv4 := 14
  const FieldSpeakerVolume: bv4 := 15

  const KeyboardReadyBit: bv8 := 0x20
  const Rs232ReadyBit: bv8 := 0x40

  // ----- the file name buffer -----
  const NameMaxLength: nat := 12
  const NameMinCode: bv8 := 0x20
  const NameMaxCode: bv8 := 0x7E

  datatype DateTime = DateTime(year: bv8, month: bv8, day: bv8, hour: bv8, minute: bv8, second: bv8)
  datatype Size = Size(low: bv8, high: bv8)

  /**
   * The virtual registers a program fills and reads through the register interface;
   * the file name is kept as the implementation keeps it.
   */
  datatype Regs<Name> = Regs(
    statusAddress: bv4, fieldAddress: bv4, rtc: DateTime, note: Speaker.Note,
    bufferFree: bv8, name: Name, size: Size, status: bool)

  /**
   * The byte each register keeps between its two halves: the write latches of the
   * field, cursor, character, serial and name registers, and the bytes the keyboard,
   * cursor, serial and file-data registers fetched on their low-half read. They are
   * not cleared by a reset.
   */
  datatype Latches = Latches(
    field: bv8, cursorX: bv8, cursorY: bv8, character: bv8, tx: bv8, name: bv8,
    key: bv8, readX: bv8, readY: bv8, rx: bv8, fsData: bv8)

  datatype Devices = Devices(
    lcd: Lcd.Lcd, keys: seq<bv8>, serial: seq<bv8>, speaker: Speaker.Speaker, ledRun: bool, ledError: bool)

  /** The selected register, the virtual registers, the latches, the IN byte, the devices. */
  datatype Board = Board(selected: bv4, regs: Regs<seq<bv8>>, latches: Latches, port: bv8, devices: Devices)

  /** A file the board asks the host to open. */
  datatype FsPath = OsImage | AppFile(appName: seq<bv8>) | DataFile(fileName: seq<bv8>)
  datatype FsDir = AppDir | FileDir

  /** The call a step makes outside the board, if any. */
  datatype Effect =
    | NoEffect
    | Transmit(sent: bv8)
    | FsOpen(path: FsPath)
    | FsList(dir: FsDir)
    | FsReadByte
    | RtcSet(time: DateTime)
    | RtcGet

  /** The host's answers: the file system's status and size, its next data byte, the clock. */
  datatype Host = Host(fsStatus: bool, fsSize: Size, fsByte: bv8, clock: DateTime)

  /** A name the board accepts: at most 12 characters, each printable ASCII. */
  predicate NameOk(name: seq<bv8>) {
    |name| <= NameMaxLength && forall i :: 0 <= i < |name| ==> NameMinCode <= name[i] <= NameMaxCode
  }

  /** A byte the name accepts: printable ASCII. */
  predicate NameCode(c: bv8) {
    NameMinCode <= c <= NameMaxCode
  }

  /** The name rule both boards follow: a byte is appended while the name is shorter than 12 and printable ASCII, else dropped. */
  function AppendName(name: seq<bv8>, c: bv8): (r: seq<bv8>)
    ensures r == name || r == name + [c]
  {
    if |name| < NameMaxLength && NameCode(c) then name + [c] else name
  }

  /** The name after the bytes of s arrive one after the other. */
  function AppendNames(name: seq<bv8>, s: seq<bv8>): seq<bv8>
    decreases |s|
  {
    if s == [] then name else AppendNames(AppendName(name, s[0]), s[1..])
  }

  /** What every step keeps: an LCD in shape and a valid name buffer. */
  predicate Valid(b: Board) {
    Lcd.Valid(b.devices.lcd) && NameOk(b.regs.name)
  }

  const NoTime: DateTime := DateTime(0, 0, 0, 0, 0, 0)
  const EmptyRegs: Regs<seq<bv8>> := Regs(0, 0, NoTime, Speaker.Note(0, 0, 0, 0), 0, [], Size(0, 0), false)

  /**
   * The board after a reset: register 0 selected, the virtual registers and IN
   * cleared, every device reset. The latches keep their bytes.
   */
  function Reset(b: Board): (r: Board)
    ensures Valid(r) && r.selected == 0 && r.port == 0 && r.regs == EmptyRegs && r.latches == b.latches
    ensures r.devices.keys == [] && r.devices.serial == [] && r.devices.speaker == Speaker.Speaker([], false)
    ensures !r.devices.ledRun && !r.devices.ledError && r.devices.lcd == Lcd.Reset()
  {
    var speaker := Speaker.Clear(b.devices.speaker);
    Board(0, EmptyRegs, b.latches, 0, Devices(Lcd.Reset(), [], [], speaker, false, false))
  }

  // ----- the data-ready signals -----

  /** A data-ready signal: set or clear one IN bit, or leave IN as it is. */
  function Signal(port: bv8, bit: bv8, ready: Option<bool>): (r: bv8)
    requires bit == KeyboardReadyBit || bit == Rs232ReadyBit
    ensures r & !bit == port & !bit
    ensures ready == Some(true) ==> r & bit == bit
    ensures ready == Some(false) ==> r & bit == 0
    ensures ready == None ==> r == port
  {
    match ready
    case Some(true) => port | bit
    case Some(false) => port & !bit
    case None => port
  }

  /** A key pressed on the host: queued, and IN bit 5 follows the keyboard's signal. */
  function KeyPress(b: Board, key: Keyboard.Key, m: Keyboard.Modifiers): (r: Board)
    requires Valid(b)
    ensures Valid(r)
    ensures r.devices.keys == Keyboard.KeyPress(b.devices.keys, key, m).queue
    ensures r.port & !KeyboardReadyBit == b.port & !KeyboardReadyBit
    ensures (r.port & KeyboardReadyBit != 0) <==> r.devices.keys != [] || b.port & KeyboardReadyBit != 0
    ensures r == b.(devices := r.devices, port := r.port)
    ensures r.devices == b.devices.(keys := r.devices.keys)
  {
    var p := Keyboard.KeyPress(b.devices.keys, key, m);
    b.(devices := b.devices.(keys := p.queue), port := Signal(b.port, KeyboardReadyBit, p.ready))
  }

  /** Text typed into the host's terminal: queued, and IN bit 6 follows the port's signal. */
  function SerialReceive(b: Board, text: string): (r: Board)
    requires Valid(b)
    ensures Valid(r)
    ensures r.devices.serial == Rs232.Rx(b.devices.serial, text).queue
    ensures r.port & !Rs232ReadyBit == b.port & !Rs232ReadyBit
    ensures (r.port & Rs232ReadyBit != 0) <==> r.devices.serial != [] || b.port & Rs232ReadyBit != 0
    ensures r.devices == b.devices.(serial := r.devices.serial)
    ensures r == b.(devices := r.devices, port := r.port)
  {
    var p := Rs232.Rx(b.devices.serial, text);
    b.(devices := b.devices.(serial := p.queue), port := Signal(b.port, Rs232ReadyBit, p.ready))
  }

  // ----- reads -----

  /** The flag the selected status register reports for the half being read. */
  predicate Flag(b: Board, high: bool) {
    if !high then b.regs.statusAddress == FsStatus && b.regs.status
    else if b.regs.statusAddress == LedRunEnabled then b.devices.ledRun
    else if b.regs.statusAddress == LedErrorEnabled then b.devices.ledError
    else if b.regs.statusAddress == SpeakerIsPlaying then b.devices.speaker.playing
    else false
  }

  /**
   * The status byte as written: 1 when the flag is set, for either half. The read
   * path then shifts a high-half byte right by four, so the high-half flags never
   * reach the bus.
   */
  function StatusAsWritten(flag: bool): (data: bv8)
    ensures data == 0 || data == 1
    ensures (data == 1) == flag
  {
    if flag then 1 else 0
  }

  /** The status byte as intended: the flag in bit 0 of the half being read. */
  function Status(flag: bool, high: bool): (data: bv8)
    ensures Serve(data, high) == if flag then 1 else 0
  {
    if !flag then 0 else if high then 0x10 else 1
  }

  /** The byte the selected field register reports; an address that is not readable gives 0. */
  function ReadField<Name>(regs: Regs<Name>): (data: bv8)
    ensures regs.fieldAddress == FieldFsSizeLow ==> data == regs.size.low
    ensures regs.fieldAddress == FieldFsSizeHigh ==> data == regs.size.high
    ensures regs.fieldAddress == FieldSpeakerBufferFree ==> data == regs.bufferFree
    ensures regs.fieldAddress == FieldRtcYear ==> data == regs.rtc.year
    ensures regs.fieldAddress == FieldRtcSecond ==> data == regs.rtc.second
    ensures regs.fieldAddress in {2, 3, 10, 11, 13, 14, 15} ==> data == 0
  {
    var a := regs.fieldAddress;
    if a == FieldFsSizeLow then regs.size.low
    else if a == FieldFsSizeHigh then regs.size.high
    else if a == FieldSpeakerBufferFree then regs.bufferFree
    else if a == FieldRtcYear then regs.rtc.year
    else if a == FieldRtcMonth then regs.rtc.month
    else if a == FieldRtcDay then regs.rtc.day
    else if a == FieldRtcHour then regs.rtc.hour
    else if a == FieldRtcMinute then regs.rtc.minute
    else if a == FieldRtcSecond then regs.rtc.second
    else 0
  }

  /** The board after a read, the byte whose half goes on the bus, and the call made. */
  datatype ReadOutcome = ReadOutcome(board: Board, data: bv8, effect: Effect)

  /** What every read leaves alone: the selection, the virtual registers, LCD, speaker and LEDs. */
  predicate ReadFrame(b: Board, r: Board) {
    && r.selected == b.selected && r.regs == b.regs
    && r.devices.lcd == b.devices.lcd && r.devices.speaker == b.devices.speaker
    && r.devices.ledRun == b.devices.ledRun && r.devices.ledError == b.devices.ledError
  }

  /** The keyboard register: the low half takes the next key code, the high half serves it again. */
  function ReadKeyboard(b: Board, high: bool): (o: ReadOutcome)
    ensures ReadFrame(b, o.board) && o.effect == NoEffect
    ensures high ==> o == ReadOutcome(b, b.latches.key, NoEffect)
    ensures !high ==> var t := Keyboard.GetKey(b.devices.keys);
      && o.data == t.key && o.board.latches == b.latches.(key := t.key)
      && o.board.devices == b.devices.(keys := t.queue) && o.board.port == Signal(b.port, KeyboardReadyBit, t.ready)
  {
    if high then ReadOutcome(b, b.latches.key, NoEffect)
    else
      var t := Keyboard.GetKey(b.devices.keys);
      var b' := b.(devices := b.devices.(keys := t.queue), port := Signal(b.port, KeyboardReadyBit, t.ready),
                   latches := b.latches.(key := t.key));
      ReadOutcome(b', t.key, NoEffect)
  }

  /** The serial register: the low half takes the next received byte, the high half serves it again. */
  function ReadSerial(b: Board, high: bool): (o: ReadOutcome)
    ensures ReadFrame(b, o.board) && o.effect == NoEffect
    ensures high ==> o == ReadOutcome(b, b.latches.rx, NoEffect)
    ensures !high ==> var t := Rs232.Receive(b.devices.serial);
      && o.data == t.b && o.board.latches == b.latches.(rx := t.b)
      && o.board.devices == b.devices.(serial := t.queue) && o.board.port == Signal(b.port, Rs232ReadyBit, t.ready)
  {
    if high then ReadOutcome(b, b.latches.rx, NoEffect)
    else
      var t := Rs232.Receive(b.devices.serial);
      var b' := b.(devices := b.devices.(serial := t.queue), port := Signal(b.port, Rs232ReadyBit, t.ready),
                   latches := b.latches.(rx := t.b));
      ReadOutcome(b', t.b, NoEffect)
  }

  /** The cursor registers: the low half reads the coordinate, the high half serves it again. */
  function ReadCursor(b: Board, vertical: bool, high: bool): (o: ReadOutcome)
    requires Valid(b)
    ensures ReadFrame(b, o.board) && o.board.devices == b.devices && o.board.port == b.port && o.effect == NoEffect
    ensures !high && !vertical ==> o.data as nat == b.devices.lcd.x && o.board.latches == b.latches.(readX := o.data)
    ensures !high && vertical ==> o.data as nat == b.devices.lcd.y && o.board.latches == b.latches.(readY := o.data)
    ensures high ==> o == ReadOutcome(b, if vertical then b.latches.readY else b.latches.readX, NoEffect)
  {
    if high then ReadOutcome(b, if vertical then b.latches.readY else b.latches.readX, NoEffect)
    else if vertical then
      var y := Lcd.Cursor(b.devices.lcd, true);
      ReadOutcome(b.(latches := b.latches.(readY := y)), y, NoEffect)
    else
      var x := Lcd.Cursor(b.devices.lcd, false);
      ReadOutcome(b.(latches := b.latches.(readX := x)), x, NoEffect)
  }

  /** The file-data register: the low half asks the host for the next byte, the high half serves it again. */
  function ReadFsData(b: Board, high: bool, host: Host): (o: ReadOutcome)
    ensures ReadFrame(b, o.board) && o.board.devices == b.devices && o.board.port == b.port
    ensures !high ==> o.data == host.fsByte && o.effect == FsReadByte && o.board.latches == b.latches.(fsData := host.fsByte)
    ensures high ==> o == ReadOutcome(b, b.latches.fsData, NoEffect)
  {
    if high then ReadOutcome(b, b.latches.fsData, NoEffect)
    else ReadOutcome(b.(latches := b.latches.(fsData := host.fsByte)), host.fsByte, FsReadByte)
  }

  /**
   * Serve a read of the selected register. The keyboard, cursor, serial and
   * file-data registers fetch a new byte on the low half only (taking it from its
   * source) and serve the same byte again on the high half; a register that cannot
   * be read gives 0.
   */
  function ReadRegister(b: Board, high: bool, host: Host): (o: ReadOutcome)
    requires Valid(b)
    ensures Valid(o.board) && ReadFrame(b, o.board)
    ensures o.board.port & !(KeyboardReadyBit | Rs232ReadyBit) == b.port & !(KeyboardReadyBit | Rs232ReadyBit)
    ensures high ==> o.board == b && o.effect == NoEffect
    ensures b.selected == RegStatus ==> o.data == Status(Flag(b, high), high)
    ensures b.selected == RegField ==> o.data == ReadField(b.regs)
    ensures b.selected !in {RegStatus, RegField, RegKeyboard, RegRs232, RegLcdCursorX, RegLcdCursorY, RegFs} ==>
      o == ReadOutcome(b, 0, NoEffect)
  {
    var s := b.selected;
    if s == RegStatus then ReadOutcome(b, Status(Flag(b, high), high), NoEffect)
    else if s == RegField then ReadOutcome(b, ReadField(b.regs), NoEffect)
    else if s == RegKeyboard then ReadKeyboard(b, high)
    else if s == RegLcdCursorX then ReadCursor(b, false, high)
    else if s == RegLcdCursorY then ReadCursor(b, true, high)
    else if s == RegRs232 then ReadSerial(b, high)
    else if s == RegFs then ReadFsData(b, high, host)
    else ReadOutcome(b, 0, NoEffect)
  }

  // ----- writes -----

  /** The board after a request and the call it made outside the board. */
  datatype Outcome = Outcome(board: Board, effect: Effect)

  /** The file system's answer as the board keeps it: the size is zeroed when the call fails. */
  function FsAnswer<Name>(regs: Regs<Name>, host: Host): (r: Regs<Name>)
    ensures r == regs.(status := r.status, size := r.size)
    ensures r.status == host.fsStatus
    ensures !host.fsStatus ==> r.size == Size(0, 0)
    ensures host.fsStatus ==> r.size == host.fsSize
  {
    regs.(status := host.fsStatus, size := if host.fsStatus then host.fsSize else Size(0, 0))
  }

  /** A command written to the low half: the file-system commands. */
  function FsCommand(b: Board, n: bv4, host: Host): (o: Outcome)
    requires Valid(b)
    ensures Valid(o.board)
    ensures o.board == b.(regs := o.board.regs)
    ensures n == FsOpenOs ==> o == Outcome(b.(regs := FsAnswer(b.regs, host)), FsOpen(OsImage))
    ensures n == FsResetName ==> o == Outcome(b.(regs := b.regs.(name := [])), NoEffect)
    ensures n == FsOpenApp ==> o == Outcome(b.(regs := FsAnswer(b.regs, host)), FsOpen(AppFile(b.regs.name)))
    ensures n == FsOpenFile ==> o == Outcome(b.(regs := FsAnswer(b.regs, host)), FsOpen(DataFile(b.regs.name)))
    ensures n == FsListApp ==> o == Outcome(b.(regs := FsAnswer(b.regs, host)), FsList(AppDir))
    ensures n == FsListFile ==> o == Outcome(b.(regs := FsAnswer(b.regs, host)), FsList(FileDir))
    ensures n > FsListFile ==> o == Outcome(b, NoEffect)
  {
    var answered := b.(regs := FsAnswer(b.regs, host));
    if n == FsOpenOs then Outcome(answered, FsOpen(OsImage))
    else if n == FsResetName then Outcome(b.(regs := b.regs.(name := [])), NoEffect)
    else if n == FsOpenApp then Outcome(answered, FsOpen(AppFile(b.regs.name)))
    else if n == FsOpenFile then Outcome(answered, FsOpen(DataFile(b.regs.name)))
    else if n == FsListApp then Outcome(answered, FsList(AppDir))
    else if n == FsListFile then Outcome(answered, FsList(FileDir))
    else Outcome(b, NoEffect)
  }

  /** What a device command leaves alone: the selection, the latches, IN and the two byte queues. */
  predicate CommandFrame(b: Board, r: Board) {
    && r.selected == b.selected && r.latches == b.latches && r.port == b.port
    && r.devices.keys == b.devices.keys && r.devices.serial == b.devices.serial
  }

  /** The LED commands: switch one LED on or off. */
  function LedCommand(b: Board, n: bv4): (r: Board)
    requires Valid(b) && n <= LedErrorOn
    ensures Valid(r) && CommandFrame(b, r) && r.regs == b.regs && r.devices.lcd == b.devices.lcd
    ensures r.devices.speaker == b.devices.speaker
    ensures r.devices.ledRun == (if n <= LedRunOn then n == LedRunOn else b.devices.ledRun)
    ensures r.devices.ledError == (if n >= LedErrorOff then n == LedErrorOn else b.devices.ledError)
  {
    var d := b.devices;
    if n == LedRunOff then b.(devices := d.(ledRun := false))
    else if n == LedRunOn then b.(devices := d.(ledRun := true))
    else if n == LedErrorOff then b.(devices := d.(ledError := false))
    else b.(devices := d.(ledError := true))
  }

  /** The LCD commands: clear (and show the cleared screen), refresh, scroll, new line. */
  function LcdCommand(b: Board, n: bv4): (r: Board)
    requires Valid(b) && LcdClear <= n <= LcdNewLine
    ensures Valid(r) && r == b.(devices := b.devices.(lcd := r.devices.lcd))
    ensures n == LcdClear ==> Lcd.IsBlank(r.devices.lcd.canvas) && Lcd.IsBlank(r.devices.lcd.ready)
    ensures n == LcdClear ==> r.devices.lcd.color == b.devices.lcd.color
    ensures n == LcdClear ==> r.devices.lcd.x == b.devices.lcd.x && r.devices.lcd.y == b.devices.lcd.y
    ensures n == LcdRefresh ==> r.devices.lcd.ready == b.devices.lcd.canvas
    ensures n == LcdScrollDown ==> r.devices.lcd == Lcd.ScrollDown(b.devices.lcd)
    ensures n == LcdNewLine ==> r.devices.lcd == Lcd.NewLine(b.devices.lcd)
  {
    var l := b.devices.lcd;
    var l' :=
      if n == LcdClear then Lcd.Refresh(Lcd.Clear(l))
      else if n == LcdRefresh then Lcd.Refresh(l)
      else if n == LcdScrollDown then Lcd.ScrollDown(l)
      else Lcd.NewLine(l);
    b.(devices := b.devices.(lcd := l'))
  }

  /** The speaker commands that act on the speaker: play, pause, clear, queue the note registers. */
  function SpeakerCommand(b: Board, n: bv4): (r: Board)
    requires Valid(b) && SpeakerPlay <= n < SpeakerGetBufferFree
    ensures Valid(r) && r == b.(devices := b.devices.(speaker := r.devices.speaker))
    ensures n == SpeakerPlay ==> r.devices.speaker == Speaker.Play(b.devices.speaker)
    ensures n == SpeakerPause ==> r.devices.speaker == Speaker.Pause(b.devices.speaker)
    ensures n == SpeakerClear ==> r.devices.speaker == Speaker.Clear(b.devices.speaker)
    ensures n == SpeakerAddNote ==> r.devices.speaker == Speaker.AddNote(b.devices.speaker, b.regs.note)
  {
    var s := b.devices.speaker;
    var s' :=
      if n == SpeakerPlay then Speaker.Play(s)
      else if n == SpeakerPause then Speaker.Pause(s)
      else if n == SpeakerClear then Speaker.Clear(s)
      else Speaker.AddNote(s, b.regs.note);
    b.(devices := b.devices.(speaker := s'))
  }

  /** The speaker's free space, truncated to a byte, kept for the field register. */
  function BufferFreeCommand(b: Board): (r: Board)
    requires Valid(b)
    ensures Valid(r) && r == b.(regs := b.regs.(bufferFree := r.regs.bufferFree))
    ensures r.regs.bufferFree as int == Speaker.GetBufferFree(b.devices.speaker)
  {
    b.(regs := b.regs.(bufferFree := Bytes.ByteOf(Speaker.GetBufferFree(b.devices.speaker))))
  }

  /**
   * A command written to the high half: LEDs, LCD, clock and speaker. Writing the
   * clock hands the clock registers to the host; reading it fills them from the
   * host's clock. Command 10 does nothing.
   */
  function DeviceCommand(b: Board, n: bv4, host: Host): (o: Outcome)
    requires Valid(b)
    ensures n <= LedErrorOn ==> o == Outcome(LedCommand(b, n), NoEffect)
    ensures LcdClear <= n <= LcdNewLine ==> o == Outcome(LcdCommand(b, n), NoEffect)
    ensures n == RtcWrite ==> o == Outcome(b, RtcSet(b.regs.rtc))
    ensures n == RtcRead ==> o == Outcome(b.(regs := b.regs.(rtc := host.clock)), RtcGet)
    ensures n == 10 ==> o == Outcome(b, NoEffect)
    ensures SpeakerPlay <= n < SpeakerGetBufferFree ==> o == Outcome(SpeakerCommand(b, n), NoEffect)
    ensures n == SpeakerGetBufferFree ==> o == Outcome(BufferFreeCommand(b), NoEffect)
  {
    if n <= LedErrorOn then Outcome(LedCommand(b, n), NoEffect)
    else if n <= LcdNewLine then Outcome(LcdCommand(b, n), NoEffect)
    else if n == RtcWrite then Outcome(b, RtcSet(b.regs.rtc))
    else if n == RtcRead then Outcome(b.(regs := b.regs.(rtc := host.clock)), RtcGet)
    else if n < SpeakerPlay then Outcome(b, NoEffect)
    else if n < SpeakerGetBufferFree then Outcome(SpeakerCommand(b, n), NoEffect)
    else Outcome(BufferFreeCommand(b), NoEffect)
  }

  /** The field registers a high-half write commits the latched byte to: the clock and the note. */
  function CommitField<Name>(regs: Regs<Name>, d: bv8): (r: Regs<Name>)
    ensures r == regs.(rtc := r.rtc, note := r.note)
    ensures regs.fieldAddress == FieldRtcYear ==> r.rtc == regs.rtc.(year := d)
    ensures regs.fieldAddress == FieldRtcMonth ==> r.rtc == regs.rtc.(month := d)
    ensures regs.fieldAddress == FieldRtcDay ==> r.rtc == regs.rtc.(day := d)
    ensures regs.fieldAddress == FieldRtcHour ==> r.rtc == regs.rtc.(hour := d)
    ensures regs.fieldAddress == FieldRtcMinute ==> r.rtc == regs.rtc.(minute := d)
    ensures regs.fieldAddress == FieldRtcSecond ==> r.rtc == regs.rtc.(second := d)
    ensures regs.fieldAddress == FieldSpeakerNote ==> r.note == regs.note.(note := d)
    ensures regs.fieldAddress == FieldSpeakerTime ==> r.note == regs.note.(time := d)
    ensures regs.fieldAddress == FieldSpeakerFill ==> r.note == regs.note.(fill := d)
    ensures regs.fieldAddress == FieldSpeakerVolume ==> r.note == regs.note.(volume := d)
    ensures regs.fieldAddress < FieldRtcYear || regs.fieldAddress in {10, 11} ==> r == regs
  {
    var a, t, n := regs.fieldAddress, regs.rtc, regs.note;
    if a == FieldRtcYear then regs.(rtc := t.(year := d))
    else if a == FieldRtcMonth then regs.(rtc := t.(month := d))
    else if a == FieldRtcDay then regs.(rtc := t.(day := d))
    else if a == FieldRtcHour then regs.(rtc := t.(hour := d))
    else if a == FieldRtcMinute then regs.(rtc := t.(minute := d))
    else if a == FieldRtcSecond then regs.(rtc := t.(second := d))
    else if a == FieldSpeakerNote then regs.(note := n.(note := d))
    else if a == FieldSpeakerTime then regs.(note := n.(time := d))
    else if a == FieldSpeakerFill then regs.(note := n.(fill := d))
    else if a == FieldSpeakerVolume then regs.(note := n.(volume := d))
    else regs
  }

  /** The field register: both halves latch, the high half commits the byte to the selected field. */
  function WriteField(b: Board, high: bool, n: bv4): (r: Board)
    ensures r.latches == b.latches.(field := Latch(b.latches.field, high, n))
    ensures !high ==> r == b.(latches := r.latches)
    ensures high ==> r == b.(latches := r.latches, regs := CommitField(b.regs, r.latches.field))
  {
    var d := Latch(b.latches.field, high, n);
    var b' := b.(latches := b.latches.(field := d));
    if high then b'.(regs := CommitField(b.regs, d)) else b'
  }

  /** The colour register takes no latch: the low half sets the foreground, the high half the background. */
  function WriteColor(b: Board, high: bool, n: bv4): (r: Board)
    requires Valid(b)
    ensures Valid(r) && r == b.(devices := b.devices.(lcd := r.devices.lcd))
    ensures r.devices.lcd == b.devices.lcd.(color := r.devices.lcd.color)
    ensures !high ==> Lo(r.devices.lcd.color) == n && Hi(r.devices.lcd.color) == Hi(b.devices.lcd.color)
    ensures high ==> Hi(r.devices.lcd.color) == n && Lo(r.devices.lcd.color) == Lo(b.devices.lcd.color)
  {
    var l := b.devices.lcd;
    var l' := if high then Lcd.SetColorBackground(l, n as bv8) else Lcd.SetColorForeground(l, n as bv8);
    b.(devices := b.devices.(lcd := l'))
  }

  /** A cursor register: both halves latch, the high half moves the cursor to the latched byte. */
  function WriteCursor(b: Board, vertical: bool, high: bool, n: bv4): (r: Board)
    requires Valid(b)
    ensures Valid(r)
    ensures !vertical ==> r.latches == b.latches.(cursorX := Latch(b.latches.cursorX, high, n))
    ensures vertical ==> r.latches == b.latches.(cursorY := Latch(b.latches.cursorY, high, n))
    ensures !high ==> r == b.(latches := r.latches)
    ensures high && !vertical ==> r == b.(latches := r.latches, devices := b.devices.(lcd := Lcd.SetCursorX(b.devices.lcd, r.latches.cursorX)))
    ensures high && vertical ==> r == b.(latches := r.latches, devices := b.devices.(lcd := Lcd.SetCursorY(b.devices.lcd, r.latches.cursorY)))
  {
    if vertical then
      var d := Latch(b.latches.cursorY, high, n);
      var b' := b.(latches := b.latches.(cursorY := d));
      if high then b'.(devices := b.devices.(lcd := Lcd.SetCursorY(b.devices.lcd, d))) else b'
    else
      var d := Latch(b.latches.cursorX, high, n);
      var b' := b.(latches := b.latches.(cursorX := d));
      if high then b'.(devices := b.devices.(lcd := Lcd.SetCursorX(b.devices.lcd, d))) else b'
  }

  /** The character register: both halves latch, the high half prints the latched byte. */
  function WriteChar(b: Board, high: bool, n: bv4): (r: Board)
    requires Valid(b)
    ensures Valid(r)
    ensures r.latches == b.latches.(character := Latch(b.latches.character, high, n))
    ensures !high ==> r == b.(latches := r.latches)
    ensures high ==> r == b.(latches := r.latches, devices := b.devices.(lcd := Lcd.PrintChar(b.devices.lcd, r.latches.character)))
  {
    var d := Latch(b.latches.character, high, n);
    var b' := b.(latches := b.latches.(character := d));
    if high then b'.(devices := b.devices.(lcd := Lcd.PrintChar(b.devices.lcd, d))) else b'
  }

  /** The serial register: both halves latch, the high half sends the latched byte. */
  function WriteSerial(b: Board, high: bool, n: bv4): (o: Outcome)
    ensures o.board == b.(latches := b.latches.(tx := Latch(b.latches.tx, high, n)))
    ensures !high ==> o.effect == NoEffect
    ensures high ==> o.effect == Transmit(Rs232.Send(o.board.latches.tx))
  {
    var d := Latch(b.latches.tx, high, n);
    Outcome(b.(latches := b.latches.(tx := d)), if high then Transmit(Rs232.Send(d)) else NoEffect)
  }

  /**
   * The name register: both halves latch, the high half appends the latched byte to
   * the file name when the name is shorter than 12 and the byte is printable ASCII.
   */
  function WriteName(b: Board, high: bool, n: bv4): (r: Board)
    requires Valid(b)
    ensures Valid(r)
    ensures r.latches == b.latches.(name := Latch(b.latches.name, high, n))
    ensures r == b.(latches := r.latches, regs := b.regs.(name := r.regs.name))
    ensures r.regs.name == if high then AppendName(b.regs.name, r.latches.name) else b.regs.name
  {
    var d := Latch(b.latches.name, high, n);
    var name' := if high then AppendName(b.regs.name, d) else b.regs.name;
    b.(latches := b.latches.(name := d), regs := b.regs.(name := name'))
  }

  /** A write to one of the board's own registers: command, status address, field address, field. */
  function WriteControl(b: Board, high: bool, n: bv4, host: Host): (o: Outcome)
    requires Valid(b) && b.selected <= RegField
    ensures b.selected == RegCommand ==> o == if high then DeviceCommand(b, n, host) else FsCommand(b, n, host)
    ensures b.selected == RegStatus ==> o == Outcome(b.(regs := b.regs.(statusAddress := n)), NoEffect)
    ensures b.selected == RegFieldAddress ==> o == Outcome(b.(regs := b.regs.(fieldAddress := n)), NoEffect)
    ensures b.selected == RegField ==> o == Outcome(WriteField(b, high, n), NoEffect)
  {
    var s := b.selected;
    if s == RegCommand then (if high then DeviceCommand(b, n, host) else FsCommand(b, n, host))
    else if s == RegStatus then Outcome(b.(regs := b.regs.(statusAddress := n)), NoEffect)
    else if s == RegFieldAddress then Outcome(b.(regs := b.regs.(fieldAddress := n)), NoEffect)
    else Outcome(WriteField(b, high, n), NoEffect)
  }

  /** A write to a register that fronts a device: the LCD, the serial port, the file name. */
  function WriteDevice(b: Board, high: bool, n: bv4): (o: Outcome)
    requires Valid(b) && RegField < b.selected
    ensures b.selected == RegLcdColor ==> o == Outcome(WriteColor(b, high, n), NoEffect)
    ensures b.selected == RegLcdCursorX ==> o == Outcome(WriteCursor(b, false, high, n), NoEffect)
    ensures b.selected == RegLcdCursorY ==> o == Outcome(WriteCursor(b, true, high, n), NoEffect)
    ensures b.selected == RegLcdChar ==> o == Outcome(WriteChar(b, high, n), NoEffect)
    ensures b.selected == RegRs232 ==> o == WriteSerial(b, high, n)
    ensures b.selected == RegFs ==> o == Outcome(WriteName(b, high, n), NoEffect)
    ensures b.selected == RegKeyboard || b.selected > RegFs ==> o == Outcome(b, NoEffect)
  {
    var s := b.selected;
    if s == RegLcdColor then Outcome(WriteColor(b, high, n), NoEffect)
    else if s == RegLcdCursorX then Outcome(WriteCursor(b, false, high, n), NoEffect)
    else if s == RegLcdCursorY then Outcome(WriteCursor(b, true, high, n), NoEffect)
    else if s == RegLcdChar then Outcome(WriteChar(b, high, n), NoEffect)
    else if s == RegRs232 then WriteSerial(b, high, n)
    else if s == RegFs then Outcome(WriteName(b, high, n), NoEffect)
    else Outcome(b, NoEffect)
  }

  /**
   * Serve a write of one half to the selected register. The command register
   * executes the nibble as a low-half or high-half command; the status and field
   * address registers take the nibble whichever half it is; a register that cannot
   * be written ignores it.
   */
  function WriteRegister(b: Board, high: bool, n: bv4, host: Host): (o: Outcome)
    requires Valid(b)
    ensures b.selected <= RegField ==> o == WriteControl(b, high, n, host)
    ensures RegField < b.selected ==> o == WriteDevice(b, high, n)
  {
    if b.selected <= RegField then WriteControl(b, high, n, host) else WriteDevice(b, high, n)
  }

  // ----- one OUT byte -----

  /** Serve one request; a read's half of the register's byte replaces IN's data nibble. */
  function Answer(b: Board, req: Request, host: Host): (o: Outcome)
    requires Valid(b)
  {
    match req
    case Select(reg) => Outcome(b.(selected := reg), NoEffect)
    case Read(high) =>
      var r := ReadRegister(b, high, host);
      Outcome(r.board.(port := InAfterRead(r.board.port, r.data, high)), r.effect)
    case Write(high, n) => WriteRegister(b, high, n, host)
  }

  /** Serve one request and flip IN bit 7. */
  function Handle(b: Board, req: Request, host: Host): (o: Outcome)
    requires Valid(b)
    ensures o.board.port & CompleteBit != Answer(b, req, host).board.port & CompleteBit
  {
    var s := Answer(b, req, host);
    Outcome(s.board.(port := Complete(s.board.port)), s.effect)
  }

  /**
   * Handle one OUT byte: a byte without the strobe bit does nothing, any other is
   * served as the request it encodes.
   */
  function Step(b: Board, out: bv8, host: Host): (o: Outcome)
    requires Valid(b)
    ensures out & StrobeBit == 0 ==> o == Outcome(b, NoEffect)
  {
    match Decode(out)
    case None => Outcome(b, NoEffect)
    case Some(req) => Handle(b, req, host)
  }

  // ----- what every request keeps -----

  /** A write changes neither the selection nor IN, and keeps the board valid. */
  lemma WriteKeeps(b: Board, high: bool, n: bv4, host: Host)
    requires Valid(b)
    ensures var w := WriteRegister(b, high, n, host);
      Valid(w.board) && w.board.selected == b.selected && w.board.port == b.port
  {
    var s := b.selected;
    if s == RegCommand {
      if high {
        if n <= LedErrorOn {
        } else if n <= LcdNewLine {
        } else if n < SpeakerPlay {
        } else if n < SpeakerGetBufferFree {
        }
      }
    } else if s == RegField {
      assert WriteField(b, high, n).regs.name == b.regs.name;
    } else if s == RegRs232 {
    }
  }

  /** A read keeps the selection, the virtual registers and the board valid; of IN it may change only bits 5 and 6 and the data nibble. */
  lemma ReadKeeps(b: Board, high: bool, host: Host)
    requires Valid(b)
    ensures var r := ReadRegister(b, high, host);
      var p := InAfterRead(r.board.port, r.data, high);
      Valid(r.board) && p & 0x80 == b.port & 0x80 && p & 0x10 == b.port & 0x10
  {
  }

  /** Answering a request keeps the board valid and IN bit 7; only a select moves the selection. */
  lemma AnswerKeeps(b: Board, req: Request, host: Host)
    requires Valid(b)
    ensures var a := Answer(b, req, host);
      Valid(a.board) && a.board.port & CompleteBit == b.port & CompleteBit
      && (!req.Select? ==> a.board.selected == b.selected)
  {
    match req
    case Select(reg) =>
    case Read(high) =>
      ReadKeeps(b, high, host);
    case Write(high, n) =>
      WriteKeeps(b, high, n, host);
  }

  /**
   * Every OUT byte keeps the board valid. A strobed byte flips IN bit 7 exactly
   * once and moves the selection only if it is a select; an unstrobed byte changes
   * nothing.
   */
  lemma StepKeeps(b: Board, out: bv8, host: Host)
    requires Valid(b)
    ensures Valid(Step(b, out, host).board)
    ensures out & StrobeBit == 0 ==> Step(b, out, host) == Outcome(b, NoEffect)
    ensures out & StrobeBit != 0 ==> Step(b, out, host).board.port & CompleteBit != b.port & CompleteBit
    ensures out & ModeBit != 0 ==> Step(b, out, host).board.selected == b.selected
  {
    if out & StrobeBit != 0 {
      var req := Fields(out);
      AnswerKeeps(b, req, host);
      var a := Answer(b, req, host);
      assert Step(b, out, host) == Handle(b, req, host);
      assert Handle(b, req, host).board.port & CompleteBit != a.board.port & CompleteBit;
    }
  }

  // ----- bytes across the bus -----

  /** Write one byte to the selected register: its low nibble, then its high nibble. */
  function PutByte(b: Board, c: bv8, host: Host): (o: Outcome)
    requires Valid(b)
    ensures Valid(o.board)
  {
    StepKeeps(b, Encode(Write(false, Lo(c))), host);
    var first := Step(b, Encode(Write(false, Lo(c))), host).board;
    StepKeeps(first, Encode(Write(true, Hi(c))), host);
    Step(first, Encode(Write(true, Hi(c))), host)
  }

  /** A strobed write request reaches the selected register; only bit 7 of IN changes. */
  lemma StepWrite(b: Board, high: bool, n: bv4, host: Host)
    requires Valid(b)
    ensures var w := WriteRegister(b, high, n, host);
      Valid(w.board) && w.board.selected == b.selected
      && Step(b, Encode(Write(high, n)), host) == Outcome(w.board.(port := Complete(b.port)), w.effect)
  {
    DecodeEncode(Write(high, n));
    WriteKeeps(b, high, n, host);
    var w := WriteRegister(b, high, n, host);
    assert Answer(b, Write(high, n), host) == w;
  }

  /** The two halves of a byte write reach the register as the two writes the byte encodes; IN ends as it began. */
  lemma PutByteWrites(b: Board, c: bv8, host: Host)
    requires Valid(b)
    ensures var w1 := WriteRegister(b, false, Lo(c), host);
      Valid(w1.board) && w1.board.selected == b.selected
      && var b1 := w1.board.(port := Complete(b.port));
      var w2 := WriteRegister(b1, true, Hi(c), host);
      PutByte(b, c, host) == Outcome(w2.board.(port := b.port), w2.effect)
  {
    StepWrite(b, false, Lo(c), host);
    var w1 := WriteRegister(b, false, Lo(c), host);
    var b1 := w1.board.(port := Complete(b.port));
    StepWrite(b1, true, Hi(c), host);
    assert Complete(Complete(b.port)) == b.port;
  }

  /** A byte written to the character register is printed at the cursor. */
  lemma PrintByte(b: Board, c: bv8, host: Host)
    requires Valid(b) && b.selected == RegLcdChar
    ensures PutByte(b, c, host) ==
      Outcome(b.(latches := b.latches.(character := c), devices := b.devices.(lcd := Lcd.PrintChar(b.devices.lcd, c))), NoEffect)
  {
    PutByteWrites(b, c, host);
    WriteByte(b.latches.character, c);
  }

  /** A byte written to the serial register is sent with bit 7 cleared. */
  lemma SendByte(b: Board, c: bv8, host: Host)
    requires Valid(b) && b.selected == RegRs232
    ensures PutByte(b, c, host) == Outcome(b.(latches := b.latches.(tx := c)), Transmit(c & 0x7F))
  {
    PutByteWrites(b, c, host);
    WriteByte(b.latches.tx, c);
  }

  /**
   * A byte written to the name register is appended to the file name when the name
   * has room and the byte is printable ASCII; otherwise the name is kept.
   */
  lemma NameByte(b: Board, c: bv8, host: Host)
    requires Valid(b) && b.selected == RegFs
    ensures PutByte(b, c, host) ==
      Outcome(b.(latches := b.latches.(name := c), regs := b.regs.(name := AppendName(b.regs.name, c))), NoEffect)
  {
    PutByteWrites(b, c, host);
    WriteByte(b.latches.name, c);
  }

  /** The part of NameByte the name lemma needs: the name follows the rule and the selection stays. */
  lemma NameAppended(b: Board, c: bv8, host: Host)
    requires Valid(b) && b.selected == RegFs
    ensures PutByte(b, c, host).board.regs.name == AppendName(b.regs.name, c)
    ensures PutByte(b, c, host).board.selected == RegFs
  {
    NameByte(b, c, host);
  }

  /** A byte written to the field register is committed whole to the field the field address selects. */
  lemma FieldByte(b: Board, c: bv8, host: Host)
    requires Valid(b) && b.selected == RegField
    ensures PutByte(b, c, host) == Outcome(b.(latches := b.latches.(field := c), regs := CommitField(b.regs, c)), NoEffect)
  {
    PutByteWrites(b, c, host);
    WriteByte(b.latches.field, c);
  }

  /** Write the bytes of s to the selected register, one after the other; the calls made are dropped. */
  function PutBytes(b: Board, s: seq<bv8>, host: Host): (r: Board)
    requires Valid(b)
    ensures Valid(r)
    decreases |s|
  {
    if s == [] then b else PutBytes(PutByte(b, s[0], host).board, s[1..], host)
  }

  /** Bytes written to the character register are printed as the LCD prints a string. */
  lemma {:induction false} PrintText(b: Board, s: seq<bv8>, host: Host)
    requires Valid(b) && b.selected == RegLcdChar
    ensures PutBytes(b, s, host).devices.lcd == Lcd.Print(b.devices.lcd, s)
    ensures PutBytes(b, s, host).selected == RegLcdChar && PutBytes(b, s, host).port == b.port
    decreases |s|
  {
    if s != [] {
      PrintByte(b, s[0], host);
      PrintText(PutByte(b, s[0], host).board, s[1..], host);
    }
  }

  /** Bytes written to the name register one after the other: the name follows the rule byte by byte. */
  lemma {:induction false} SetName(b: Board, s: seq<bv8>, host: Host)
    requires Valid(b) && b.selected == RegFs
    ensures PutBytes(b, s, host).regs.name == AppendNames(b.regs.name, s)
    ensures PutBytes(b, s, host).selected == RegFs
    decreases |s|
  {
    if s != [] {
      NameAppended(b, s[0], host);
      SetName(PutByte(b, s[0], host).board, s[1..], host);
    }
  }

  // ----- the name rule -----

  /** The printable ASCII bytes of s, in order. */
  function Printable(s: seq<bv8>): (p: seq<bv8>)
    ensures |p| <= |s|
  {
    if s == [] then [] else (if NameCode(s[0]) then [s[0]] else []) + Printable(s[1..])
  }

  /**
   * The name rule as a whole: of the bytes that arrive, the printable ones are
   * appended in order until the name holds 12 characters, and the rest are dropped.
   */
  lemma {:induction false} AppendNamesKeeps(name: seq<bv8>, s: seq<bv8>)
    requires |name| <= NameMaxLength
    ensures var p := Printable(s);
      AppendNames(name, s) == name + p[..if |p| < NameMaxLength - |name| then |p| else NameMaxLength - |name|]
    decreases |s|
  {
    if s != [] {
      var c, p, p' := s[0], Printable(s), Printable(s[1..]);
      var name' := AppendName(name, c);
      AppendNamesKeeps(name', s[1..]);
      if |name| < NameMaxLength && NameCode(c) {
        assert p == [c] + p';
        var k' := if |p'| < NameMaxLength - |name'| then |p'| else NameMaxLength - |name'|;
        assert p[..k' + 1] == [c] + p'[..k'];
      } else if NameCode(c) {
        assert p == [c] + p';
      } else {
        assert p == p';
      }
    }
  }

  /** Bytes that keep the name valid are appended whole. */
  lemma {:induction false} AppendNamesWhole(name: seq<bv8>, s: seq<bv8>)
    requires NameOk(name + s)
    ensures AppendNames(name, s) == name + s
    decreases |s|
  {
    if s != [] {
      assert (name + s)[|name|] == s[0];
      assert name + [s[0]] + s[1..] == name + s;
      AppendNamesWhole(name + [s[0]], s[1..]);
    }
  }

  /** A valid name stays valid whatever arrives. */
  lemma {:induction false} AppendNamesOk(name: seq<bv8>, s: seq<bv8>)
    requires NameOk(name)
    ensures NameOk(AppendNames(name, s))
    decreases |s|
  {
    if s != [] {
      AppendNamesOk(AppendName(name, s[0]), s[1..]);
    }
  }

  // ----- bytes read over the bus -----

  /** A strobed read request serves one half of the register's byte on IN's data nibble. */
  lemma StepRead(b: Board, high: bool, host: Host)
    requires Valid(b)
    ensures var r := ReadRegister(b, high, host);
      Valid(r.board) && r.board.selected == b.selected
      && Step(b, Encode(Read(high)), host) == Outcome(r.board.(port := Complete(InAfterRead(r.board.port, r.data, high))), r.effect)
  {
    DecodeEncode(Read(high));
    ReadKeeps(b, high, host);
    assert Answer(b, Read(high), host).effect == ReadRegister(b, high, host).effect;
  }

  /** A byte read from the selected register: the board after both halves and the byte the two data nibbles make. */
  datatype Fetched = Fetched(board: Board, value: nat, effect: Effect)

  /** Read the low half, then the high half; the byte is the low nibble plus 16 times the high one. */
  function GetByte(b: Board, host: Host): (f: Fetched)
    requires Valid(b)
    ensures Valid(f.board) && f.value < 256
  {
    StepKeeps(b, Encode(Read(false)), host);
    var first := Step(b, Encode(Read(false)), host);
    StepKeeps(first.board, Encode(Read(true)), host);
    var second := Step(first.board, Encode(Read(true)), host);
    Fetched(second.board, Lo(first.board.port) as nat + 16 * Lo(second.board.port) as nat, first.effect)
  }

  /** Reading the keyboard register takes the next key code off the queue and delivers it whole. */
  lemma ReadKey(b: Board, host: Host)
    requires Valid(b) && b.selected == RegKeyboard
    ensures var t := Keyboard.GetKey(b.devices.keys); var f := GetByte(b, host);
      && f.value == t.key as nat && f.effect == NoEffect
      && f.board.devices == b.devices.(keys := t.queue) && f.board.selected == RegKeyboard
      && (f.board.port & KeyboardReadyBit == 0 <==> t.queue == [] || b.port & KeyboardReadyBit == 0)
  {
    var t := Keyboard.GetKey(b.devices.keys);
    StepRead(b, false, host);
    var r1 := ReadRegister(b, false, host);
    var b1 := r1.board.(port := Complete(InAfterRead(r1.board.port, r1.data, false)));
    StepRead(b1, true, host);
    ReadByte(r1.board.port, t.key);
  }

  /** Reading the serial register takes the next received byte off the queue and delivers it whole. */
  lemma ReadSerialByte(b: Board, host: Host)
    requires Valid(b) && b.selected == RegRs232
    ensures var t := Rs232.Receive(b.devices.serial); var f := GetByte(b, host);
      && f.value == t.b as nat && f.effect == NoEffect
      && f.board.devices == b.devices.(serial := t.queue) && f.board.selected == RegRs232
  {
    var t := Rs232.Receive(b.devices.serial);
    StepRead(b, false, host);
    var r1 := ReadRegister(b, false, host);
    var b1 := r1.board.(port := Complete(InAfterRead(r1.board.port, r1.data, false)));
    StepRead(b1, true, host);
    ReadByte(r1.board.port, t.b);
  }

  /**
   * The status byte as written loses every high-half flag: the read shifts it right
   * by four, so a set LED or playing flag reads as 0.
   */
  lemma StatusHighLost()
    ensures Serve(StatusAsWritten(true), true) == 0
    ensures Serve(Status(true, true), true) == 1
  {
  }

  /** With the intended status byte, a status read of either half delivers exactly its flag. */
  lemma ReadStatus(b: Board, high: bool, host: Host)
    requires Valid(b) && b.selected == RegStatus
    ensures Lo(Step(b, Encode(Read(high)), host).board.port) == if Flag(b, high) then 1 else 0
    ensures Step(b, Encode(Read(high)), host).board.devices == b.devices
  {
    var r := ReadRegister(b, high, host);
    StepRead(b, high, host);
    assert r.data == Status(Flag(b, high), high);
    assert Lo(Complete(InAfterRead(r.board.port, r.data, high))) == Serve(r.data, high);
  }
}

=== FILE: io_firmware.dfy ===
/**
 * The I/O board's firmware: the same register interface as the emulator's board,
 * served by an interrupt on the rising edge of the strobe line and backed by the
 * firmware's own peripherals (the LCD, the scanned keyboard's ring buffer, the
 * serial port's rings, the speaker's ring). The board answers on a 16-pin output
 * port: pins 0-3 carry a read's data nibble, pin 4 the board clock, pins 5 and 6
 * the keyboard's and the serial port's data-ready flags, and pin 7 flips once per
 * handled request. The model keeps the port as its pins; `Word` gives the 16-bit
 * register they make up. A read's masked store into pins 0-3 is an update of the
 * data field, a toggle of pin 4 or 7 a negation of its flag.
 *
 * The clock and the file system are outside the model, as for the emulator's
 * board: a step names the call it makes in an `Effect` and takes the answer from an
 * `IoBoard.Host`. The interrupt runs to completion; the timer interrupts that fill
 * the keyboard and serial buffers are separate steps.
 */
module IoFirmware {
  import opened Wrappers
  import opened Nibble
  import Lcd
  import Bytes
  import Speaker
  import KeyboardFirmware
  import Rs232Firmware
  import SpeakerFirmware
  import IoBoard
  import FsName
  import Ring

  // ----- output pins -----
  const DataPins: bv16 := 0x000F
  const ClockPin: bv16 := 0x0010
  const KeyboardPin: bv16 := 0x0020
  const Rs232Pin: bv16 := 0x0040
  const CompletePin: bv16 := 0x0080

  /**
   * The output port as its pins: the data nibble, the clock, the keyboard's and the
   * serial port's data-ready flags, the completion flag; pins 8-15 are inputs the
   * board never drives and keep what they hold.
   */
  datatype Port = Port(data: bv4, clock: bool, keyboardReady: bool, serialReady: bool, complete: bool, upper: bv8)

  /** The pin as a bit of the port's word. */
  function Bit(on: bool, pin: bv16): bv16 {
    if on then pin else 0
  }

  /** The 16-bit output register the pins make up. */
  function Word(p: Port): (w: bv16)
    ensures w & DataPins == p.data as bv16
    ensures (w & ClockPin != 0) == p.clock && (w & CompletePin != 0) == p.complete
    ensures (w & KeyboardPin != 0) == p.keyboardReady && (w & Rs232Pin != 0) == p.serialReady
  {
    (p.upper as bv16 << 8) | Bit(p.complete, CompletePin) | Bit(p.serialReady, Rs232Pin)
      | Bit(p.keyboardReady, KeyboardPin) | Bit(p.clock, ClockPin) | p.data as bv16
  }

  datatype Devices = Devices(
    lcd: Lcd.Lcd, keyboard: KeyboardFirmware.KeyboardFw, serial: Rs232Firmware.Rs232Fw,
    speaker: SpeakerFirmware.SpeakerFw, ledRun: bool, ledError: bool)

  /** The selected register, the virtual registers, the latches, the output port, the devices. */
  datatype Board = Board(
    selected: bv4, regs: IoBoard.Regs<FsName.NameBuffer>, latches: IoBoard.Latches, odr: Port, devices: Devices)

  /** What every interrupt keeps: the LCD in shape, the name buffer terminated, every ring its size. */
  predicate Valid(b: Board) {
    && Lcd.Valid(b.devices.lcd) && FsName.Ok(b.regs.name)
    && KeyboardFirmware.Sized(b.devices.keyboard) && Rs232Firmware.Sized(b.devices.serial)
    && SpeakerFirmware.Sized(b.devices.speaker)
  }

  /** The call a step makes outside the board; a path is the C string handed over, terminator included. */
  datatype Effect =
    | NoEffect
    | Transmit(sent: bv8)
    | FsOpen(path: seq<bv8>)
    | FsList(path: seq<bv8>)
    | FsReadByte
    | RtcSet(time: IoBoard.DateTime)
    | RtcGet

  datatype Outcome = Outcome(board: Board, effect: Effect)
  datatype ReadOutcome = ReadOutcome(board: Board, data: bv8, effect: Effect)

  // ----- the timer events -----

  /** The board clock's tick: pin 4 flips, nothing else changes. */
  function FireClock(b: Board): (r: Board)
    ensures r == b.(odr := r.odr) && r.odr == b.odr.(clock := r.odr.clock)
    ensures r.odr.clock != b.odr.clock
  {
    b.(odr := b.odr.(clock := !b.odr.clock))
  }

  /** The peripheral tick: pins 5 and 6 show whether the keyboard and the serial port hold data. */
  function FirePeripheral(b: Board): (r: Board)
    requires Valid(b)
    ensures r == b.(odr := r.odr) && r.odr == b.odr.(keyboardReady := r.odr.keyboardReady, serialReady := r.odr.serialReady)
    ensures r.odr.keyboardReady <==> Ring.Contents(b.devices.keyboard.buffer) != []
    ensures r.odr.serialReady <==> Ring.Contents(b.devices.serial.rx) != []
  {
    b.(odr := b.odr.(keyboardReady := KeyboardFirmware.IsData(b.devices.keyboard),
                     serialReady := Rs232Firmware.RxIsData(b.devices.serial)))
  }

  // ----- reads -----

  /** The flag the selected status register reports for the half being read. */
  predicate Flag(b: Board, high: bool) {
    if !high then b.regs.statusAddress == IoBoard.FsStatus && b.regs.status
    else if b.regs.statusAddress == IoBoard.LedRunEnabled then b.devices.ledRun
    else if b.regs.statusAddress == IoBoard.LedErrorEnabled then b.devices.ledError
    else if b.regs.statusAddress == IoBoard.SpeakerIsPlaying then b.devices.speaker.playing
    else false
  }

  /** What every read leaves alone. */
  predicate ReadFrame(b: Board, r: Board) {
    && r.selected == b.selected && r.regs == b.regs
    && r.devices.lcd == b.devices.lcd && r.devices.speaker == b.devices.speaker
    && r.devices.ledRun == b.devices.ledRun && r.devices.ledError == b.devices.ledError
  }

  /**
   * The keyboard register: the low half takes the next code from the ring and
   * clears pin 5 when the ring is then empty; the high half serves the code again.
   */
  function ReadKeyboard(b: Board, high: bool): (o: ReadOutcome)
    requires Valid(b)
    ensures Valid(o.board) && ReadFrame(b, o.board) && o.effect == NoEffect
    ensures o.board.devices.serial == b.devices.serial
    ensures high ==> o == ReadOutcome(b, b.latches.key, NoEffect)
    ensures !high ==> var g := KeyboardFirmware.GetKey(b.devices.keyboard);
      && o.data == g.0 && o.board.latches == b.latches.(key := g.0) && o.board.devices.keyboard == g.1
      && o.board.odr == b.odr.(keyboardReady := b.odr.keyboardReady && Ring.Contents(g.1.buffer) != [])
  {
    if high then ReadOutcome(b, b.latches.key, NoEffect)
    else
      var g := KeyboardFirmware.GetKey(b.devices.keyboard);
      var odr := if KeyboardFirmware.IsData(g.1) then b.odr else b.odr.(keyboardReady := false);
      ReadOutcome(b.(devices := b.devices.(keyboard := g.1), odr := odr, latches := b.latches.(key := g.0)), g.0, NoEffect)
  }

  /**
   * The serial register: the low half takes the next received byte and clears pin 6
   * when the receive ring is then empty; the high half serves the byte again.
   */
  function ReadSerial(b: Board, high: bool): (o: ReadOutcome)
    requires Valid(b)
    ensures Valid(o.board) && ReadFrame(b, o.board) && o.effect == NoEffect
    ensures o.board.devices.keyboard == b.devices.keyboard
    ensures high ==> o == ReadOutcome(b, b.latches.rx, NoEffect)
    ensures !high ==> var g := Rs232Firmware.Receive(b.devices.serial);
      && o.data == g.0 && o.board.latches == b.latches.(rx := g.0) && o.board.devices.serial == g.1
      && o.board.odr == b.odr.(serialReady := b.odr.serialReady && Ring.Contents(g.1.rx) != [])
  {
    if high then ReadOutcome(b, b.latches.rx, NoEffect)
    else
      var g := Rs232Firmware.Receive(b.devices.serial);
      var odr := if Rs232Firmware.RxIsData(g.1) then b.odr else b.odr.(serialReady := false);
      ReadOutcome(b.(devices := b.devices.(serial := g.1), odr := odr, latches := b.latches.(rx := g.0)), g.0, NoEffect)
  }

  /** The cursor registers: the low half reads the coordinate, the high half serves it again. */
  function ReadCursor(b: Board, vertical: bool, high: bool): (o: ReadOutcome)
    requires Valid(b)
    ensures ReadFrame(b, o.board) && o.board.devices == b.devices && o.board.odr == b.odr && o.effect == NoEffect
    ensures !high && !vertical ==> o.data as nat == b.devices.lcd.x && o.board.latches == b.latches.(readX := o.data)
    ensures !high && vertical ==> o.data as nat == b.devices.lcd.y && o.board.latches == b.latches.(readY := o.data)
    ensures high ==> o == ReadOutcome(b, if vertical then b.latches.readY else b.latches.readX, NoEffect)
  {
    if high then ReadOutcome(b, if vertical then b.latches.readY else b.latches.readX, NoEffect)
    else if vertical then
      var y := Lcd.Cursor(b.devices.lcd, true);
      ReadOutcome(b.(latches := b.latches.(readY := y)), y, NoEffect)
    else
      var x := Lcd.Cursor(b.devices.lcd, false);
      ReadOutcome(b.(latches := b.latches.(readX := x)), x, NoEffect)
  }

  /** The file-data register: the low half asks the file system for the next byte, the high half serves it again. */
  function ReadFsData(b: Board, high: bool, host: IoBoard.Host): (o: ReadOutcome)
    ensures ReadFrame(b, o.board) && o.board.devices == b.devices && o.board.odr == b.odr
    ensures !high ==> o.data == host.fsByte && o.effect == FsReadByte && o.board.latches == b.latches.(fsData := host.fsByte)
    ensures high ==> o == ReadOutcome(b, b.latches.fsData, NoEffect)
  {
    if high then ReadOutcome(b, b.latches.fsData, NoEffect)
    else ReadOutcome(b.(latches := b.latches.(fsData := host.fsByte)), host.fsByte, FsReadByte)
  }

  /**
   * Serve a read of the selected register, as the emulator's board does; the status
   * byte is the intended one (see IoBoard.Status).
   */
  function ReadRegister(b: Board, high: bool, host: IoBoard.Host): (o: ReadOutcome)
    requires Valid(b)
    ensures Valid(o.board) && ReadFrame(b, o.board)
    ensures high ==> o.board == b && o.effect == NoEffect
    ensures b.selected == IoBoard.RegStatus ==> o.data == IoBoard.Status(Flag(b, high), high)
    ensures b.selected == IoBoard.RegField ==> o.data == IoBoard.ReadField(b.regs)
  {
    var s := b.selected;
    if s == IoBoard.RegStatus then ReadOutcome(b, IoBoard.Status(Flag(b, high), high), NoEffect)
    else if s == IoBoard.RegField then ReadOutcome(b, IoBoard.ReadField(b.regs), NoEffect)
    else if s == IoBoard.RegKeyboard then ReadKeyboard(b, high)
    else if s == IoBoard.RegLcdCursorX then ReadCursor(b, false, high)
    else if s == IoBoard.RegLcdCursorY then ReadCursor(b, true, high)
    else if s == IoBoard.RegRs232 then ReadSerial(b, high)
    else if s == IoBoard.RegFs then ReadFsData(b, high, host)
    else ReadOutcome(b, 0, NoEffect)
  }

  // ----- writes -----

  /** A command written to the low half: the file-system commands, with the paths the firmware builds. */
  function FsCommand(b: Board, n: bv4, host: IoBoard.Host): (o: Outcome)
    requires Valid(b)
    ensures Valid(o.board)
    ensures o.board == b.(regs := o.board.regs)
    ensures n == IoBoard.FsOpenOs ==> o == Outcome(b.(regs := IoBoard.FsAnswer(b.regs, host)), FsOpen(FsName.OsPath))
    ensures n == IoBoard.FsResetName ==> o == Outcome(b.(regs := b.regs.(name := FsName.Reset(b.regs.name))), NoEffect)
    ensures n == IoBoard.FsOpenApp ==>
      o == Outcome(b.(regs := IoBoard.FsAnswer(b.regs, host)), FsOpen(FsName.Path(FsName.AppDir, b.regs.name.chars)))
    ensures n == IoBoard.FsOpenFile ==>
      o == Outcome(b.(regs := IoBoard.FsAnswer(b.regs, host)), FsOpen(FsName.Path(FsName.FileDir, b.regs.name.chars)))
    ensures n == IoBoard.FsListApp ==> o == Outcome(b.(regs := IoBoard.FsAnswer(b.regs, host)), FsList(FsName.AppDir))
    ensures n == IoBoard.FsListFile ==> o == Outcome(b.(regs := IoBoard.FsAnswer(b.regs, host)), FsList(FsName.FileDir))
    ensures n > IoBoard.FsListFile ==> o == Outcome(b, NoEffect)
  {
    var answered := b.(regs := IoBoard.FsAnswer(b.regs, host));
    if n == IoBoard.FsOpenOs then Outcome(answered, FsOpen(FsName.OsPath))
    else if n == IoBoard.FsResetName then Outcome(b.(regs := b.regs.(name := FsName.Reset(b.regs.name))), NoEffect)
    else if n == IoBoard.FsOpenApp then Outcome(answered, FsOpen(FsName.Path(FsName.AppDir, b.regs.name.chars)))
    else if n == IoBoard.FsOpenFile then Outcome(answered, FsOpen(FsName.Path(FsName.FileDir, b.regs.name.chars)))
    else if n == IoBoard.FsListApp then Outcome(answered, FsList(FsName.AppDir))
    else if n == IoBoard.FsListFile then Outcome(answered, FsList(FsName.FileDir))
    else Outcome(b, NoEffect)
  }

  /** What a device command leaves alone: the selection, the latches, the port, the keyboard and the serial port. */
  predicate CommandFrame(b: Board, r: Board) {
    && r.selected == b.selected && r.latches == b.latches && r.odr == b.odr
    && r.devices.keyboard == b.devices.keyboard && r.devices.serial == b.devices.serial
  }

  /** The LED commands: switch one LED on or off. */
  function LedCommand(b: Board, n: bv4): (r: Board)
    requires Valid(b) && n <= IoBoard.LedErrorOn
    ensures Valid(r) && CommandFrame(b, r) && r.regs == b.regs && r.devices.lcd == b.devices.lcd
    ensures r.devices.speaker == b.devices.speaker
    ensures r.devices.ledRun == (if n <= IoBoard.LedRunOn then n == IoBoard.LedRunOn else b.devices.ledRun)
    ensures r.devices.ledError == (if n >= IoBoard.LedErrorOff then n == IoBoard.LedErrorOn else b.devices.ledError)
  {
    var d := b.devices;
    if n == IoBoard.LedRunOff then b.(devices := d.(ledRun := false))
    else if n == IoBoard.LedRunOn then b.(devices := d.(ledRun := true))
    else if n == IoBoard.LedErrorOff then b.(devices := d.(ledError := false))
    else b.(devices := d.(ledError := true))
  }

  /** The LCD commands: clear (and show the cleared screen), refresh, scroll, new line. */
  function LcdCommand(b: Board, n: bv4): (r: Board)
    requires Valid(b) && IoBoard.LcdClear <= n <= IoBoard.LcdNewLine
    ensures Valid(r) && r == b.(devices := b.devices.(lcd := r.devices.lcd))
    ensures n == IoBoard.LcdClear ==> Lcd.IsBlank(r.devices.lcd.canvas) && Lcd.IsBlank(r.devices.lcd.ready)
    ensures n == IoBoard.LcdClear ==> r.devices.lcd.color == b.devices.lcd.color
    ensures n == IoBoard.LcdClear ==> r.devices.lcd.x == b.devices.lcd.x && r.devices.lcd.y == b.devices.lcd.y
    ensures n == IoBoard.LcdRefresh ==> r.devices.lcd.ready == b.devices.lcd.canvas
    ensures n == IoBoard.LcdScrollDown ==> r.devices.lcd == Lcd.ScrollDown(b.devices.lcd)
    ensures n == IoBoard.LcdNewLine ==> r.devices.lcd == Lcd.NewLine(b.devices.lcd)
  {
    var l := b.devices.lcd;
    var l' :=
      if n == IoBoard.LcdClear then Lcd.Refresh(Lcd.Clear(l))
      else if n == IoBoard.LcdRefresh then Lcd.Refresh(l)
      else if n == IoBoard.LcdScrollDown then Lcd.ScrollDown(l)
      else Lcd.NewLine(l);
    b.(devices := b.devices.(lcd := l'))
  }

  /** The speaker commands that act on the speaker's ring: play, pause, clear, queue the note registers. */
  function SpeakerCommand(b: Board, n: bv4): (r: Board)
    requires Valid(b) && IoBoard.SpeakerPlay <= n < IoBoard.SpeakerGetBufferFree
    ensures Valid(r) && r == b.(devices := b.devices.(speaker := r.devices.speaker))
    ensures n == IoBoard.SpeakerPlay ==> r.devices.speaker == SpeakerFirmware.Play(b.devices.speaker)
    ensures n == IoBoard.SpeakerPause ==> r.devices.speaker == SpeakerFirmware.Pause(b.devices.speaker)
    ensures n == IoBoard.SpeakerClear ==> r.devices.speaker == SpeakerFirmware.Clear(b.devices.speaker)
    ensures n == IoBoard.SpeakerAddNote ==> r.devices.speaker == SpeakerFirmware.AddNote(b.devices.speaker, b.regs.note)
  {
    var s := b.devices.speaker;
    var s' :=
      if n == IoBoard.SpeakerPlay then SpeakerFirmware.Play(s)
      else if n == IoBoard.SpeakerPause then SpeakerFirmware.Pause(s)
      else if n == IoBoard.SpeakerClear then SpeakerFirmware.Clear(s)
      else SpeakerFirmware.AddNote(s, b.regs.note);
    b.(devices := b.devices.(speaker := s'))
  }

  /** The ring's free space, kept for the field register; it always fits a byte. */
  function BufferFreeCommand(b: Board): (r: Board)
    requires Valid(b)
    ensures Valid(r) && r == b.(regs := b.regs.(bufferFree := r.regs.bufferFree))
    ensures r.regs.bufferFree as int + |Ring.Contents(b.devices.speaker.buffer)| == SpeakerFirmware.RingSize - 1
  {
    b.(regs := b.regs.(bufferFree := Bytes.ByteOf(SpeakerFirmware.GetBufferFree(b.devices.speaker))))
  }

  /**
   * A command written to the high half: LEDs, LCD, clock and speaker. Writing the
   * clock hands the clock registers to the host; reading it fills them from the
   * host's clock. Command 10 does nothing.
   */
  function DeviceCommand(b: Board, n: bv4, host: IoBoard.Host): (o: Outcome)
    requires Valid(b)
    ensures n <= IoBoard.LedErrorOn ==> o == Outcome(LedCommand(b, n), NoEffect)
    ensures IoBoard.LcdClear <= n <= IoBoard.LcdNewLine ==> o == Outcome(LcdCommand(b, n), NoEffect)
    ensures n == IoBoard.RtcWrite ==> o == Outcome(b, RtcSet(b.regs.rtc))
    ensures n == IoBoard.RtcRead ==> o == Outcome(b.(regs := b.regs.(rtc := host.clock)), RtcGet)
    ensures n == 10 ==> o == Outcome(b, NoEffect)
    ensures IoBoard.SpeakerPlay <= n < IoBoard.SpeakerGetBufferFree ==> o == Outcome(SpeakerCommand(b, n), NoEffect)
    ensures n == IoBoard.SpeakerGetBufferFree ==> o == Outcome(BufferFreeCommand(b), NoEffect)
  {
    if n <= IoBoard.LedErrorOn then Outcome(LedCommand(b, n), NoEffect)
    else if n <= IoBoard.LcdNewLine then Outcome(LcdCommand(b, n), NoEffect)
    else if n == IoBoard.RtcWrite then Outcome(b, RtcSet(b.regs.rtc))
    else if n == IoBoard.RtcRead then Outcome(b.(regs := b.regs.(rtc := host.clock)), RtcGet)
    else if n < IoBoard.SpeakerPlay then Outcome(b, NoEffect)
    else if n < IoBoard.SpeakerGetBufferFree then Outcome(SpeakerCommand(b, n), NoEffect)
    else Outcome(BufferFreeCommand(b), NoEffect)
  }

  /** The field register: both halves latch, the high half commits the byte to the selected field. */
  function WriteField(b: Board, high: bool, n: bv4): (r: Board)
    ensures r.latches == b.latches.(field := Latch(b.latches.field, high, n))
    ensures !high ==> r == b.(latches := r.latches)
    ensures high ==> r == b.(latches := r.latches, regs := IoBoard.CommitField(b.regs, r.latches.field))
  {
    var d := Latch(b.latches.field, high, n);
    var b' := b.(latches := b.latches.(field := d));
    if high then b'.(regs := IoBoard.CommitField(b.regs, d)) else b'
  }

  /** The colour register takes no latch: the low half sets the foreground, the high half the background. */
  function WriteColor(b: Board, high: bool, n: bv4): (r: Board)
    requires Valid(b)
    ensures Valid(r) && r == b.(devices := b.devices.(lcd := r.devices.lcd))
    ensures r.devices.lcd == b.devices.lcd.(color := r.devices.lcd.color)
    ensures !high ==> Lo(r.devices.lcd.color) == n && Hi(r.devices.lcd.color) == Hi(b.devices.lcd.color)
    ensures high ==> Hi(r.devices.lcd.color) == n && Lo(r.devices.lcd.color) == Lo(b.devices.lcd.color)
  {
    var l := b.devices.lcd;
    var l' := if high then Lcd.SetColorBackground(l, n as bv8) else Lcd.SetColorForeground(l, n as bv8);
    b.(devices := b.devices.(lcd := l'))
  }

  /** A cursor register: both halves latch, the high half moves the cursor to the latched byte. */
  function WriteCursor(b: Board, vertical: bool, high: bool, n: bv4): (r: Board)
    requires Valid(b)
    ensures Valid(r)
    ensures !vertical ==> r.latches == b.latches.(cursorX := Latch(b.latches.cursorX, high, n))
    ensures vertical ==> r.latches == b.latches.(cursorY := Latch(b.latches.cursorY, high, n))
    ensures !high ==> r == b.(latches := r.latches)
    ensures high && !vertical ==> r == b.(latches := r.latches, devices := b.devices.(lcd := Lcd.SetCursorX(b.devices.lcd, r.latches.cursorX)))
    ensures high && vertical ==> r == b.(latches := r.latches, devices := b.devices.(lcd := Lcd.SetCursorY(b.devices.lcd, r.latches.cursorY)))
  {
    if vertical then
      var d := Latch(b.latches.cursorY, high, n);
      var b' := b.(latches := b.latches.(cursorY := d));
      if high then b'.(devices := b.devices.(lcd := Lcd.SetCursorY(b.devices.lcd, d))) else b'
    else
      var d := Latch(b.latches.cursorX, high, n);
      var b' := b.(latches := b.latches.(cursorX := d));
      if high then b'.(devices := b.devices.(lcd := Lcd.SetCursorX(b.devices.lcd, d))) else b'
  }

  /** The character register: both halves latch, the high half prints the latched byte. */
  function WriteChar(b: Board, high: bool, n: bv4): (r: Board)
    requires Valid(b)
    ensures Valid(r)
    ensures r.latches == b.latches.(character := Latch(b.latches.character, high, n))
    ensures !high ==> r == b.(latches := r.latches)
    ensures high ==> r == b.(latches := r.latches, devices := b.devices.(lcd := Lcd.PrintChar(b.devices.lcd, r.latches.character)))
  {
    var d := Latch(b.latches.character, high, n);
    var b' := b.(latches := b.latches.(character := d));
    if high then b'.(devices := b.devices.(lcd := Lcd.PrintChar(b.devices.lcd, d))) else b'
  }

  /**
   * The serial register: both halves latch, the high half hands the latched byte to
   * the serial port, which queues it and puts it on the wire at once when nothing
   * was waiting.
   */
  function WriteSerial(b: Board, high: bool, n: bv4): (o: Outcome)
    requires Valid(b)
    ensures Valid(o.board)
    ensures o.board.latches == b.latches.(tx := Latch(b.latches.tx, high, n))
    ensures !high ==> o == Outcome(b.(latches := o.board.latches), NoEffect)
    ensures high ==> var s := Rs232Firmware.Send(b.devices.serial, o.board.latches.tx);
      && o.board == b.(latches := o.board.latches, devices := b.devices.(serial := s.state))
      && o.effect == if s.wire.Some? then Transmit(s.wire.value) else NoEffect
  {
    var d := Latch(b.latches.tx, high, n);
    var b' := b.(latches := b.latches.(tx := d));
    if high then
      var s := Rs232Firmware.Send(b.devices.serial, d);
      Outcome(b'.(devices := b.devices.(serial := s.state)), if s.wire.Some? then Transmit(s.wire.value) else NoEffect)
    else Outcome(b', NoEffect)
  }

  /** The name register: both halves latch, the high half appends the latched byte to the name buffer. */
  function WriteName(b: Board, high: bool, n: bv4): (r: Board)
    requires Valid(b)
    ensures Valid(r)
    ensures r.latches == b.latches.(name := Latch(b.latches.name, high, n))
    ensures r == b.(latches := r.latches, regs := b.regs.(name := r.regs.name))
    ensures r.regs.name == if high then FsName.Append(b.regs.name, r.latches.name) else b.regs.name
  {
    var d := Latch(b.latches.name, high, n);
    var name := if high then FsName.Append(b.regs.name, d) else b.regs.name;
    b.(latches := b.latches.(name := d), regs := b.regs.(name := name))
  }

  /** A write to one of the board's own registers: command, status address, field address, field. */
  function WriteControl(b: Board, high: bool, n: bv4, host: IoBoard.Host): (o: Outcome)
    requires Valid(b) && b.selected <= IoBoard.RegField
    ensures b.selected == IoBoard.RegCommand ==> o == if high then DeviceCommand(b, n, host) else FsCommand(b, n, host)
    ensures b.selected == IoBoard.RegStatus ==> o == Outcome(b.(regs := b.regs.(statusAddress := n)), NoEffect)
    ensures b.selected == IoBoard.RegFieldAddress ==> o == Outcome(b.(regs := b.regs.(fieldAddress := n)), NoEffect)
    ensures b.selected == IoBoard.RegField ==> o == Outcome(WriteField(b, high, n), NoEffect)
  {
    var s := b.selected;
    if s == IoBoard.RegCommand then (if high then DeviceCommand(b, n, host) else FsCommand(b, n, host))
    else if s == IoBoard.RegStatus then Outcome(b.(regs := b.regs.(statusAddress := n)), NoEffect)
    else if s == IoBoard.RegFieldAddress then Outcome(b.(regs := b.regs.(fieldAddress := n)), NoEffect)
    else Outcome(WriteField(b, high, n), NoEffect)
  }

  /** A write to a register that fronts a device: the LCD, the serial port, the file name. */
  function WriteDevice(b: Board, high: bool, n: bv4): (o: Outcome)
    requires Valid(b) && IoBoard.RegField < b.selected
    ensures b.selected == IoBoard.RegLcdColor ==> o == Outcome(WriteColor(b, high, n), NoEffect)
    ensures b.selected == IoBoard.RegLcdCursorX ==> o == Outcome(WriteCursor(b, false, high, n), NoEffect)
    ensures b.selected == IoBoard.RegLcdCursorY ==> o == Outcome(WriteCursor(b, true, high, n), NoEffect)
    ensures b.selected == IoBoard.RegLcdChar ==> o == Outcome(WriteChar(b, high, n), NoEffect)
    ensures b.selected == IoBoard.RegRs232 ==> o == WriteSerial(b, high, n)
    ensures b.selected == IoBoard.RegFs ==> o == Outcome(WriteName(b, high, n), NoEffect)
    ensures b.selected == IoBoard.RegKeyboard || b.selected > IoBoard.RegFs ==> o == Outcome(b, NoEffect)
  {
    var s := b.selected;
    if s == IoBoard.RegLcdColor then Outcome(WriteColor(b, high, n), NoEffect)
    else if s == IoBoard.RegLcdCursorX then Outcome(WriteCursor(b, false, high, n), NoEffect)
    else if s == IoBoard.RegLcdCursorY then Outcome(WriteCursor(b, true, high, n), NoEffect)
    else if s == IoBoard.RegLcdChar then Outcome(WriteChar(b, high, n), NoEffect)
    else if s == IoBoard.RegRs232 then WriteSerial(b, high, n)
    else if s == IoBoard.RegFs then Outcome(WriteName(b, high, n), NoEffect)
    else Outcome(b, NoEffect)
  }

  /** Serve a write of one half to the selected register, as the emulator's board does. */
  function WriteRegister(b: Board, high: bool, n: bv4, host: IoBoard.Host): (o: Outcome)
    requires Valid(b)
    ensures b.selected <= IoBoard.RegField ==> o == WriteControl(b, high, n, host)
    ensures IoBoard.RegField < b.selected ==> o == WriteDevice(b, high, n)
  {
    if b.selected <= IoBoard.RegField then WriteControl(b, high, n, host) else WriteDevice(b, high, n)
  }

  // ----- one interrupt -----

  /** Serve one request; a read puts its half of the register's byte on the data pins. */
  function Answer(b: Board, req: Request, host: IoBoard.Host): (o: Outcome)
    requires Valid(b)
  {
    match req
    case Select(reg) => Outcome(b.(selected := reg), NoEffect)
    case Read(high) =>
      var r := ReadRegister(b, high, host);
      Outcome(r.board.(odr := r.board.odr.(data := Serve(r.data, high))), r.effect)
    case Write(high, n) => WriteRegister(b, high, n, host)
  }

  /**
   * The strobe interrupt: the request is read off the input pins, whatever the
   * strobe bit says, served, and pin 7 flipped.
   */
  function Irq(b: Board, value: bv8, host: IoBoard.Host): (o: Outcome)
    requires Valid(b)
    ensures o.board.odr.complete != Answer(b, Fields(value), host).board.odr.complete
  {
    var a := Answer(b, Fields(value), host);
    Outcome(a.board.(odr := a.board.odr.(complete := !a.board.odr.complete)), a.effect)
  }

  // ----- what every interrupt keeps -----

  /** A write changes neither the selection nor the port, and keeps the board valid. */
  lemma WriteKeeps(b: Board, high: bool, n: bv4, host: IoBoard.Host)
    requires Valid(b)
    ensures var w := WriteRegister(b, high, n, host);
      Valid(w.board) && w.board.selected == b.selected && w.board.odr == b.odr
  {
    var s := b.selected;
    if s == IoBoard.RegCommand {
      if high {
        if n <= IoBoard.LedErrorOn {
        } else if n <= IoBoard.LcdNewLine {
        } else if n < IoBoard.SpeakerPlay {
        } else if n < IoBoard.SpeakerGetBufferFree {
        }
      }
    } else if s == IoBoard.RegField {
      assert WriteField(b, high, n).regs.name == b.regs.name;
    }
  }

  /** A read changes the port at most by clearing the keyboard's or the serial port's data-ready pin. */
  lemma ReadKeeps(b: Board, high: bool, host: IoBoard.Host)
    requires Valid(b)
    ensures var r := ReadRegister(b, high, host);
      && Valid(r.board) && r.board.selected == b.selected
      && r.board.odr == b.odr.(keyboardReady := r.board.odr.keyboardReady, serialReady := r.board.odr.serialReady)
  {
  }

  /** Answering a request keeps the board valid and the clock and completion pins; only a select moves the selection. */
  lemma AnswerKeeps(b: Board, req: Request, host: IoBoard.Host)
    requires Valid(b)
    ensures var a := Answer(b, req, host);
      && Valid(a.board) && a.board.odr.complete == b.odr.complete && a.board.odr.clock == b.odr.clock
      && a.board.selected == if req.Select? then req.register else b.selected
  {
    match req
    case Select(reg) =>
    case Read(high) =>
      ReadKeeps(b, high, host);
    case Write(high, n) =>
      WriteKeeps(b, high, n, host);
  }

  /**
   * Every interrupt keeps the board valid and the clock pin, flips pin 7 exactly
   * once, and moves the selection to the input's low nibble exactly when the input
   * is a select.
   */
  lemma IrqKeeps(b: Board, value: bv8, host: IoBoard.Host)
    requires Valid(b)
    ensures var o := Irq(b, value, host);
      && Valid(o.board)
      && o.board.odr.complete != b.odr.complete && o.board.odr.clock == b.odr.clock
      && o.board.selected == if value & ModeBit == 0 then Lo(value) else b.selected
  {
    AnswerKeeps(b, Fields(value), host);
  }

  // ----- bytes across the bus -----

  /** A write request reaches the selected register; only pin 7 of the port changes. */
  lemma IrqWrite(b: Board, high: bool, n: bv4, host: IoBoard.Host)
    requires Valid(b)
    ensures var w := WriteRegister(b, high, n, host);
      Valid(w.board) && w.board.selected == b.selected
      && Irq(b, Encode(Write(high, n)), host) == Outcome(w.board.(odr := b.odr.(complete := !b.odr.complete)), w.effect)
  {
    DecodeEncode(Write(high, n));
    WriteKeeps(b, high, n, host);
  }

  /** Write one byte to the selected register: its low nibble, then its high nibble. */
  function PutByte(b: Board, c: bv8, host: IoBoard.Host): (o: Outcome)
    requires Valid(b)
    ensures Valid(o.board)
  {
    IrqKeeps(b, Encode(Write(false, Lo(c))), host);
    var first := Irq(b, Encode(Write(false, Lo(c))), host).board;
    IrqKeeps(first, Encode(Write(true, Hi(c))), host);
    Irq(first, Encode(Write(true, Hi(c))), host)
  }

  /** The two halves of a byte write reach the register as the two writes the byte encodes; the port ends as it began. */
  lemma PutByteWrites(b: Board, c: bv8, host: IoBoard.Host)
    requires Valid(b)
    ensures var w1 := WriteRegister(b, false, Lo(c), host);
      Valid(w1.board) && w1.board.selected == b.selected
      && var b1 := w1.board.(odr := b.odr.(complete := !b.odr.complete));
      var w2 := WriteRegister(b1, true, Hi(c), host);
      PutByte(b, c, host) == Outcome(w2.board.(odr := b.odr), w2.effect)
  {
    IrqWrite(b, false, Lo(c), host);
    var w1 := WriteRegister(b, false, Lo(c), host);
    var b1 := w1.board.(odr := b.odr.(complete := !b.odr.complete));
    IrqWrite(b1, true, Hi(c), host);
  }

  /** A byte written to the character register is printed at the cursor. */
  lemma PrintByte(b: Board, c: bv8, host: IoBoard.Host)
    requires Valid(b) && b.selected == IoBoard.RegLcdChar
    ensures PutByte(b, c, host) ==
      Outcome(b.(latches := b.latches.(character := c), devices := b.devices.(lcd := Lcd.PrintChar(b.devices.lcd, c))), NoEffect)
  {
    PutByteWrites(b, c, host);
    WriteByte(b.latches.character, c);
  }

  /**
   * A byte written to the serial register is handed whole to the serial port: it is
   * queued unless the send ring is full, and goes on the wire at once when the ring
   * was empty.
   */
  lemma SendByte(b: Board, c: bv8, host: IoBoard.Host)
    requires Valid(b) && b.selected == IoBoard.RegRs232
    ensures var s := Rs232Firmware.Send(b.devices.serial, c);
      PutByte(b, c, host) == Outcome(b.(latches := b.latches.(tx := c), devices := b.devices.(serial := s.state)),
                                    if s.wire.Some? then Transmit(c) else NoEffect)
  {
    PutByteWrites(b, c, host);
    WriteByte(b.latches.tx, c);
  }

  /** A byte written to the name register goes through the name buffer's append rule. */
  lemma NameByte(b: Board, c: bv8, host: IoBoard.Host)
    requires Valid(b) && b.selected == IoBoard.RegFs
    ensures PutByte(b, c, host) ==
      Outcome(b.(latches := b.latches.(name := c), regs := b.regs.(name := FsName.Append(b.regs.name, c))), NoEffect)
  {
    PutByteWrites(b, c, host);
    WriteByte(b.latches.name, c);
  }

  /** Write the bytes of s to the selected register, one after the other; the calls made are dropped. */
  function PutBytes(b: Board, s: seq<bv8>, host: IoBoard.Host): (r: Board)
    requires Valid(b)
    ensures Valid(r)
    decreases |s|
  {
    if s == [] then b else PutBytes(PutByte(b, s[0], host).board, s[1..], host)
  }

  /** Bytes written to the character register are printed as the LCD prints a string. */
  lemma {:induction false} PrintText(b: Board, s: seq<bv8>, host: IoBoard.Host)
    requires Valid(b) && b.selected == IoBoard.RegLcdChar
    ensures PutBytes(b, s, host).devices.lcd == Lcd.Print(b.devices.lcd, s)
    ensures PutBytes(b, s, host).selected == IoBoard.RegLcdChar && PutBytes(b, s, host).odr == b.odr
    decreases |s|
  {
    if s != [] {
      PrintByte(b, s[0], host);
      PrintText(PutByte(b, s[0], host).board, s[1..], host);
    }
  }

  /** The part of NameByte the name lemma needs: the name follows the emulator's rule and the selection stays. */
  lemma NameAppended(b: Board, c: bv8, host: IoBoard.Host)
    requires Valid(b) && b.selected == IoBoard.RegFs
    ensures FsName.Name(PutByte(b, c, host).board.regs.name) == IoBoard.AppendName(FsName.Name(b.regs.name), c)
    ensures PutByte(b, c, host).board.selected == IoBoard.RegFs
  {
    NameByte(b, c, host);
    FsName.AppendAgrees(b.regs.name, c);
  }

  /**
   * Bytes written to the name register one after the other: the firmware's buffer
   * holds the name the emulator's board would, whatever the bytes.
   */
  lemma {:induction false} SetName(b: Board, s: seq<bv8>, host: IoBoard.Host)
    requires Valid(b) && b.selected == IoBoard.RegFs
    ensures FsName.Name(PutBytes(b, s, host).regs.name) == IoBoard.AppendNames(FsName.Name(b.regs.name), s)
    ensures PutBytes(b, s, host).selected == IoBoard.RegFs
    decreases |s|
  {
    if s != [] {
      NameAppended(b, s[0], host);
      SetName(PutByte(b, s[0], host).board, s[1..], host);
    }
  }

  // ----- bytes read over the bus -----

  /** A read request serves one half of the register's byte on the data pins. */
  lemma IrqRead(b: Board, high: bool, host: IoBoard.Host)
    requires Valid(b)
    ensures var r := ReadRegister(b, high, host);
      Valid(r.board) && r.board.selected == b.selected
      && Irq(b, Encode(Read(high)), host) == Outcome(r.board.(odr := r.board.odr.(data := Serve(r.data, high), complete := !b.odr.complete)), r.effect)
  {
    DecodeEncode(Read(high));
    ReadKeeps(b, high, host);
  }

  /** A byte read from the selected register: the board after both halves and the byte the two data nibbles make. */
  datatype Fetched = Fetched(board: Board, value: nat, effect: Effect)

  /** Read the low half, then the high half; the byte is the low nibble plus 16 times the high one. */
  function GetByte(b: Board, host: IoBoard.Host): (f: Fetched)
    requires Valid(b)
    ensures Valid(f.board) && f.value < 256
  {
    IrqKeeps(b, Encode(Read(false)), host);
    var first := Irq(b, Encode(Read(false)), host);
    IrqKeeps(first.board, Encode(Read(true)), host);
    var second := Irq(first.board, Encode(Read(true)), host);
    Fetched(second.board, first.board.odr.data as nat + 16 * second.board.odr.data as nat, first.effect)
  }

  /** Reading the keyboard register takes the next code off the ring and delivers it whole; pin 5 drops once the ring is empty. */
  lemma ReadKey(b: Board, host: IoBoard.Host)
    requires Valid(b) && b.selected == IoBoard.RegKeyboard
    ensures var g := KeyboardFirmware.GetKey(b.devices.keyboard); var f := GetByte(b, host);
      && f.value == g.0 as nat && f.effect == NoEffect
      && f.board.devices == b.devices.(keyboard := g.1) && f.board.selected == IoBoard.RegKeyboard
      && (f.board.odr.keyboardReady <==> b.odr.keyboardReady && Ring.Contents(g.1.buffer) != [])
  {
    var g := KeyboardFirmware.GetKey(b.devices.keyboard);
    IrqRead(b, false, host);
    var r1 := ReadRegister(b, false, host);
    var b1 := r1.board.(odr := r1.board.odr.(data := Serve(r1.data, false), complete := !b.odr.complete));
    IrqRead(b1, true, host);
    Nibbles(g.0, Hi(g.0) as bv8 * 16 + Lo(g.0) as bv8);
  }

  /** Reading the serial register takes the next received byte off the ring and delivers it whole; pin 6 drops once the ring is empty. */
  lemma ReadSerialByte(b: Board, host: IoBoard.Host)
    requires Valid(b) && b.selected == IoBoard.RegRs232
    ensures var g := Rs232Firmware.Receive(b.devices.serial); var f := GetByte(b, host);
      && f.value == g.0 as nat && f.effect == NoEffect
      && f.board.devices == b.devices.(serial := g.1) && f.board.selected == IoBoard.RegRs232
      && (f.board.odr.serialReady <==> b.odr.serialReady && Ring.Contents(g.1.rx) != [])
  {
    var g := Rs232Firmware.Receive(b.devices.serial);
    IrqRead(b, false, host);
    var r1 := ReadRegister(b, false, host);
    var b1 := r1.board.(odr := r1.board.odr.(data := Serve(r1.data, false), complete := !b.odr.complete));
    IrqRead(b1, true, host);
    Nibbles(g.0, Hi(g.0) as bv8 * 16 + Lo(g.0) as bv8);
  }

  /** A status read of either half delivers exactly the selected flag on the data pins. */
  lemma ReadStatus(b: Board, high: bool, host: IoBoard.Host)
    requires Valid(b) && b.selected == IoBoard.RegStatus
    ensures Irq(b, Encode(Read(high)), host).board.odr.data == if Flag(b, high) then 1 else 0
    ensures Irq(b, Encode(Read(high)), host).board.devices == b.devices
  {
    IrqRead(b, high, host);
  }
}

=== FILE: keyboard.dfy ===
/**
 * The emulator's keyboard: host key presses are translated into the board's key
 * codes and queued; the board takes them out one at a time. Every change of the
 * queue may raise the "data ready" signal the I/O board turns into IN bit 5.
 */
module Keyboard {
  import opened Wrappers
  import Fifo

  const KeyEsc: bv8 := 0x1B
  const KeyBackspace: bv8 := 0x08
  const KeyTab: bv8 := 0x09
  const KeyEnter: bv8 := 0x0D
  const KeyDelete: bv8 := 0x7F
  const KeyUp: bv8 := 0x11
  const KeyDown: bv8 := 0x12
  const KeyLeft: bv8 := 0x13
  const KeyRight: bv8 := 0x14
  const CtrlMask: bv8 := 0x80
  const MinCode: bv32 := 0x20
  const MaxCode: bv32 := 0x7E

  /**
   * A host key: a key identified by its 32-bit code, which for character keys is the
   * character code, or one of the named keys (whose host codes lie far above the
   * printable range).
   */
  datatype Key = Code(code: bv32) | Escape | Backspace | Tab | Return | Delete | Up | Down | Left | Right

  datatype Modifiers = Modifiers(shift: bool, ctrl: bool)

  predicate Printable(c: bv32) {
    MinCode <= c <= MaxCode
  }

  predicate Upper(c: bv32) {
    'A' as bv32 <= c <= 'Z' as bv32
  }

  /** A printable key's character: letters lowered unless shift is held. */
  function Lowered(c: bv32, m: Modifiers): (l: bv8)
    requires Printable(c)
    ensures l & CtrlMask == 0
    ensures Upper(c) && !m.shift ==> l == c as bv8 + 0x20
    ensures !(Upper(c) && !m.shift) ==> l == c as bv8
  {
    var code := c as bv8;
    if Upper(c) && !m.shift then code + ('a' as bv8 - 'A' as bv8) else code
  }

  /** The code a printable key gives: its character, with bit 7 set by ctrl. */
  function CharCode(c: bv32, m: Modifiers): (k: bv8)
    requires Printable(c)
    ensures k & 0x7F == Lowered(c, m)
    ensures (k & CtrlMask != 0) == m.ctrl
  {
    var code := Lowered(c, m);
    if m.ctrl then code | CtrlMask else code
  }

  /** The code a key press queues, if any. */
  function Translate(key: Key, m: Modifiers): (k: Option<bv8>)
    ensures key.Code? ==> (k.Some? <==> Printable(key.code))
    ensures !key.Code? ==> k.Some? && k.value & CtrlMask == 0
  {
    match key
    case Code(c) => if Printable(c) then Some(CharCode(c, m)) else None
    case Escape => Some(KeyEsc)
    case Backspace => Some(KeyBackspace)
    case Tab => Some(KeyTab)
    case Return => Some(KeyEnter)
    case Delete => Some(KeyDelete)
    case Up => Some(KeyUp)
    case Down => Some(KeyDown)
    case Left => Some(KeyLeft)
    case Right => Some(KeyRight)
  }

  /** The queue and the data-ready signal an operation raises, if any. */
  datatype Pressed = Pressed(queue: seq<bv8>, ready: Option<bool>)
  datatype Taken = Taken(key: bv8, queue: seq<bv8>, ready: Option<bool>)

  /** Queue the key's code; signal "ready" whenever the queue is then not empty. */
  function KeyPress(queue: seq<bv8>, key: Key, m: Modifiers): (p: Pressed)
    ensures Translate(key, m).Some? ==> p.queue == queue + [Translate(key, m).value]
    ensures Translate(key, m).None? ==> p.queue == queue
    ensures p.ready == if p.queue != [] then Some(true) else None
  {
    var queue' := match Translate(key, m) case Some(k) => queue + [k] case None => queue;
    Pressed(queue', if queue' != [] then Some(true) else None)
  }

  /**
   * Take the oldest code. Taking the last one signals "not ready"; on an empty
   * queue the result is 0 and "not ready" is signalled again.
   */
  function GetKey(queue: seq<bv8>): (t: Taken)
    ensures (t.key, t.queue) == Fifo.Take(queue)
    ensures t.ready == if t.queue == [] then Some(false) else None
  {
    var (key, rest) := Fifo.Take(queue);
    Taken(key, rest, if rest == [] then Some(false) else None)
  }

  // ----- the keyboard as a queue -----

  /** The codes a sequence of key presses queues, in order. */
  function Codes(keys: seq<(Key, Modifiers)>): (codes: seq<bv8>)
    ensures |codes| <= |keys|
  {
    if keys == [] then []
    else
      var rest := Codes(keys[..|keys| - 1]);
      var (key, m) := keys[|keys| - 1];
      match Translate(key, m) case Some(k) => rest + [k] case None => rest
  }

  /** Pressing a sequence of keys, one after the other. */
  function PressAll(queue: seq<bv8>, keys: seq<(Key, Modifiers)>): seq<bv8> {
    if keys == [] then queue
    else KeyPress(PressAll(queue, keys[..|keys| - 1]), keys[|keys| - 1].0, keys[|keys| - 1].1).queue
  }

  /** Key presses append their codes to what is queued. */
  lemma {:induction false} PressAllAppends(queue: seq<bv8>, keys: seq<(Key, Modifiers)>)
    ensures PressAll(queue, keys) == queue + Codes(keys)
  {
    if keys != [] {
      PressAllAppends(queue, keys[..|keys| - 1]);
    }
  }

  /** From an empty keyboard, reading as many codes as were queued gives them back in press order. */
  lemma FirstInFirstOut(keys: seq<(Key, Modifiers)>)
    ensures Fifo.TakeAll(PressAll([], keys), |Codes(keys)|) == (Codes(keys), [])
  {
    PressAllAppends([], keys);
    assert [] + Codes(keys) == Codes(keys);
    Fifo.TakeEverything(Codes(keys));
  }
}

=== FILE: keyboard_fw.dfy ===
/**
 * The firmware's keyboard: a matrix of 5 rows by 15 columns scanned five times
 * per timer tick. A key counts as down when it reads closed in at least four of
 * the five scans; a key that goes down since the previous tick yields its code,
 * held keys yield nothing more. Up to eight codes are collected per tick and then
 * queued in a 16-slot ring while it has room.
 *
 * The GPIO scanning itself is not modelled: a tick takes the five scans as input,
 * one flag per key position (row * 15 + column). The caps-lock LED mirrors the
 * caps-lock flag and is not modelled separately.
 */
module KeyboardFirmware {
  import opened Ring

  const Rows: nat := 5
  const Columns: nat := 15
  const Keys: nat := 75
  const Retries: nat := 5
  const StatusMin: nat := 4
  const BufferSize: nat := 16
  const LocalBufferSize: nat := 8
  const CtrlMask: bv8 := 0x80
  const CtrlMinCode: bv8 := 0x20
  /** A position that is no key: no code, or a modifier (0xFF). */
  const NoKey: bv8 := 0x00
  const Modifier: bv8 := 0xFF

  /** The modifier positions, row * 15 + column. */
  const ShiftLeft: nat := 1 * Columns + 14
  const ShiftRight: nat := 1 * Columns + 3
  const CapsLock: nat := 2 * Columns + 14
  const Ctrl: nat := 0 * Columns + 14

  /** The code of each key, row by row, when neither shift nor caps lock applies. */
  const LowerCase: seq<seq<bv8>> := [
    [0x00, 0x14, 0x12, 0x13, 0x00, 0x00, 0x00, 0x00, 0x00, 0x20, 0x00, 0x00, 0x00, 0x00, 0xFF],
    [0x00, 0x7F, 0x11, 0xFF, 0x2F, 0x2E, 0x2C, 0x6D, 0x6E, 0x62, 0x76, 0x63, 0x78, 0x7A, 0xFF],
    [0x00, 0x0D, 0x00, 0x27, 0x3B, 0x6C, 0x6B, 0x6A, 0x68, 0x67, 0x66, 0x64, 0x73, 0x61, 0xFF],
    [0x00, 0x5C, 0x5D, 0x5B, 0x70, 0x6F, 0x69, 0x75, 0x79, 0x74, 0x72, 0x65, 0x77, 0x71, 0x09],
    [0x08, 0x60, 0x2B, 0x2D, 0x30, 0x39, 0x38, 0x37, 0x36, 0x35, 0x34, 0x33, 0x32, 0x31, 0x1B]
  ]

  /** The code of each key when shift or caps lock, but not both, applies. */
  const UpperCase: seq<seq<bv8>> := [
    [0x00, 0x14, 0x12, 0x13, 0x00, 0x00, 0x00, 0x00, 0x00, 0x20, 0x00, 0x00, 0x00, 0x00, 0xFF],
    [0x00, 0x7F, 0x11, 0xFF, 0x3F, 0x3E, 0x3C, 0x4D, 0x4E, 0x42, 0x56, 0x43, 0x58, 0x5A, 0xFF],
    [0x00, 0x0D, 0x00, 0x22, 0x3A, 0x4C, 0x4B, 0x4A, 0x48, 0x47, 0x46, 0x44, 0x53, 0x41, 0xFF],
    [0x00, 0x7C, 0x7D, 0x7B, 0x50, 0x4F, 0x49, 0x55, 0x59, 0x54, 0x52, 0x45, 0x57, 0x51, 0x09],
    [0x08, 0x7E, 0x2B, 0x5F, 0x29, 0x28, 0x2A, 0x26, 0x5E, 0x25, 0x24, 0x23, 0x40, 0x21, 0x1B]
  ]

  /** A key layout: the code of every key position in lower and in upper case. */
  datatype Layout = Layout(lower: seq<bv8>, upper: seq<bv8>)

  predicate Laid(t: Layout) {
    |t.lower| == Keys && |t.upper| == Keys
  }

  /** The rows of a table one after the other, so that position row * 15 + column is its key. */
  function Flatten(rows: seq<seq<bv8>>): seq<bv8> {
    if rows == [] then [] else rows[0] + Flatten(rows[1..])
  }

  /** The board's layout. */
  const Table: Layout := Layout(Flatten(LowerCase), Flatten(UpperCase))

  /** A layout the scan can use: every position has a code, and no modifier yields one. */
  predicate Boarded(t: Layout) {
    Laid(t) && !IsKey(t, ShiftLeft) && !IsKey(t, ShiftRight) && !IsKey(t, CapsLock) && !IsKey(t, Ctrl)
  }

  /** The board's layout marks its four modifier positions as no keys. */
  lemma TableBoarded()
    ensures Boarded(Table)
  {
  }

  /** A position that yields a code: not empty and not a modifier. */
  predicate IsKey(t: Layout, p: nat)
    requires Laid(t) && p < Keys
  {
    NoKey < t.lower[p] < Modifier
  }

  /** The previous tick's key states, the caps-lock flag, the queued codes. */
  datatype KeyboardFw = KeyboardFw(last: seq<bool>, capslock: bool, buffer: Ring<bv8>)

  predicate Sized(k: KeyboardFw) {
    |k.last| == Keys && Valid(k.buffer) && |k.buffer.slots| == BufferSize
  }

  /** The scans a tick reads: five, one flag per key position. */
  predicate Scans(scans: seq<seq<bool>>) {
    |scans| == Retries && forall i :: 0 <= i < |scans| ==> |scans[i]| == Keys
  }

  /** In how many of the scans position p reads closed. */
  function Count(scans: seq<seq<bool>>, p: nat): (c: nat)
    requires p < Keys && forall i :: 0 <= i < |scans| ==> |scans[i]| == Keys
    ensures c <= |scans|
  {
    if scans == [] then 0
    else Count(scans[..|scans| - 1], p) + (if scans[|scans| - 1][p] then 1 else 0)
  }

  /** The keys that count as down: closed in at least four scans. */
  function Down(scans: seq<seq<bool>>): (down: seq<bool>)
    requires Scans(scans)
    ensures |down| == Keys
    ensures forall p :: 0 <= p < Keys ==> (down[p] <==> Count(scans, p) >= StatusMin)
  {
    seq(Keys, p requires 0 <= p < Keys => Count(scans, p) >= StatusMin)
  }

  /** The table entry of position p in the case chosen. */
  function Case(t: Layout, p: nat, upper: bool): bv8
    requires Laid(t) && p < Keys
  {
    if upper then t.upper[p] else t.lower[p]
  }

  /** The code of key p: upper or lower case, with bit 7 set by ctrl on codes from 0x20. */
  function KeyCode(t: Layout, p: nat, upper: bool, ctrl: bool): (k: bv8)
    requires Laid(t) && p < Keys
    ensures k & 0x7F == Case(t, p, upper) & 0x7F
    ensures (k & CtrlMask != 0) <==> ((ctrl && Case(t, p, upper) >= CtrlMinCode) || Case(t, p, upper) & CtrlMask != 0)
  {
    var key := Case(t, p, upper);
    if ctrl && key >= CtrlMinCode then key | CtrlMask else key
  }

  /** Whether key p went down since the previous tick. */
  predicate NewPress(t: Layout, last: seq<bool>, down: seq<bool>, p: nat)
    requires Laid(t) && |last| == Keys && |down| == Keys && p < Keys
  {
    IsKey(t, p) && down[p] && !last[p]
  }

  /** The codes of the keys below position n that went down, in scan order. */
  function Presses(t: Layout, last: seq<bool>, down: seq<bool>, upper: bool, ctrl: bool, n: nat): (codes: seq<bv8>)
    requires Laid(t) && |last| == Keys && |down| == Keys && n <= Keys
    ensures |codes| <= n
  {
    if n == 0 then []
    else Presses(t, last, down, upper, ctrl, n - 1) + (if NewPress(t, last, down, n - 1) then [KeyCode(t, n - 1, upper, ctrl)] else [])
  }

  /** At most the first eight codes. */
  function Capped(codes: seq<bv8>): (c: seq<bv8>)
    ensures |c| <= LocalBufferSize && c <= codes
    ensures |codes| <= LocalBufferSize ==> c == codes
  {
    if |codes| <= LocalBufferSize then codes else codes[..LocalBufferSize]
  }

  /** The key states a tick leaves: the new states of the keys and of caps lock, the rest kept. */
  function NextLast(t: Layout, last: seq<bool>, down: seq<bool>): (last': seq<bool>)
    requires Laid(t) && |last| == Keys && |down| == Keys
    ensures |last'| == Keys
  {
    seq(Keys, p requires 0 <= p < Keys => if IsKey(t, p) || p == CapsLock then down[p] else last[p])
  }

  /** Collecting a code stops at eight: appending to a capped list keeps it capped. */
  lemma CappedAppend(codes: seq<bv8>, k: bv8)
    ensures Capped(codes + [k]) == if |Capped(codes)| < LocalBufferSize then Capped(codes) + [k] else Capped(codes)
  {
    if |codes| >= LocalBufferSize {
      assert (codes + [k])[..LocalBufferSize] == codes[..LocalBufferSize];
    }
  }

  /** One more position: its code joins the collected ones if it is a new press and there is room. */
  lemma CollectStep(t: Layout, last: seq<bool>, down: seq<bool>, upper: bool, ctrl: bool, p: nat)
    requires Laid(t) && |last| == Keys && |down| == Keys && p < Keys
    ensures Capped(Presses(t, last, down, upper, ctrl, p + 1)) ==
      if NewPress(t, last, down, p) && |Capped(Presses(t, last, down, upper, ctrl, p))| < LocalBufferSize
      then Capped(Presses(t, last, down, upper, ctrl, p)) + [KeyCode(t, p, upper, ctrl)]
      else Capped(Presses(t, last, down, upper, ctrl, p))
  {
    if NewPress(t, last, down, p) {
      CappedAppend(Presses(t, last, down, upper, ctrl, p), KeyCode(t, p, upper, ctrl));
    } else {
      assert Presses(t, last, down, upper, ctrl, p + 1) == Presses(t, last, down, upper, ctrl, p) + [];
    }
  }

  /**
   * Walk the key positions in scan order: a key that went down yields its code,
   * kept while fewer than eight are collected, and every key's state is recorded.
   */
  method Collect(t: Layout, last0: seq<bool>, down: seq<bool>, upper: bool, ctrl: bool) returns (local: seq<bv8>, last: seq<bool>)
    requires Laid(t) && |last0| == Keys && |down| == Keys
    ensures local == Capped(Presses(t, last0, down, upper, ctrl, |down|))
    ensures |last| == Keys
    ensures forall q :: 0 <= q < Keys ==> last[q] == if IsKey(t, q) then down[q] else last0[q]
  {
    local := [];
    last := last0;
    var p := 0;
    while p < Keys
      invariant 0 <= p <= Keys && |last| == Keys
      invariant local == Capped(Presses(t, last0, down, upper, ctrl, p))
      invariant forall q :: 0 <= q < p ==> last[q] == if IsKey(t, q) then down[q] else last0[q]
      invariant forall q :: p <= q < Keys ==> last[q] == last0[q]
    {
      CollectStep(t, last0, down, upper, ctrl, p);
      if IsKey(t, p) {
        if down[p] {
          if !last[p] {
            var key := KeyCode(t, p, upper, ctrl);
            if |local| < LocalBufferSize {
              local := local + [key];
            }
            last := last[p := true];
          }
        } else {
          last := last[p := false];
        }
      }
      p := p + 1;
    }
  }

  /** Queue the codes in order until the ring is full; the rest are dropped. */
  method Enqueue(buffer0: Ring<bv8>, local: seq<bv8>) returns (buffer: Ring<bv8>)
    requires Valid(buffer0)
    ensures Valid(buffer) && |buffer.slots| == |buffer0.slots|
    ensures Contents(buffer) == Contents(buffer0) + local[..if |local| <= Free(buffer0) then |local| else Free(buffer0)]
  {
    buffer := buffer0;
    var i := 0;
    while i < |local|
      invariant 0 <= i <= |local| && Valid(buffer) && |buffer.slots| == |buffer0.slots|
      invariant Contents(buffer) == Contents(buffer0) + local[..i]
      invariant Used(buffer) == Used(buffer0) + i
    {
      UsedBounds(buffer);
      if IsFull(buffer) {
        break;
      }
      PushContents(buffer, local[i]);
      assert local[..i + 1] == local[..i] + [local[i]];
      buffer := Push(buffer, local[i]);
      i := i + 1;
    }
    UsedBounds(buffer);
    assert i == |local| || i == Free(buffer0);
    assert local[..|local|] == local;
  }

  /** Caps lock toggles when its key goes down; its state is recorded either way. */
  function CapsLockStep(capslock: bool, last: seq<bool>, down: seq<bool>): (r: (bool, seq<bool>))
    requires |last| == Keys && |down| == Keys
    ensures r.0 == (capslock != (down[CapsLock] && !last[CapsLock]))
    ensures r.1 == last[CapsLock := down[CapsLock]]
  {
    if down[CapsLock] then
      if !last[CapsLock] then (!capslock, last[CapsLock := true]) else (capslock, last)
    else (capslock, last[CapsLock := false])
  }

  /** The states the scan records, after the caps-lock step, are the states a tick leaves. */
  lemma LastAfterTick(t: Layout, last0: seq<bool>, last: seq<bool>, down: seq<bool>, last': seq<bool>)
    requires Laid(t) && !IsKey(t, CapsLock) && |last0| == Keys && |down| == Keys
    requires last == last0[CapsLock := down[CapsLock]]
    requires |last'| == Keys && forall q :: 0 <= q < Keys ==> last'[q] == if IsKey(t, q) then down[q] else last[q]
    ensures last' == NextLast(t, last0, down)
  {
    forall q | 0 <= q < Keys
      ensures last'[q] == NextLast(t, last0, down)[q]
    {
    }
  }

  /**
   * One timer tick. Shift is either shift key; caps lock toggles when its key goes
   * down; letters take the upper case when exactly one of shift and caps lock
   * applies. The codes of the newly pressed keys, at most eight, are queued in scan
   * order until the ring is full; the rest are lost. The board uses the layout
   * `Table`.
   */
  method Fire(t: Layout, k: KeyboardFw, scans: seq<seq<bool>>) returns (r: KeyboardFw)
    requires Boarded(t) && Sized(k) && Scans(scans)
    ensures Sized(r)
    ensures r.capslock == (k.capslock != (Down(scans)[CapsLock] && !k.last[CapsLock]))
    ensures r.last == NextLast(t, k.last, Down(scans))
    ensures var codes := Capped(Presses(t, k.last, Down(scans), r.capslock != (Down(scans)[ShiftLeft] || Down(scans)[ShiftRight]),
                                         Down(scans)[Ctrl], |k.last|));
      Contents(r.buffer) == Contents(k.buffer) + codes[..if |codes| <= Free(k.buffer) then |codes| else Free(k.buffer)]
  {
    var down := Down(scans);
    var shift := down[ShiftLeft] || down[ShiftRight];
    var (capslock, last) := CapsLockStep(k.capslock, k.last, down);
    var ctrl := down[Ctrl];
    var upper := capslock != shift;
    PressesSkipCapsLock(t, k.last, last, down, upper, ctrl, |down|);
    var local, last' := Collect(t, last, down, upper, ctrl);
    assert last' == NextLast(t, k.last, down) by {
      LastAfterTick(t, k.last, last, down, last');
    }
    var buffer := Enqueue(k.buffer, local);
    r := KeyboardFw(last', capslock, buffer);
  }

  /** Caps lock is no key: its state does not change which keys went down. */
  lemma {:induction false} PressesSkipCapsLock(t: Layout, last: seq<bool>, last': seq<bool>, down: seq<bool>, upper: bool, ctrl: bool, n: nat)
    requires Laid(t) && !IsKey(t, CapsLock) && |last| == Keys && |last'| == Keys && |down| == Keys && n <= Keys
    requires forall q :: 0 <= q < Keys && q != CapsLock ==> last'[q] == last[q]
    ensures Presses(t, last', down, upper, ctrl, n) == Presses(t, last, down, upper, ctrl, n)
  {
    if n > 0 {
      PressesSkipCapsLock(t, last, last', down, upper, ctrl, n - 1);
      assert !IsKey(t, CapsLock);
    }
  }

  /** Take the oldest queued code; 0 when there is none. */
  function GetKey(k: KeyboardFw): (r: (bv8, KeyboardFw))
    requires Sized(k)
    ensures Sized(r.1) && r.1.last == k.last && r.1.capslock == k.capslock
    ensures Contents(k.buffer) != [] ==> r.0 == Contents(k.buffer)[0] && Contents(r.1.buffer) == Contents(k.buffer)[1..]
    ensures Contents(k.buffer) == [] ==> r == (0, k)
  {
    var (code, buffer) := Take(k.buffer, 0);
    (code, k.(buffer := buffer))
  }

  /** Whether a code is waiting. */
  function IsData(k: KeyboardFw): (ready: bool)
    requires Sized(k)
    ensures ready <==> Contents(k.buffer) != []
  {
    UsedBounds(k.buffer);
    !IsEmpty(k.buffer)
  }

  // ----- properties -----

  /** No auto-repeat: a tick that reads the same keys as the previous one yields no code. */
  lemma {:induction false} HeldKeysYieldNothing(t: Layout, last: seq<bool>, down: seq<bool>, upper: bool, ctrl: bool, n: nat)
    requires Laid(t) && |last| == Keys && |down| == Keys && n <= Keys
    ensures Presses(t, NextLast(t, last, down), down, upper, ctrl, n) == []
  {
    if n > 0 {
      HeldKeysYieldNothing(t, last, down, upper, ctrl, n - 1);
      assert !NewPress(t, NextLast(t, last, down), down, n - 1);
    }
  }

  /** A key yields a code only when it went down: released and held keys never do. */
  lemma {:induction false} PressesNeedNewPress(t: Layout, last: seq<bool>, down: seq<bool>, upper: bool, ctrl: bool, n: nat)
    requires Laid(t) && |last| == Keys && |down| == Keys && n <= Keys
    requires forall p :: 0 <= p < n ==> !NewPress(t, last, down, p)
    ensures Presses(t, last, down, upper, ctrl, n) == []
  {
    if n > 0 {
      PressesNeedNewPress(t, last, down, upper, ctrl, n - 1);
    }
  }

  /** Every key that went down, and only those, counts once: as many codes as new presses. */
  lemma {:induction false} OneCodePerPress(t: Layout, last: seq<bool>, down: seq<bool>, upper: bool, ctrl: bool, n: nat)
    requires Laid(t) && |last| == Keys && |down| == Keys && n <= Keys
    ensures |Presses(t, last, down, upper, ctrl, n)| == |set p | 0 <= p < n && NewPress(t, last, down, p)|
  {
    if n > 0 {
      OneCodePerPress(t, last, down, upper, ctrl, n - 1);
      var below := set p | 0 <= p < n - 1 && NewPress(t, last, down, p);
      if NewPress(t, last, down, n - 1) {
        assert (set p | 0 <= p < n && NewPress(t, last, down, p)) == below + {n - 1};
        assert n - 1 !in below;
      } else {
        assert (set p | 0 <= p < n && NewPress(t, last, down, p)) == below;
      }
    }
  }
}

=== FILE: lcd.dfy ===
/**
 * The character LCD of the I/O board: a 40 x 30 grid of cells, each holding a
 * character code and a colour byte (background in the high nibble, foreground in
 * the low nibble). Drawing goes to a canvas; `Refresh` copies the canvas to the
 * buffer that is shown. A cursor marks where the next character lands.
 *
 * The emulator's LCD class and the firmware's lcd.c implement the same machine,
 * statement for statement; this module models both.
 */
module Lcd {
  import Bytes

  const Width: nat := 40
  const Height: nat := 30
  const DefaultColor: bv8 := 0x0F

  datatype Cell = Cell(ch: bv8, color: bv8)

  type Row = seq<Cell>
  type Screen = seq<Row>

  /**
   * The canvas being drawn, the buffer ready to be shown, the colour of the next
   * character and the cursor. The cursor may stand one past the last column or row:
   * printing or starting a new line there wraps or scrolls first.
   */
  datatype Lcd = Lcd(canvas: Screen, ready: Screen, color: bv8, x: nat, y: nat)

  const BlankCell: Cell := Cell(0, 0)
  function BlankRow(): Row {
    seq(Width, _ => BlankCell)
  }

  function Blank(): Screen {
    seq(Height, _ => BlankRow())
  }

  predicate Shaped(s: Screen) {
    |s| == Height && forall i :: 0 <= i < |s| ==> |s[i]| == Width
  }

  /** The invariant every operation keeps: both buffers 30 x 40, the cursor within reach. */
  predicate Valid(l: Lcd) {
    Shaped(l.canvas) && Shaped(l.ready) && l.x <= Width && l.y <= Height
  }

  predicate IsBlank(s: Screen) {
    Shaped(s) && forall i, j :: 0 <= i < Height && 0 <= j < Width ==> s[i][j] == BlankCell
  }

  /** Both buffers blank, the default colour, the cursor at the top left corner. */
  function Reset(): (l: Lcd)
    ensures Valid(l) && IsBlank(l.canvas) && IsBlank(l.ready)
    ensures l.color == DefaultColor && l.x == 0 && l.y == 0
  {
    Lcd(Blank(), Blank(), DefaultColor, 0, 0)
  }

  /** Blank the canvas; the shown buffer, the colour and the cursor stay. */
  function Clear(l: Lcd): (r: Lcd)
    requires Valid(l)
    ensures Valid(r) && IsBlank(r.canvas)
    ensures r.ready == l.ready && r.color == l.color && r.x == l.x && r.y == l.y
  {
    l.(canvas := Blank())
  }

  /** Show the canvas: the ready buffer becomes a copy of it. */
  function Refresh(l: Lcd): (r: Lcd)
    requires Valid(l)
    ensures Valid(r) && r.ready == l.canvas
    ensures r.canvas == l.canvas && r.color == l.color && r.x == l.x && r.y == l.y
  {
    l.(ready := l.canvas)
  }

  /**
   * Move every row up by one, dropping the top row and blanking the bottom one;
   * the cursor follows its row up unless it is already on the top row.
   */
  function ScrollDown(l: Lcd): (r: Lcd)
    requires Shaped(l.canvas)
    ensures Shaped(r.canvas)
    ensures forall i, j :: 0 <= i < Height - 1 && 0 <= j < Width ==> r.canvas[i][j] == l.canvas[i + 1][j]
    ensures r.canvas[Height - 1] == BlankRow()
    ensures r.y == (if l.y > 0 then l.y - 1 else 0)
    ensures r.ready == l.ready && r.color == l.color && r.x == l.x
  {
    l.(canvas := l.canvas[1..] + [BlankRow()], y := if l.y > 0 then l.y - 1 else l.y)
  }

  /**
   * Return to column 0 of the next row. On the row past the bottom (y = 30) the
   * canvas scrolls first, so the cursor stays on that row; otherwise nothing scrolls.
   */
  function NewLine(l: Lcd): (r: Lcd)
    requires Valid(l)
    ensures Valid(r) && r.x == 0
    ensures r.y == if l.y < Height then l.y + 1 else Height
    ensures l.y < Height ==> r.canvas == l.canvas
    ensures l.y == Height ==> r.canvas == ScrollDown(l).canvas
    ensures r.ready == l.ready && r.color == l.color
  {
    var l1 := l.(x := 0);
    var l2 := if l1.y >= Height then ScrollDown(l1).(y := Height - 1) else l1;
    l2.(y := l2.y + 1)
  }

  /** Take the foreground (low nibble) from c; the background is kept. */
  function SetColorForeground(l: Lcd, c: bv8): (r: Lcd)
    ensures r.color & 0x0F == c & 0x0F && r.color & 0xF0 == l.color & 0xF0
    ensures r == l.(color := r.color)
  {
    l.(color := (l.color & 0xF0) | (c & 0x0F))
  }

  /** Take the background (high nibble) from the low nibble of c; the foreground is kept. */
  function SetColorBackground(l: Lcd, c: bv8): (r: Lcd)
    ensures r.color >> 4 == c & 0x0F && r.color & 0x0F == l.color & 0x0F
    ensures r == l.(color := r.color)
  {
    l.(color := (l.color & 0x0F) | ((c << 4) & 0xF0))
  }

  /** Move the cursor to column x; a column off the screen is ignored. */
  function SetCursorX(l: Lcd, x: bv8): (r: Lcd)
    requires Valid(l)
    ensures Valid(r)
    ensures (x as nat < Width && r == l.(x := x as nat)) || (x as nat >= Width && r == l)
  {
    if (x as nat) < Width then l.(x := x as nat) else l
  }

  /** Move the cursor to row y; a row off the screen is ignored. */
  function SetCursorY(l: Lcd, y: bv8): (r: Lcd)
    requires Valid(l)
    ensures Valid(r)
    ensures (y as nat < Height && r == l.(y := y as nat)) || (y as nat >= Height && r == l)
  {
    if (y as nat) < Height then l.(y := y as nat) else l
  }

  /** One coordinate of the cursor as the board reports it, a byte: the row when vertical, else the column. */
  function Cursor(l: Lcd, vertical: bool): (c: bv8)
    requires Valid(l)
    ensures c as nat == if vertical then l.y else l.x
  {
    Bytes.ByteOf(if vertical then l.y else l.x)
  }

  // ----- printing -----

  /** Whether printing at the cursor first wraps to the next row. */
  predicate Wraps(l: Lcd) {
    l.x >= Width
  }

  /** Whether printing at the cursor has to scroll: the row it prints on is past the bottom. */
  predicate Scrolls(l: Lcd) {
    (if Wraps(l) then l.y + 1 else l.y) >= Height
  }

  /** The row a character printed now lands on. */
  function PrintRow(l: Lcd): (row: nat)
    requires Valid(l)
    ensures row < Height
  {
    if Scrolls(l) then Height - 1 else if Wraps(l) then l.y + 1 else l.y
  }

  /** The column a character printed now lands on. */
  function PrintColumn(l: Lcd): (col: nat)
    requires Valid(l)
    ensures col < Width
  {
    if Wraps(l) then 0 else l.x
  }

  /** The canvas the character is written into: scrolled or not. */
  function Base(l: Lcd): (s: Screen)
    requires Valid(l)
    ensures Shaped(s)
  {
    if Scrolls(l) then ScrollDown(l).canvas else l.canvas
  }

  /**
   * Print c in the current colour at the cursor: wrap to column 0 of the next row
   * when the cursor is past the last column, scroll when that row is past the
   * bottom, store the cell, and step right.
   */
  function PrintChar(l: Lcd, c: bv8): (r: Lcd)
    requires Valid(l)
    ensures Valid(r)
    ensures r.canvas[PrintRow(l)][PrintColumn(l)] == Cell(c, l.color)
    ensures forall i, j :: 0 <= i < Height && 0 <= j < Width && (i != PrintRow(l) || j != PrintColumn(l)) ==>
      r.canvas[i][j] == Base(l)[i][j]
    ensures r.x == PrintColumn(l) + 1 && r.y == PrintRow(l)
    ensures r.ready == l.ready && r.color == l.color
  {
    var l1 := if l.x >= Width then l.(x := 0, y := l.y + 1) else l;
    var l2 := if l1.y >= Height then ScrollDown(l1).(y := Height - 1) else l1;
    var row := l2.canvas[l2.y][l2.x := Cell(c, l2.color)];
    l2.(canvas := l2.canvas[l2.y := row], x := l2.x + 1)
  }

  /** Print the characters of s one after the other. */
  function Print(l: Lcd, s: seq<bv8>): (r: Lcd)
    requires Valid(l)
    ensures Valid(r) && r.ready == l.ready && r.color == l.color
    decreases |s|
  {
    if s == [] then l else Print(PrintChar(l, s[0]), s[1..])
  }

  // ----- properties -----

  /**
   * Characters that fit on the cursor's row appear side by side from the cursor
   * on, the cursor ends just after them, and no other cell changes.
   */
  lemma {:induction false} PrintOnRow(l: Lcd, s: seq<bv8>)
    requires Valid(l) && l.y < Height && l.x + |s| <= Width
    ensures Print(l, s).x == l.x + |s| && Print(l, s).y == l.y
    ensures forall k :: 0 <= k < |s| ==> Print(l, s).canvas[l.y][l.x + k] == Cell(s[k], l.color)
    ensures forall i, j :: 0 <= i < Height && 0 <= j < Width && (i != l.y || j < l.x || l.x + |s| <= j) ==>
      Print(l, s).canvas[i][j] == l.canvas[i][j]
    decreases |s|
  {
    if s != [] {
      var l1 := PrintChar(l, s[0]);
      assert !Wraps(l) && !Scrolls(l);
      PrintOnRow(l1, s[1..]);
      var r := Print(l, s);
      assert r == Print(l1, s[1..]);
      forall k | 0 <= k < |s|
        ensures r.canvas[l.y][l.x + k] == Cell(s[k], l.color)
      {
        if k > 0 {
          assert s[1..][k - 1] == s[k];
        }
      }
    }
  }

  /** After a new line on any row but the two last, the next character opens the following row. */
  lemma NewLineThenPrint(l: Lcd, c: bv8)
    requires Valid(l) && l.y < Height - 1
    ensures PrintChar(NewLine(l), c).canvas[l.y + 1][0] == Cell(c, l.color)
    ensures PrintChar(NewLine(l), c).x == 1 && PrintChar(NewLine(l), c).y == l.y + 1
  {
  }

  /** Printing past the last cell of the screen scrolls: the character opens the bottom row. */
  lemma PrintAtEnd(l: Lcd, c: bv8)
    requires Valid(l) && l.x == Width && l.y == Height - 1
    ensures PrintChar(l, c).canvas[Height - 1][0] == Cell(c, l.color)
    ensures PrintChar(l, c).canvas[Height - 1][1..] == BlankRow()[1..]
    ensures forall i, j :: 0 <= i < Height - 1 && 0 <= j < Width ==> PrintChar(l, c).canvas[i][j] == l.canvas[i + 1][j]
    ensures PrintChar(l, c).x == 1 && PrintChar(l, c).y == Height - 1
  {
    assert Scrolls(l) && Base(l) == ScrollDown(l).canvas;
  }

  /** The two colour setters write disjoint nibbles: together they set the whole colour. */
  lemma SetBothColors(l: Lcd, fg: bv8, bg: bv8)
    ensures SetColorForeground(SetColorBackground(l, bg), fg).color == ((bg & 0x0F) << 4) | (fg & 0x0F)
    ensures SetColorBackground(SetColorForeground(l, fg), bg).color == ((bg & 0x0F) << 4) | (fg & 0x0F)
  {
  }

  /** A cursor position set on the screen reads back unchanged. */
  lemma CursorReadsBack(l: Lcd, x: bv8, y: bv8)
    requires Valid(l) && (x as nat) < Width && (y as nat) < Height
    ensures Cursor(SetCursorY(SetCursorX(l, x), y), false) == x
    ensures Cursor(SetCursorY(SetCursorX(l, x), y), true) == y
  {
  }

  /** Clearing then refreshing shows a blank screen. */
  lemma ClearThenRefresh(l: Lcd)
    requires Valid(l)
    ensures IsBlank(Refresh(Clear(l)).ready)
  {
  }
}

=== FILE: linker.dfy ===
/**
 * The linker. Every code item, then every constant, then every variable gets the
 * next free address of the mode's RAM region; the code and constant bytes are glued
 * into one image; each label slot of the code receives the address its label names.
 *
 * `link` keeps a running count of the bytes placed so far. Here an item's position is
 * the size of everything placed before it, and its address is the region offset plus
 * that position.
 */
module Linker {
  import opened Wrappers
  import opened AsmText
  import opened AsmData
  import Compiler

  // ----- regions -----

  const BiosRamSize: nat := 0x0800
  const BiosRamOffset: nat := 0x0000
  const OsRamSize: nat := 0x1800
  const OsRamOffset: nat := 0x0800
  const AppRamSize: nat := 0xD000
  const AppRamOffset: nat := 0x2000

  /** Where a program starts and how many bytes it may use. */
  datatype Region = Region(offset: nat, size: nat)

  /** The region of each mode: the BIOS region ends where the OS region starts, and that one where the application's starts. */
  function RegionOf(mode: Mode): (r: Region)
    ensures 0 < r.size && r.offset + r.size < MemorySize
    ensures mode == Os ==> r.offset == BiosRamOffset + BiosRamSize
    ensures mode == App ==> r.offset == OsRamOffset + OsRamSize
  {
    match mode
    case Bios => Region(BiosRamOffset, BiosRamSize)
    case Os => Region(OsRamOffset, OsRamSize)
    case App => Region(AppRamOffset, AppRamSize)
  }

  // ----- concatenation and sums -----

  /** The bytes of the list's elements, one after another. */
  function Flatten<T>(xs: seq<T>, chunk: T -> seq<Byte>): seq<Byte>
    decreases |xs|
  {
    if |xs| == 0 then [] else chunk(xs[0]) + Flatten(xs[1..], chunk)
  }

  /** The sizes of the list's elements added up. */
  function Total<T>(xs: seq<T>, size: T -> nat): nat
    decreases |xs|
  {
    if |xs| == 0 then 0 else size(xs[0]) + Total(xs[1..], size)
  }

  /** y occurs in x from position i on. */
  predicate Inside(x: seq<Byte>, i: nat, y: seq<Byte>) {
    i + |y| <= |x| && forall j :: 0 <= j < |y| ==> x[i + j] == y[j]
  }

  lemma InsideTrans(x: seq<Byte>, i: nat, y: seq<Byte>, j: nat, z: seq<Byte>)
    requires Inside(x, i, y) && Inside(y, j, z)
    ensures Inside(x, i + j, z)
  {
    forall t | 0 <= t < |z|
      ensures x[i + j + t] == z[t]
    {
      assert y[j + t] == z[t];
      assert x[i + (j + t)] == y[j + t];
    }
  }

  lemma InsidePrefix(x: seq<Byte>, i: nat, y: seq<Byte>, w: seq<Byte>)
    requires Inside(x, i, y)
    ensures Inside(x + w, i, y)
  {
    forall t | 0 <= t < |y|
      ensures (x + w)[i + t] == y[t]
    {
      assert (x + w)[i + t] == x[i + t];
    }
  }

  lemma InsideSuffix(w: seq<Byte>, x: seq<Byte>, i: nat, y: seq<Byte>)
    requires Inside(x, i, y)
    ensures Inside(w + x, |w| + i, y)
  {
    forall t | 0 <= t < |y|
      ensures (w + x)[|w| + i + t] == y[t]
    {
      assert (w + x)[|w| + (i + t)] == x[i + t];
    }
  }

  /** An element's chunk sits in the concatenation right after the chunks before it. */
  lemma {:induction false} FlattenSplit<T>(xs: seq<T>, chunk: T -> seq<Byte>, k: nat)
    requires k < |xs|
    ensures Flatten(xs, chunk) == Flatten(xs[..k], chunk) + chunk(xs[k]) + Flatten(xs[k + 1..], chunk)
    decreases k
  {
    if k == 0 {
      assert xs[..0] == [] && xs[1..] == xs[k + 1..];
    } else {
      FlattenSplit(xs[1..], chunk, k - 1);
      assert xs[1..][..k - 1] == xs[..k][1..];
      assert xs[1..][k..] == xs[k + 1..];
    }
  }

  lemma FlattenInside<T>(xs: seq<T>, chunk: T -> seq<Byte>, k: nat)
    requires k < |xs|
    ensures Inside(Flatten(xs, chunk), |Flatten(xs[..k], chunk)|, chunk(xs[k]))
  {
    FlattenSplit(xs, chunk, k);
    var pre := Flatten(xs[..k], chunk);
    var whole := Flatten(xs, chunk);
    forall t | 0 <= t < |chunk(xs[k])|
      ensures whole[|pre| + t] == chunk(xs[k])[t]
    {
    }
  }

  /** The chunks before a later element cover the earlier element and everything before it. */
  lemma FlattenGrows<T>(xs: seq<T>, chunk: T -> seq<Byte>, a: nat, b: nat)
    requires a < b <= |xs|
    ensures |Flatten(xs[..a], chunk)| + |chunk(xs[a])| <= |Flatten(xs[..b], chunk)|
  {
    FlattenSplit(xs[..b], chunk, a);
    assert xs[..b][..a] == xs[..a];
  }

  lemma {:induction false} TotalSplit<T>(xs: seq<T>, size: T -> nat, k: nat)
    requires k < |xs|
    ensures Total(xs, size) == Total(xs[..k], size) + size(xs[k]) + Total(xs[k + 1..], size)
    decreases k
  {
    if k == 0 {
      assert xs[..0] == [] && xs[1..] == xs[k + 1..];
    } else {
      TotalSplit(xs[1..], size, k - 1);
      assert xs[1..][..k - 1] == xs[..k][1..];
      assert xs[1..][k..] == xs[k + 1..];
    }
  }

  lemma TotalGrows<T>(xs: seq<T>, size: T -> nat, a: nat, b: nat)
    requires a < b <= |xs|
    ensures Total(xs[..a], size) + size(xs[a]) <= Total(xs[..b], size)
  {
    TotalSplit(xs[..b], size, a);
    assert xs[..b][..a] == xs[..a];
  }

  // ----- placement -----

  function ItemCode(i: CodeItem): seq<Byte> { i.bytes }
  function SectionCode(s: CodeSection): seq<Byte> { Flatten(s.items, ItemCode) }
  function FileCode(d: Data): seq<Byte> { Flatten(d.sections, SectionCode) }
  function ConstCode(c: FlashItem): seq<Byte> { c.bytes }
  function FileConsts(d: Data): seq<Byte> { Flatten(d.flash, ConstCode) }
  function VarSize(v: RamItem): nat { v.size }
  function FileVars(d: Data): nat { Total(d.ram, VarSize) }

  /** All code, in file, section and item order. */
  function CodeImage(files: seq<Data>): seq<Byte> { Flatten(files, FileCode) }

  /** The image before its label slots are filled: all code, then all constants. */
  function Image(files: seq<Data>): seq<Byte> { CodeImage(files) + Flatten(files, FileConsts) }

  /** The count `link` compares with the region size: code and constants, then every variable. */
  function Usage(files: seq<Data>): nat { |Image(files)| + Total(files, FileVars) }

  predicate IsSection(files: seq<Data>, f: nat, s: nat) {
    f < |files| && s < |files[f].sections|
  }

  predicate IsItem(files: seq<Data>, f: nat, s: nat, k: nat) {
    IsSection(files, f, s) && k < |files[f].sections[s].items|
  }

  predicate IsConst(files: seq<Data>, f: nat, i: nat) {
    f < |files| && i < |files[f].flash|
  }

  predicate IsVar(files: seq<Data>, f: nat, i: nat) {
    f < |files| && i < |files[f].ram|
  }

  /** Where section s of file f starts: the code of the files before, then of the sections before. */
  function SectionPosition(files: seq<Data>, f: nat, s: nat): nat
    requires IsSection(files, f, s)
  {
    |Flatten(files[..f], FileCode)| + |Flatten(files[f].sections[..s], SectionCode)|
  }

  function ItemPosition(files: seq<Data>, f: nat, s: nat, k: nat): nat
    requires IsItem(files, f, s, k)
  {
    SectionPosition(files, f, s) + |Flatten(files[f].sections[s].items[..k], ItemCode)|
  }

  /** Constants follow all the code. */
  function ConstPosition(files: seq<Data>, f: nat, i: nat): nat
    requires IsConst(files, f, i)
  {
    |CodeImage(files)| + |Flatten(files[..f], FileConsts)| + |Flatten(files[f].flash[..i], ConstCode)|
  }

  /** Variables follow the image; they take room but add no bytes to it. */
  function VarPosition(files: seq<Data>, f: nat, i: nat): nat
    requires IsVar(files, f, i)
  {
    |Image(files)| + Total(files[..f], FileVars) + Total(files[f].ram[..i], VarSize)
  }

  /** An item's bytes inside its file's code. */
  lemma ItemInFile(d: Data, s: nat, k: nat)
    requires s < |d.sections| && k < |d.sections[s].items|
    ensures Inside(FileCode(d), |Flatten(d.sections[..s], SectionCode)| + |Flatten(d.sections[s].items[..k], ItemCode)|, d.sections[s].items[k].bytes)
  {
    var sec := d.sections[s];
    FlattenInside(sec.items, ItemCode, k);
    FlattenInside(d.sections, SectionCode, s);
    InsideTrans(FileCode(d), |Flatten(d.sections[..s], SectionCode)|, SectionCode(sec),
      |Flatten(sec.items[..k], ItemCode)|, sec.items[k].bytes);
  }

  /** An item's bytes inside all the code. */
  lemma ItemInCode(files: seq<Data>, f: nat, s: nat, k: nat)
    requires IsItem(files, f, s, k)
    ensures Inside(CodeImage(files), ItemPosition(files, f, s, k), files[f].sections[s].items[k].bytes)
  {
    var d := files[f];
    var within := |Flatten(d.sections[..s], SectionCode)| + |Flatten(d.sections[s].items[..k], ItemCode)|;
    var before := |Flatten(files[..f], FileCode)|;
    assert ItemPosition(files, f, s, k) == before + within;
    ItemInFile(d, s, k);
    FlattenInside(files, FileCode, f);
    InsideTrans(CodeImage(files), before, FileCode(d), within, d.sections[s].items[k].bytes);
  }

  /** Every code item's bytes are in the image at its position. */
  lemma ItemInImage(files: seq<Data>, f: nat, s: nat, k: nat)
    requires IsItem(files, f, s, k)
    ensures Inside(Image(files), ItemPosition(files, f, s, k), files[f].sections[s].items[k].bytes)
    ensures ItemPosition(files, f, s, k) + |files[f].sections[s].items[k].bytes| <= |CodeImage(files)|
  {
    ItemInCode(files, f, s, k);
    InsidePrefix(CodeImage(files), ItemPosition(files, f, s, k), files[f].sections[s].items[k].bytes, Flatten(files, FileConsts));
  }

  lemma ConstInImage(files: seq<Data>, f: nat, i: nat)
    requires IsConst(files, f, i)
    ensures Inside(Image(files), ConstPosition(files, f, i), files[f].flash[i].bytes)
    ensures |CodeImage(files)| <= ConstPosition(files, f, i)
  {
    var d := files[f];
    var bytes := d.flash[i].bytes;
    var consts := Flatten(files, FileConsts);
    var before := |Flatten(files[..f], FileConsts)|;
    var within := |Flatten(d.flash[..i], ConstCode)|;
    FlattenInside(d.flash, ConstCode, i);
    FlattenInside(files, FileConsts, f);
    InsideTrans(consts, before, FileConsts(d), within, bytes);
    InsideSuffix(CodeImage(files), consts, before + within, bytes);
    assert ConstPosition(files, f, i) == |CodeImage(files)| + (before + within);
  }

  /** Every variable ends within the count `link` compares with the region size. */
  lemma VarInUsage(files: seq<Data>, f: nat, i: nat)
    requires IsVar(files, f, i)
    ensures |Image(files)| <= VarPosition(files, f, i)
    ensures VarPosition(files, f, i) + files[f].ram[i].size <= Usage(files)
  {
    TotalGrows(files[f].ram, VarSize, i, |files[f].ram|);
    assert files[f].ram[..|files[f].ram|] == files[f].ram;
    TotalGrows(files, FileVars, f, |files|);
    assert files[..|files|] == files;
  }

  /** Code items never overlap: an item ends before any later one starts. */
  lemma ItemsApart(files: seq<Data>, f: nat, s: nat, k: nat, f': nat, s': nat, k': nat)
    requires IsItem(files, f, s, k) && IsItem(files, f', s', k')
    requires f < f' || (f == f' && s < s') || (f == f' && s == s' && k < k')
    ensures ItemPosition(files, f, s, k) + |files[f].sections[s].items[k].bytes| <= ItemPosition(files, f', s', k')
  {
    var d := files[f];
    var sec := d.sections[s];
    FlattenInside(sec.items, ItemCode, k);
    FlattenInside(d.sections, SectionCode, s);
    if f < f' {
      FlattenGrows(files, FileCode, f, f');
    } else if s < s' {
      FlattenGrows(d.sections, SectionCode, s, s');
    } else {
      FlattenGrows(sec.items, ItemCode, k, k');
    }
  }

  /** Variables never overlap. */
  lemma VarsApart(files: seq<Data>, f: nat, i: nat, f': nat, i': nat)
    requires IsVar(files, f, i) && IsVar(files, f', i')
    requires f < f' || (f == f' && i < i')
    ensures VarPosition(files, f, i) + files[f].ram[i].size <= VarPosition(files, f', i')
  {
    if f < f' {
      TotalGrows(files[f].ram, VarSize, i, |files[f].ram|);
      assert files[f].ram[..|files[f].ram|] == files[f].ram;
      TotalGrows(files, FileVars, f, f');
    } else {
      TotalGrows(files[f].ram, VarSize, i, i');
    }
  }

  /** The running count: each item of a section starts where the one before it ends. */
  lemma ItemsAdjacent(files: seq<Data>, f: nat, s: nat, k: nat)
    requires IsItem(files, f, s, k + 1)
    ensures ItemPosition(files, f, s, k + 1) == ItemPosition(files, f, s, k) + |files[f].sections[s].items[k].bytes|
  {
    var items := files[f].sections[s].items;
    FlattenSplit(items[..k + 1], ItemCode, k);
    assert items[..k + 1][..k] == items[..k];
  }

  // ----- labels -----

  /** The position of the first name that equals n ignoring case. */
  function FirstMatch(names: seq<Text>, n: Text): (r: Option<nat>)
    ensures r.None? <==> !Taken(names, n)
    ensures r.Some? ==> r.value < |names| && SameText(names[r.value], n)
    ensures r.Some? ==> forall j :: 0 <= j < r.value ==> !SameText(names[j], n)
  {
    if |names| == 0 then None
    else if SameText(names[0], n) then Some(0)
    else
      match FirstMatch(names[1..], n)
      case Some(i) => Some(i + 1)
      case None =>
        assert forall i :: 1 <= i < |names| ==> names[i] == names[1..][i - 1];
        None
  }

  /** Which of a file's lists an origin indexes. */
  datatype Kind = SectionKind | ConstKind | VarKind

  /** The address of what a global entry stands for: a placed item, or an address read from a map file. */
  function OriginAddress(files: seq<Data>, off: nat, kind: Kind, o: Origin): (r: Option<nat>)
    ensures o.Fixed? ==> r == Some(o.address)
    ensures o.Local? && kind == SectionKind && IsSection(files, o.file, o.index) ==> r == Some(off + SectionPosition(files, o.file, o.index))
    ensures o.Local? && kind == ConstKind && IsConst(files, o.file, o.index) ==> r == Some(off + ConstPosition(files, o.file, o.index))
    ensures o.Local? && kind == VarKind && IsVar(files, o.file, o.index) ==> r == Some(off + VarPosition(files, o.file, o.index))
  {
    match o
    case Fixed(a) => Some(a)
    case Local(f, i) =>
      match kind
      case SectionKind => if IsSection(files, f, i) then Some(off + SectionPosition(files, f, i)) else None
      case ConstKind => if IsConst(files, f, i) then Some(off + ConstPosition(files, f, i)) else None
      case VarKind => if IsVar(files, f, i) then Some(off + VarPosition(files, f, i)) else None
  }

  /** The first global entry of that name, if any, through its origin. */
  function GlobalAddress(files: seq<Data>, off: nat, kind: Kind, es: seq<Entry>, n: Text): Option<nat> {
    match FirstMatch(EntryNames(es), n)
    case Some(g) => OriginAddress(files, off, kind, es[g].origin)
    case None => None
  }

  /** `findCodeAddress`: a section of the file itself comes first, then the global sections. */
  function FindCode(dl: DataList, off: nat, f: nat, n: Text): Option<nat> {
    var local := if f < |dl.files| then FirstMatch(SectionNames(dl.files[f].sections), n) else None;
    match local
    case Some(s) => Some(off + SectionPosition(dl.files, f, s))
    case None => GlobalAddress(dl.files, off, SectionKind, dl.globalSections, n)
  }

  /** `findMemoryAddress`: the file's variables, its constants, the global variables, the global constants. */
  function FindMemory(dl: DataList, off: nat, f: nat, n: Text): Option<nat> {
    var localVar := if f < |dl.files| then FirstMatch(RamNames(dl.files[f].ram), n) else None;
    var localConst := if f < |dl.files| then FirstMatch(FlashNames(dl.files[f].flash), n) else None;
    if localVar.Some? then Some(off + VarPosition(dl.files, f, localVar.value))
    else if localConst.Some? then Some(off + ConstPosition(dl.files, f, localConst.value))
    else if Taken(EntryNames(dl.globalRam), n) then GlobalAddress(dl.files, off, VarKind, dl.globalRam, n)
    else GlobalAddress(dl.files, off, ConstKind, dl.globalFlash, n)
  }

  /** A global name resolves through an entry of that name; an unlisted name does not resolve. */
  lemma GlobalLookup(files: seq<Data>, off: nat, kind: Kind, es: seq<Entry>, n: Text)
    ensures !Taken(EntryNames(es), n) ==> GlobalAddress(files, off, kind, es, n).None?
    ensures GlobalAddress(files, off, kind, es, n).Some? ==>
      exists g :: 0 <= g < |es| && SameText(es[g].name, n) && GlobalAddress(files, off, kind, es, n) == OriginAddress(files, off, kind, es[g].origin)
  {
  }

  /** A section of the file shadows a global one of the same name; without one the global list decides. */
  lemma CodeLookup(dl: DataList, off: nat, f: nat, n: Text)
    ensures f < |dl.files| && Taken(SectionNames(dl.files[f].sections), n) ==>
      exists s: nat :: IsSection(dl.files, f, s) && SameText(dl.files[f].sections[s].name, n)
        && FindCode(dl, off, f, n) == Some(off + SectionPosition(dl.files, f, s))
    ensures (f >= |dl.files| || !Taken(SectionNames(dl.files[f].sections), n)) ==>
      FindCode(dl, off, f, n) == GlobalAddress(dl.files, off, SectionKind, dl.globalSections, n)
  {
    if f < |dl.files| {
      var local := FirstMatch(SectionNames(dl.files[f].sections), n);
      if local.Some? {
        assert IsSection(dl.files, f, local.value) && SameText(dl.files[f].sections[local.value].name, n);
      }
    }
  }

  /** The file's variables come first, then its constants, then the global variables, then the global constants. */
  lemma MemoryLookup(dl: DataList, off: nat, f: nat, n: Text)
    ensures f < |dl.files| && Taken(RamNames(dl.files[f].ram), n) ==>
      exists i: nat :: IsVar(dl.files, f, i) && SameText(dl.files[f].ram[i].name, n)
        && FindMemory(dl, off, f, n) == Some(off + VarPosition(dl.files, f, i))
    ensures f < |dl.files| && !Taken(RamNames(dl.files[f].ram), n) && Taken(FlashNames(dl.files[f].flash), n) ==>
      exists i: nat :: IsConst(dl.files, f, i) && SameText(dl.files[f].flash[i].name, n)
        && FindMemory(dl, off, f, n) == Some(off + ConstPosition(dl.files, f, i))
    ensures (f >= |dl.files| || (!Taken(RamNames(dl.files[f].ram), n) && !Taken(FlashNames(dl.files[f].flash), n))) ==>
      FindMemory(dl, off, f, n) == (if Taken(EntryNames(dl.globalRam), n) then GlobalAddress(dl.files, off, VarKind, dl.globalRam, n)
        else GlobalAddress(dl.files, off, ConstKind, dl.globalFlash, n))
  {
    if f < |dl.files| {
      var localVar := FirstMatch(RamNames(dl.files[f].ram), n);
      var localConst := FirstMatch(FlashNames(dl.files[f].flash), n);
      if localVar.Some? {
        assert IsVar(dl.files, f, localVar.value) && SameText(dl.files[f].ram[localVar.value].name, n);
      } else if localConst.Some? {
        assert IsConst(dl.files, f, localConst.value) && SameText(dl.files[f].flash[localConst.value].name, n);
      }
    }
  }

  /** `toUInt` on the index digits: zero when the number does not fit 32 bits. */
  function IndexValue(digits: Text): (r: nat)
    ensures r < UIntLimit
    ensures Value(digits, 10) < UIntLimit ==> r == Value(digits, 10)
    ensures Value(digits, 10) >= UIntLimit ==> r == 0
  {
    match ToUInt(digits, 10)
    case Some(v) => v
    case None => 0
  }

  /** The address of `*name`, plus the index, as an unsigned 32-bit sum. */
  function ElementAddress(dl: DataList, off: nat, f: nat, name: Text, digits: Text): Option<nat> {
    match FindMemory(dl, off, f, name)
    case Some(a) => Some((a + IndexValue(digits)) % UIntLimit)
    case None => None
  }

  /**
   * `findAddress` for a label of file f: `.name` is a code section, `*name` a variable
   * or constant, `*name[n]` the n-th byte after one (an unsigned 32-bit sum). Anything
   * else is unknown, which also covers `link`'s test of the first character.
   */
  function FindAddress(dl: DataList, off: nat, f: nat, target: Text): Option<nat> {
    if Compiler.IsCodeLabel(target) then FindCode(dl, off, f, target)
    else if Compiler.IsMemoryLabel(target) then FindMemory(dl, off, f, target[1..])
    else if Compiler.IsIndexedLabel(target) then
      var k := IndexOf(target, '[').value;
      ElementAddress(dl, off, f, target[1..k], target[k + 1..|target| - 1])
    else None
  }

  /** The label `*name[digits]`. */
  function IndexedLabel(name: Text, digits: Text): Text {
    "*" + name + "[" + digits + "]"
  }

  /** The pieces of a written `*name[digits]` label, as `findAddress` cuts them. */
  lemma IndexedShape(name: Text, digits: Text)
    requires IsName(name) && IsDecimal(digits)
    ensures var t := IndexedLabel(name, digits);
      IndexOf(t, '[') == Some(|name| + 1) && t[1..|name| + 1] == name && t[|name| + 2..|t| - 1] == digits
      && Compiler.IsIndexedLabel(t) && !Compiler.IsCodeLabel(t) && !Compiler.IsMemoryLabel(t)
  {
    var t := IndexedLabel(name, digits);
    var k := |name| + 1;
    assert t[k] == '[';
    forall i | 0 <= i < k
      ensures t[i] != '['
    {
      if i > 0 {
        assert t[i] == name[i - 1];
      }
    }
    assert t[1..k] == name;
    assert t[k + 1..|t| - 1] == digits;
    assert t[1..][|t| - 2] == ']';
  }

  lemma IndexedFind(dl: DataList, off: nat, f: nat, name: Text, digits: Text)
    requires IsName(name) && IsDecimal(digits)
    ensures FindAddress(dl, off, f, IndexedLabel(name, digits)) == ElementAddress(dl, off, f, name, digits)
  {
    IndexedShape(name, digits);
  }

  /** The element `digits` bytes after `*name`, as an unsigned 32-bit sum. */
  lemma ElementValue(dl: DataList, off: nat, f: nat, name: Text, digits: Text)
    requires FindMemory(dl, off, f, name).Some?
    ensures ElementAddress(dl, off, f, name, digits) == Some((FindMemory(dl, off, f, name).value + IndexValue(digits)) % UIntLimit)
  {
  }

  /** `*name[n]` names n bytes after `*name`, as an unsigned 32-bit sum; an index past 32 bits counts as zero. */
  lemma IndexedAddress(dl: DataList, off: nat, f: nat, name: Text, n: nat)
    requires IsName(name)
    requires FindMemory(dl, off, f, name).Some?
    ensures FindAddress(dl, off, f, IndexedLabel(name, Decimal(n)))
      == Some((FindMemory(dl, off, f, name).value + (if n < UIntLimit then n else 0)) % UIntLimit)
  {
    DecimalValue(n);
    IndexedFind(dl, off, f, name, Decimal(n));
    ElementValue(dl, off, f, name, Decimal(n));
  }

  // ----- label slots -----

  /** Two bytes of the image, at `position`, that receive the address of `target` (used in file `file`). */
  datatype Slot = Slot(file: nat, fileName: Text, line: nat, target: Text, position: nat)

  /** The slots of one item placed at position `at`. */
  function FillSlots(f: nat, fileName: Text, item: CodeItem, at: nat): seq<Slot> {
    seq(|item.fills|, i requires 0 <= i < |item.fills| => Slot(f, fileName, item.line, item.fills[i].target, at + item.fills[i].offset))
  }

  function ItemSlots(files: seq<Data>, f: nat, s: nat, k: nat): seq<Slot>
    requires IsSection(files, f, s) && k <= |files[f].sections[s].items|
    decreases |files[f].sections[s].items| - k
  {
    if k == |files[f].sections[s].items| then []
    else
      FillSlots(f, files[f].fileName, files[f].sections[s].items[k], ItemPosition(files, f, s, k))
      + ItemSlots(files, f, s, k + 1)
  }

  function SectionSlots(files: seq<Data>, f: nat, s: nat): seq<Slot>
    requires f < |files| && s <= |files[f].sections|
    decreases |files[f].sections| - s
  {
    if s == |files[f].sections| then [] else ItemSlots(files, f, s, 0) + SectionSlots(files, f, s + 1)
  }

  function FileSlots(files: seq<Data>, f: nat): seq<Slot>
    requires f <= |files|
    decreases |files| - f
  {
    if f == |files| then [] else SectionSlots(files, f, 0) + FileSlots(files, f + 1)
  }

  /** Every label slot of the program, in the order `link` visits them. */
  function Slots(files: seq<Data>): seq<Slot> {
    FileSlots(files, 0)
  }

  // ----- patching -----

  datatype LinkError =
    | Overflow(usage: nat, size: nat)
    | UnknownLabel(name: Text, line: nat, fileName: Text)
    | OutsideImage(position: nat)

  /** The low byte of an address, written first. */
  function Low(a: nat): Byte { a % 256 }

  /** The second byte of an address: the quotient by 256, cut to eight bits by the cast. */
  function High(a: nat): Byte { (a / 256) % 256 }

  /** The address little-endian into two bytes. */
  function Write(image: seq<Byte>, p: nat, a: nat): (r: seq<Byte>)
    requires p + 1 < |image|
    ensures |r| == |image| && r[p] == Low(a) && r[p + 1] == High(a)
    ensures forall q :: 0 <= q < |image| && q != p && q != p + 1 ==> r[q] == image[q]
  {
    image[p := Low(a)][p + 1 := High(a)]
  }

  /** How `link` resolves a slot: its label, looked up from the slot's own file. */
  function Resolver(dl: DataList, off: nat): Slot -> Option<nat> {
    (sl: Slot) => FindAddress(dl, off, sl.file, sl.target)
  }

  /** The slot's label names an address and both its bytes lie in an image of n bytes. */
  predicate Resolves(lookup: Slot -> Option<nat>, n: nat, sl: Slot) {
    lookup(sl).Some? && sl.position + 1 < n
  }

  /** No slot writes position p. */
  predicate Untouched(slots: seq<Slot>, p: nat) {
    forall i :: 0 <= i < |slots| ==> p != slots[i].position && p != slots[i].position + 1
  }

  /** Slots two bytes apart at least, so none overwrites another. */
  predicate Separated(slots: seq<Slot>) {
    forall i, j :: 0 <= i < j < |slots| ==> slots[i].position + 1 < slots[j].position || slots[j].position + 1 < slots[i].position
  }

  /**
   * The fourth loop of `link`: fill the slots in order, stopping at the first label that
   * names nothing. A slot outside the image stops it too (the vector's bounds check).
   */
  function Patch(lookup: Slot -> Option<nat>, image: seq<Byte>, slots: seq<Slot>): (r: Result<seq<Byte>, LinkError>)
    ensures r.Success? ==> |r.value| == |image|
    decreases |slots|
  {
    if |slots| == 0 then Success(image)
    else
      var sl := slots[0];
      match lookup(sl)
      case None => Failure(UnknownLabel(sl.target, sl.line, sl.fileName))
      case Some(a) =>
        if sl.position + 1 < |image| then Patch(lookup, Write(image, sl.position, a), slots[1..])
        else Failure(OutsideImage(sl.position))
  }

  /** The patch succeeds exactly when every slot resolves inside the image. */
  lemma {:induction false} PatchSucceeds(lookup: Slot -> Option<nat>, image: seq<Byte>, slots: seq<Slot>)
    ensures Patch(lookup, image, slots).Success? <==> forall i :: 0 <= i < |slots| ==> Resolves(lookup, |image|, slots[i])
    decreases |slots|
  {
    if |slots| > 0 && Resolves(lookup, |image|, slots[0]) {
      var image' := Write(image, slots[0].position, lookup(slots[0]).value);
      PatchSucceeds(lookup, image', slots[1..]);
      assert forall i :: 1 <= i < |slots| ==> slots[i] == slots[1..][i - 1];
    }
  }

  /** A failed patch reports the first slot that does not resolve: its unknown label, or its position. */
  lemma {:induction false} PatchFails(lookup: Slot -> Option<nat>, image: seq<Byte>, slots: seq<Slot>)
    requires Patch(lookup, image, slots).Failure?
    ensures exists i :: (0 <= i < |slots| && !Resolves(lookup, |image|, slots[i])
      && (forall j :: 0 <= j < i ==> Resolves(lookup, |image|, slots[j]))
      && Patch(lookup, image, slots).error == (if lookup(slots[i]).None?
        then UnknownLabel(slots[i].target, slots[i].line, slots[i].fileName) else OutsideImage(slots[i].position)))
    decreases |slots|
  {
    if Resolves(lookup, |image|, slots[0]) {
      var image' := Write(image, slots[0].position, lookup(slots[0]).value);
      var rest := slots[1..];
      PatchFails(lookup, image', rest);
      var k :| 0 <= k < |rest| && !Resolves(lookup, |image'|, rest[k])
        && (forall j :: 0 <= j < k ==> Resolves(lookup, |image'|, rest[j]))
        && Patch(lookup, image', rest).error == (if lookup(rest[k]).None?
          then UnknownLabel(rest[k].target, rest[k].line, rest[k].fileName) else OutsideImage(rest[k].position));
      assert slots[k + 1] == rest[k];
      forall j | 0 <= j < k + 1
        ensures Resolves(lookup, |image|, slots[j])
      {
        if j > 0 {
          assert slots[j] == rest[j - 1];
        }
      }
    }
  }

  /** A position no slot writes keeps its byte. */
  lemma {:induction false} PatchKeeps(lookup: Slot -> Option<nat>, image: seq<Byte>, slots: seq<Slot>, p: nat)
    requires Patch(lookup, image, slots).Success? && p < |image| && Untouched(slots, p)
    ensures Patch(lookup, image, slots).value[p] == image[p]
    decreases |slots|
  {
    if |slots| > 0 {
      var image' := Write(image, slots[0].position, lookup(slots[0]).value);
      var rest := slots[1..];
      assert Untouched(rest, p) by {
        forall t | 0 <= t < |rest|
          ensures p != rest[t].position && p != rest[t].position + 1
        {
          assert rest[t] == slots[t + 1];
        }
      }
      PatchKeeps(lookup, image', rest, p);
    }
  }

  /** The first slot holds its address when no later slot writes over it. */
  lemma PatchWritesFirst(lookup: Slot -> Option<nat>, image: seq<Byte>, slots: seq<Slot>)
    requires |slots| > 0 && Patch(lookup, image, slots).Success?
    requires Untouched(slots[1..], slots[0].position) && Untouched(slots[1..], slots[0].position + 1)
    ensures Resolves(lookup, |image|, slots[0])
    ensures Patch(lookup, image, slots).value[slots[0].position] == Low(lookup(slots[0]).value)
    ensures Patch(lookup, image, slots).value[slots[0].position + 1] == High(lookup(slots[0]).value)
  {
    var sl := slots[0];
    assert Resolves(lookup, |image|, sl);
    var image' := Write(image, sl.position, lookup(sl).value);
    assert Patch(lookup, image, slots) == Patch(lookup, image', slots[1..]);
    PatchKeeps(lookup, image', slots[1..], sl.position);
    PatchKeeps(lookup, image', slots[1..], sl.position + 1);
  }

  /** A slot that no later slot writes over ends up holding its label's address, low byte first. */
  lemma {:induction false} PatchWrites(lookup: Slot -> Option<nat>, image: seq<Byte>, slots: seq<Slot>, i: nat)
    requires i < |slots| && Patch(lookup, image, slots).Success?
    requires Untouched(slots[i + 1..], slots[i].position) && Untouched(slots[i + 1..], slots[i].position + 1)
    ensures Resolves(lookup, |image|, slots[i])
    ensures Patch(lookup, image, slots).value[slots[i].position] == Low(lookup(slots[i]).value)
    ensures Patch(lookup, image, slots).value[slots[i].position + 1] == High(lookup(slots[i]).value)
    decreases |slots|
  {
    if i == 0 {
      PatchWritesFirst(lookup, image, slots);
    } else {
      assert Resolves(lookup, |image|, slots[0]);
      var image' := Write(image, slots[0].position, lookup(slots[0]).value);
      var rest := slots[1..];
      assert Patch(lookup, image, slots) == Patch(lookup, image', rest);
      assert slots[i] == rest[i - 1] && rest[i..] == slots[i + 1..];
      PatchWrites(lookup, image', rest, i - 1);
    }
  }

  /** In separated slots no later slot writes over an earlier one. */
  lemma SeparatedLater(slots: seq<Slot>, i: nat)
    requires Separated(slots) && i < |slots|
    ensures Untouched(slots[i + 1..], slots[i].position) && Untouched(slots[i + 1..], slots[i].position + 1)
  {
    var later := slots[i + 1..];
    forall t | 0 <= t < |later|
      ensures slots[i].position != later[t].position && slots[i].position != later[t].position + 1
      ensures slots[i].position + 1 != later[t].position && slots[i].position + 1 != later[t].position + 1
    {
      assert later[t] == slots[i + 1 + t];
    }
  }

  // ----- link -----

  /** The linked program: the patched image and the RAM count. */
  datatype Linked = Linked(image: seq<Byte>, usage: nat)

  /**
   * `link`: place everything, refuse a program that needs more than its region, then
   * fill every label slot.
   */
  function Link(dl: DataList): (r: Result<Linked, LinkError>)
    ensures Usage(dl.files) > RegionOf(dl.mode).size ==> r == Failure(Overflow(Usage(dl.files), RegionOf(dl.mode).size))
    ensures r.Success? ==> r.value.usage == Usage(dl.files) && |r.value.image| == |Image(dl.files)|
    ensures r.Success? ==> |r.value.image| <= RegionOf(dl.mode).size
  {
    var region := RegionOf(dl.mode);
    var usage := Usage(dl.files);
    if usage > region.size then Failure(Overflow(usage, region.size))
    else
      var image :- Patch(Resolver(dl, region.offset), Image(dl.files), Slots(dl.files));
      Success(Linked(image, usage))
  }

  /** `link` succeeds exactly when the program fits its region and every label slot resolves. */
  lemma LinkSucceeds(dl: DataList)
    ensures Link(dl).Success? <==> (Usage(dl.files) <= RegionOf(dl.mode).size
      && forall i :: 0 <= i < |Slots(dl.files)| ==> Resolves(Resolver(dl, RegionOf(dl.mode).offset), |Image(dl.files)|, Slots(dl.files)[i]))
  {
    PatchSucceeds(Resolver(dl, RegionOf(dl.mode).offset), Image(dl.files), Slots(dl.files));
  }

  /** A program that fits but fails to link reports the first slot that does not resolve. */
  lemma LinkFails(dl: DataList)
    requires Usage(dl.files) <= RegionOf(dl.mode).size && Link(dl).Failure?
    ensures var lookup := Resolver(dl, RegionOf(dl.mode).offset);
      var slots := Slots(dl.files);
      exists i :: (0 <= i < |slots| && !Resolves(lookup, |Image(dl.files)|, slots[i])
        && (forall j :: 0 <= j < i ==> Resolves(lookup, |Image(dl.files)|, slots[j]))
        && Link(dl).error == (if lookup(slots[i]).None?
          then UnknownLabel(slots[i].target, slots[i].line, slots[i].fileName) else OutsideImage(slots[i].position)))
  {
    PatchFails(Resolver(dl, RegionOf(dl.mode).offset), Image(dl.files), Slots(dl.files));
  }

  /** After a successful link a slot that no later slot writes over holds its label's address, low byte first. */
  lemma LinkedSlot(dl: DataList, i: nat)
    requires Link(dl).Success? && i < |Slots(dl.files)|
    requires var slots := Slots(dl.files);
      Untouched(slots[i + 1..], slots[i].position) && Untouched(slots[i + 1..], slots[i].position + 1)
    ensures var sl := Slots(dl.files)[i];
      FindAddress(dl, RegionOf(dl.mode).offset, sl.file, sl.target).Some?
      && sl.position + 1 < |Link(dl).value.image|
      && Link(dl).value.image[sl.position] == Low(FindAddress(dl, RegionOf(dl.mode).offset, sl.file, sl.target).value)
      && Link(dl).value.image[sl.position + 1] == High(FindAddress(dl, RegionOf(dl.mode).offset, sl.file, sl.target).value)
  {
    var lookup := Resolver(dl, RegionOf(dl.mode).offset);
    LinkSucceeds(dl);
    assert Resolves(lookup, |Image(dl.files)|, Slots(dl.files)[i]);
    PatchWrites(lookup, Image(dl.files), Slots(dl.files), i);
  }

  /** After a successful link every variable lies inside the region. */
  lemma LinkedVarInRegion(dl: DataList, f: nat, i: nat)
    requires Link(dl).Success? && IsVar(dl.files, f, i)
    ensures RegionOf(dl.mode).offset <= RegionOf(dl.mode).offset + VarPosition(dl.files, f, i)
    ensures RegionOf(dl.mode).offset + VarPosition(dl.files, f, i) + dl.files[f].ram[i].size
      <= RegionOf(dl.mode).offset + RegionOf(dl.mode).size
  {
    VarInUsage(dl.files, f, i);
  }

  /** After a successful link every code byte that no slot covers is the compiled byte, at the item's address. */
  lemma LinkedItemBytes(dl: DataList, f: nat, s: nat, k: nat, j: nat)
    requires Link(dl).Success? && IsItem(dl.files, f, s, k)
    requires j < |dl.files[f].sections[s].items[k].bytes|
    requires Untouched(Slots(dl.files), ItemPosition(dl.files, f, s, k) + j)
    ensures ItemPosition(dl.files, f, s, k) + j < |Link(dl).value.image|
    ensures Link(dl).value.image[ItemPosition(dl.files, f, s, k) + j] == dl.files[f].sections[s].items[k].bytes[j]
  {
    var lookup := Resolver(dl, RegionOf(dl.mode).offset);
    var p := ItemPosition(dl.files, f, s, k) + j;
    ItemInImage(dl.files, f, s, k);
    assert Image(dl.files)[p] == dl.files[f].sections[s].items[k].bytes[j];
    assert Link(dl).value.image == Patch(lookup, Image(dl.files), Slots(dl.files)).value;
    PatchKeeps(lookup, Image(dl.files), Slots(dl.files), p);
  }

  // ----- the RAM counter as written -----

  /** `x % 2^32` after an earlier `% 2^32` on its first part changes nothing. */
  lemma ModAdd(a: nat, b: nat)
    ensures (a % UIntLimit + b) % UIntLimit == (a + b) % UIntLimit
  {
    var q := a / UIntLimit;
    assert a == q * UIntLimit + a % UIntLimit;
    assert a + b == q * UIntLimit + (a % UIntLimit + b);
    ModMultiple(q, a % UIntLimit + b);
  }

  lemma {:induction false} ModMultiple(q: nat, x: nat)
    ensures (q * UIntLimit + x) % UIntLimit == x % UIntLimit
    decreases q
  {
    if q > 0 {
      ModMultiple(q - 1, x);
      assert q * UIntLimit + x == (q - 1) * UIntLimit + x + UIntLimit;
    }
  }

  /** `ramUsage += size(x)` for each x in turn, on `link`'s unsigned 32-bit counter. */
  function CountFrom<T>(u: nat, xs: seq<T>, size: T -> nat): (r: nat)
    requires u < UIntLimit
    ensures r < UIntLimit
    decreases |xs|
  {
    if |xs| == 0 then u else CountFrom((u + size(xs[0])) % UIntLimit, xs[1..], size)
  }

  /** The third loop of `link` as written: every file's variables, counted on from u. */
  function CountVars(u: nat, files: seq<Data>): (r: nat)
    requires u < UIntLimit
    ensures r < UIntLimit
    decreases |files|
  {
    if |files| == 0 then u else CountVars(CountFrom(u, files[0].ram, VarSize), files[1..])
  }

  /** The counter `link` compares with the region size, as written: code and constants, then variables, modulo 2^32. */
  function WrappedUsage(files: seq<Data>): (r: nat)
    ensures r < UIntLimit
  {
    CountVars(|Image(files)| % UIntLimit, files)
  }

  /** The counter keeps the true sum only modulo 2^32. */
  lemma {:induction false} CountFromWraps<T>(u: nat, xs: seq<T>, size: T -> nat)
    requires u < UIntLimit
    ensures CountFrom(u, xs, size) == (u + Total(xs, size)) % UIntLimit
    decreases |xs|
  {
    if |xs| > 0 {
      CountFromWraps((u + size(xs[0])) % UIntLimit, xs[1..], size);
      ModAdd(u + size(xs[0]), Total(xs[1..], size));
    }
  }

  lemma {:induction false} CountVarsWraps(u: nat, files: seq<Data>)
    requires u < UIntLimit
    ensures CountVars(u, files) == (u + Total(files, FileVars)) % UIntLimit
    decreases |files|
  {
    if |files| > 0 {
      var v := CountFrom(u, files[0].ram, VarSize);
      CountFromWraps(u, files[0].ram, VarSize);
      CountVarsWraps(v, files[1..]);
      ModAdd(u + FileVars(files[0]), Total(files[1..], FileVars));
    }
  }

  /** As written, `link` compares the usage modulo 2^32 with the region size. */
  lemma WrappedUsageIsModular(files: seq<Data>)
    ensures WrappedUsage(files) == Usage(files) % UIntLimit
  {
    CountVarsWraps(|Image(files)| % UIntLimit, files);
    ModAdd(|Image(files)|, Total(files, FileVars));
  }

  /** An application declaring `var a[4294967295]` and then `var b`, and nothing else. */
  const WrapExample := DataList(App, [Data("a.asm", [], [], [RamItem(1, "a", "4294967295", 0xFFFF_FFFF), RamItem(2, "b", [], 1)])],
    [], [], [], [], [], [])

  lemma WrapExampleUsage()
    ensures Usage(WrapExample.files) == 0x1_0000_0000
  {
    var files := WrapExample.files;
    assert Flatten(files, FileCode) == [] && Flatten(files, FileConsts) == [] by {
      assert files[1..] == [];
    }
    assert Total(files, FileVars) == 0x1_0000_0000 by {
      assert files[1..] == [];
      assert files[0].ram[1..][1..] == [];
    }
  }

  /**
   * The counter as written wraps to zero, so the RAM check passes, and `b` is placed at
   * 0x1FFF, below the application's region. Link, which counts without wrapping, refuses
   * the program.
   */
  lemma RamCounterWraps()
    ensures WrappedUsage(WrapExample.files) == 0 && WrappedUsage(WrapExample.files) <= RegionOf(WrapExample.mode).size
    ensures (AppRamOffset + CountFrom(0, WrapExample.files[0].ram[..1], VarSize)) % UIntLimit == 0x1FFF
      && 0x1FFF < RegionOf(WrapExample.mode).offset
    ensures Link(WrapExample) == Failure(Overflow(0x1_0000_0000, AppRamSize))
  {
    WrapExampleUsage();
    WrappedUsageIsModular(WrapExample.files);
    assert WrapExample.files[0].ram[..1][1..] == [];
  }

  // ----- saving -----

  /** What `saveFile` writes: the binary, and for the BIOS and the OS the lines of the map file. */
  datatype Output = Output(binary: seq<Byte>, mapFile: Option<seq<Text>>)

  datatype SaveError = EmptyImage

  /** The BIOS image is padded with zeros to the BIOS region size; a longer one is left as it is. */
  function Binary(mode: Mode, image: seq<Byte>): (r: seq<Byte>)
    ensures mode != Bios ==> r == image
    ensures mode == Bios ==> |r| == if |image| < BiosRamSize then BiosRamSize else |image|
    ensures r[..|image|] == image && forall i :: |image| <= i < |r| ==> r[i] == 0
  {
    if mode == Bios && |image| < BiosRamSize then image + seq(BiosRamSize - |image|, _ => 0) else image
  }

  /** `arg(n, 4, 16, '0')`: lower-case hexadecimal digits, zero-padded to four. */
  function Hex4(n: nat): (r: Text)
    ensures |r| >= 4 && Value(r, 16) == n
    ensures forall i :: 0 <= i < |r| ==> IsHexDigit(r[i])
  {
    var digits := HexDigits(n);
    HexDigitsValue(n);
    var pad := if |digits| < 4 then 4 - |digits| else 0;
    ZerosKeepValue(pad, digits);
    seq(pad, _ => '0') + digits
  }

  lemma {:induction false} ZerosKeepValue(pad: nat, digits: Text)
    ensures Value(seq(pad, _ => '0') + digits, 16) == Value(digits, 16)
    decreases |digits|
  {
    var zs: Text := seq(pad, _ => '0');
    if |digits| == 0 {
      ZerosValue(pad);
      assert zs + digits == zs;
    } else {
      var s := zs + digits;
      assert s[..|s| - 1] == zs + digits[..|digits| - 1];
      ZerosKeepValue(pad, digits[..|digits| - 1]);
    }
  }

  lemma {:induction false} ZerosValue(pad: nat)
    ensures Value(seq(pad, _ => '0'), 16) == 0
    decreases pad
  {
    if pad > 0 {
      var zs: Text := seq(pad, _ => '0');
      assert zs[..pad - 1] == seq(pad - 1, _ => '0');
      ZerosValue(pad - 1);
    }
  }

  /** One line of the map file: what it names, of which kind, at which address. */
  datatype MapEntry = MapEntry(kind: Kind, name: Text, address: nat)

  /** The text of a map line. */
  function MapLine(m: MapEntry): Text {
    match m.kind
    case VarKind => "external var " + m.name + " = 0x" + Hex4(m.address)
    case ConstKind => "external const " + m.name + " = 0x" + Hex4(m.address)
    case SectionKind => m.name + " = 0x" + Hex4(m.address)
  }

  /** The external entries of one kind that have an address, in list order. */
  function Resolved(files: seq<Data>, off: nat, kind: Kind, es: seq<Entry>): (r: seq<MapEntry>)
    ensures |r| <= |es|
    ensures (forall g :: 0 <= g < |es| ==> OriginAddress(files, off, kind, es[g].origin).Some?) ==>
      |r| == |es| && forall g :: 0 <= g < |es| ==> r[g] == MapEntry(kind, es[g].name, OriginAddress(files, off, kind, es[g].origin).value)
  {
    if |es| == 0 then []
    else
      assert forall g :: 1 <= g < |es| ==> es[g] == es[1..][g - 1];
      var head := match OriginAddress(files, off, kind, es[0].origin)
        case Some(a) => [MapEntry(kind, es[0].name, a)]
        case None => [];
      head + Resolved(files, off, kind, es[1..])
  }

  /** Whatever holds of every entry with an address holds of every line written for them. */
  lemma {:induction false} ResolvedAll(files: seq<Data>, off: nat, kind: Kind, es: seq<Entry>, P: MapEntry -> bool)
    requires forall g :: 0 <= g < |es| && OriginAddress(files, off, kind, es[g].origin).Some? ==>
      P(MapEntry(kind, es[g].name, OriginAddress(files, off, kind, es[g].origin).value))
    ensures forall i :: 0 <= i < |Resolved(files, off, kind, es)| ==> P(Resolved(files, off, kind, es)[i])
    decreases |es|
  {
    if |es| > 0 {
      assert forall g :: 1 <= g < |es| ==> es[g] == es[1..][g - 1];
      ResolvedAll(files, off, kind, es[1..], P);
    }
  }

  /** The map file: external variables, then external constants, then external code sections. */
  function MapEntries(dl: DataList): seq<MapEntry> {
    var off := RegionOf(dl.mode).offset;
    Resolved(dl.files, off, VarKind, dl.externalRam)
    + Resolved(dl.files, off, ConstKind, dl.externalFlash)
    + Resolved(dl.files, off, SectionKind, dl.externalSections)
  }

  function MapLines(dl: DataList): (r: seq<Text>)
    ensures |r| == |MapEntries(dl)|
  {
    seq(|MapEntries(dl)|, i requires 0 <= i < |MapEntries(dl)| => MapLine(MapEntries(dl)[i]))
  }

  /** A section starts no later than the end of the code. */
  lemma SectionInCode(files: seq<Data>, f: nat, s: nat)
    requires IsSection(files, f, s)
    ensures SectionPosition(files, f, s) <= |CodeImage(files)|
  {
    var sections := files[f].sections;
    FlattenGrows(files, FileCode, f, |files|);
    assert files[..|files|] == files;
    FlattenGrows(sections, SectionCode, s, |sections|);
    assert sections[..|sections|] == sections;
  }

  /** After a successful link a placed item's address lies in the region (an empty one may sit at its end). */
  lemma OriginInRegion(dl: DataList, kind: Kind, o: Origin)
    requires Link(dl).Success? && o.Local?
    requires OriginAddress(dl.files, RegionOf(dl.mode).offset, kind, o).Some?
    ensures var a := OriginAddress(dl.files, RegionOf(dl.mode).offset, kind, o).value;
      RegionOf(dl.mode).offset <= a <= RegionOf(dl.mode).offset + RegionOf(dl.mode).size
  {
    match kind
    case SectionKind => SectionInCode(dl.files, o.file, o.index);
    case ConstKind => ConstInImage(dl.files, o.file, o.index);
    case VarKind => VarInUsage(dl.files, o.file, o.index);
  }

  /** The external lists name items of the program itself, never addresses read from a map. */
  predicate ExternalsLocal(dl: DataList) {
    (forall g :: 0 <= g < |dl.externalRam| ==> dl.externalRam[g].origin.Local?)
    && (forall g :: 0 <= g < |dl.externalFlash| ==> dl.externalFlash[g].origin.Local?)
    && (forall g :: 0 <= g < |dl.externalSections| ==> dl.externalSections[g].origin.Local?)
  }

  /** The address lies in the mode's region, its end included. */
  predicate InRegion(mode: Mode, a: nat) {
    RegionOf(mode).offset <= a <= RegionOf(mode).offset + RegionOf(mode).size
  }

  /** The lines written for local entries of one kind have addresses in the region. */
  lemma ResolvedInRegion(dl: DataList, kind: Kind, es: seq<Entry>)
    requires Link(dl).Success? && forall g :: 0 <= g < |es| ==> es[g].origin.Local?
    ensures forall m :: m in Resolved(dl.files, RegionOf(dl.mode).offset, kind, es) ==> InRegion(dl.mode, m.address)
  {
    var off := RegionOf(dl.mode).offset;
    var P := (m: MapEntry) => InRegion(dl.mode, m.address);
    forall g | 0 <= g < |es| && OriginAddress(dl.files, off, kind, es[g].origin).Some?
      ensures P(MapEntry(kind, es[g].name, OriginAddress(dl.files, off, kind, es[g].origin).value))
    {
      OriginInRegion(dl, kind, es[g].origin);
    }
    ResolvedAll(dl.files, off, kind, es, P);
  }

  /** Every address in the map of a linked program lies in its region, so below 64K. */
  lemma MapInRegion(dl: DataList)
    requires Link(dl).Success? && ExternalsLocal(dl)
    ensures forall m :: m in MapEntries(dl) ==> InRegion(dl.mode, m.address)
  {
    ResolvedInRegion(dl, VarKind, dl.externalRam);
    ResolvedInRegion(dl, ConstKind, dl.externalFlash);
    ResolvedInRegion(dl, SectionKind, dl.externalSections);
  }

  /** `saveFile`: nothing to write is an error; the map is written for the BIOS and the OS only. */
  function Save(dl: DataList, linked: Linked): (r: Result<Output, SaveError>)
    ensures r.Failure? <==> |linked.image| == 0
    ensures r.Success? ==> r.value.binary == Binary(dl.mode, linked.image)
    ensures r.Success? ==> (r.value.mapFile.Some? <==> dl.mode != App)
    ensures r.Success? && dl.mode != App ==> r.value.mapFile == Some(MapLines(dl))
  {
    if |linked.image| == 0 then Failure(EmptyImage)
    else Success(Output(Binary(dl.mode, linked.image), if dl.mode == App then None else Some(MapLines(dl))))
  }

  /** A linked BIOS always fills its region exactly. */
  lemma LinkedBiosSize(dl: DataList)
    requires dl.mode == Bios && Link(dl).Success? && Save(dl, Link(dl).value).Success?
    ensures |Save(dl, Link(dl).value).value.binary| == BiosRamSize
  {
  }
}

=== FILE: microcode.dfy ===
/**
 * The XiPU instruction set as the microcode generator describes it, and the
 * generator's top-level run that adds every description to the table.
 *
 * Each group function lists the descriptions one `generateData...` routine
 * adds, in the order it adds them. The families the routines build inside a
 * loop over the C and Z flags are functions of the flag values.
 */
module Microcode {
  import opened ControlWord
  import opened URomData

  // ----- recurring steps -----

  /** Load the opcode under PC into the instruction register. */
  const Fetch: Step := Plain(ReadRam, WriteI)
  /** Advance PC and end the instruction: the step counter restarts at the next opcode. */
  const Next: Step := Plain(ReadAbxy, RpcPlus)
  /** End the instruction without advancing PC. */
  const Restart: Step := Plain(ReadAbxy, Rpc)
  /** Advance PC to the next byte of the instruction. */
  const PcInc: Step := Plain(ReadAbxy, PcPlus)

  /** The flag value a loop iteration fills entries for. */
  function FlagOf(bit: bool): Flag {
    if bit then Enable else Disable
  }

  // ----- families built inside flag loops -----

  /** The six conditional jumps, each with the flag condition under which it is taken. */
  datatype Condition = Equal | NotEqual | Greater | GreaterEqual | Less | LessEqual {
    function Opcode(): bv8 {
      match this
      case Equal => 0xF9
      case NotEqual => 0xFA
      case Greater => 0xFB
      case GreaterEqual => 0xFC
      case Less => 0xFD
      case LessEqual => 0xFE
    }

    /** The test on the ROM's C and Z address bits that selects the taken sequence. */
    predicate Taken(c: bool, z: bool) {
      match this
      case Equal => c && z
      case NotEqual => !(c && z)
      case Greater => c && !z
      case GreaterEqual => c
      case Less => !c && !z
      case LessEqual => (!c && !z) || (c && z)
    }
  }

  /** Load the two address bytes into PC (high byte first from memory, low byte via D) and restart. */
  const JumpTaken: seq<Step> :=
    [Fetch, PcInc, Plain(ReadRam, WriteD), PcInc, PlainB(ReadRam, WritePc, High), PlainB(ReadD, WritePc, Low), Restart]

  /** Skip the two address bytes. */
  const JumpSkipped: seq<Step> := [Fetch, PcInc, PcInc, Next]

  function Jump(cond: Condition, c: bool, z: bool): Instruction {
    Instruction(cond.Opcode(), ArgAddr, ArgNone, ArgNone, FlagOf(c), FlagOf(z),
      if cond.Taken(c, z) then JumpTaken else JumpSkipped)
  }

  /** A jump's four flag variants, in the generator's loop order (C outer, Z inner). */
  function JumpVariants(cond: Condition): seq<Instruction> {
    [Jump(cond, false, false), Jump(cond, false, true), Jump(cond, true, false), Jump(cond, true, true)]
  }

  /**
   * The tail shared by both loop instructions: when the comparison set both flags the
   * instruction skips the address and ends; otherwise it jumps to the address and writes
   * the counter back.
   */
  function LoopTail(c: bool, z: bool, update: Step): seq<Step> {
    (if c && z then [PcInc, PcInc, Next] else [PcInc, Plain(ReadRam, WriteD), PcInc])
    + [PlainB(ReadRam, WritePc, High), PlainB(ReadD, WritePc, Low), update, Plain(ReadT, WriteAbxy), Restart]
  }

  /** LOOPE val, reg, addr. */
  function LoopEqual(c: bool, z: bool): Instruction {
    Instruction(0x10, ArgVal256, ArgAbxy, ArgAddr, FlagOf(c), FlagOf(z),
      [Fetch, PcInc, Plain(ReadRam, WriteD), Alu(ReadAbxy, SideD, 0x6, false, true)]
      + LoopTail(c, z, Alu(ReadAbxy, SideAb, 0x0, false, false)))
  }

  /** LOOPZ reg, addr. */
  function LoopZero(c: bool, z: bool): Instruction {
    Instruction(0x14, ArgAbxy, ArgAddr, ArgNone, FlagOf(c), FlagOf(z),
      [Fetch, Alu(ReadD, SideAb, 0x3, false, false), Plain(ReadT, WriteD), Alu(ReadAbxy, SideD, 0x6, false, true)]
      + LoopTail(c, z, Alu(ReadAbxy, SideAb, 0xF, false, true)))
  }

  function LoopVariants(f: (bool, bool) -> Instruction): seq<Instruction> {
    [f(false, false), f(false, true), f(true, false), f(true, true)]
  }

  /** RET val: pop PC, then drop `val` bytes of arguments from the stack. */
  function ReturnValue(c: bool): Instruction {
    Instruction(0x1E, ArgVal256, ArgNone, ArgNone, FlagOf(c), Any,
      [Fetch, PcInc, Plain(ReadRam, WriteD), Plain(ReadAbxy, SpMinus), Step(ReadRam, WritePc, High, AddrSp, 0, false, false),
       Plain(ReadAbxy, SpMinus), Step(ReadRam, WritePc, Low, AddrSp, 0, false, false), Alu(ReadSp, SideD, 0x6, false, false),
       PlainB(ReadT, WriteSp, Low), Alu(ReadSp, High, 0xF, false, c), PlainB(ReadT, WriteSp, High), Next])
  }

  /** ENTER: push BP and point BP at the new frame. */
  function Enter(c: bool): Instruction {
    Instruction(0x1F, ArgNone, ArgNone, ArgNone, FlagOf(c), Any,
      [Fetch, Step(ReadBp, WriteRam, Low, AddrSp, 0, false, false), Plain(ReadAbxy, SpPlus),
       Step(ReadBp, WriteRam, High, AddrSp, 0, false, false), Plain(ReadAbxy, SpPlus), Plain(ReadRam, WriteD),
       Alu(ReadSp, SideD, 0x6, false, true), PlainB(ReadT, WriteBp, Low), Alu(ReadSp, High, 0xF, false, c),
       PlainB(ReadT, WriteBp, High), Next])
  }

  /** LEAVE: drop the frame and pop BP. */
  function Leave(c: bool): Instruction {
    Instruction(0x20, ArgNone, ArgNone, ArgNone, FlagOf(c), Any,
      [Fetch, Plain(ReadRam, WriteD), Alu(ReadBp, SideD, 0x9, false, true), PlainB(ReadT, WriteSp, Low),
       Alu(ReadBp, High, 0x0, false, c), PlainB(ReadT, WriteSp, High), Plain(ReadAbxy, SpMinus),
       Step(ReadRam, WriteBp, High, AddrSp, 0, false, false), Plain(ReadAbxy, SpMinus),
       Step(ReadRam, WriteBp, Low, AddrSp, 0, false, false), Next])
  }

  /** ALLOC val: SP += val. */
  function Allocate(c: bool): Instruction {
    Instruction(0x1C, ArgVal256, ArgNone, ArgNone, FlagOf(c), Any,
      [Fetch, PcInc, Plain(ReadRam, WriteD), Alu(ReadSp, SideD, 0x9, false, true), PlainB(ReadT, WriteSp, Low),
       Alu(ReadSp, High, 0x0, false, c), PlainB(ReadT, WriteSp, High), Next])
  }

  /** FREE val: SP -= val. */
  function Release(c: bool): Instruction {
    Instruction(0x1D, ArgVal256, ArgNone, ArgNone, FlagOf(c), Any,
      [Fetch, PcInc, Plain(ReadRam, WriteD), Alu(ReadSp, SideD, 0x6, false, false), PlainB(ReadT, WriteSp, Low),
       Alu(ReadSp, High, 0xF, false, c), PlainB(ReadT, WriteSp, High), Next])
  }

  /** The frame address BP + val into MA: the prefix of LDF and STF. */
  function FrameAddress(c: bool): seq<Step> {
    [Fetch, PcInc, Plain(ReadRam, WriteD), Alu(ReadBp, SideD, 0x9, false, true), PlainB(ReadT, WriteMa, Low),
     Alu(ReadBp, High, 0x0, false, c), PlainB(ReadT, WriteMa, High)]
  }

  /** LDF val, reg. */
  function LoadFrame(c: bool): Instruction {
    Instruction(0x70, ArgVal256, ArgAbxy, ArgNone, FlagOf(c), Any,
      FrameAddress(c) + [Addressed(ReadRam, WriteAbxy, AddrMa), Next])
  }

  /** STF reg, val. */
  function StoreFrame(c: bool): Instruction {
    Instruction(0x74, ArgAbxy, ArgVal256, ArgNone, FlagOf(c), Any,
      FrameAddress(c) + [Addressed(ReadAbxy, WriteRam, AddrMa), Next])
  }

  /** STF val, val. */
  function StoreFrameValue(c: bool): Instruction {
    Instruction(0x07, ArgVal256, ArgVal256, ArgNone, FlagOf(c), Any,
      FrameAddress(c) + [PcInc, Plain(ReadRam, WriteD), Addressed(ReadD, WriteRam, AddrMa), Next])
  }

  /** GPF val: the frame address BP + val into the register pair and D. */
  function FramePointer(c: bool): Instruction {
    Instruction(0x22, ArgVal256, ArgNone, ArgNone, FlagOf(c), Any,
      [Fetch, PcInc, Plain(ReadRam, WriteD), Alu(ReadBp, SideD, 0x9, false, true), Plain(ReadT, WriteAbxy),
       Alu(ReadBp, High, 0x0, false, c), Plain(ReadT, WriteD), Next])
  }

  function CarryVariants(f: bool -> Instruction): seq<Instruction> {
    [f(false), f(true)]
  }

  // ----- the groups, in the order each routine adds them -----

  function Logic(): seq<Instruction> {
    [
      Instruction(0x24, ArgAbxy, ArgNone, ArgNone, Any, Any, [Fetch, Alu(ReadAbxy, SideAb, 0x0, true, false), Plain(ReadT, WriteAbxy), Next]),
      Instruction(0x28, ArgAb, ArgAbxy, ArgNone, Any, Any, [Fetch, Alu(ReadAbxy, SideAb, 0xB, true, false), Plain(ReadT, WriteAbxy), Next]),
      Instruction(0x30, ArgAb, ArgAbxy, ArgNone, Any, Any, [Fetch, Alu(ReadAbxy, SideAb, 0xE, true, false), Plain(ReadT, WriteAbxy), Next]),
      Instruction(0x38, ArgAb, ArgAbxy, ArgNone, Any, Any, [Fetch, Alu(ReadAbxy, SideAb, 0x6, true, false), Plain(ReadT, WriteAbxy), Next]),
      Instruction(0x4C, ArgAbxy, ArgNone, ArgNone, Any, Any, [Fetch, Alu(ReadAbxy, SideAb, 0xC, false, true), Plain(ReadT, WriteAbxy), Next]),
      Rotate(false),
      Rotate(true),
      Instruction(0x40, ArgVal256, ArgAbxy, ArgNone, Any, Any, [Fetch, PcInc, Plain(ReadRam, WriteD), Alu(ReadAbxy, SideD, 0xB, true, false), Plain(ReadT, WriteAbxy), Next]),
      Instruction(0x44, ArgVal256, ArgAbxy, ArgNone, Any, Any, [Fetch, PcInc, Plain(ReadRam, WriteD), Alu(ReadAbxy, SideD, 0xE, true, false), Plain(ReadT, WriteAbxy), Next]),
      Instruction(0x48, ArgVal256, ArgAbxy, ArgNone, Any, Any, [Fetch, PcInc, Plain(ReadRam, WriteD), Alu(ReadAbxy, SideD, 0x6, true, false), Plain(ReadT, WriteAbxy), Next])
    ]
  }

  /** SHR reg: eight shifts; the first has its carry line high, the other seven take the C flag's value. */
  function Rotate(c: bool): Instruction {
    var shift := Alu(ReadT, SideAb, 0xC, false, c);
    Instruction(0x50, ArgAbxy, ArgNone, ArgNone, FlagOf(c), Any,
      [Fetch, Alu(ReadAbxy, SideAb, 0xC, false, true), shift, shift, shift, shift, shift, shift, shift,
       Plain(ReadT, WriteAbxy), Next])
  }

  /** SWAP reg: a shift, then additions and shifts alternating, the carry line following the C flag. */
  function Swap(c: bool): Instruction {
    var shift := Alu(ReadT, SideAb, 0xC, false, c);
    var add := Alu(ReadT, SideAb, 0x0, false, c);
    Instruction(0x58, ArgAbxy, ArgNone, ArgNone, FlagOf(c), Any,
      [Fetch, Alu(ReadAbxy, SideAb, 0xC, false, true), add, shift, add, shift, add, shift, add,
       Plain(ReadT, WriteAbxy), Next])
  }

  function Arithmetic(): seq<Instruction> {
    [
      Instruction(0x80, ArgAbxy, ArgNone, ArgNone, Any, Any, [Fetch, Alu(ReadAbxy, SideAb, 0x0, false, false), Plain(ReadT, WriteAbxy), Next]),
      Instruction(0x84, ArgAbxy, ArgNone, ArgNone, Disable, Any, [Fetch, Alu(ReadAbxy, SideAb, 0x0, false, false), Plain(ReadT, WriteAbxy), Next]),
      Instruction(0x84, ArgAbxy, ArgNone, ArgNone, Enable, Any, [Fetch, Alu(ReadAbxy, SideAb, 0x0, false, true), Plain(ReadT, WriteAbxy), Next]),
      Instruction(0x88, ArgAbxy, ArgNone, ArgNone, Any, Any, [Fetch, Alu(ReadAbxy, SideAb, 0xF, false, true), Plain(ReadT, WriteAbxy), Next]),
      Instruction(0x8C, ArgAbxy, ArgNone, ArgNone, Disable, Any, [Fetch, Alu(ReadAbxy, SideAb, 0xF, false, false), Plain(ReadT, WriteAbxy), Next]),
      Instruction(0x8C, ArgAbxy, ArgNone, ArgNone, Enable, Any, [Fetch, Alu(ReadAbxy, SideAb, 0xF, false, true), Plain(ReadT, WriteAbxy), Next]),
      Instruction(0x90, ArgAb, ArgAbxy, ArgNone, Any, Any, [Fetch, Alu(ReadAbxy, SideAb, 0x9, false, true), Plain(ReadT, WriteAbxy), Next]),
      Instruction(0x98, ArgAb, ArgAbxy, ArgNone, Disable, Any, [Fetch, Alu(ReadAbxy, SideAb, 0x9, false, false), Plain(ReadT, WriteAbxy), Next]),
      Instruction(0x98, ArgAb, ArgAbxy, ArgNone, Enable, Any, [Fetch, Alu(ReadAbxy, SideAb, 0x9, false, true), Plain(ReadT, WriteAbxy), Next]),
      Instruction(0xA0, ArgAb, ArgAbxy, ArgNone, Any, Any, [Fetch, Alu(ReadAbxy, SideAb, 0x6, false, false), Plain(ReadT, WriteAbxy), Next]),
      Instruction(0xA8, ArgAb, ArgAbxy, ArgNone, Disable, Any, [Fetch, Alu(ReadAbxy, SideAb, 0x6, false, false), Plain(ReadT, WriteAbxy), Next]),
      Instruction(0xA8, ArgAb, ArgAbxy, ArgNone, Enable, Any, [Fetch, Alu(ReadAbxy, SideAb, 0x6, false, true), Plain(ReadT, WriteAbxy), Next]),
      Instruction(0xB0, ArgVal256, ArgAbxy, ArgNone, Any, Any, [Fetch, PcInc, Plain(ReadRam, WriteD), Alu(ReadAbxy, SideD, 0x9, false, true), Plain(ReadT, WriteAbxy), Next]),
      Instruction(0xB4, ArgAbxy, ArgNone, ArgNone, Disable, Any, [Fetch, PcInc, Plain(ReadRam, WriteD), Alu(ReadAbxy, SideD, 0x9, false, false), Plain(ReadT, WriteAbxy), Next]),
      Instruction(0xB4, ArgAbxy, ArgNone, ArgNone, Enable, Any, [Fetch, PcInc, Plain(ReadRam, WriteD), Alu(ReadAbxy, SideD, 0x9, false, true), Plain(ReadT, WriteAbxy), Next]),
      Instruction(0xB8, ArgVal256, ArgAbxy, ArgNone, Any, Any, [Fetch, PcInc, Plain(ReadRam, WriteD), Alu(ReadAbxy, SideD, 0x6, false, false), Plain(ReadT, WriteAbxy), Next]),
      Instruction(0xBC, ArgAbxy, ArgNone, ArgNone, Disable, Any, [Fetch, PcInc, Plain(ReadRam, WriteD), Alu(ReadAbxy, SideD, 0x6, false, false), Plain(ReadT, WriteAbxy), Next]),
      Instruction(0xBC, ArgAbxy, ArgNone, ArgNone, Enable, Any, [Fetch, PcInc, Plain(ReadRam, WriteD), Alu(ReadAbxy, SideD, 0x6, false, true), Plain(ReadT, WriteAbxy), Next])
    ]
  }

  function Move(): seq<Instruction> {
    [
      Instruction(0xD0, ArgAbxy, ArgAbxy, ArgNone, Any, Any, [Fetch, Plain(ReadAbxy, WriteAbxy), Next]),
      Instruction(0xCC, ArgVal256, ArgAbxy, ArgNone, Any, Any, [Fetch, PcInc, Plain(ReadRam, WriteAbxy), Next]),
      Instruction(0x54, ArgAbxy, ArgNone, ArgNone, Any, Any, [Fetch, Alu(ReadAbxy, SideAb, 0x3, false, false), Plain(ReadT, WriteAbxy), Next]),
      Swap(false),
      Swap(true),
      Instruction(0x60, ArgAbxy, ArgAbxy, ArgNone, Any, Any, [Fetch, Plain(ReadAbxy, WriteD), Plain(ReadAbxy, WriteAbxy), Next]),
      Instruction(0x5C, ArgAbxy, ArgNone, ArgNone, Any, Any, [Fetch, Plain(ReadD, WriteAbxy), Next]),
      Instruction(0x18, ArgAddr, ArgAbxy, ArgNone, Any, Any,
        [Fetch, PcInc, PlainB(ReadRam, WriteMa, Low), PcInc, PlainB(ReadRam, WriteMa, High), Addressed(ReadRam, WriteD, AddrMa),
         Addressed(ReadAbxy, WriteRam, AddrMa), Plain(ReadD, WriteAbxy), Next])
    ]
  }

  function Io(): seq<Instruction> {
    [
      Instruction(0xF0, ArgAbxy, ArgNone, ArgNone, Any, Any, [Fetch, Plain(ReadIn, WriteAbxy), Next]),
      Instruction(0xF4, ArgAbxy, ArgNone, ArgNone, Any, Any, [Fetch, Plain(ReadAbxy, WriteOut), Next]),
      Instruction(0x03, ArgVal256, ArgNone, ArgNone, Any, Any, [Fetch, PcInc, Plain(ReadRam, WriteOut), Next])
    ]
  }

  /** ST val, addr as the generator describes it: D from the first payload byte, MA from the next two. */
  const StoreValueAddress: Instruction :=
    Instruction(0x02, ArgVal256, ArgAddr, ArgNone, Any, Any,
      [Fetch, PcInc, Plain(ReadRam, WriteD), PcInc, PlainB(ReadRam, WriteMa, Low), PcInc, PlainB(ReadRam, WriteMa, High),
       Addressed(ReadD, WriteRam, AddrMa), Next])

  function Memory(): seq<Instruction> {
    DirectMemory() + PointerMemory()
  }

  /** LD addr, ST addr, ST val,addr, ST val, and LD/ST through XY. */
  function DirectMemory(): seq<Instruction> {
    [
      Instruction(0xE4, ArgAddr, ArgAbxy, ArgNone, Any, Any,
        [Fetch, PcInc, PlainB(ReadRam, WriteMa, Low), PcInc, PlainB(ReadRam, WriteMa, High), Addressed(ReadRam, WriteAbxy, AddrMa), Next]),
      Instruction(0xEC, ArgAbxy, ArgAddr, ArgNone, Any, Any,
        [Fetch, PcInc, PlainB(ReadRam, WriteMa, Low), PcInc, PlainB(ReadRam, WriteMa, High), Addressed(ReadAbxy, WriteRam, AddrMa), Next]),
      StoreValueAddress,
      Instruction(0x01, ArgVal256, ArgNone, ArgNone, Any, Any, [Fetch, PcInc, Plain(ReadRam, WriteD), Addressed(ReadD, WriteRam, AddrXy), Next]),
      Instruction(0xE0, ArgAbxy, ArgNone, ArgNone, Any, Any, [Fetch, Addressed(ReadRam, WriteAbxy, AddrXy), Next]),
      Instruction(0xE8, ArgAbxy, ArgNone, ArgNone, Any, Any, [Fetch, Addressed(ReadAbxy, WriteRam, AddrXy), Next])
    ]
  }

  /** The MA pointer: loads of D and MA, MA arithmetic, and LD/ST through MA. */
  function PointerMemory(): seq<Instruction> {
    [
      Instruction(0x0E, ArgAddr, ArgNone, ArgNone, Any, Any, [Fetch, PcInc, Plain(ReadRam, WriteAbxy), PcInc, Plain(ReadRam, WriteD), Next]),
      Instruction(0x0F, ArgNone, ArgNone, ArgNone, Any, Any, [Fetch, Plain(ReadD, WriteAbxy), Next]),
      Instruction(0x0A, ArgVal256, ArgNone, ArgNone, Any, Any,
        [Fetch, PcInc, Plain(ReadRam, WriteD), Alu(ReadAbxy, SideD, 0x9, false, true), PlainB(ReadT, WriteMa, Low), Next]),
      Instruction(0x0B, ArgNone, ArgNone, ArgNone, Disable, Any, [Fetch, Alu(ReadAbxy, SideAb, 0x0, false, false), PlainB(ReadT, WriteMa, High), Next]),
      Instruction(0x0B, ArgNone, ArgNone, ArgNone, Enable, Any, [Fetch, Alu(ReadAbxy, SideAb, 0x0, false, true), PlainB(ReadT, WriteMa, High), Next]),
      Instruction(0x08, ArgAb, ArgNone, ArgNone, Any, Any, [Fetch, Addressed(ReadRam, WriteAbxy, AddrMa), Next]),
      Instruction(0x0C, ArgAb, ArgNone, ArgNone, Any, Any, [Fetch, Addressed(ReadAbxy, WriteRam, AddrMa), Next])
    ]
  }

  /** JMP addr: the unconditional jump. */
  const JumpAlways: Instruction := Instruction(0xF8, ArgAddr, ArgNone, ArgNone, Any, Any, JumpTaken)

  function Jumps(): seq<Instruction> {
    Compares() + ConditionalJumps()
  }

  /** CMP ab,abxy, CMP val,abxy and JMP addr. */
  function Compares(): seq<Instruction> {
    [
      Instruction(0xC0, ArgAb, ArgAbxy, ArgNone, Any, Any, [Fetch, Alu(ReadAbxy, SideAb, 0x6, false, true), Next]),
      Instruction(0xC8, ArgVal256, ArgAbxy, ArgNone, Any, Any, [Fetch, PcInc, Plain(ReadRam, WriteD), Alu(ReadAbxy, SideD, 0x6, false, true), Next]),
      JumpAlways
    ]
  }

  /** JE, JNE, JG, JGE, JL and JLE, four flag variants each. */
  function ConditionalJumps(): seq<Instruction> {
    JumpVariants(Equal) + JumpVariants(NotEqual) + JumpVariants(Greater)
    + JumpVariants(GreaterEqual) + JumpVariants(Less) + JumpVariants(LessEqual)
  }

  function Stack(): seq<Instruction> {
    [
      Instruction(0x04, ArgNone, ArgNone, ArgNone, Any, Any,
        [Fetch, Alu(ReadD, SideAb, 0x3, false, false), PlainB(ReadT, WriteSp, Low), PlainB(ReadT, WriteSp, High), Next]),
      Instruction(0x78, ArgAbxy, ArgNone, ArgNone, Any, Any, [Fetch, Addressed(ReadAbxy, WriteRam, AddrSp), Plain(ReadAbxy, SpPlus), Next]),
      Instruction(0x7C, ArgAbxy, ArgNone, ArgNone, Any, Any, [Fetch, Plain(ReadAbxy, SpMinus), Addressed(ReadRam, WriteAbxy, AddrSp), Next]),
      Instruction(0x21, ArgVal256, ArgNone, ArgNone, Any, Any,
        [Fetch, PcInc, Plain(ReadRam, WriteD), Addressed(ReadD, WriteRam, AddrSp), Plain(ReadAbxy, SpPlus), Next])
    ]
  }

  function Loop(): seq<Instruction> {
    LoopVariants(LoopEqual) + LoopVariants(LoopZero)
  }

  function Function(): seq<Instruction> {
    [
      Instruction(0x05, ArgAddr, ArgNone, ArgNone, Any, Any,
        [Fetch, PcInc, Plain(ReadRam, WriteD), PcInc, Step(ReadPc, WriteRam, Low, AddrSp, 0, false, false), Plain(ReadAbxy, SpPlus),
         Step(ReadPc, WriteRam, High, AddrSp, 0, false, false), Plain(ReadAbxy, SpPlus), PlainB(ReadRam, WritePc, High),
         PlainB(ReadD, WritePc, Low), Restart]),
      Instruction(0x06, ArgNone, ArgNone, ArgNone, Any, Any,
        [Fetch, Plain(ReadAbxy, SpMinus), Step(ReadRam, WritePc, High, AddrSp, 0, false, false), Plain(ReadAbxy, SpMinus),
         Step(ReadRam, WritePc, Low, AddrSp, 0, false, false), Next])
    ]
    + CarryVariants(ReturnValue)
  }

  function FunctionFrame(): seq<Instruction> {
    FrameSetup() + FrameAccess()
  }

  /** ENTER, LEAVE, ALLOC and FREE, with and without carry. */
  function FrameSetup(): seq<Instruction> {
    CarryVariants(Enter) + CarryVariants(Leave) + CarryVariants(Allocate) + CarryVariants(Release)
  }

  /** Loads and stores relative to BP, LEA, and the move of D into a register. */
  function FrameAccess(): seq<Instruction> {
    CarryVariants(LoadFrame) + CarryVariants(StoreFrame) + CarryVariants(StoreFrameValue) + CarryVariants(FramePointer)
    + [Instruction(0x23, ArgNone, ArgNone, ArgNone, Any, Any, [Fetch, Plain(ReadD, WriteAbxy), Next])]
  }

  /** HALT: fetch and restart at the same PC for ever. */
  const Halt: Instruction := Instruction(0xFF, ArgNone, ArgNone, ArgNone, Any, Any, [Fetch, Restart])

  /** The description the generator gives every opcode nothing else defined. */
  function Nop(op: bv8): Instruction {
    Instruction(op, ArgNone, ArgNone, ArgNone, Any, Any, [Fetch, Next])
  }

  /** The groups `generateData` adds before the miscellaneous ones, in its order. */
  function Groups(): seq<seq<Instruction>> {
    [Logic(), Arithmetic(), Move(), Io(), Memory(), Jumps(), Stack(), Loop(), Function(), FunctionFrame()]
  }

  // ----- what every description guarantees the control unit -----

  /** A write-bus action that ends the instruction and restarts the step counter. */
  predicate EndsInstruction(st: Step) {
    st.aw == Rpc || st.aw == RpcPlus
  }

  /**
   * Step 0 fetches the opcode, the steps fit the sixteen slots, the last step restarts the
   * sequencer, and the opcode range does not pass 255.
   */
  predicate WellFormed(ins: Instruction) {
    0 < |ins.steps| <= CycleQuantity && ins.steps[0] == Fetch && EndsInstruction(ins.steps[|ins.steps| - 1])
    && ins.opcode as nat + Width(ins) <= InstructionQuantity
  }

  predicate AllWellFormed(list: seq<Instruction>) {
    forall j :: 0 <= j < |list| ==> WellFormed(list[j])
  }

  /*
   * One lemma per group routine, each proved by unfolding that group's literal
   * descriptions. They are separate facts: no lemma here gathers them into a
   * statement about the whole generated table, and URom.GenerateCompletes does
   * not draw on them.
   */
  lemma LogicWellFormed() ensures AllWellFormed(Logic()) {}
  lemma ArithmeticWellFormed() ensures AllWellFormed(Arithmetic()) {}
  lemma MoveWellFormed() ensures AllWellFormed(Move()) {}
  lemma IoWellFormed() ensures AllWellFormed(Io()) {}
  lemma MemoryWellFormed() ensures AllWellFormed(Memory()) {
    DirectMemoryWellFormed();
    PointerMemoryWellFormed();
    AllWellFormedConcat(DirectMemory(), PointerMemory());
  }

  lemma DirectMemoryWellFormed() ensures AllWellFormed(DirectMemory()) {}
  lemma PointerMemoryWellFormed() ensures AllWellFormed(PointerMemory()) {}
  lemma JumpWellFormed(cond: Condition, c: bool, z: bool) ensures WellFormed(Jump(cond, c, z)) {}

  lemma JumpVariantsWellFormed(cond: Condition) ensures AllWellFormed(JumpVariants(cond)) {
    JumpWellFormed(cond, false, false);
    JumpWellFormed(cond, false, true);
    JumpWellFormed(cond, true, false);
    JumpWellFormed(cond, true, true);
  }

  lemma AllWellFormedConcat(a: seq<Instruction>, b: seq<Instruction>)
    requires AllWellFormed(a) && AllWellFormed(b)
    ensures AllWellFormed(a + b)
  {
    forall j | 0 <= j < |a + b| ensures WellFormed((a + b)[j]) {
      if j < |a| { assert (a + b)[j] == a[j]; } else { assert (a + b)[j] == b[j - |a|]; }
    }
  }

  lemma JumpsWellFormed() ensures AllWellFormed(Jumps()) {
    ComparesWellFormed();
    ConditionalJumpsWellFormed();
    AllWellFormedConcat(Compares(), ConditionalJumps());
  }

  lemma ComparesWellFormed() ensures AllWellFormed(Compares()) {}

  lemma ConditionalJumpsWellFormed() ensures AllWellFormed(ConditionalJumps()) {
    JumpVariantsWellFormed(Equal);
    JumpVariantsWellFormed(NotEqual);
    AllWellFormedConcat(JumpVariants(Equal), JumpVariants(NotEqual));
    JumpVariantsWellFormed(Greater);
    AllWellFormedConcat(JumpVariants(Equal) + JumpVariants(NotEqual), JumpVariants(Greater));
    JumpVariantsWellFormed(GreaterEqual);
    AllWellFormedConcat(JumpVariants(Equal) + JumpVariants(NotEqual) + JumpVariants(Greater), JumpVariants(GreaterEqual));
    JumpVariantsWellFormed(Less);
    AllWellFormedConcat(JumpVariants(Equal) + JumpVariants(NotEqual) + JumpVariants(Greater) + JumpVariants(GreaterEqual), JumpVariants(Less));
    JumpVariantsWellFormed(LessEqual);
    AllWellFormedConcat(JumpVariants(Equal) + JumpVariants(NotEqual) + JumpVariants(Greater) + JumpVariants(GreaterEqual) + JumpVariants(Less), JumpVariants(LessEqual));
  }
  lemma StackWellFormed() ensures AllWellFormed(Stack()) {}
  lemma LoopWellFormed() ensures AllWellFormed(Loop()) {
    LoopEqualWellFormed();
    LoopZeroWellFormed();
    AllWellFormedConcat(LoopVariants(LoopEqual), LoopVariants(LoopZero));
  }

  lemma LoopEqualWellFormed() ensures AllWellFormed(LoopVariants(LoopEqual)) {}
  lemma LoopZeroWellFormed() ensures AllWellFormed(LoopVariants(LoopZero)) {}
  lemma FunctionWellFormed() ensures AllWellFormed(Function()) {}
  lemma FunctionFrameWellFormed() ensures AllWellFormed(FunctionFrame()) {
    FrameSetupWellFormed();
    FrameAccessWellFormed();
    AllWellFormedConcat(FrameSetup(), FrameAccess());
  }

  lemma FrameSetupWellFormed() ensures AllWellFormed(FrameSetup()) {}
  lemma FrameAccessWellFormed() ensures AllWellFormed(FrameAccess()) {}

  /** HALT and every NOP the fill can add are well formed. */
  lemma MiscWellFormed()
    ensures WellFormed(Halt)
    ensures forall op: bv8 :: WellFormed(Nop(op))
  {
  }

  /** A well-formed description reaches RPC or RPC+1 within the steps the table keeps. */
  lemma WellFormedEnds(ins: Instruction)
    requires WellFormed(ins)
    ensures StepCount(ins) == |ins.steps|
    ensures exists j :: 0 <= j < StepCount(ins) && EndsInstruction(ins.steps[j])
  {
    assert EndsInstruction(ins.steps[|ins.steps| - 1]);
  }

  // ----- the flag families -----

  /** The description is filled for the flag bits `c` and `z`. */
  predicate Selects(ins: Instruction, c: nat, z: nat) {
    ins.c.Accepts(c) && ins.z.Accepts(z)
  }

  /** Exactly one of a jump's four variants is filled for each flag pair, and it takes the jump iff the condition holds. */
  lemma JumpVariantsPartition(cond: Condition, c: nat, z: nat)
    requires c < 2 && z < 2
    ensures forall j :: 0 <= j < 4 ==> (Selects(JumpVariants(cond)[j], c, z) <==> j == 2 * c + z)
    ensures JumpVariants(cond)[2 * c + z].steps == if cond.Taken(c == 1, z == 1) then JumpTaken else JumpSkipped
  {
  }

  /** Exactly one of a loop instruction's four variants is filled for each flag pair. */
  lemma LoopVariantsPartition(f: (bool, bool) -> Instruction, c: nat, z: nat)
    requires forall cb: bool, zb: bool :: f(cb, zb).c == FlagOf(cb) && f(cb, zb).z == FlagOf(zb)
    requires c < 2 && z < 2
    ensures forall j :: 0 <= j < 4 ==> (Selects(LoopVariants(f)[j], c, z) <==> j == 2 * c + z)
  {
    var v := LoopVariants(f);
    assert v[0] == f(false, false) && v[1] == f(false, true) && v[2] == f(true, false) && v[3] == f(true, true);
  }

  /** Both loop instructions are built with the flags of their loop iteration. */
  lemma LoopFamiliesFlagged()
    ensures forall cb: bool, zb: bool :: LoopEqual(cb, zb).c == FlagOf(cb) && LoopEqual(cb, zb).z == FlagOf(zb)
    ensures forall cb: bool, zb: bool :: LoopZero(cb, zb).c == FlagOf(cb) && LoopZero(cb, zb).z == FlagOf(zb)
  {
  }

  /** Exactly one of a carry pair is filled for each flag pair: the pair splits the entries by the C flag. */
  lemma CarryVariantsPartition(f: bool -> Instruction, c: nat, z: nat)
    requires forall cb: bool :: f(cb).c == FlagOf(cb) && f(cb).z == Any
    requires c < 2 && z < 2
    ensures forall j :: 0 <= j < 2 ==> (Selects(CarryVariants(f)[j], c, z) <==> j == c)
  {
    var v := CarryVariants(f);
    assert v[0] == f(false) && v[1] == f(true);
  }

  /**
   * When LOOPE's comparison sets both flags the instruction ends at step 6, so the five
   * steps the generator appends after it are never executed.
   */
  lemma LoopEqualSkipEndsEarly()
    ensures |LoopEqual(true, true).steps| == 12
    ensures EndsInstruction(LoopEqual(true, true).steps[6])
    ensures forall j :: 0 <= j < 6 ==> !EndsInstruction(LoopEqual(true, true).steps[j])
  {
  }
}

=== FILE: nibble.dfy ===
/**
 * The half-byte protocol between the CPU's OUT/IN registers and the I/O board.
 *
 * The CPU writes an OUT byte whose high nibble is control and whose low nibble is
 * data: bit 7 strobes a new request, bit 5 chooses register select (clear) or data
 * transfer (set), bit 6 chooses write (set) or read (clear) and bit 4 chooses the
 * high (set) or low (clear) half of the byte being transferred. The board answers in
 * the IN byte: a read replaces its low nibble, and every handled request flips bit 7.
 * Bytes therefore cross the bus a nibble at a time, and each board register keeps a
 * latch that assembles the halves.
 *
 * The emulator's board and the firmware's board decode requests identically; the
 * firmware has no strobe test because its interrupt fires on the strobe's rising edge.
 */
module Nibble {
  import opened Wrappers

  const StrobeBit: bv8 := 0x80
  const RwBit: bv8 := 0x40
  const ModeBit: bv8 := 0x20
  const HalfBit: bv8 := 0x10
  const DataMask: bv8 := 0x0F
  const ControlMask: bv8 := 0xF0
  /** IN bit 7: flipped once per handled request. */
  const CompleteBit: bv8 := 0x80

  /** What one OUT byte asks of the board. */
  datatype Request =
    | Select(register: bv4)
    | Read(high: bool)
    | Write(high: bool, data: bv4)

  /** The low nibble of a byte. */
  function Lo(b: bv8): (n: bv4)
    ensures n as bv8 == b & DataMask
  {
    (b & DataMask) as bv4
  }

  /** The high nibble of a byte. */
  function Hi(b: bv8): (n: bv4)
    ensures n as bv8 == b >> 4
  {
    (b >> 4) as bv4
  }

  /** The request an OUT byte makes, whatever its strobe bit. */
  function Fields(value: bv8): (r: Request)
    ensures r.Select? <==> value & ModeBit == 0
    ensures r.Select? ==> r.register as bv8 == value & DataMask
    ensures r.Read? <==> value & ModeBit != 0 && value & RwBit == 0
    ensures r.Write? ==> value & RwBit != 0 && r.data as bv8 == value & DataMask
    ensures !r.Select? ==> (r.high <==> value & HalfBit != 0)
  {
    if value & ModeBit == 0 then Select(Lo(value))
    else if value & RwBit == 0 then Read(value & HalfBit != 0)
    else Write(value & HalfBit != 0, Lo(value))
  }

  /** The emulator's decoding: a byte without the strobe bit is no request at all. */
  function Decode(out: bv8): (r: Option<Request>)
    ensures r.None? <==> out & StrobeBit == 0
    ensures r.Some? ==> r.value == Fields(out)
  {
    if out & StrobeBit == 0 then None else Some(Fields(out))
  }

  /** The OUT byte a program writes to make a request: strobe set, unused bits clear. */
  function Encode(r: Request): bv8 {
    match r
    case Select(reg) => StrobeBit | reg as bv8
    case Read(high) => StrobeBit | ModeBit | (if high then HalfBit else 0)
    case Write(high, n) => StrobeBit | ModeBit | RwBit | (if high then HalfBit else 0) | n as bv8
  }

  /** The bits of an OUT byte a request of this kind depends on. */
  function Significant(r: Request): bv8 {
    match r
    case Select(_) => StrobeBit | ModeBit | DataMask
    case Read(_) => ControlMask
    case Write(_, _) => 0xFF
  }

  /** Encoding then decoding gives the request back. */
  lemma DecodeEncode(r: Request)
    ensures Decode(Encode(r)) == Some(r)
  {
    match r
    case Select(reg) =>
      assert Encode(r) & DataMask == reg as bv8;
    case Read(high) =>
    case Write(high, n) =>
      assert Encode(r) & DataMask == n as bv8;
  }

  /**
   * Decoding then encoding gives back every bit the request depends on; the other
   * bits (the half and direction of a select, the data of a read) are ignored.
   */
  lemma EncodeDecode(out: bv8)
    requires Decode(out).Some?
    ensures out & Significant(Decode(out).value) == Encode(Decode(out).value)
  {
  }

  // ----- the write latch -----

  /**
   * A write of one half into a register latch: the low half replaces bits 0-3 and
   * keeps bits 4-7, the high half replaces bits 4-7 and keeps bits 0-3.
   */
  function Latch(d: bv8, high: bool, n: bv4): (r: bv8)
    ensures high ==> Lo(r) == Lo(d) && Hi(r) == n
    ensures !high ==> Lo(r) == n && Hi(r) == Hi(d)
  {
    var dataIn: bv8 := if high then (n as bv8) << 4 else n as bv8;
    var mask: bv8 := if high then 0x0F else 0xF0;
    (d & mask) | dataIn
  }

  /** A byte is its two nibbles. */
  lemma Nibbles(b: bv8, c: bv8)
    ensures Lo(b) == Lo(c) && Hi(b) == Hi(c) <==> b == c
  {
    if Lo(b) == Lo(c) && Hi(b) == Hi(c) {
      assert b == ((b >> 4) << 4) | (b & DataMask);
      assert c == ((c >> 4) << 4) | (c & DataMask);
    }
  }

  /** A low half then a high half leave hi * 16 + lo in the latch, whatever it held. */
  lemma LowThenHigh(d: bv8, lo: bv4, hi: bv4)
    ensures Latch(Latch(d, false, lo), true, hi) as int == hi as int * 16 + lo as int
  {
    var r := Latch(Latch(d, false, lo), true, hi);
    Nibbles(r, hi as bv8 * 16 + lo as bv8);
  }

  /** Writing a byte's low then high nibble leaves exactly that byte in the latch. */
  lemma WriteByte(d: bv8, b: bv8)
    ensures Latch(Latch(d, false, Lo(b)), true, Hi(b)) == b
  {
    Nibbles(Latch(Latch(d, false, Lo(b)), true, Hi(b)), b);
  }

  // ----- the read path -----

  /** The nibble a read of one half of `dataOut` puts on the bus. */
  function Serve(dataOut: bv8, high: bool): (n: bv4)
    ensures n == if high then Hi(dataOut) else Lo(dataOut)
  {
    var shifted := if high then dataOut >> 4 else dataOut;
    (shifted & DataMask) as bv4
  }

  /** IN after a read: the control nibble is kept and the data nibble replaced. */
  function InAfterRead(port: bv8, dataOut: bv8, high: bool): (r: bv8)
    ensures Hi(r) == Hi(port) && Lo(r) == Serve(dataOut, high)
  {
    (port & ControlMask) | (Serve(dataOut, high) as bv8 & DataMask)
  }

  /** Reading the low then the high half of the same byte delivers both of its nibbles. */
  lemma ReadByte(port: bv8, b: bv8)
    ensures Lo(InAfterRead(port, b, false)) as int + 16 * Lo(InAfterRead(port, b, true)) as int == b as int
  {
    Nibbles(b, Hi(b) as bv8 * 16 + Lo(b) as bv8);
  }

  /** The emulator's IN after a handled request: only the completion bit changes. */
  function Complete(port: bv8): (r: bv8)
    ensures r & 0x7F == port & 0x7F && r & CompleteBit != port & CompleteBit
    ensures Lo(r) == Lo(port)
  {
    port ^ CompleteBit
  }
}

=== FILE: parser.dfy ===
/**
 * The assembler's parser: it turns source files into the per-file `Data`
 * records and the global and external name lists of a `DataList`.
 *
 * Every physical line is trimmed; a comment runs from the first `;` that is
 * not preceded by a backslash; a line whose remainder ends in a backslash is
 * glued, without the backslash, to the next one. A logical line is a label
 * (its first word) and the trimmed rest. `external` and `global` prefix a
 * section, `var` or `const` entry; `.name:` opens a code section; `include`
 * queues another source file; `map` imports the fixed addresses of a map
 * file; anything else is an instruction with comma-separated parameters.
 */
module Parser {
  import opened Wrappers
  import opened AsmText
  import opened AsmData

  /** The first error the parser reports; lines are 1-based. */
  datatype ParseError =
    | CannotOpen(path: Text)
    | NotAllowed(keyword: Text, path: Text, line: nat)
    | Syntax(path: Text, line: nat)
    | Reuse(name: Text, path: Text)

  /**
   * The files the parser can read, as their raw lines, and how a path written in
   * a file resolves against that file's own path.
   */
  datatype Sources = Sources(files: map<Text, seq<Text>>, resolve: (Text, Text) -> Text)

  /** The lines of a readable file, each trimmed as it is read. */
  function ReadLines(src: Sources, path: Text): (r: seq<Text>)
    requires path in src.files
    ensures |r| == |src.files[path]| && forall i :: 0 <= i < |r| ==> r[i] == Trim(src.files[path][i])
  {
    var raw := src.files[path];
    seq(|raw|, i requires 0 <= i < |raw| => Trim(raw[i]))
  }

  // ----- comments and continuation lines -----

  /** The line without its comment: cut before the first unescaped `;` and trimmed again. */
  function StripComment(l: Text): Text {
    match FindUnescaped(l, ';', 0)
    case Some(k) => Trim(l[..k])
    case None => l
  }

  /** A slice that does not start right after a backslash keeps the escapes it had in the whole text. */
  lemma SliceKeepsEscapes(l: Text, n: nat, m: nat, c: char)
    requires n <= m <= |l|
    requires n > 0 ==> l[n - 1] != '\\'
    requires forall i :: n <= i < m ==> !UnescapedAt(l, i, c)
    ensures NoUnescaped(l[n..m], c)
  {
    var t := l[n..m];
    forall i | 0 <= i < |t|
      ensures !UnescapedAt(t, i, c)
    {
      assert t[i] == l[n + i];
      assert !UnescapedAt(l, n + i, c);
      if i > 0 {
        assert t[i - 1] == l[n + i - 1];
      }
    }
  }

  /** A slice of a prefix is the same slice of the whole. */
  lemma SliceOfPrefix(l: Text, k: nat, n: nat, m: nat)
    requires n <= m <= k <= |l|
    ensures l[..k][n..m] == l[n..m]
  {
  }

  /** Trimming the text before the first unescaped `;` leaves a slice of the line with no unescaped `;`. */
  lemma TrimBeforeComment(l: Text, k: nat)
    requires k <= |l| && forall i :: 0 <= i < k ==> !UnescapedAt(l, i, ';')
    ensures NoUnescaped(Trim(l[..k]), ';')
  {
    var p := l[..k];
    var n := LeadingSpaces(p);
    var r := Trim(p);
    SliceOfPrefix(l, k, n, n + |r|);
    if n > 0 {
      assert l[n - 1] == p[n - 1];
    }
    SliceKeepsEscapes(l, n, n + |r|, ';');
  }

  /** What stripping leaves holds no comment; a comment-free line is left alone. */
  lemma StripCommentClean(l: Text)
    ensures NoUnescaped(StripComment(l), ';')
    ensures NoUnescaped(l, ';') ==> StripComment(l) == l
  {
    match FindUnescaped(l, ';', 0)
    case None =>
    case Some(k) =>
      TrimBeforeComment(l, k);
      assert UnescapedAt(l, k, ';');
  }

  /** A comment-stripped piece that asks to be continued on the next line. */
  predicate Continues(piece: Text) {
    |piece| > 0 && piece[|piece| - 1] == '\\'
  }

  /** Every physical line without its comment. */
  function Pieces(lines: seq<Text>): (r: seq<Text>)
    ensures |r| == |lines|
  {
    if |lines| == 0 then [] else [StripComment(lines[0])] + Pieces(lines[1..])
  }

  /** Piece i is line i without its comment. */
  lemma {:induction false} PieceAt(lines: seq<Text>, i: nat)
    requires i < |lines|
    ensures Pieces(lines)[i] == StripComment(lines[i])
  {
    if i > 0 {
      PieceAt(lines[1..], i - 1);
    }
  }

  /** The logical line whose first piece is piece i, and the index of the first piece after it. */
  function Glue(pieces: seq<Text>, i: nat): (r: (Text, nat))
    requires i < |pieces|
    ensures i < r.1 <= |pieces|
    decreases |pieces| - i
  {
    var piece := pieces[i];
    if Continues(piece) && i + 1 < |pieces| then
      var rest := Glue(pieces, i + 1);
      (piece[..|piece| - 1] + rest.0, rest.1)
    else if Continues(piece) then (piece[..|piece| - 1], i + 1)
    else (piece, i + 1)
  }

  /** The non-empty logical lines from piece i on, each with the index of its first physical line. */
  function LogicalLines(pieces: seq<Text>, i: nat): seq<(nat, Text)>
    requires i <= |pieces|
    decreases |pieces| - i
  {
    if i == |pieces| then []
    else
      var g := Glue(pieces, i);
      (if |g.0| == 0 then [] else [(i, g.0)]) + LogicalLines(pieces, g.1)
  }

  /** The logical lines of a file's lines. */
  function SourceLines(lines: seq<Text>): seq<(nat, Text)> {
    LogicalLines(Pieces(lines), 0)
  }

  /** Numbered lines that are non-empty, numbered from `from` up to below `to`, in increasing order. */
  predicate Numbered(r: seq<(nat, Text)>, from: nat, to: nat) {
    (forall k :: 0 <= k < |r| ==> from <= r[k].0 < to && |r[k].1| > 0)
    && (forall k, m :: 0 <= k < m < |r| ==> r[k].0 < r[m].0)
  }

  /** Logical lines are non-empty, start at a physical line, and come in increasing line order. */
  lemma {:induction false} LogicalLinesShape(pieces: seq<Text>, i: nat)
    requires i <= |pieces|
    ensures Numbered(LogicalLines(pieces, i), i, |pieces|)
    decreases |pieces| - i
  {
    if i < |pieces| {
      var g := Glue(pieces, i);
      var h: seq<(nat, Text)> := if |g.0| == 0 then [] else [(i, g.0)];
      var rest := LogicalLines(pieces, g.1);
      LogicalLinesShape(pieces, g.1);
      var r := LogicalLines(pieces, i);
      assert r == h + rest;
      forall k | 0 <= k < |r|
        ensures i <= r[k].0 < |pieces| && |r[k].1| > 0
      {
        if k >= |h| {
          assert r[k] == rest[k - |h|];
        }
      }
      forall k, m | 0 <= k < m < |r|
        ensures r[k].0 < r[m].0
      {
        assert r[m] == rest[m - |h|];
        if k >= |h| {
          assert r[k] == rest[k - |h|];
        }
      }
    }
  }

  /** Two piece lists that agree from index i on. */
  predicate AgreeFrom(a: seq<Text>, b: seq<Text>, i: nat) {
    |a| == |b| && forall t :: i <= t < |a| ==> a[t] == b[t]
  }

  /** Gluing reads only the pieces from its start on. */
  lemma {:induction false} GlueSuffix(a: seq<Text>, b: seq<Text>, i: nat)
    requires i < |a| && AgreeFrom(a, b, i)
    ensures Glue(a, i) == Glue(b, i)
    decreases |a| - i
  {
    if i + 1 < |a| {
      GlueSuffix(a, b, i + 1);
    }
  }

  lemma {:induction false} LinesSuffix(a: seq<Text>, b: seq<Text>, i: nat)
    requires i <= |a| && AgreeFrom(a, b, i)
    ensures LogicalLines(a, i) == LogicalLines(b, i)
    decreases |a| - i
  {
    if i < |a| {
      GlueSuffix(a, b, i);
      LinesSuffix(a, b, Glue(a, i).1);
    }
  }

  /** Logical lines from i: the one starting at i, if not empty, then those after it. */
  lemma LinesUnfold(pieces: seq<Text>, i: nat)
    requires i < |pieces|
    ensures var g := Glue(pieces, i);
      LogicalLines(pieces, i) == (if |g.0| == 0 then [] else [(i, g.0)]) + LogicalLines(pieces, g.1)
  {
  }

  /** Blank pieces yield nothing. */
  lemma {:induction false} BlanksSkip(pieces: seq<Text>, i: nat, k: nat)
    requires i <= k <= |pieces|
    requires forall t :: i <= t < k ==> pieces[t] == []
    ensures LogicalLines(pieces, i) == LogicalLines(pieces, k)
    decreases k - i
  {
    if i < k {
      assert !Continues(pieces[i]);
      assert Glue(pieces, i) == ([], i + 1);
      LinesUnfold(pieces, i);
      assert [] + LogicalLines(pieces, i + 1) == LogicalLines(pieces, i + 1);
      BlanksSkip(pieces, i + 1, k);
    }
  }

  /** A blanked line has a blank piece. */
  lemma StripBlank()
    ensures StripComment([]) == []
  {
    assert FindUnescaped([], ';', 0).None?;
  }

  /** Gluing from j has reached piece k with `line` gathered so far. */
  predicate Gluing(pieces: seq<Text>, j: nat, k: nat, line: Text)
    requires j < |pieces|
  {
    k < |pieces| && line + Glue(pieces, k).0 == Glue(pieces, j).0 && Glue(pieces, k).1 == Glue(pieces, j).1
  }

  /** One round of the gluing loop: a continued piece with more after it extends the line. */
  lemma GlueContinues(pieces: seq<Text>, j: nat, k: nat, line: Text)
    requires j < |pieces| && Gluing(pieces, j, k, line)
    requires k + 1 < |pieces| && Continues(pieces[k])
    ensures Gluing(pieces, j, k + 1, line + pieces[k][..|pieces[k]| - 1])
  {
    var p := pieces[k];
    var rest := Glue(pieces, k + 1);
    assert Glue(pieces, k) == (p[..|p| - 1] + rest.0, rest.1);
    assert (line + p[..|p| - 1]) + rest.0 == line + (p[..|p| - 1] + rest.0);
  }

  /** The last round of the gluing loop: the logical line is complete after piece k. */
  lemma GlueEnds(pieces: seq<Text>, j: nat, k: nat, line: Text)
    requires j < |pieces| && Gluing(pieces, j, k, line)
    requires !(k + 1 < |pieces| && Continues(pieces[k]))
    ensures Continues(pieces[k]) ==> line + pieces[k][..|pieces[k]| - 1] == Glue(pieces, j).0
    ensures !Continues(pieces[k]) ==> line + pieces[k] == Glue(pieces, j).0
    ensures Glue(pieces, j).1 == k + 1
  {
  }

  /** One round of the gluing loop: strip piece k, blank its line unless it is the first, and extend the line. */
  method GlueRound(list: seq<Text>, j: nat, k: nat, blanked: seq<Text>, line: Text)
    returns (blanked': seq<Text>, line': Text, more: bool, k': nat)
    requires j <= k < |list| && |blanked| == |list| && blanked[j] == list[j]
    requires forall t :: j < t < k ==> blanked[t] == []
    requires AgreeFrom(blanked, list, k) && Gluing(Pieces(list), j, k, line)
    ensures |blanked'| == |list| && blanked'[j] == list[j]
    ensures k' == k + 1 && forall t :: j < t < k' ==> blanked'[t] == []
    ensures AgreeFrom(blanked', list, k')
    ensures more ==> Gluing(Pieces(list), j, k', line')
    ensures !more ==> line' == Glue(Pieces(list), j).0 && k' == Glue(Pieces(list), j).1
  {
    k' := k + 1;
    ghost var pieces := Pieces(list);
    var piece := StripComment(blanked[k]);
    PieceAt(list, k);
    blanked' := if k > j then blanked[k := []] else blanked;
    if Continues(piece) && k + 1 < |list| {
      GlueContinues(pieces, j, k, line);
      line' := line + piece[..|piece| - 1];
      more := true;
    } else {
      GlueEnds(pieces, j, k, line);
      line' := line + if Continues(piece) then piece[..|piece| - 1] else piece;
      more := false;
    }
  }

  /**
   * The inner loop of `parseFile`: strip and glue the pieces of the logical line starting
   * at j, blanking every physical line consumed after the first.
   */
  method GlueAt(list: seq<Text>, j: nat) returns (blanked: seq<Text>, line: Text)
    requires j < |list|
    ensures line == Glue(Pieces(list), j).0
    ensures |blanked| == |list| && blanked[j] == list[j]
    ensures AgreeFrom(blanked, list, Glue(Pieces(list), j).1)
    ensures forall t :: j < t < Glue(Pieces(list), j).1 ==> blanked[t] == []
  {
    blanked := list;
    line := [];
    var k := j;
    var more := true;
    while more
      invariant |blanked| == |list| && j <= k <= |list| && blanked[j] == list[j]
      invariant forall t :: j < t < k ==> blanked[t] == []
      invariant AgreeFrom(blanked, list, k)
      invariant more ==> Gluing(Pieces(list), j, k, line)
      invariant !more ==> line == Glue(Pieces(list), j).0 && k == Glue(Pieces(list), j).1
      decreases |list| - k + (if more then 1 else 0)
    {
      blanked, line, more, k := GlueRound(list, j, k, blanked, line);
    }
  }

  /** After gluing, the pieces of the list are blank up to the next logical line and unchanged from it on. */
  lemma BlankedPieces(list: seq<Text>, blanked: seq<Text>, j: nat, next: nat)
    requires j < next <= |list| && AgreeFrom(blanked, list, next)
    requires forall t :: j < t < next ==> blanked[t] == []
    ensures AgreeFrom(Pieces(blanked), Pieces(list), next)
    ensures forall t :: j < t < next ==> Pieces(blanked)[t] == []
  {
    StripBlank();
    forall t | 0 <= t < |list|
      ensures Pieces(blanked)[t] == StripComment(blanked[t]) && Pieces(list)[t] == StripComment(list[t])
    {
      PieceAt(blanked, t);
      PieceAt(list, t);
    }
  }

  /** After the gluing loop at j: the logical line found there, then those after the blanked stretch. */
  lemma LinesStep(before: seq<Text>, after: seq<Text>, j: nat)
    requires j < |before| && AgreeFrom(after, before, Glue(before, j).1)
    requires forall t :: j < t < Glue(before, j).1 ==> after[t] == []
    ensures var g := Glue(before, j);
      LogicalLines(before, j) == (if |g.0| == 0 then [] else [(j, g.0)]) + LogicalLines(after, j + 1)
  {
    var g := Glue(before, j);
    LinesUnfold(before, j);
    BlanksSkip(after, j + 1, g.1);
    LinesSuffix(after, before, g.1);
  }

  /** Moving a prefix of the pending lines to the output keeps the whole. */
  lemma Regroup<T>(out: seq<T>, h: seq<T>, pending: seq<T>, rest: seq<T>, total: seq<T>)
    requires out + pending == total && pending == h + rest
    ensures (out + h) + rest == total
  {
    assert (out + h) + rest == out + (h + rest);
  }

  /** One round of `parseFile`'s loop: glue the logical line at j and keep it if it is not empty. */
  method GlueNext(list: seq<Text>, j: nat, out: seq<(nat, Text)>, ghost total: seq<(nat, Text)>)
    returns (list': seq<Text>, j': nat, out': seq<(nat, Text)>)
    requires j < |list| && out + LogicalLines(Pieces(list), j) == total
    ensures |list'| == |list| && j' == j + 1 && out' + LogicalLines(Pieces(list'), j') == total
  {
    ghost var before := Pieces(list);
    var line;
    list', line := GlueAt(list, j);
    ghost var after := Pieces(list');
    BlankedPieces(list, list', j, Glue(before, j).1);
    LinesStep(before, after, j);
    var h: seq<(nat, Text)> := if |line| == 0 then [] else [(j, line)];
    Regroup(out, h, LogicalLines(before, j), LogicalLines(after, j + 1), total);
    out' := out + h;
    j' := j + 1;
  }

  /** `parseFile`'s loop over the physical lines, skipping what is empty: it yields exactly the logical lines. */
  method GlueLines(lines: seq<Text>) returns (out: seq<(nat, Text)>)
    ensures out == SourceLines(lines)
  {
    var list := lines;
    out := [];
    var j := 0;
    ghost var total := SourceLines(lines);
    assert [] + LogicalLines(Pieces(list), 0) == total;
    while j < |list|
      invariant |list| == |lines| && j <= |list|
      invariant out + LogicalLines(Pieces(list), j) == total
    {
      list, j, out := GlueNext(list, j, out, total);
    }
    assert LogicalLines(Pieces(list), j) == [];
    assert out + [] == out;
  }

  /** Two pieces, the first continued and the second not, glue into one logical line without the backslash. */
  lemma GlueTwo(first: Text, second: Text)
    requires Continues(first) && !Continues(second)
    requires |first| > 1 || |second| > 0
    ensures LogicalLines([first, second], 0) == [(0, first[..|first| - 1] + second)]
  {
    var pieces := [first, second];
    assert Glue(pieces, 1) == (second, 2);
  }

  // ----- words -----

  /** `indexOf(QRegularExpression("\\s+"))` then `left` and `mid`: the first word and the trimmed rest. */
  function SplitWord(line: Text): (r: (Text, Text))
    ensures |r.0| <= |line| && r.0 == line[..|r.0|] && r.1 == Trim(line[|r.0|..])
    ensures Trimmed(line) && |line| > 0 ==>
      |r.0| > 0 && (forall i :: 0 <= i < |r.0| ==> !IsSpace(r.0[i])) && (|r.0| < |line| ==> IsSpace(line[|r.0|]))
  {
    var head := if FirstSpace(line).Some? && FirstSpace(line).value > 0 then line[..FirstSpace(line).value] else line;
    (head, Trim(line[|head|..]))
  }

  /** `split(QRegularExpression("\\s+"))`: the pieces between runs of white space, empty ones included. */
  function SplitSpaces(s: Text): (r: seq<Text>)
    ensures |r| > 0
    ensures forall k :: 0 <= k < |r| ==> forall i :: 0 <= i < |r[k]| ==> !IsSpace(r[k][i])
    decreases |s|
  {
    match FirstSpace(s)
    case None => [s]
    case Some(k) =>
      var rest := TrimStart(s[k..]);
      assert |rest| < |s| - k;
      [s[..k]] + SplitSpaces(rest)
  }

  // ----- entries -----

  /** `^([a-zA-Z0-9_-]+)\[([0-9]+)\]$` */
  predicate IsArrayDecl(line: Text) {
    |line| > 0 && line[|line| - 1] == ']'
    && match IndexOf(line, '[')
       case Some(k) => k + 1 < |line| && IsName(line[..k]) && IsDecimal(line[k + 1..|line| - 1])
       case None => false
  }

  /** `parseRam`: a name, or a name and a decimal array size in brackets. */
  function ParseRam(j: nat, line: Text): (r: Option<RamItem>)
    ensures r.Some? <==> IsName(line) || IsArrayDecl(line)
    ensures r.Some? ==> r.value.line == j + 1 && IsName(r.value.name) && r.value.size == 0
    ensures r.Some? && IsName(line) ==> r.value.name == line && r.value.arraySize == []
    ensures r.Some? ==> r.value.arraySize == [] || IsDecimal(r.value.arraySize)
  {
    if IsName(line) then Some(RamItem(j + 1, line, [], 0))
    else if IsArrayDecl(line) then
      var k := IndexOf(line, '[').value;
      Some(RamItem(j + 1, line[..k], line[k + 1..|line| - 1], 0))
    else None
  }

  /** A declaration written as name[size] gives back the name and the size. */
  lemma RamRoundTrip(j: nat, name: Text, size: Text)
    requires IsName(name) && IsDecimal(size)
    ensures ParseRam(j, name + "[" + size + "]") == Some(RamItem(j + 1, name, size, 0))
  {
    var line := name + "[" + size + "]";
    assert !IsName(line) by { assert !IsNameChar(line[|name|]); }
    assert IndexOf(line, '[') == Some(|name|) by {
      assert line[|name|] == '[';
      forall i | 0 <= i < |name| ensures line[i] != '[' { assert line[i] == name[i]; }
    }
    assert line[..|name|] == name;
    assert line[|name| + 1..|line| - 1] == size;
  }

  /** Every value of an item: unescaped backslashes dropped, then trimmed. */
  function CleanValues(values: seq<Text>): (r: seq<Text>)
    ensures |r| == |values| && forall i :: 0 <= i < |values| ==> r[i] == Trim(Unescape(values[i]))
  {
    seq(|values|, i requires 0 <= i < |values| => Trim(Unescape(values[i])))
  }

  predicate AllNonEmpty(values: seq<Text>) {
    forall i :: 0 <= i < |values| ==> |values[i]| > 0
  }

  /** `parseFlash`: a name, white space, then values separated by unescaped commas. */
  function ParseFlash(j: nat, line: Text): (r: Option<FlashItem>)
    ensures r.Some? ==> r.value.line == j + 1 && |r.value.values| > 0 && AllNonEmpty(r.value.values)
    ensures r.Some? ==> |r.value.name| > 0 && forall i :: 0 <= i < |r.value.name| ==> !IsSpace(r.value.name[i])
    ensures r.Some? ==> r.value.bytes == []
    ensures FirstSpace(line).None? || FirstSpace(line) == Some(0) ==> r.None?
  {
    match FirstSpace(line)
    case None => None
    case Some(k) =>
      if k == 0 then None
      else
        var name := line[..k];
        var rest := Trim(line[k..]);
        var values := if |rest| > 0 then SplitUnescaped(rest, ',') else [];
        if |values| == 0 then None
        else
          var clean := CleanValues(values);
          if AllNonEmpty(clean) then Some(FlashItem(j + 1, name, clean, [])) else None
  }

  /** A part holds neither the separator nor a backslash, and starts and ends on a visible character. */
  predicate Plain(t: Text, c: char) {
    |t| > 0 && Trimmed(t) && forall i :: 0 <= i < |t| ==> t[i] != c && t[i] != '\\'
  }

  /** Plain parts joined with their separator split back into the same parts. */
  lemma {:induction false} SplitJoin(parts: seq<Text>, c: char)
    requires |parts| > 0 && c != '\\'
    requires forall i :: 0 <= i < |parts| ==> Plain(parts[i], c)
    ensures SplitUnescaped(Join(parts, c), c) == parts
    decreases |parts|
  {
    var s := Join(parts, c);
    var p := parts[0];
    if |parts| == 1 {
      assert FindUnescaped(s, c, 0).None? by {
        forall i | 0 <= i < |s| ensures !UnescapedAt(s, i, c) { assert s[i] == p[i]; }
      }
    } else {
      assert s == p + [c] + Join(parts[1..], c);
      assert FindUnescaped(s, c, 0) == Some(|p|) by {
        var r := FindUnescaped(s, c, 0);
        assert s[|p|] == c;
        assert s[|p| - 1] == p[|p| - 1];
        assert UnescapedAt(s, |p|, c);
        assert r.value >= |p|;
      }
      assert s[..|p|] == p;
      assert s[|p| + 1..] == Join(parts[1..], c);
      SplitJoin(parts[1..], c);
    }
  }

  /** A plain text survives unescaping and trimming. */
  lemma PlainClean(t: Text, c: char)
    requires Plain(t, c)
    ensures Trim(Unescape(t)) == t
  {
    DropBackslashesKeeps(t, None);
    TrimKeepsTrimmed(t);
  }

  /** Joining trimmed non-empty parts gives a trimmed non-empty text. */
  lemma JoinTrimmed(parts: seq<Text>, c: char)
    requires |parts| > 0 && !IsSpace(c)
    requires forall i :: 0 <= i < |parts| ==> Plain(parts[i], c)
    ensures |Join(parts, c)| > 0 && Trimmed(Join(parts, c))
    decreases |parts|
  {
    if |parts| > 1 {
      JoinTrimmed(parts[1..], c);
      var rest := Join(parts[1..], c);
      assert Join(parts, c) == parts[0] + [c] + rest;
      assert Join(parts, c)[|Join(parts, c)| - 1] == rest[|rest| - 1];
    }
  }

  /** The first white space of `name body` is the one after the name. */
  lemma SpaceAfterWord(name: Text, body: Text)
    requires forall i :: 0 <= i < |name| ==> !IsSpace(name[i])
    ensures FirstSpace(name + " " + body) == Some(|name|)
  {
    var line := name + " " + body;
    forall i | 0 <= i < |name| ensures !IsSpace(line[i]) { assert line[i] == name[i]; }
    assert IsSpace(line[|name|]);
  }

  /** A single space before a trimmed text is trimmed away. */
  lemma TrimAfterSpace(body: Text)
    requires Trimmed(body)
    ensures Trim(" " + body) == body
  {
    var tail := " " + body;
    assert tail[1..] == body;
    TrimStartKeeps(body);
    assert TrimStart(tail) == body;
    TrimEndKeeps(body);
  }

  /** The first word of `name body` is the name when the name has no white space and the body is trimmed. */
  lemma WordThenBody(name: Text, body: Text)
    requires |name| > 0 && forall i :: 0 <= i < |name| ==> !IsSpace(name[i])
    requires |body| > 0 && Trimmed(body)
    ensures var line := name + " " + body;
      FirstSpace(line) == Some(|name|) && line[..|name|] == name && Trim(line[|name|..]) == body
  {
    var line := name + " " + body;
    SpaceAfterWord(name, body);
    assert line[..|name|] == name;
    assert line[|name|..] == " " + body;
    TrimAfterSpace(body);
  }

  /** Plain values are left as they are by the clean-up. */
  lemma CleanPlain(values: seq<Text>, c: char)
    requires forall i :: 0 <= i < |values| ==> Plain(values[i], c)
    ensures CleanValues(values) == values
  {
    forall i | 0 <= i < |values| ensures CleanValues(values)[i] == values[i] {
      PlainClean(values[i], c);
    }
  }

  /** `const name v1,v2,...` with plain values parses back to the name and the values. */
  lemma FlashRoundTrip(j: nat, name: Text, values: seq<Text>)
    requires |name| > 0 && forall i :: 0 <= i < |name| ==> !IsSpace(name[i])
    requires |values| > 0 && forall i :: 0 <= i < |values| ==> Plain(values[i], ',')
    ensures ParseFlash(j, name + " " + Join(values, ',')) == Some(FlashItem(j + 1, name, values, []))
  {
    var body := Join(values, ',');
    JoinTrimmed(values, ',');
    WordThenBody(name, body);
    SplitJoin(values, ',');
    CleanPlain(values, ',');
  }

  /** A parameter in quotes loses its unescaped backslashes; any other is kept as written. */
  function CleanParam(p: Text): Text
    requires |p| > 0
  {
    if p[0] != '\'' then p else Trim(Unescape(p))
  }

  /** Every part trimmed. */
  function TrimAll(parts: seq<Text>): (r: seq<Text>)
    ensures |r| == |parts| && forall i {:trigger r[i]} :: 0 <= i < |parts| ==> r[i] == Trim(parts[i])
  {
    seq(|parts|, i requires 0 <= i < |parts| => Trim(parts[i]))
  }

  /** Every parameter cleaned. */
  function CleanParams(params: seq<Text>): (r: seq<Text>)
    requires AllNonEmpty(params)
    ensures |r| == |params| && forall i {:trigger r[i]} :: 0 <= i < |params| ==> r[i] == CleanParam(params[i])
  {
    seq(|params|, i requires 0 <= i < |params| => CleanParam(params[i]))
  }

  /** `parseCode`: an instruction and its parameters, split on unescaped commas and trimmed. */
  function ParseCode(j: nat, head: Text, line: Text): (r: Option<CodeItem>)
    ensures r.Some? ==> r.value.line == j + 1 && r.value.name == head && r.value.bytes == [] && r.value.fills == []
    ensures |line| == 0 ==> r == Some(CodeItem(j + 1, head, [], [], []))
    ensures r.Some? && |line| > 0 ==> |r.value.params| == |SplitUnescaped(line, ',')|
  {
    var trimmed := TrimAll(if |line| > 0 then SplitUnescaped(line, ',') else []);
    if AllNonEmpty(trimmed) then Some(CodeItem(j + 1, head, CleanParams(trimmed), [], []))
    else None
  }

  /** Plain parameters are left as they are by trimming and by the quote clean-up. */
  lemma ParamsPlain(params: seq<Text>)
    requires forall i :: 0 <= i < |params| ==> Plain(params[i], ',')
    ensures TrimAll(params) == params && AllNonEmpty(params) && CleanParams(params) == params
  {
    forall i | 0 <= i < |params| ensures Trim(params[i]) == params[i] && CleanParam(params[i]) == params[i] {
      TrimKeepsTrimmed(params[i]);
      PlainClean(params[i], ',');
    }
  }

  /** Plain parameters joined with commas parse back to themselves. */
  lemma CodeRoundTrip(j: nat, head: Text, params: seq<Text>)
    requires |params| > 0 && forall i :: 0 <= i < |params| ==> Plain(params[i], ',')
    ensures ParseCode(j, head, Join(params, ',')) == Some(CodeItem(j + 1, head, params, [], []))
  {
    JoinTrimmed(params, ',');
    SplitJoin(params, ',');
    ParamsPlain(params);
  }

  /** The backslash before an escaped character is dropped, even when that character is a backslash. */
  lemma UnescapeCharOperand(c: char)
    ensures Unescape(['\'', '\\', c, '\'']) == ['\'', c, '\'']
  {
    var p := ['\'', '\\', c, '\''];
    assert DropBackslashes(p[3..], Some(c)) == ['\''];
    assert DropBackslashes(p[2..], Some('\\')) == [c] + DropBackslashes(p[3..], Some(c));
    assert DropBackslashes(p[1..], Some('\'')) == DropBackslashes(p[2..], Some('\\'));
  }

  /** An escaped character operand holds no unescaped comma, so it is one parameter. */
  lemma SplitCharOperand(c: char)
    ensures SplitUnescaped(['\'', '\\', c, '\''], ',') == [['\'', '\\', c, '\'']]
  {
    var p := ['\'', '\\', c, '\''];
    assert !UnescapedAt(p, 0, ',') && !UnescapedAt(p, 1, ',') && !UnescapedAt(p, 2, ',') && !UnescapedAt(p, 3, ',');
    assert FindUnescaped(p, ',', 0).None?;
  }

  /** A line that splits into one trimmed, non-empty parameter is an instruction with that parameter cleaned. */
  lemma OneParam(j: nat, head: Text, line: Text)
    requires SplitUnescaped(line, ',') == [line] && |line| > 0 && Trim(line) == line
    ensures ParseCode(j, head, line) == Some(CodeItem(j + 1, head, [CleanParam(line)], [], []))
  {
    var trimmed := TrimAll(SplitUnescaped(line, ','));
    assert trimmed == [line] by {
      assert trimmed[0] == Trim(line);
    }
    assert AllNonEmpty(trimmed);
    assert CleanParams(trimmed) == [CleanParam(line)] by {
      assert CleanParams(trimmed)[0] == CleanParam(line);
    }
  }

  /** The escaped character operand cleans up to the character in quotes. */
  lemma CleanCharOperand(c: char)
    ensures CleanParam(['\'', '\\', c, '\'']) == ['\'', c, '\'']
  {
    var q := ['\'', c, '\''];
    UnescapeCharOperand(c);
    assert Trimmed(q);
    TrimKeepsTrimmed(q);
  }

  /** A character operand written with a backslash before it is read as that character, even a comma or a backslash. */
  lemma EscapedCharOperand(j: nat, head: Text, c: char)
    ensures ParseCode(j, head, ['\'', '\\', c, '\'']) == Some(CodeItem(j + 1, head, [['\'', c, '\'']], [], []))
  {
    var p := ['\'', '\\', c, '\''];
    SplitCharOperand(c);
    assert Trimmed(p);
    TrimKeepsTrimmed(p);
    CleanCharOperand(c);
    OneParam(j, head, p);
  }

  // ----- the state of one file -----

  /** The program so far, the file list, the map files read, and the current file's data and open section. */
  datatype FileState = FileState(dl: DataList, queue: seq<Text>, maps: seq<Text>, path: Text, data: Data, section: CodeSection)

  /** No path occurs twice. */
  predicate NoDup(q: seq<Text>) {
    forall a, b :: 0 <= a < b < |q| ==> q[a] != q[b]
  }

  /** The file list only grows at its end and never takes a path twice. */
  predicate Extends(q: seq<Text>, q': seq<Text>) {
    |q| <= |q'| && q'[..|q|] == q && (NoDup(q) ==> NoDup(q'))
  }

  lemma ExtendsTrans(a: seq<Text>, b: seq<Text>, c: seq<Text>)
    requires Extends(a, b) && Extends(b, c)
    ensures Extends(a, c)
  {
    assert c[..|a|] == c[..|b|][..|a|];
  }

  /** Parsing a line keeps the mode, the parsed files and the current file's identity, and only extends the file list. */
  predicate Follows(st: FileState, st': FileState) {
    st'.dl.mode == st.dl.mode && st'.dl.files == st.dl.files && st'.path == st.path
    && st'.data.fileName == st.data.fileName && Extends(st.queue, st'.queue)
  }

  lemma FollowsTrans(a: FileState, b: FileState, c: FileState)
    requires Follows(a, b) && Follows(b, c)
    ensures Follows(a, c)
  {
    ExtendsTrans(a.queue, b.queue, c.queue);
  }

  /** No external names in an application, and no RAM at all in the BIOS. */
  predicate ModeRules(dl: DataList) {
    (dl.mode == App ==> dl.externalSections == [] && dl.externalFlash == [] && dl.externalRam == [])
    && (dl.mode == Bios ==> dl.globalRam == [] && forall k :: 0 <= k < |dl.files| ==> dl.files[k].ram == [])
  }

  /** Every parsed file keeps its own name rules. */
  predicate FilesUnique(files: seq<Data>) {
    forall k :: 0 <= k < |files| ==> UniqueNames(files[k])
  }

  /** The rules of a program being parsed. */
  predicate Rules(dl: DataList) {
    ListInvariant(dl) && ModeRules(dl) && FilesUnique(dl.files)
  }

  /** The rules of the program, and those of the file being parsed. */
  predicate Sound(dl: DataList, data: Data) {
    Rules(dl) && UniqueNames(data) && (dl.mode == Bios ==> data.ram == [])
  }

  predicate Good(st: FileState) {
    Sound(st.dl, st.data)
  }

  /** A file of that name was parsed already. */
  predicate Parsed(files: seq<Data>, path: Text) {
    exists k :: 0 <= k < |files| && files[k].fileName == path
  }

  /** `parseIncludeEntry`: queue the resolved path unless it was parsed or queued; never an error. */
  function Include(st: FileState, target: Text): (r: FileState)
    ensures Parsed(st.dl.files, target) || target in st.queue ==> r == st
    ensures !Parsed(st.dl.files, target) && target !in st.queue ==> r == st.(queue := st.queue + [target])
    ensures Follows(st, r)
  {
    if Parsed(st.dl.files, target) || target in st.queue then st
    else
      assert st.queue + [target] == st.queue + [target];
      st.(queue := st.queue + [target])
  }

  /** `parseMapCodeSection` and `parseMapMemory`: one line of a map file, already split into words. */
  function ParseMap(dl: DataList, path: Text, j: nat, items: seq<Text>): (r: Result<DataList, ParseError>)
    ensures r.Success? ==> r.value.files == dl.files && r.value.mode == dl.mode
    ensures r.Success? ==>
      r.value.externalSections == dl.externalSections && r.value.externalFlash == dl.externalFlash && r.value.externalRam == dl.externalRam
    ensures |items| != 3 && |items| != 5 ==> r == Failure(Syntax(path, j + 1))
    ensures r.Success? && Rules(dl) && dl.mode != Bios ==> Rules(r.value)
  {
    if |items| == 3 then
      var name := items[0];
      if |name| > 0 && name[0] == '.' && items[1] == "=" && IsName(name[1..]) && HexAddress(items[2]).Some? then
        var e := Entry(name, Fixed(HexAddress(items[2]).value));
        var added := AddGlobalCodeSection(dl, e);
        if added.1 then KeepRules(dl, e); Success(added.0) else Failure(Reuse(name, path))
      else Failure(Syntax(path, j + 1))
    else if |items| == 5 then
      var name := items[2];
      if SameText(items[0], "external") && items[3] == "=" && IsName(name) && HexAddress(items[4]).Some? then
        var e := Entry(name, Fixed(HexAddress(items[4]).value));
        if SameText(items[1], "var") then
          var added := AddGlobalRamItem(dl, e);
          if added.1 then KeepRules(dl, e); Success(added.0) else Failure(Reuse(name, path))
        else if SameText(items[1], "const") then
          var added := AddGlobalFlashItem(dl, e);
          if added.1 then KeepRules(dl, e); Success(added.0) else Failure(Reuse(name, path))
        else Success(dl)
      else Failure(Syntax(path, j + 1))
    else Failure(Syntax(path, j + 1))
  }

  /**
   * The map reader's name check refuses a name with a dot in it, so an `external const`
   * line for such a flash constant is a syntax error at its line, whatever its address.
   */
  lemma MapRefusesDottedName(dl: DataList, path: Text, j: nat, name: Text, address: Text, k: nat)
    requires k < |name| && name[k] == '.'
    ensures ParseMap(dl, path, j, ["external", "const", name, "=", address]) == Failure(Syntax(path, j + 1))
  {
    assert !IsNameChar(name[k]);
  }

  /** The lines of a map file from line j on; the first line left empty by comment stripping ends the file. */
  function ParseMapLines(dl: DataList, path: Text, lines: seq<Text>, j: nat): (r: Result<DataList, ParseError>)
    requires j <= |lines|
    ensures r.Success? ==> r.value.files == dl.files && r.value.mode == dl.mode
    ensures r.Success? ==>
      r.value.externalSections == dl.externalSections && r.value.externalFlash == dl.externalFlash && r.value.externalRam == dl.externalRam
    ensures r.Success? && Rules(dl) && dl.mode != Bios ==> Rules(r.value)
    decreases |lines| - j
  {
    if j == |lines| then Success(dl)
    else
      var l := StripComment(lines[j]);
      if |l| == 0 then Success(dl)
      else
        var next :- ParseMap(dl, path, j, SplitSpaces(l));
        ParseMapLines(next, path, lines, j + 1)
  }

  /** `parseMapEntry`: never in BIOS mode; a map file is read once, and not at all if a source of that path was parsed. */
  function MapEntry(src: Sources, st: FileState, j: nat, rest: Text): (r: Result<FileState, ParseError>)
    ensures st.dl.mode == Bios ==> r == Failure(NotAllowed("map", st.path, j + 1))
    ensures r.Success? ==> r.value.queue == st.queue && r.value.data == st.data && r.value.section == st.section
    ensures r.Success? ==> Follows(st, r.value) && (Good(st) ==> Good(r.value))
  {
    if st.dl.mode == Bios then Failure(NotAllowed("map", st.path, j + 1))
    else
      var target := src.resolve(st.path, rest);
      if Parsed(st.dl.files, target) || target in st.maps then Success(st)
      else if target !in src.files then Failure(CannotOpen(target))
      else
        var dl :- ParseMapLines(st.dl, target, ReadLines(src, target), 0);
        Success(st.(dl := dl, maps := st.maps + [target]))
  }

  /**
   * A global or external add keeps the rules when it adds no external name in an
   * application and no RAM name in the BIOS; the parsed files are untouched.
   */
  lemma KeepRules(dl: DataList, e: Entry)
    ensures Rules(dl) ==> Rules(AddGlobalCodeSection(dl, e).0) && Rules(AddGlobalFlashItem(dl, e).0)
    ensures Rules(dl) && dl.mode != Bios ==> Rules(AddGlobalRamItem(dl, e).0)
    ensures Rules(dl) && dl.mode != App ==> Rules(AddExternalCodeSection(dl, e).0) && Rules(AddExternalFlashItem(dl, e).0)
    ensures Rules(dl) && dl.mode == Os ==> Rules(AddExternalRamItem(dl, e).0)
  {
    if Rules(dl) {
      GlobalAddsKeepInvariant(dl, e);
    }
  }

  /** The entry a new item of the current file gets in a global list. */
  function LocalEntry(st: FileState, name: Text, index: nat): Entry {
    Entry(name, Local(|st.dl.files|, index))
  }

  /** `parseRamEntry`: never in BIOS mode; the item joins the file, then the external or global list. */
  function RamEntry(st: FileState, j: nat, rest: Text, external: bool, global: bool): (r: Result<FileState, ParseError>)
    ensures st.dl.mode == Bios ==> r == Failure(NotAllowed("var", st.path, j + 1))
    ensures st.dl.mode != Bios && ParseRam(j, rest).None? ==> r == Failure(Syntax(st.path, j + 1))
    ensures r.Success? ==> r.value.data.ram == st.data.ram + [ParseRam(j, rest).value]
    ensures r.Success? ==> Follows(st, r.value) && r.value.queue == st.queue
    ensures r.Success? && Good(st) && (external ==> st.dl.mode != App) ==> Good(r.value)
  {
    if st.dl.mode == Bios then Failure(NotAllowed("var", st.path, j + 1))
    else
      match ParseRam(j, rest)
      case None => Failure(Syntax(st.path, j + 1))
      case Some(v) =>
        var (d, ok) := AddRamItem(st.data, v);
        if !ok then Failure(Reuse(v.name, st.path))
        else
          var e := LocalEntry(st, v.name, |d.ram| - 1);
          var (dl, listed) := if external then AddExternalRamItem(st.dl, e)
            else if global then AddGlobalRamItem(st.dl, e) else (st.dl, true);
          if !listed then Failure(Reuse(v.name, st.path))
          else if Good(st) && (external ==> st.dl.mode != App) then
            AddsKeepUnique(st.data, st.section, FlashItem(0, [], [], []), v);
            KeepRules(st.dl, e);
            Success(st.(dl := dl, data := d))
          else Success(st.(dl := dl, data := d))
  }

  /** `parseFlashEntry`: allowed in every mode; otherwise as for RAM. */
  function FlashEntry(st: FileState, j: nat, rest: Text, external: bool, global: bool): (r: Result<FileState, ParseError>)
    ensures ParseFlash(j, rest).None? ==> r == Failure(Syntax(st.path, j + 1))
    ensures r.Success? ==> r.value.data.flash == st.data.flash + [ParseFlash(j, rest).value]
    ensures r.Success? ==> Follows(st, r.value) && r.value.queue == st.queue
    ensures r.Success? && Good(st) && (external ==> st.dl.mode != App) ==> Good(r.value)
  {
    match ParseFlash(j, rest)
    case None => Failure(Syntax(st.path, j + 1))
    case Some(f) =>
      var (d, ok) := AddFlashItem(st.data, f);
      if !ok then Failure(Reuse(f.name, st.path))
      else
        var e := LocalEntry(st, f.name, |d.flash| - 1);
        var (dl, listed) := if external then AddExternalFlashItem(st.dl, e)
          else if global then AddGlobalFlashItem(st.dl, e) else (st.dl, true);
        if !listed then Failure(Reuse(f.name, st.path))
        else if Good(st) && (external ==> st.dl.mode != App) then
          AddsKeepUnique(st.data, st.section, f, RamItem(0, [], [], 0));
          KeepRules(st.dl, e);
          Success(st.(dl := dl, data := d))
        else Success(st.(dl := dl, data := d))
  }

  /** A keyword entry or, failing all of them, an instruction of the open section. */
  function Dispatch(src: Sources, st: FileState, j: nat, head: Text, rest: Text, external: bool, global: bool): (r: Result<FileState, ParseError>)
    ensures r.Success? ==> Follows(st, r.value)
    ensures r.Success? && Good(st) && (external ==> st.dl.mode != App) ==> Good(r.value)
  {
    if SameText(head, "include") then Success(Include(st, src.resolve(st.path, rest)))
    else if SameText(head, "map") then MapEntry(src, st, j, rest)
    else if SameText(head, "var") then RamEntry(st, j, rest, external, global)
    else if SameText(head, "const") then FlashEntry(st, j, rest, external, global)
    else
      match ParseCode(j, head, rest)
      case None => Failure(Syntax(st.path, j + 1))
      case Some(item) => Success(st.(section := st.section.(items := st.section.items + [item])))
  }

  /** `.name:` */
  predicate IsSectionLabel(head: Text) {
    |head| > 0 && head[0] == '.' && head[|head| - 1] == ':'
  }

  /**
   * `parseCodeSectionEntry`: the open section joins the file and `.name` opens; what follows
   * the label on the same line is parsed as a line of its own.
   */
  function SectionEntry(src: Sources, st: FileState, j: nat, head: Text, rest: Text, external: bool, global: bool): (r: Result<FileState, ParseError>)
    requires IsSectionLabel(head)
    ensures !IsName(head[1..|head| - 1]) ==> r == Failure(Syntax(st.path, j + 1))
    ensures IsName(head[1..|head| - 1]) && Taken(SectionNames(st.data.sections), st.section.name) ==> r == Failure(Reuse(st.section.name, st.path))
    ensures r.Success? ==> Follows(st, r.value)
    ensures r.Success? && Good(st) && (external ==> st.dl.mode != App) ==> Good(r.value)
  {
    if !IsName(head[1..|head| - 1]) then Failure(Syntax(st.path, j + 1))
    else
      var (d, ok) := AddCodeSection(st.data, st.section);
      if !ok then Failure(Reuse(st.section.name, st.path))
      else
        var section := CodeSection(head[..|head| - 1], []);
        var e := LocalEntry(st, section.name, |d.sections|);
        var (dl, listed) := if external then AddExternalCodeSection(st.dl, e)
          else if global then AddGlobalCodeSection(st.dl, e) else (st.dl, true);
        if !listed then Failure(Reuse(section.name, st.path))
        else
          var next := st.(dl := dl, data := d, section := section);
          var good := Good(st) && (external ==> st.dl.mode != App);
          if good then
            AddsKeepUnique(st.data, st.section, FlashItem(0, [], [], []), RamItem(0, [], [], 0));
            KeepRules(st.dl, e);
            assert Good(next);
            SectionRest(src, next, j, rest, external, global)
          else SectionRest(src, next, j, rest, external, global)
  }

  /** What follows a section label: nothing, or one more entry. */
  function SectionRest(src: Sources, st: FileState, j: nat, rest: Text, external: bool, global: bool): (r: Result<FileState, ParseError>)
    ensures |rest| == 0 ==> r == Success(st)
    ensures r.Success? ==> Follows(st, r.value)
    ensures r.Success? && Good(st) && (external ==> st.dl.mode != App) ==> Good(r.value)
  {
    if |rest| == 0 then Success(st)
    else
      var (head, rest') := SplitWord(rest);
      Dispatch(src, st, j, head, rest', external, global)
  }

  /** One logical line starting at physical line j. */
  function ParseLine(src: Sources, st: FileState, j: nat, line: Text): (r: Result<FileState, ParseError>)
    ensures st.dl.mode == App && SameText(SplitWord(line).0, "external") ==> r == Failure(NotAllowed("external", st.path, j + 1))
    ensures r.Success? ==> Follows(st, r.value) && (Good(st) ==> Good(r.value))
  {
    var (first, rest0) := SplitWord(line);
    var external := SameText(first, "external");
    if external && st.dl.mode == App then Failure(NotAllowed("external", st.path, j + 1))
    else
      var global := SameText(first, "global");
      var (head, rest) := if external || global then SplitWord(rest0) else (first, rest0);
      if IsSectionLabel(head) then SectionEntry(src, st, j, head, rest, external, global)
      else Dispatch(src, st, j, head, rest, external, global)
  }

  /** The logical lines of a file in order; the first error stops the file. */
  function ParseLines(src: Sources, st: FileState, ls: seq<(nat, Text)>): (r: Result<FileState, ParseError>)
    ensures r.Success? ==> Follows(st, r.value) && (Good(st) ==> Good(r.value))
    decreases |ls|
  {
    if |ls| == 0 then Success(st)
    else
      var next :- ParseLine(src, st, ls[0].0, ls[0].1);
      var r := ParseLines(src, next, ls[1..]);
      if r.Success? then FollowsTrans(st, next, r.value); r else r
  }

  /** One source file: its lines, then the open section joins the file, then the file joins the program. */
  function ParseOne(src: Sources, dl: DataList, queue: seq<Text>, maps: seq<Text>, path: Text): (r: Result<FileState, ParseError>)
    ensures path !in src.files ==> r == Failure(CannotOpen(path))
    ensures r.Success? ==> path in src.files && r.value.dl.mode == dl.mode && Extends(queue, r.value.queue)
    ensures r.Success? ==> r.value.dl.files == dl.files + [r.value.data] && r.value.data.fileName == path
    ensures r.Success? && Rules(dl) ==> Rules(r.value.dl)
  {
    if path !in src.files then Failure(CannotOpen(path))
    else
      var st0 := FileState(dl, queue, maps, path, EmptyData(path), CodeSection([], []));
      var st :- ParseLines(src, st0, SourceLines(ReadLines(src, path)));
      var (d, ok) := AddCodeSection(st.data, st.section);
      if !ok then Failure(Reuse(st.section.name, path))
      else if Rules(dl) then
        assert Good(st0);
        AddsKeepUnique(st.data, st.section, FlashItem(0, [], [], []), RamItem(0, [], [], 0));
        AppendKeepsRules(st.dl, d);
        Success(st.(dl := AppendData(st.dl, d), data := d))
      else Success(st.(dl := AppendData(st.dl, d), data := d))
  }

  /** A finished file with its own name rules, and no RAM in the BIOS, keeps the rules when it joins the program. */
  lemma AppendKeepsRules(dl: DataList, d: Data)
    requires Rules(dl) && UniqueNames(d) && (dl.mode == Bios ==> d.ram == [])
    ensures Rules(AppendData(dl, d))
  {
    var files := AppendData(dl, d).files;
    forall k | 0 <= k < |files|
      ensures UniqueNames(files[k]) && (dl.mode == Bios ==> files[k].ram == [])
    {
      if k < |dl.files| {
        assert files[k] == dl.files[k];
      }
    }
  }

  // ----- the file list -----

  /** Paths of distinct files are distinct. */
  predicate DistinctFiles(files: seq<Data>) {
    forall a, b :: 0 <= a < b < |files| ==> files[a].fileName != files[b].fileName
  }

  /** n distinct paths, all readable, are no more than the readable files. */
  lemma {:induction false} DistinctBound(files: seq<Text>, keys: set<Text>, n: nat)
    requires n <= |files| && NoDup(files) && forall k :: 0 <= k < n ==> files[k] in keys
    ensures n <= |keys|
    decreases n
  {
    if n > 0 {
      var last := files[n - 1];
      DistinctBound(files, keys - {last}, n - 1);
    }
  }

  /** After file i is parsed, the file list and the program still agree up to and including it. */
  lemma FilesStep(src: Sources, dl: DataList, files: seq<Text>, i: nat, st: FileState)
    requires i < |files| && NoDup(files) && |dl.files| == i
    requires forall k :: 0 <= k < i ==> files[k] in src.files && dl.files[k].fileName == files[k]
    requires files[i] in src.files && Extends(files, st.queue)
    requires st.dl.files == dl.files + [st.data] && st.data.fileName == files[i]
    ensures i + 1 <= |st.queue| && NoDup(st.queue) && |st.dl.files| == i + 1 && i + 1 <= |src.files|
    ensures forall k :: 0 <= k < i + 1 ==> st.queue[k] in src.files && st.dl.files[k].fileName == st.queue[k]
  {
    DistinctBound(files, src.files.Keys, i + 1);
    forall k | 0 <= k < i + 1
      ensures st.queue[k] == files[k]
    {
      assert st.queue[..|files|][k] == st.queue[k];
    }
  }

  /** What holds of the extended file list holds of the list it extends. */
  lemma FilesPrefix(files: seq<Text>, queue: seq<Text>, out: seq<Data>)
    requires Extends(files, queue) && |queue| <= |out|
    requires forall k :: 0 <= k < |queue| ==> out[k].fileName == queue[k]
    ensures |files| <= |out| && forall k :: 0 <= k < |files| ==> out[k].fileName == files[k]
  {
    forall k | 0 <= k < |files|
      ensures out[k].fileName == files[k]
    {
      assert queue[..|files|][k] == queue[k];
    }
  }

  /**
   * `parseFile`'s outer loop from entry i of the file list: each file is parsed in turn and joins the
   * program; includes extend the list. It ends because the list never takes a path twice and every
   * entry before i could be read.
   */
  function ParseFiles(src: Sources, dl: DataList, files: seq<Text>, maps: seq<Text>, i: nat): (r: Result<DataList, ParseError>)
    requires i <= |files| && NoDup(files) && |dl.files| == i
    requires forall k :: 0 <= k < i ==> files[k] in src.files && dl.files[k].fileName == files[k]
    ensures r.Success? ==> r.value.mode == dl.mode && |files| <= |r.value.files|
    ensures r.Success? ==> forall k :: 0 <= k < |files| ==> r.value.files[k].fileName == files[k]
    ensures r.Success? ==> DistinctFiles(r.value.files)
    ensures r.Success? && Rules(dl) ==> Rules(r.value)
    decreases |src.files| - i
  {
    if i == |files| then Success(dl)
    else
      var st :- ParseOne(src, dl, files, maps, files[i]);
      FilesStep(src, dl, files, i, st);
      var r := ParseFiles(src, st.dl, st.queue, st.maps, i + 1);
      if r.Success? then FilesPrefix(files, st.queue, r.value.files); r else r
  }

  /** `parseFile`: the input file first, then every file it includes, directly or not, each once. */
  function Parse(src: Sources, mode: Mode, path: Text): (r: Result<DataList, ParseError>)
    ensures path !in src.files ==> r == Failure(CannotOpen(path))
    ensures r.Success? ==> r.value.mode == mode && |r.value.files| > 0 && r.value.files[0].fileName == path
    ensures r.Success? ==> DistinctFiles(r.value.files) && Rules(r.value)
  {
    var dl := NewDataList(mode);
    assert Rules(dl);
    ParseFiles(src, dl, [path], [], 0)
  }
}

=== FILE: ring.dfy ===
/**
 * The circular buffer the firmware uses for its keyboard codes (16 slots), its
 * notes (32 slots) and its serial bytes (64 slots each way): a fixed array with a
 * start index (the oldest element) and an end index (the next free slot). The
 * buffer is empty when the two indices meet and full when the end is one slot
 * behind the start, so it never holds more than one element less than it has slots.
 *
 * The firmware masks interrupts around every buffer operation; each operation here
 * is therefore one atomic step.
 */
module Ring {

  /** The slots, the index of the oldest element, the index of the next free slot. */
  datatype Ring<T> = Ring(slots: seq<T>, start: nat, end: nat)

  predicate Valid<T>(r: Ring<T>) {
    0 < |r.slots| && r.start < |r.slots| && r.end < |r.slots|
  }

  /** An empty buffer of n slots, every one holding `fill`. */
  function Empty<T>(n: nat, fill: T): (r: Ring<T>)
    requires 0 < n
    ensures Valid(r) && |r.slots| == n && r.start == 0 && r.end == 0
  {
    Ring(seq(n, _ => fill), 0, 0)
  }

  /** The index after i, wrapping at n, as `(i + 1) % n`. */
  function Next(i: nat, n: nat): (r: nat)
    requires i < n
    ensures r < n
    ensures r == if i + 1 < n then i + 1 else 0
  {
    (i + 1) % n
  }

  /** How many elements the buffer holds: the distance from start to end around the ring. */
  function Used<T>(r: Ring<T>): (u: nat)
    requires Valid(r)
    ensures u < |r.slots|
  {
    if r.start <= r.end then r.end - r.start else r.end + |r.slots| - r.start
  }

  /** The slot of the i-th oldest element. */
  function Index<T>(r: Ring<T>, i: nat): (k: nat)
    requires Valid(r) && i < |r.slots|
    ensures k < |r.slots|
  {
    if r.start + i < |r.slots| then r.start + i else r.start + i - |r.slots|
  }

  /** The elements, oldest first. */
  function Contents<T>(r: Ring<T>): (c: seq<T>)
    requires Valid(r)
    ensures |c| == Used(r)
  {
    seq(Used(r), i requires 0 <= i < Used(r) => r.slots[Index(r, i)])
  }

  predicate IsEmpty<T>(r: Ring<T>) {
    r.start == r.end
  }

  predicate IsFull<T>(r: Ring<T>)
    requires Valid(r)
  {
    r.start == Next(r.end, |r.slots|)
  }

  /**
   * The free slots as the firmware computes them: one less than the buffer has
   * slots on an empty buffer, less the distance from start to end otherwise.
   */
  function Free<T>(r: Ring<T>): (free: nat)
    requires Valid(r)
    ensures free + Used(r) == |r.slots| - 1
  {
    if r.start < r.end then (|r.slots| - 1) - (r.end - r.start)
    else if r.start > r.end then (r.start - r.end) - 1
    else |r.slots| - 1
  }

  /** Store x in the free slot at the end and advance the end. */
  function Push<T>(r: Ring<T>, x: T): (r': Ring<T>)
    requires Valid(r) && !IsFull(r)
    ensures Valid(r') && |r'.slots| == |r.slots|
  {
    Ring(r.slots[r.end := x], r.start, Next(r.end, |r.slots|))
  }

  /** Take the oldest element and advance the start. */
  function Pop<T>(r: Ring<T>): (p: (T, Ring<T>))
    requires Valid(r) && !IsEmpty(r)
    ensures Valid(p.1) && |p.1.slots| == |r.slots|
  {
    (r.slots[r.start], Ring(r.slots, Next(r.start, |r.slots|), r.end))
  }

  // ----- the buffer as a queue -----

  /** Empty exactly when it holds nothing, full exactly when it holds one element less than it has slots. */
  lemma UsedBounds<T>(r: Ring<T>)
    requires Valid(r)
    ensures IsEmpty(r) <==> Used(r) == 0
    ensures IsFull(r) <==> Used(r) == |r.slots| - 1
  {
  }

  lemma EmptyContents<T>(n: nat, fill: T)
    requires 0 < n
    ensures Contents(Empty(n, fill)) == []
  {
  }

  /** Pushing appends to the queue. */
  lemma PushContents<T>(r: Ring<T>, x: T)
    requires Valid(r) && !IsFull(r)
    ensures Used(Push(r, x)) == Used(r) + 1
    ensures Contents(Push(r, x)) == Contents(r) + [x]
  {
    var r' := Push(r, x);
    var c, c' := Contents(r), Contents(r');
    assert Used(r') == Used(r) + 1;
    forall i | 0 <= i < |c'|
      ensures c'[i] == (c + [x])[i]
    {
      assert Index(r', i) == Index(r, i);
      if i < |c| {
        assert Index(r, i) != r.end;
      } else {
        assert Index(r, i) == r.end;
      }
    }
  }

  /** Popping takes the head of the queue and leaves its tail. */
  lemma PopContents<T>(r: Ring<T>)
    requires Valid(r) && !IsEmpty(r)
    ensures Used(Pop(r).1) == Used(r) - 1
    ensures Pop(r).0 == Contents(r)[0]
    ensures Contents(Pop(r).1) == Contents(r)[1..]
  {
    var r' := Pop(r).1;
    var c, c' := Contents(r), Contents(r');
    assert Used(r') == Used(r) - 1;
    forall i | 0 <= i < |c'|
      ensures c'[i] == c[1..][i]
    {
      assert Index(r', i) == Index(r, i + 1);
    }
  }

  /** Take the oldest element; on an empty buffer the default and the buffer unchanged. */
  function Take<T>(r: Ring<T>, default: T): (p: (T, Ring<T>))
    requires Valid(r)
    ensures Valid(p.1) && |p.1.slots| == |r.slots|
    ensures Contents(r) != [] ==> p.0 == Contents(r)[0] && Contents(p.1) == Contents(r)[1..]
    ensures Contents(r) == [] ==> p == (default, r)
  {
    if IsEmpty(r) then (default, r)
    else
      PopContents(r);
      Pop(r)
  }
}

=== FILE: rs232.dfy ===
/**
 * The emulator's serial port. Text typed into the host's terminal is received as
 * a line: its printable Latin-1 characters, then a 0 terminator. The board takes
 * received bytes one at a time; bytes it sends leave with bit 7 cleared.
 */
module Rs232 {
  import opened Wrappers
  import Fifo

  const SendMask: bv8 := 0x7F
  const MinCode: bv8 := 0x20
  const MaxCode: bv8 := 0x7F
  const TxBufferSize: bv8 := 64

  /** A host character as a Latin-1 byte; one outside Latin-1 becomes 0. */
  function Latin1(c: char): (b: bv8)
    ensures c as int < 256 ==> (Accepted(b) <==> 0x20 <= c as int <= 0x7F)
    ensures c as int >= 256 ==> b == 0
  {
    if c as int < 256 then (c as int) as bv8 else 0
  }

  predicate Accepted(b: bv8) {
    MinCode <= b <= MaxCode
  }

  /** The byte of a character below 256. */
  function Byte(c: char): bv8
    requires c as int < 256
  {
    (c as int) as bv8
  }

  /** The bytes of a text the port keeps: its accepted Latin-1 bytes, in order. */
  function Line(text: string): (line: seq<bv8>)
    ensures |line| <= |text|
    ensures forall i :: 0 <= i < |line| ==> Accepted(line[i])
  {
    if text == [] then []
    else
      var rest := Line(text[..|text| - 1]);
      var b := Latin1(text[|text| - 1]);
      if Accepted(b) then rest + [b] else rest
  }

  datatype Received = Received(queue: seq<bv8>, ready: Option<bool>)
  datatype Taken = Taken(b: bv8, queue: seq<bv8>, ready: Option<bool>)

  /**
   * Receive a text: queue its line and, when the line is not empty, a 0
   * terminator; signal "ready" whenever the queue is then not empty.
   */
  function Rx(queue: seq<bv8>, text: string): (r: Received)
    ensures Line(text) == [] ==> r.queue == queue
    ensures Line(text) != [] ==> r.queue == queue + Line(text) + [0]
    ensures r.ready == if r.queue != [] then Some(true) else None
  {
    var line := Line(text);
    var queue' := if line == [] then queue else queue + line + [0];
    Received(queue', if queue' != [] then Some(true) else None)
  }

  /**
   * Take the oldest received byte. Unlike the keyboard, taking the last one
   * signals nothing: "not ready" is signalled only when the queue was already
   * empty, and then the result is 0.
   */
  function Receive(queue: seq<bv8>): (t: Taken)
    ensures (t.b, t.queue) == Fifo.Take(queue)
    ensures t.ready == if queue == [] then Some(false) else None
  {
    var (b, rest) := Fifo.Take(queue);
    Taken(b, rest, if queue == [] then Some(false) else None)
  }

  /** The byte that leaves the port: bit 7 cleared, the rest kept. */
  function Send(c: bv8): (sent: bv8)
    ensures sent < 0x80 && sent & SendMask == c & SendMask
  {
    c & SendMask
  }

  /** The host has no transmit buffer to fill: the free space is always the full 64. */
  function GetSendBufferFree(): (free: bv8)
    ensures free == TxBufferSize
  {
    TxBufferSize
  }

  // ----- properties -----

  /** A text is received as its line: no byte of the line is 0, so the terminator ends it. */
  lemma LineHasNoZero(text: string)
    ensures forall i :: 0 <= i < |Line(text)| ==> Line(text)[i] != 0
  {
  }

  /** Printable ASCII text is received whole. */
  lemma {:induction false} PrintableTextKept(text: string)
    requires forall i :: 0 <= i < |text| ==> 0x20 <= text[i] as int <= 0x7F
    ensures |Line(text)| == |text|
    ensures forall i :: 0 <= i < |text| ==> Line(text)[i] == Byte(text[i])
  {
    if text != [] {
      PrintableTextKept(text[..|text| - 1]);
    }
  }

  /**
   * From an empty port, the board reading one byte more than the line holds gets
   * the line and its terminator and leaves the port empty.
   */
  lemma ReadLine(text: string)
    requires Line(text) != []
    ensures Fifo.TakeAll(Rx([], text).queue, |Line(text)| + 1) == (Line(text) + [0], [])
  {
    assert [] + Line(text) + [0] == Line(text) + [0];
    Fifo.TakeEverything(Line(text) + [0]);
  }
}

=== FILE: rs232_fw.dfy ===
/**
 * The firmware's serial port: a 64-slot receive ring the UART fills byte by byte
 * (dropping the oldest byte when it overruns), and a 64-slot transmit ring the
 * board fills and the UART drains, one byte per "transmit complete" interrupt.
 * The UART itself is not modelled: a byte handed to it is reported as the result
 * of the step that starts its transmission.
 */
module Rs232Firmware {
  import opened Wrappers
  import opened Ring

  const BufferSize: nat := 64

  datatype Rs232Fw = Rs232Fw(rx: Ring<bv8>, tx: Ring<bv8>)

  /** The invariant every operation keeps: two well-formed rings of 64 slots. */
  predicate Sized(s: Rs232Fw) {
    Valid(s.rx) && |s.rx.slots| == BufferSize && Valid(s.tx) && |s.tx.slots| == BufferSize
  }

  /** The state after a step, and the byte the step hands to the UART, if any. */
  datatype Stepped = Stepped(state: Rs232Fw, wire: Option<bv8>)

  /**
   * Queue a byte to send. On an idle port it goes straight to the UART; on a busy
   * port it waits its turn, unless the ring is full, and then it is dropped.
   */
  function Send(s: Rs232Fw, b: bv8): (r: Stepped)
    requires Sized(s)
    ensures Sized(r.state) && r.state.rx == s.rx
    ensures !IsFull(s.tx) ==> Contents(r.state.tx) == Contents(s.tx) + [b]
    ensures IsFull(s.tx) ==> r.state == s
    ensures r.wire == if IsEmpty(s.tx) then Some(b) else None
  {
    if IsEmpty(s.tx) then
      PushContents(s.tx, b);
      var tx := Push(s.tx, b);
      Stepped(s.(tx := tx), Some(tx.slots[tx.start]))
    else if IsFull(s.tx) then Stepped(s, None)
    else
      PushContents(s.tx, b);
      Stepped(s.(tx := Push(s.tx, b)), None)
  }

  /** The UART has sent the oldest byte: drop it and start the next, if any. */
  function TxComplete(s: Rs232Fw): (r: Stepped)
    requires Sized(s) && !IsEmpty(s.tx)
    ensures Sized(r.state) && r.state.rx == s.rx
    ensures Contents(r.state.tx) == Contents(s.tx)[1..]
    ensures r.wire == if |Contents(s.tx)| == 1 then None else Some(Contents(s.tx)[1])
  {
    PopContents(s.tx);
    UsedBounds(s.tx);
    var tx := Pop(s.tx).1;
    UsedBounds(tx);
    Stepped(s.(tx := tx), if IsEmpty(tx) then None else Some(tx.slots[tx.start]))
  }

  /** The free space of the transmit ring: at most 63. */
  function GetSendBufferFree(s: Rs232Fw): (free: nat)
    requires Sized(s)
    ensures free + |Contents(s.tx)| == BufferSize - 1
  {
    Free(s.tx)
  }

  /** The UART has received b: store it, dropping the oldest byte when the ring is full. */
  function RxComplete(s: Rs232Fw, b: bv8): (r: Rs232Fw)
    requires Sized(s)
    ensures Sized(r) && r.tx == s.tx
    ensures !IsFull(s.rx) ==> Contents(r.rx) == Contents(s.rx) + [b]
    ensures IsFull(s.rx) ==> Contents(r.rx) == Contents(s.rx)[1..] + [b]
  {
    UsedBounds(s.rx);
    if IsFull(s.rx) then
      PopContents(s.rx);
      var rx := Pop(s.rx).1;
      UsedBounds(rx);
      PushContents(rx, b);
      s.(rx := Push(rx, b))
    else
      PushContents(s.rx, b);
      s.(rx := Push(s.rx, b))
  }

  /** Take the oldest received byte; 0 when there is none. */
  function Receive(s: Rs232Fw): (r: (bv8, Rs232Fw))
    requires Sized(s)
    ensures Sized(r.1) && r.1.tx == s.tx
    ensures Contents(s.rx) != [] ==> r.0 == Contents(s.rx)[0] && Contents(r.1.rx) == Contents(s.rx)[1..]
    ensures Contents(s.rx) == [] ==> r == (0, s)
  {
    var (b, rx) := Take(s.rx, 0);
    (b, s.(rx := rx))
  }

  /** Whether a received byte is waiting. */
  function RxIsData(s: Rs232Fw): (ready: bool)
    requires Sized(s)
    ensures ready <==> Contents(s.rx) != []
  {
    UsedBounds(s.rx);
    !IsEmpty(s.rx)
  }

  // ----- the transmit side over time -----

  /** The board offers a byte to send, or the UART finishes the byte it is sending. */
  datatype Event = Offer(b: bv8) | Sent

  /**
   * A run of the transmit side: the port, the bytes it accepted, the bytes it
   * handed to the UART, and the bytes the UART has finished, each in order.
   */
  datatype Run = Run(port: Rs232Fw, accepted: seq<bv8>, wire: seq<bv8>, finished: seq<bv8>)

  /** The idle port, before anything was sent. */
  function Start(rx: Ring<bv8>): (t: Run)
    requires Valid(rx) && |rx.slots| == BufferSize
    ensures Sized(t.port) && Contents(t.port.tx) == [] && t.accepted == []
  {
    Run(Rs232Fw(rx, Empty(BufferSize, 0)), [], [], [])
  }

  /** One event. A completion with nothing in flight cannot happen and is ignored. */
  function Step(t: Run, e: Event): (t': Run)
    requires Sized(t.port)
    ensures Sized(t'.port)
  {
    match e
    case Offer(b) =>
      var r := Send(t.port, b);
      Run(r.state, if IsFull(t.port.tx) then t.accepted else t.accepted + [b],
          t.wire + (if r.wire.Some? then [r.wire.value] else []), t.finished)
    case Sent =>
      if IsEmpty(t.port.tx) then t
      else
        var r := TxComplete(t.port);
        Run(r.state, t.accepted, t.wire + (if r.wire.Some? then [r.wire.value] else []),
            t.finished + [Contents(t.port.tx)[0]])
  }

  function Steps(t: Run, events: seq<Event>): (t': Run)
    requires Sized(t.port)
    ensures Sized(t'.port)
  {
    if events == [] then t else Step(Steps(t, events[..|events| - 1]), events[|events| - 1])
  }

  /**
   * What a run keeps: every accepted byte is finished or still queued, in order,
   * and the UART has been handed the finished bytes and the oldest queued one.
   */
  predicate InOrder(t: Run)
    requires Sized(t.port)
  {
    var q := Contents(t.port.tx);
    && t.accepted == t.finished + q
    && t.wire == t.finished + (if q == [] then [] else [q[0]])
  }

  lemma OfferInOrder(t: Run, b: bv8)
    requires Sized(t.port) && InOrder(t)
    ensures InOrder(Step(t, Offer(b)))
  {
    var q := Contents(t.port.tx);
    UsedBounds(t.port.tx);
    if !IsFull(t.port.tx) {
      assert (t.finished + q) + [b] == t.finished + (q + [b]);
      if q != [] {
        assert (q + [b])[0] == q[0];
      }
    }
  }

  lemma SentInOrder(t: Run)
    requires Sized(t.port) && InOrder(t)
    ensures InOrder(Step(t, Sent))
  {
    var q := Contents(t.port.tx);
    UsedBounds(t.port.tx);
    if q != [] {
      assert q == [q[0]] + q[1..];
      assert t.finished + q == (t.finished + [q[0]]) + q[1..];
      if |q| > 1 {
        assert q[1..][0] == q[1];
      }
    }
  }

  lemma {:induction false} StepsInOrder(t: Run, events: seq<Event>)
    requires Sized(t.port) && InOrder(t)
    ensures InOrder(Steps(t, events))
  {
    if events != [] {
      StepsInOrder(t, events[..|events| - 1]);
      var t' := Steps(t, events[..|events| - 1]);
      match events[|events| - 1]
      case Offer(b) => OfferInOrder(t', b);
      case Sent => SentInOrder(t');
    }
  }

  /** In a run that keeps its order, the UART has been handed a prefix of the accepted bytes. */
  lemma WireIsPrefix(t: Run)
    requires Sized(t.port) && InOrder(t)
    ensures t.wire <= t.accepted
    ensures Contents(t.port.tx) == [] ==> t.wire == t.accepted
  {
    var q := Contents(t.port.tx);
    if q != [] {
      assert t.accepted == (t.finished + [q[0]]) + q[1..];
    }
  }

  /**
   * Whatever the board offers and whenever the UART finishes, the UART is handed
   * the accepted bytes in the order they were accepted, each once; once the ring
   * has drained it has been handed all of them.
   */
  lemma TransmitsInOrder(rx: Ring<bv8>, events: seq<Event>)
    requires Valid(rx) && |rx.slots| == BufferSize
    ensures Steps(Start(rx), events).wire <= Steps(Start(rx), events).accepted
    ensures Contents(Steps(Start(rx), events).port.tx) == [] ==>
      Steps(Start(rx), events).wire == Steps(Start(rx), events).accepted
  {
    EmptyContents(BufferSize, 0);
    StepsInOrder(Start(rx), events);
    WireIsPrefix(Steps(Start(rx), events));
  }
}

=== FILE: speaker.dfy ===
/**
 * The emulator's speaker: a queue of notes and a playing flag. The note fields
 * come from the I/O board's speaker registers; a note is checked before it is
 * queued. Turning notes into audio samples is not modelled: playing a note here
 * means taking it from the queue.
 */
module Speaker {
  import opened Wrappers

  const BufferSize: nat := 32
  const NoteQuantity: bv8 := 89
  const TimeMin: bv8 := 1
  const TimeMax: bv8 := 250
  const FillMin: bv8 := 1
  const FillMax: bv8 := 15
  const FillMask: bv8 := 0x0F
  const VolumeMax: bv8 := 15
  const VolumeMask: bv8 := 0x0F
  /** Note code 0 is a rest: the first entry of the frequency table. */
  const Silent: bv8 := 0

  /** A note code, a duration in units of 10 ms, a square-wave fill in 16ths, a volume. */
  datatype Note = Note(note: bv8, time: bv8, fill: bv8, volume: bv8)

  /** The checks a note must pass to be queued; fill and volume do not matter for a rest. */
  predicate Acceptable(n: Note) {
    && n.note < NoteQuantity
    && TimeMin <= n.time <= TimeMax
    && (n.note != Silent ==> FillMin <= n.fill <= FillMax && n.volume <= VolumeMax)
  }

  /** What is queued for a note: a rest gets fill 1 and volume 0, other notes keep 4 bits of each. */
  function Stored(n: Note): (s: Note)
    ensures s.note == n.note && s.time == n.time
    ensures n.note == Silent ==> s.fill == FillMin && s.volume == 0
    ensures n.note != Silent ==> s.fill == n.fill & FillMask && s.volume == n.volume & VolumeMask
  {
    if n.note == Silent then n.(fill := FillMin, volume := 0)
    else n.(fill := n.fill & FillMask, volume := n.volume & VolumeMask)
  }

  datatype Speaker = Speaker(notes: seq<Note>, playing: bool)

  /** Queue a note that passes the checks; any other note is ignored. Nothing bounds the queue. */
  function AddNote(s: Speaker, n: Note): (r: Speaker)
    ensures Acceptable(n) ==> r.notes == s.notes + [Stored(n)]
    ensures !Acceptable(n) ==> r.notes == s.notes
    ensures r.playing == s.playing
  {
    if Acceptable(n) then s.(notes := s.notes + [Stored(n)]) else s
  }

  /** The free space reported to the board: 32 minus the queue length, truncated to a byte. */
  function GetBufferFree(s: Speaker): (free: nat)
    ensures free < 256
    ensures |s.notes| <= BufferSize ==> free + |s.notes| == BufferSize
    ensures (free + |s.notes|) % 256 == BufferSize
  {
    (BufferSize - |s.notes|) % 256
  }

  /** Start the oldest note, if any; an empty queue stops playing. */
  function PlayNextNote(s: Speaker): (r: Speaker)
    ensures s.notes != [] ==> r.notes == s.notes[1..] && r.playing
    ensures s.notes == [] ==> r.notes == [] && !r.playing
  {
    if s.notes != [] then Speaker(s.notes[1..], true) else s.(playing := false)
  }

  /** Start playing when idle and there is something to play. */
  function Play(s: Speaker): (r: Speaker)
    ensures !s.playing && s.notes != [] ==> r == PlayNextNote(s)
    ensures s.playing || s.notes == [] ==> r == s
  {
    if !s.playing && s.notes != [] then PlayNextNote(s) else s
  }

  /**
   * Pause as written: it acts only when the speaker is NOT playing, and then sets
   * the flag it just found false, so it never changes anything.
   */
  function PauseAsWritten(s: Speaker): (r: Speaker)
    ensures r.playing == s.playing && r.notes == s.notes
  {
    if !s.playing then s.(playing := false) else s
  }

  /** Pause as the firmware does it and as evidently intended: a playing speaker stops. */
  function Pause(s: Speaker): (r: Speaker)
    ensures !r.playing && r.notes == s.notes
  {
    if s.playing then s.(playing := false) else s
  }

  /** Empty the queue and stop. */
  function Clear(s: Speaker): (r: Speaker)
    ensures r.notes == [] && !r.playing
  {
    Speaker([], false)
  }

  /** The audio output has run out of samples: a playing speaker moves on to the next note. */
  function NoteDone(s: Speaker): (r: Speaker)
    ensures s.playing ==> r == PlayNextNote(s)
    ensures !s.playing ==> r == s
  {
    if s.playing then PlayNextNote(s) else s
  }

  // ----- properties -----

  /** A note that passes the checks is queued unchanged apart from the fields of a rest. */
  lemma StoredKeepsAcceptable(n: Note)
    requires Acceptable(n)
    ensures Acceptable(Stored(n))
    ensures n.note != Silent ==> Stored(n) == n
  {
    assert n.note != Silent ==> n.fill & FillMask == n.fill && n.volume & VolumeMask == n.volume;
  }

  /** Offering notes one after the other. */
  function AddAll(s: Speaker, offered: seq<Note>): (r: Speaker)
    ensures r.playing == s.playing
  {
    if offered == [] then s else AddNote(AddAll(s, offered[..|offered| - 1]), offered[|offered| - 1])
  }

  /** Every queued note passes the checks, whatever was offered. */
  lemma {:induction false} QueuedNotesAcceptable(s: Speaker, offered: seq<Note>)
    requires forall i :: 0 <= i < |s.notes| ==> Acceptable(s.notes[i])
    ensures forall i :: 0 <= i < |AddAll(s, offered).notes| ==> Acceptable(AddAll(s, offered).notes[i])
  {
    if offered != [] {
      QueuedNotesAcceptable(s, offered[..|offered| - 1]);
      var n := offered[|offered| - 1];
      if Acceptable(n) {
        StoredKeepsAcceptable(n);
      }
    }
  }

  /** The emulator's pause as written leaves a playing speaker playing; the intended pause stops it. */
  lemma PauseAsWrittenIgnored(s: Speaker)
    requires s.playing
    ensures PauseAsWritten(s).playing && !Pause(s).playing
  {
  }

  /** The queue has no capacity check: a 33rd note is queued, and the free space then reads 255. */
  lemma FreeSpaceWraps(s: Speaker, n: Note)
    requires |s.notes| == BufferSize && Acceptable(n)
    ensures |AddNote(s, n).notes| == BufferSize + 1 && GetBufferFree(AddNote(s, n)) == 255
  {
  }
}

=== FILE: speaker_fw.dfy ===
/**
 * The firmware's speaker: the same note checks as the emulator's, but the notes
 * wait in a 32-slot ring that holds at most 31 of them, and a note timer moves on
 * to the next note. The sample generation and the timer registers are not
 * modelled: playing a note here means taking it from the ring.
 */
module SpeakerFirmware {
  import opened Ring
  import Speaker

  const RingSize: nat := 32

  datatype SpeakerFw = SpeakerFw(buffer: Ring<Speaker.Note>, playing: bool)

  /** The invariant every operation keeps: a well-formed ring of 32 slots. */
  predicate Sized(s: SpeakerFw) {
    Valid(s.buffer) && |s.buffer.slots| == RingSize
  }

  /** The firmware's stored note: a rest gets fill 1 and volume 0, other notes are kept as they are. */
  function StoredFw(n: Speaker.Note): (s: Speaker.Note)
    ensures s.note == n.note && s.time == n.time
    ensures n.note == Speaker.Silent ==> s.fill == Speaker.FillMin && s.volume == 0
    ensures n.note != Speaker.Silent ==> s == n
  {
    if n.note == Speaker.Silent then n.(fill := Speaker.FillMin, volume := 0) else n
  }

  /** Queue a note that passes the checks and finds a free slot; otherwise nothing changes. */
  function AddNote(s: SpeakerFw, n: Speaker.Note): (r: SpeakerFw)
    requires Sized(s)
    ensures Sized(r) && r.playing == s.playing
    ensures Speaker.Acceptable(n) && !IsFull(s.buffer) ==> Contents(r.buffer) == Contents(s.buffer) + [StoredFw(n)]
    ensures !Speaker.Acceptable(n) || IsFull(s.buffer) ==> r == s
  {
    if !Speaker.Acceptable(n) || IsFull(s.buffer) then s
    else
      PushContents(s.buffer, StoredFw(n));
      s.(buffer := Push(s.buffer, StoredFw(n)))
  }

  /** The free slots: 31 on an empty ring, less the distance from start to end. */
  function GetBufferFree(s: SpeakerFw): (free: nat)
    requires Sized(s)
    ensures free + |Contents(s.buffer)| == RingSize - 1
  {
    Free(s.buffer)
  }

  /** Stop and empty the ring: both indices return to slot 0. */
  function Clear(s: SpeakerFw): (r: SpeakerFw)
    requires Sized(s)
    ensures Sized(r) && !r.playing && Contents(r.buffer) == []
    ensures r.buffer.start == 0 && r.buffer.end == 0 && r.buffer.slots == s.buffer.slots
  {
    SpeakerFw(s.buffer.(start := 0, end := 0), false)
  }

  /** Start the oldest note and mark the speaker playing; an empty ring clears and stops. */
  function PlayNextNote(s: SpeakerFw): (r: SpeakerFw)
    requires Sized(s)
    ensures Sized(r)
    ensures !IsEmpty(s.buffer) ==> r.playing && Contents(r.buffer) == Contents(s.buffer)[1..]
    ensures IsEmpty(s.buffer) ==> r == Clear(s)
  {
    if IsEmpty(s.buffer) then Clear(s)
    else
      PopContents(s.buffer);
      SpeakerFw(Pop(s.buffer).1, true)
  }

  /** Start playing when idle. */
  function Play(s: SpeakerFw): (r: SpeakerFw)
    requires Sized(s)
    ensures Sized(r)
    ensures !s.playing ==> r == PlayNextNote(s)
    ensures s.playing ==> r == s
  {
    if !s.playing then PlayNextNote(s) else s
  }

  /** Stop a playing speaker; the ring keeps its notes. */
  function Pause(s: SpeakerFw): (r: SpeakerFw)
    requires Sized(s)
    ensures Sized(r) && !r.playing && r.buffer == s.buffer
  {
    if s.playing then s.(playing := false) else s
  }

  /** The note timer has expired: a playing speaker moves on to the next note. */
  function NoteTimer(s: SpeakerFw): (r: SpeakerFw)
    requires Sized(s)
    ensures Sized(r)
    ensures s.playing ==> r == PlayNextNote(s)
    ensures !s.playing ==> r == s
  {
    if s.playing then PlayNextNote(s) else s
  }

  // ----- properties -----

  /** The ring never holds more than 31 notes, and it reports exactly the slots it has left. */
  lemma Capacity(s: SpeakerFw)
    requires Sized(s)
    ensures |Contents(s.buffer)| <= RingSize - 1
    ensures IsFull(s.buffer) <==> GetBufferFree(s) == 0
  {
    UsedBounds(s.buffer);
  }

  /** For every note that passes the checks the firmware stores what the emulator stores. */
  lemma StoredAgree(n: Speaker.Note)
    requires Speaker.Acceptable(n)
    ensures StoredFw(n) == Speaker.Stored(n)
  {
    Speaker.StoredKeepsAcceptable(n);
  }

  // ----- agreement with the emulator -----

  /** The firmware and the emulator hold the same notes in the same order and agree on playing. */
  predicate Agree(f: SpeakerFw, e: Speaker.Speaker)
    requires Sized(f)
  {
    Contents(f.buffer) == e.notes && f.playing == e.playing
  }

  /** Below the firmware's capacity, adding a note keeps the two speakers in step. */
  lemma AddNoteAgrees(f: SpeakerFw, e: Speaker.Speaker, n: Speaker.Note)
    requires Sized(f) && Agree(f, e) && !IsFull(f.buffer)
    ensures Agree(AddNote(f, n), Speaker.AddNote(e, n))
  {
    if Speaker.Acceptable(n) {
      StoredAgree(n);
    }
  }

  /** Playing, pausing, clearing and the end of a note keep the two speakers in step. */
  lemma ControlsAgree(f: SpeakerFw, e: Speaker.Speaker)
    requires Sized(f) && Agree(f, e)
    ensures Agree(PlayNextNote(f), Speaker.PlayNextNote(e))
    ensures Agree(Play(f), Speaker.Play(e))
    ensures Agree(Pause(f), Speaker.Pause(e))
    ensures Agree(Clear(f), Speaker.Clear(e))
    ensures Agree(NoteTimer(f), Speaker.NoteDone(e))
  {
    UsedBounds(f.buffer);
  }

  /** The firmware reports one free slot less than the emulator for the same notes. */
  lemma FreeSpaceAgrees(f: SpeakerFw, e: Speaker.Speaker)
    requires Sized(f) && Agree(f, e)
    ensures GetBufferFree(f) + 1 == Speaker.GetBufferFree(e)
  {
  }
}

=== FILE: urom.dfy ===
/**
 * The generator's top-level run: every description of the instruction set is
 * added to an empty table, group after group, then HALT, then a NOP for every
 * opcode still undefined. The status is the conjunction of every addition's
 * status, and a failed addition does not stop the later ones.
 *
 * The main result is that this run succeeds, defines all 256 opcodes and
 * leaves every description's steps at its entries, because the descriptions
 * occupy pairwise disjoint entries.
 */
module URom {
  import opened ControlWord
  import opened URomData
  import opened Microcode

  // ----- the run -----

  /** Adds the descriptions in order, continuing after a failure. */
  function AddAll(t: Table, list: seq<Instruction>): (r: (Table, bool))
    requires t.Valid()
    ensures r.0.Valid()
    decreases |list|
  {
    if |list| == 0 then (t, true)
    else
      var first := AddInstruction(t, list[0]);
      var rest := AddAll(first.0, list[1..]);
      (rest.0, first.1 && rest.1)
  }

  /** Runs the group routines in order, continuing after a failure. */
  function AddGroups(t: Table, groups: seq<seq<Instruction>>): (r: (Table, bool))
    requires t.Valid()
    ensures r.0.Valid()
    decreases |groups|
  {
    if |groups| == 0 then (t, true)
    else
      var first := AddAll(t, groups[0]);
      var rest := AddGroups(first.0, groups[1..]);
      (rest.0, first.1 && rest.1)
  }

  /** The NOP fill from opcode `i` upwards: an opcode still undefined when the loop reaches it gets a NOP. */
  function NopFill(t: Table, i: nat): (r: (Table, bool))
    requires t.Valid() && i <= InstructionQuantity
    ensures r.0.Valid()
    decreases InstructionQuantity - i
  {
    if i == InstructionQuantity then (t, true)
    else if t.opcodeSet[i] then NopFill(t, i + 1)
    else
      var added := AddInstruction(t, Nop(OpcodeByte(i)));
      var rest := NopFill(added.0, i + 1);
      (rest.0, added.1 && rest.1)
  }

  /** The miscellaneous routine: HALT, then the NOP fill. */
  function GenerateMisc(t: Table): (r: (Table, bool))
    requires t.Valid()
    ensures r.0.Valid()
  {
    var halt := AddInstruction(t, Halt);
    var fill := NopFill(halt.0, 0);
    (fill.0, halt.1 && fill.1)
  }

  /** The ten group routines, then the miscellaneous one, with the groups as a parameter. */
  function Generate(t: Table, groups: seq<seq<Instruction>>): (r: (Table, bool))
    requires t.Valid()
    ensures r.0.Valid()
  {
    var added := AddGroups(t, groups);
    var misc := GenerateMisc(added.0);
    (misc.0, added.1 && misc.1)
  }

  /** `generateData`. */
  function GenerateData(t: Table): (r: (Table, bool))
    requires t.Valid()
    ensures r.0.Valid()
  {
    Generate(t, Groups())
  }

  // ----- what a table holds -----

  /** Every entry used in `t` is still used in `t'` with the same control word, and no opcode lost its mark. */
  predicate Keeps(t: Table, t': Table)
    requires t.Valid() && t'.Valid()
  {
    (forall k :: 0 <= k < URomSize && t.dataSet[k] ==>
      t'.dataSet[k] && t'.code0[k] == t.code0[k] && t'.code1[k] == t.code1[k])
    && (forall o :: 0 <= o < InstructionQuantity && t.opcodeSet[o] ==> t'.opcodeSet[o])
  }

  /** The description's opcodes are defined and each of its steps sits, packed, at each of its entries. */
  predicate Holds(t: Table, ins: Instruction)
    requires t.Valid()
  {
    (forall i :: 0 <= i < Width(ins) ==> t.opcodeSet[OpcodeOf(ins, i)])
    && forall i: nat, s: nat, c: nat, z: nat | i < Width(ins) && s < StepCount(ins) && c < 2 && z < 2 && ins.c.Accepts(c) && ins.z.Accepts(z) ::
      t.dataSet[Offset(ins.opcode, i, s, c, z)]
      && t.code0[Offset(ins.opcode, i, s, c, z)] == Encode(ins.steps[s]).code0
      && t.code1[Offset(ins.opcode, i, s, c, z)] == Encode(ins.steps[s]).code1
  }

  lemma KeepsTransitive(t1: Table, t2: Table, t3: Table)
    requires t1.Valid() && t2.Valid() && t3.Valid()
    requires Keeps(t1, t2) && Keeps(t2, t3)
    ensures Keeps(t1, t3)
  {
  }

  /** What a table holds survives any table that keeps it. */
  lemma HoldsKept(t: Table, t': Table, ins: Instruction)
    requires t.Valid() && t'.Valid() && Keeps(t, t') && Holds(t, ins)
    ensures Holds(t', ins)
  {
    forall i: nat, s: nat, c: nat, z: nat | i < Width(ins) && s < StepCount(ins) && c < 2 && z < 2 && ins.c.Accepts(c) && ins.z.Accepts(z)
      ensures t'.dataSet[Offset(ins.opcode, i, s, c, z)]
      ensures t'.code0[Offset(ins.opcode, i, s, c, z)] == Encode(ins.steps[s]).code0
      ensures t'.code1[Offset(ins.opcode, i, s, c, z)] == Encode(ins.steps[s]).code1
    {
      OffsetDecodes(ins.opcode, i, s, c, z);
    }
    forall i | 0 <= i < Width(ins)
      ensures t'.opcodeSet[OpcodeOf(ins, i)]
    {
    }
  }

  /** A successful addition keeps what was there and places the description. */
  lemma AddedHolds(t: Table, ins: Instruction)
    requires t.Valid() && AddInstruction(t, ins).1
    ensures Keeps(t, AddInstruction(t, ins).0)
    ensures Holds(AddInstruction(t, ins).0, ins)
  {
    var t' := AddInstruction(t, ins).0;
    AddInstructionSucceeds(t, ins);
    AddInstructionFrame(t, ins);
    forall k | 0 <= k < URomSize && t.dataSet[k]
      ensures t'.dataSet[k] && t'.code0[k] == t.code0[k] && t'.code1[k] == t.code1[k]
    {
      assert k !in Targets(ins);
    }
    forall i: nat, s: nat, c: nat, z: nat | i < Width(ins) && s < StepCount(ins) && c < 2 && z < 2 && ins.c.Accepts(c) && ins.z.Accepts(z)
      ensures t'.dataSet[Offset(ins.opcode, i, s, c, z)]
      ensures t'.code0[Offset(ins.opcode, i, s, c, z)] == Encode(ins.steps[s]).code0
      ensures t'.code1[Offset(ins.opcode, i, s, c, z)] == Encode(ins.steps[s]).code1
    {
      AddInstructionWrites(t, ins, i, s, c, z);
    }
    forall i | 0 <= i < Width(ins)
      ensures t'.opcodeSet[OpcodeOf(ins, i)]
    {
      AddInstructionMarks(t, ins, i);
    }
  }

  // ----- the NOP fill -----

  /** The NOP the fill adds at opcode `i` is a single-opcode description for column `i`. */
  lemma NopAt(i: nat)
    requires i < InstructionQuantity
    ensures Width(Nop(OpcodeByte(i))) == 1
    ensures Nop(OpcodeByte(i)).opcode as nat == i
    ensures OpcodeOf(Nop(OpcodeByte(i)), 0) == i
  {
    OwnColumn(OpcodeByte(i));
  }

  /** The opcode byte with value `i`, counted up from zero as the generator's byte counter does. */
  function OpcodeByte(i: nat): (b: bv8)
    requires i < InstructionQuantity
    ensures b as nat == i
  {
    if i == 0 then 0
    else
      var b := OpcodeByte(i - 1);
      ByteCounts(b);
      b + 1
  }

  lemma ByteCounts(b: bv8)
    requires b != 0xFF
    ensures (b + 1) as nat == b as nat + 1
  {
  }

  /** Whether or not it succeeds, an addition keeps every used entry and every defined opcode. */
  lemma AddKeeps(t: Table, ins: Instruction)
    requires t.Valid()
    ensures Keeps(t, AddInstruction(t, ins).0)
  {
    AddInstructionKeeps(t, ins);
    AddInstructionFrame(t, ins);
  }

  /** A single-opcode description (HALT, a NOP) fills and marks nothing outside its own column. */
  lemma SingleColumn(ins: Instruction, k: nat)
    requires Width(ins) == 1 && k in Targets(ins)
    ensures k < URomSize && k % InstructionQuantity == ins.opcode as nat
  {
    TargetsInColumns(ins, k);
    var i :| 0 <= i < Width(ins) && OpcodeOf(ins, i) == k % InstructionQuantity;
    assert i == 0;
    OwnColumn(ins.opcode);
  }

  /** Opcode `op` with no offset is column `op`. */
  lemma OwnColumn(op: bv8)
    ensures Column(op, 0) == op as nat
  {
  }

  /** Adding a single-opcode description for an undefined opcode of a consistent table succeeds. */
  lemma AddSingleSucceeds(t: Table, ins: Instruction)
    requires t.Valid() && t.Consistent() && Width(ins) == 1 && !t.opcodeSet[ins.opcode as nat]
    ensures AddInstruction(t, ins).1
    ensures AddInstruction(t, ins).0.Consistent()
  {
    forall k | k in Targets(ins)
      ensures !t.dataSet[k]
    {
      SingleColumn(ins, k);
    }
    AddInstructionSucceeds(t, ins);
    AddInstructionConsistent(t, ins);
  }

  /** Adding a single-opcode description defines no opcode but its own. */
  lemma AddSingleMarks(t: Table, ins: Instruction, o: nat)
    requires t.Valid() && Width(ins) == 1 && o < InstructionQuantity && o != ins.opcode as nat
    ensures AddInstruction(t, ins).0.opcodeSet[o] == t.opcodeSet[o]
  {
    AddInstructionFrame(t, ins);
    OwnColumn(ins.opcode);
  }

  /** The NOP fill keeps every used entry and every defined opcode. */
  lemma {:induction false} NopFillKeeps(t: Table, i: nat)
    requires t.Valid() && i <= InstructionQuantity
    ensures Keeps(t, NopFill(t, i).0)
    decreases InstructionQuantity - i
  {
    if i < InstructionQuantity {
      if t.opcodeSet[i] {
        NopFillKeeps(t, i + 1);
      } else {
        var added := AddInstruction(t, Nop(OpcodeByte(i)));
        AddKeeps(t, Nop(OpcodeByte(i)));
        NopFillKeeps(added.0, i + 1);
        KeepsTransitive(t, added.0, NopFill(added.0, i + 1).0);
      }
    }
  }

  /**
   * On a consistent table the NOP fill never fails: an opcode it reaches undefined has no used
   * entry in its column. Afterwards the table is still consistent.
   */
  lemma {:induction false} NopFillCompletes(t: Table, i: nat)
    requires t.Valid() && t.Consistent() && i <= InstructionQuantity
    ensures NopFill(t, i).1
    ensures NopFill(t, i).0.Consistent()
    decreases InstructionQuantity - i
  {
    if i < InstructionQuantity {
      if t.opcodeSet[i] {
        NopFillCompletes(t, i + 1);
      } else {
        var added := NopAdded(t, i);
        NopFillCompletes(added, i + 1);
      }
    }
  }

  /** After the NOP fill from `i`, every opcode from `i` up is defined. */
  lemma {:induction false} NopFillDefines(t: Table, i: nat, o: nat)
    requires t.Valid() && t.Consistent() && i <= o < InstructionQuantity
    ensures NopFill(t, i).0.opcodeSet[o]
    decreases InstructionQuantity - i
  {
    var next := NopFillStep(t, i);
    if i == o {
      NopFillKeeps(next, i + 1);
    } else {
      NopFillDefines(next, i + 1, o);
    }
  }

  /** The fill's addition of a NOP at an undefined opcode of a consistent table succeeds and defines it. */
  lemma NopAdded(t: Table, i: nat) returns (added: Table)
    requires t.Valid() && t.Consistent() && i < InstructionQuantity && !t.opcodeSet[i]
    ensures added == AddInstruction(t, Nop(OpcodeByte(i))).0 && AddInstruction(t, Nop(OpcodeByte(i))).1
    ensures added.Valid() && added.Consistent() && added.opcodeSet[i]
    ensures Holds(added, Nop(OpcodeByte(i)))
  {
    NopAt(i);
    AddSingleSucceeds(t, Nop(OpcodeByte(i)));
    AddInstructionMarks(t, Nop(OpcodeByte(i)), 0);
    AddedHolds(t, Nop(OpcodeByte(i)));
    added := AddInstruction(t, Nop(OpcodeByte(i))).0;
  }

  /**
   * One step of the NOP fill on a consistent table: opcode `i` is defined afterwards (holding
   * a NOP if it was undefined), and the fill goes on from `i + 1`.
   */
  lemma NopFillStep(t: Table, i: nat) returns (next: Table)
    requires t.Valid() && t.Consistent() && i < InstructionQuantity
    ensures next.Valid() && next.Consistent() && next.opcodeSet[i]
    ensures t.opcodeSet[i] ==> next == t
    ensures !t.opcodeSet[i] ==> next == AddInstruction(t, Nop(OpcodeByte(i))).0 && Holds(next, Nop(OpcodeByte(i)))
    ensures NopFill(t, i).0 == NopFill(next, i + 1).0
  {
    next := t;
    if !t.opcodeSet[i] {
      next := NopAdded(t, i);
    }
  }

  /** Every opcode from `i` up that the NOP fill reaches undefined ends up holding a NOP. */
  lemma {:induction false} NopFillPlaces(t: Table, i: nat, o: nat)
    requires t.Valid() && t.Consistent() && i <= o < InstructionQuantity && !t.opcodeSet[o]
    ensures Holds(NopFill(t, i).0, Nop(OpcodeByte(o)))
    decreases InstructionQuantity - i
  {
    var next := NopFillStep(t, i);
    if i == o {
      NopFillKeeps(next, i + 1);
      HoldsKept(next, NopFill(next, i + 1).0, Nop(OpcodeByte(o)));
    } else {
      if !t.opcodeSet[i] {
        NopAt(i);
        AddSingleMarks(t, Nop(OpcodeByte(i)), o);
      }
      NopFillPlaces(next, i + 1, o);
    }
  }

  // ----- the group routines -----

  /** Adding a list keeps every used entry and every defined opcode, whatever the outcome. */
  lemma {:induction false} AddAllKeeps(t: Table, list: seq<Instruction>)
    requires t.Valid()
    ensures Keeps(t, AddAll(t, list).0)
    decreases |list|
  {
    if |list| > 0 {
      var first := AddInstruction(t, list[0]);
      AddKeeps(t, list[0]);
      AddAllKeeps(first.0, list[1..]);
      KeepsTransitive(t, first.0, AddAll(first.0, list[1..]).0);
    }
  }

  /** Adding a list keeps a table consistent. */
  lemma {:induction false} AddAllConsistent(t: Table, list: seq<Instruction>)
    requires t.Valid() && t.Consistent()
    ensures AddAll(t, list).0.Consistent()
    decreases |list|
  {
    if |list| > 0 {
      AddInstructionConsistent(t, list[0]);
      AddAllConsistent(AddInstruction(t, list[0]).0, list[1..]);
    }
  }

  /** When a list's status is true, every one of its descriptions sits at its entries. */
  lemma {:induction false} AddAllHolds(t: Table, list: seq<Instruction>, j: nat)
    requires t.Valid() && AddAll(t, list).1 && j < |list|
    ensures Holds(AddAll(t, list).0, list[j])
    decreases |list|
  {
    var first := AddInstruction(t, list[0]);
    if j == 0 {
      AddedHolds(t, list[0]);
      AddAllKeeps(first.0, list[1..]);
      HoldsKept(first.0, AddAll(first.0, list[1..]).0, list[0]);
    } else {
      AddAllHolds(first.0, list[1..], j - 1);
    }
  }

  lemma {:induction false} AddGroupsKeeps(t: Table, groups: seq<seq<Instruction>>)
    requires t.Valid()
    ensures Keeps(t, AddGroups(t, groups).0)
    decreases |groups|
  {
    if |groups| > 0 {
      var first := AddAll(t, groups[0]);
      AddAllKeeps(t, groups[0]);
      AddGroupsKeeps(first.0, groups[1..]);
      KeepsTransitive(t, first.0, AddGroups(first.0, groups[1..]).0);
    }
  }

  lemma {:induction false} AddGroupsConsistent(t: Table, groups: seq<seq<Instruction>>)
    requires t.Valid() && t.Consistent()
    ensures AddGroups(t, groups).0.Consistent()
    decreases |groups|
  {
    if |groups| > 0 {
      AddAllConsistent(t, groups[0]);
      AddGroupsConsistent(AddAll(t, groups[0]).0, groups[1..]);
    }
  }

  /** When every group routine reported success, every description of every group sits at its entries. */
  lemma {:induction false} AddGroupsHolds(t: Table, groups: seq<seq<Instruction>>, g: nat, j: nat)
    requires t.Valid() && AddGroups(t, groups).1 && g < |groups| && j < |groups[g]|
    ensures Holds(AddGroups(t, groups).0, groups[g][j])
    decreases |groups|
  {
    var first := AddAll(t, groups[0]);
    if g == 0 {
      AddAllHolds(t, groups[0], j);
      AddGroupsKeeps(first.0, groups[1..]);
      HoldsKept(first.0, AddGroups(first.0, groups[1..]).0, groups[0][j]);
    } else {
      AddGroupsHolds(first.0, groups[1..], g - 1, j);
    }
  }

  // ----- the miscellaneous routine and the whole run -----

  /**
   * On a consistent table the miscellaneous routine defines every opcode: HALT goes to 0xFF
   * when nothing claimed it, and every opcode still undefined gets a NOP.
   */
  lemma MiscCompletes(t: Table)
    requires t.Valid() && t.Consistent()
    ensures Keeps(t, GenerateMisc(t).0)
    ensures GenerateMisc(t).0.Consistent()
    ensures forall o :: 0 <= o < InstructionQuantity ==> GenerateMisc(t).0.opcodeSet[o]
    ensures !t.opcodeSet[0xFF] ==> GenerateMisc(t).1 && Holds(GenerateMisc(t).0, Halt)
  {
    var halt := AddInstruction(t, Halt);
    AddKeeps(t, Halt);
    AddInstructionConsistent(t, Halt);
    NopFillKeeps(halt.0, 0);
    KeepsTransitive(t, halt.0, NopFill(halt.0, 0).0);
    NopFillCompletes(halt.0, 0);
    forall o | 0 <= o < InstructionQuantity
      ensures GenerateMisc(t).0.opcodeSet[o]
    {
      NopFillDefines(halt.0, 0, o);
    }
    if !t.opcodeSet[0xFF] {
      AddSingleSucceeds(t, Halt);
      AddedHolds(t, Halt);
      HoldsKept(halt.0, NopFill(halt.0, 0).0, Halt);
    }
  }

  /** Every opcode below 0xFF that nothing claimed ends up holding a NOP. */
  lemma MiscPlacesNops(t: Table, o: nat)
    requires t.Valid() && t.Consistent() && o < InstructionQuantity - 1 && !t.opcodeSet[o]
    ensures Holds(GenerateMisc(t).0, Nop(OpcodeByte(o)))
  {
    var halt := AddInstruction(t, Halt);
    AddInstructionConsistent(t, Halt);
    AddSingleMarks(t, Halt, o);
    NopFillPlaces(halt.0, 0, o);
  }

  /**
   * A run on a consistent table leaves it consistent with all 256 opcodes defined, and a
   * successful run leaves every description of every group at its entries.
   */
  lemma GenerateCompletes(t: Table, groups: seq<seq<Instruction>>)
    requires t.Valid() && t.Consistent()
    ensures Generate(t, groups).0.Consistent()
    ensures forall o :: 0 <= o < InstructionQuantity ==> Generate(t, groups).0.opcodeSet[o]
    ensures Generate(t, groups).1 ==>
      forall g, j :: 0 <= g < |groups| && 0 <= j < |groups[g]| ==> Holds(Generate(t, groups).0, groups[g][j])
  {
    var added := AddGroups(t, groups);
    AddGroupsConsistent(t, groups);
    MiscCompletes(added.0);
    if Generate(t, groups).1 {
      forall g, j | 0 <= g < |groups| && 0 <= j < |groups[g]|
        ensures Holds(Generate(t, groups).0, groups[g][j])
      {
        AddGroupsHolds(t, groups, g, j);
        HoldsKept(added.0, Generate(t, groups).0, groups[g][j]);
      }
    }
  }

  /** An opcode no group defines holds a NOP after the run (0xFF holds HALT). */
  lemma GenerateFillsGaps(t: Table, groups: seq<seq<Instruction>>, o: nat)
    requires t.Valid() && t.Consistent() && o < InstructionQuantity
    requires !AddGroups(t, groups).0.opcodeSet[o]
    ensures o < 0xFF ==> Holds(Generate(t, groups).0, Nop(OpcodeByte(o)))
    ensures o == 0xFF ==> Holds(Generate(t, groups).0, Halt)
  {
    var added := AddGroups(t, groups);
    AddGroupsConsistent(t, groups);
    if o < 0xFF {
      MiscPlacesNops(added.0, o);
    } else {
      MiscCompletes(added.0);
    }
  }
}

=== FILE: urom_data.dfy ===
/**
 * The microcode table the generator fills: two 32 KiB banks of control bytes
 * indexed by (Z flag, C flag, step, opcode), a "used" bit per entry and a
 * "defined" bit per opcode.
 *
 * An instruction occupies `Width` consecutive opcodes (its register arguments
 * are encoded in the low opcode bits) and, for every accepted combination of
 * the C and Z flags, one entry per step. Adding an instruction walks those
 * entries in the generator's loop order and stops at the first entry that is
 * already used; the writes made before that point stay.
 */
module URomData {
  import opened ControlWord

  const InstructionQuantity: nat := 256
  const CycleQuantity: nat := 16
  /** Weight of the C flag bit (address bit 12) and of the Z flag bit (address bit 13). */
  const FlagCWeight: nat := 4096
  const FlagZWeight: nat := 8192
  const URomSize: nat := 32768

  /** Argument kinds of a microcode instruction; only AB and ABXY widen the opcode range. */
  datatype Arg = ArgNone | ArgAbxy | ArgAb | ArgVal256 | ArgAddr

  /** Which value of a flag an instruction's entries are filled for. */
  datatype Flag = Disable | Enable | Any {
    predicate Accepts(bit: nat) {
      this == Any || (this == Disable && bit == 0) || (this == Enable && bit == 1)
    }
  }

  datatype Instruction = Instruction(opcode: bv8, arg0: Arg, arg1: Arg, arg2: Arg, c: Flag, z: Flag, steps: seq<Step>)

  function ArgWidth(a: Arg): nat {
    match a
    case ArgAb => 2
    case ArgAbxy => 4
    case _ => 1
  }

  /** How many consecutive opcodes the instruction uses: the third argument never widens it. */
  function Width(ins: Instruction): (w: nat)
    ensures 1 <= w <= 16
  {
    ArgWidth(ins.arg0) * ArgWidth(ins.arg1)
  }

  /** Steps beyond the sixteenth are dropped. */
  function StepCount(ins: Instruction): (n: nat)
    ensures n <= CycleQuantity && n <= |ins.steps|
    ensures n == |ins.steps| || n == CycleQuantity
  {
    if |ins.steps| < CycleQuantity then |ins.steps| else CycleQuantity
  }

  /** The two banks plus the bookkeeping bits. */
  datatype Table = Table(code0: seq<bv8>, code1: seq<bv8>, dataSet: seq<bool>, opcodeSet: seq<bool>) {
    predicate Valid() {
      |code0| == URomSize && |code1| == URomSize && |dataSet| == URomSize && |opcodeSet| == InstructionQuantity
    }

    /** Every used entry lies in the column of an opcode marked as defined. */
    predicate Consistent()
      requires Valid()
    {
      forall k :: 0 <= k < URomSize && dataSet[k] ==> opcodeSet[k % InstructionQuantity]
    }

    function IsOpcodeSet(op: bv8): bool
      requires Valid()
    {
      opcodeSet[op as nat]
    }
  }

  /** The generator's starting table: both banks zero, nothing used or defined. */
  function EmptyTable(): (t: Table)
    ensures t.Valid() && t.Consistent()
    ensures forall k :: 0 <= k < URomSize ==> !t.dataSet[k] && t.code0[k] == 0 && t.code1[k] == 0
    ensures forall op: bv8 :: !t.IsOpcodeSet(op)
  {
    Table(seq(URomSize, _ => 0), seq(URomSize, _ => 0), seq(URomSize, _ => false), seq(InstructionQuantity, _ => false))
  }

  /** The ROM address the control unit reads for opcode column `column`, step `s` and flags `c`, `z`. */
  function EntryAddress(column: nat, s: nat, c: nat, z: nat): nat {
    z * FlagZWeight + c * FlagCWeight + s * InstructionQuantity + column
  }

  /** The column of the `i`-th opcode of a range: opcodes wrap around at 256 like the generator's byte counter. */
  function Column(opcode: bv8, i: nat): nat {
    (opcode as nat + i) % InstructionQuantity
  }

  /** The entry of step `s` of the `i`-th opcode of an instruction, for flag values `c` and `z`. */
  function Offset(opcode: bv8, i: nat, s: nat, c: nat, z: nat): nat {
    EntryAddress(Column(opcode, i), s, c, z)
  }

  /**
   * The generator as written adds `i` to the opcode without wrapping when it computes the entry,
   * although it wraps when it marks the opcode.
   */
  function AsWrittenOffset(opcode: bv8, i: nat, s: nat, c: nat, z: nat): nat {
    s * InstructionQuantity + opcode as nat + i + c * FlagCWeight + z * FlagZWeight
  }

  lemma DivideEntry(column: nat, n: nat)
    requires column < InstructionQuantity
    ensures (column + InstructionQuantity * n) % InstructionQuantity == column
    ensures (column + InstructionQuantity * n) / InstructionQuantity == n
  {
  }

  /**
   * An entry decodes back into the opcode column, step and flags it was filled for: the fields the
   * control unit assembles into its ROM address.
   */
  lemma OffsetDecodes(opcode: bv8, i: nat, s: nat, c: nat, z: nat)
    requires s < CycleQuantity && c < 2 && z < 2
    ensures Offset(opcode, i, s, c, z) < URomSize
    ensures Offset(opcode, i, s, c, z) % InstructionQuantity == Column(opcode, i)
    ensures Offset(opcode, i, s, c, z) / InstructionQuantity == s + 16 * c + 32 * z
  {
    DivideEntry(Column(opcode, i), s + 16 * c + 32 * z);
  }

  /** Both offsets agree while the opcode range does not pass 255, which holds for every table entry. */
  lemma AsWrittenOffsetAgrees(opcode: bv8, i: nat, s: nat, c: nat, z: nat)
    requires opcode as nat + i < InstructionQuantity
    ensures AsWrittenOffset(opcode, i, s, c, z) == Offset(opcode, i, s, c, z)
  {
  }

  /**
   * A range that wraps is misplaced as written: for a four-opcode range at 0xFE, step 0 of its
   * third opcode (0x00) lands on the entry the control unit reads for step 1 of opcode 0x00, and
   * step 15 lands in the C-flag half of the ROM.
   */
  lemma AsWrittenOffsetMisplaces()
    ensures AsWrittenOffset(0xFE, 2, 0, 0, 0) == Offset(0xFE, 2, 1, 0, 0) == EntryAddress(0x00, 1, 0, 0)
    ensures AsWrittenOffset(0xFE, 2, 15, 0, 0) == EntryAddress(0x00, 0, 1, 0)
    ensures AsWrittenOffset(0xFE, 2, 0, 0, 0) / InstructionQuantity != 0
  {
  }

  /** Distinct loop positions address distinct entries. */
  lemma OffsetInjective(opcode: bv8, i1: nat, s1: nat, c1: nat, z1: nat, i2: nat, s2: nat, c2: nat, z2: nat)
    requires i1 < 16 && i2 < 16 && s1 < 16 && s2 < 16 && c1 < 2 && c2 < 2 && z1 < 2 && z2 < 2
    requires Offset(opcode, i1, s1, c1, z1) == Offset(opcode, i2, s2, c2, z2)
    ensures i1 == i2 && s1 == s2 && c1 == c2 && z1 == z2
  {
    OffsetDecodes(opcode, i1, s1, c1, z1);
    OffsetDecodes(opcode, i2, s2, c2, z2);
    assert Column(opcode, i1) == Column(opcode, i2);
  }

  // ----- the generator's loop nest -----

  /** One pass of the loop nest: marking an opcode, or filling one entry. */
  datatype Iteration = Visit(i: nat) | Fill(i: nat, s: nat, c: nat, z: nat)

  /** Loop order: opcode index, then step, then C, then Z. */
  predicate Before(x: Iteration, y: Iteration)
    requires x.Fill? && y.Fill?
  {
    x.i < y.i || (x.i == y.i && (x.s < y.s || (x.s == y.s && (x.c < y.c || (x.c == y.c && x.z < y.z)))))
  }

  predicate ValidIteration(ins: Instruction, it: Iteration) {
    match it
    case Visit(i) => i < Width(ins)
    case Fill(i, s, c, z) => i < Width(ins) && s < StepCount(ins) && c < 2 && z < 2 && ins.c.Accepts(c) && ins.z.Accepts(z)
  }

  predicate AllValid(ins: Instruction, its: seq<Iteration>) {
    forall j :: 0 <= j < |its| ==> ValidIteration(ins, its[j])
  }

  /** The fills of a sequence come in strictly increasing loop order. */
  predicate Ordered(its: seq<Iteration>) {
    forall j1, j2 :: 0 <= j1 < j2 < |its| && its[j1].Fill? && its[j2].Fill? ==> Before(its[j1], its[j2])
  }

  function FlagFills(ins: Instruction, i: nat, s: nat): seq<Iteration> {
    (if ins.c.Accepts(0) && ins.z.Accepts(0) then [Fill(i, s, 0, 0)] else [])
    + (if ins.c.Accepts(0) && ins.z.Accepts(1) then [Fill(i, s, 0, 1)] else [])
    + (if ins.c.Accepts(1) && ins.z.Accepts(0) then [Fill(i, s, 1, 0)] else [])
    + (if ins.c.Accepts(1) && ins.z.Accepts(1) then [Fill(i, s, 1, 1)] else [])
  }

  function StepFills(ins: Instruction, i: nat, s: nat): seq<Iteration>
    decreases StepCount(ins) - s
  {
    if s < StepCount(ins) then FlagFills(ins, i, s) + StepFills(ins, i, s + 1) else []
  }

  function OpcodeIterations(ins: Instruction, i: nat): seq<Iteration>
    decreases Width(ins) - i
  {
    if i < Width(ins) then [Visit(i)] + StepFills(ins, i, 0) + OpcodeIterations(ins, i + 1) else []
  }

  /** The whole loop nest of one `addInstruction` call. */
  function Iterations(ins: Instruction): seq<Iteration> {
    OpcodeIterations(ins, 0)
  }

  function OpcodeOf(ins: Instruction, i: nat): nat {
    Column(ins.opcode, i)
  }

  function OffsetOf(ins: Instruction, it: Iteration): nat
    requires it.Fill?
  {
    Offset(ins.opcode, it.i, it.s, it.c, it.z)
  }

  /** The entries a sequence of iterations fills. */
  function FillOffsets(ins: Instruction, its: seq<Iteration>): set<nat> {
    set j | 0 <= j < |its| && its[j].Fill? :: OffsetOf(ins, its[j])
  }

  /** The opcodes a sequence of iterations marks. */
  function VisitedOpcodes(ins: Instruction, its: seq<Iteration>): set<nat> {
    set j | 0 <= j < |its| && its[j].Visit? :: OpcodeOf(ins, its[j].i)
  }

  /** Every fill's opcode index was visited earlier in the sequence or is already in `m`. */
  predicate Guarded(m: set<nat>, its: seq<Iteration>)
    decreases |its|
  {
    |its| == 0 ||
    match its[0]
    case Visit(i) => Guarded(m + {i}, its[1..])
    case Fill(i, _, _, _) => i in m && Guarded(m, its[1..])
  }

  // ----- executing the loop nest -----

  /** Runs the iterations in order; the boolean is false when a fill met an entry already used. */
  function Run(t: Table, ins: Instruction, its: seq<Iteration>): (r: (Table, bool))
    requires t.Valid() && AllValid(ins, its)
    ensures r.0.Valid()
    decreases |its|
  {
    if |its| == 0 then (t, true)
    else
      match its[0]
      case Visit(i) =>
        Run(t.(opcodeSet := t.opcodeSet[OpcodeOf(ins, i) := true]), ins, its[1..])
      case Fill(i, s, c, z) =>
        var off := Offset(ins.opcode, i, s, c, z);
        if t.dataSet[off] then (t, false)
        else
          var word := Encode(ins.steps[s]);
          Run(t.(code0 := t.code0[off := word.code0], code1 := t.code1[off := word.code1],
                 dataSet := t.dataSet[off := true]), ins, its[1..])
  }

  /** The generator's `addInstruction`: the updated table and whether no entry was used twice. */
  function AddInstruction(t: Table, ins: Instruction): (r: (Table, bool))
    requires t.Valid()
    ensures r.0.Valid()
  {
    IterationsWellFormed(ins, 0);
    Run(t, ins, Iterations(ins))
  }

  // ----- the shape of the loop nest -----

  /** Every element is a valid fill of opcode index `i` at step `s` or later. */
  predicate FillsFrom(ins: Instruction, its: seq<Iteration>, i: nat, s: nat) {
    forall j :: 0 <= j < |its| ==> its[j].Fill? && its[j].i == i && its[j].s >= s && ValidIteration(ins, its[j])
  }

  /** Every fill of `a` comes before every fill of `b`. */
  predicate AllBefore(a: seq<Iteration>, b: seq<Iteration>) {
    forall j1, j2 :: 0 <= j1 < |a| && 0 <= j2 < |b| && a[j1].Fill? && b[j2].Fill? ==> Before(a[j1], b[j2])
  }

  lemma OrderedAppend(a: seq<Iteration>, b: seq<Iteration>)
    requires Ordered(a) && Ordered(b)
    requires AllBefore(a, b)
    ensures Ordered(a + b)
  {
    var all := a + b;
    forall j1, j2 | 0 <= j1 < j2 < |all| && all[j1].Fill? && all[j2].Fill?
      ensures Before(all[j1], all[j2])
    {
      if j2 < |a| {
        assert a[j1] == all[j1] && a[j2] == all[j2];
      } else if j1 >= |a| {
        assert b[j1 - |a|] == all[j1] && b[j2 - |a|] == all[j2];
      } else {
        assert a[j1] == all[j1] && b[j2 - |a|] == all[j2];
      }
    }
  }

  lemma FlagFillsShape(ins: Instruction, i: nat, s: nat)
    requires i < Width(ins) && s < StepCount(ins)
    ensures FillsFrom(ins, FlagFills(ins, i, s), i, s)
    ensures forall j :: 0 <= j < |FlagFills(ins, i, s)| ==> FlagFills(ins, i, s)[j].s == s
    ensures Ordered(FlagFills(ins, i, s))
  {
  }

  lemma FlagFillsComplete(ins: Instruction, i: nat, s: nat, c: nat, z: nat)
    requires c < 2 && z < 2 && ins.c.Accepts(c) && ins.z.Accepts(z)
    ensures Fill(i, s, c, z) in FlagFills(ins, i, s)
  {
  }

  lemma {:induction false} StepFillsShape(ins: Instruction, i: nat, s: nat)
    requires i < Width(ins) && s <= StepCount(ins)
    ensures FillsFrom(ins, StepFills(ins, i, s), i, s)
    decreases StepCount(ins) - s
  {
    if s < StepCount(ins) {
      FlagFillsShape(ins, i, s);
      StepFillsShape(ins, i, s + 1);
    }
  }

  lemma {:induction false} StepFillsOrdered(ins: Instruction, i: nat, s: nat)
    requires i < Width(ins) && s <= StepCount(ins)
    ensures Ordered(StepFills(ins, i, s))
    decreases StepCount(ins) - s
  {
    if s < StepCount(ins) {
      FlagFillsShape(ins, i, s);
      StepFillsShape(ins, i, s + 1);
      StepFillsOrdered(ins, i, s + 1);
      OrderedAppend(FlagFills(ins, i, s), StepFills(ins, i, s + 1));
    }
  }

  lemma {:induction false} StepFillsComplete(ins: Instruction, i: nat, s: nat, s': nat, c: nat, z: nat)
    requires s <= s' < StepCount(ins) && c < 2 && z < 2 && ins.c.Accepts(c) && ins.z.Accepts(z)
    ensures Fill(i, s', c, z) in StepFills(ins, i, s)
    decreases s' - s
  {
    if s' == s {
      FlagFillsComplete(ins, i, s, c, z);
    } else {
      StepFillsComplete(ins, i, s + 1, s', c, z);
    }
  }

  lemma {:induction false} IterationsShape(ins: Instruction, i: nat)
    requires i <= Width(ins)
    ensures AllValid(ins, OpcodeIterations(ins, i))
    ensures forall j :: 0 <= j < |OpcodeIterations(ins, i)| ==> OpcodeIterations(ins, i)[j].i >= i
    decreases Width(ins) - i
  {
    if i < Width(ins) {
      StepFillsShape(ins, i, 0);
      IterationsShape(ins, i + 1);
    }
  }

  /** The fills of opcode index `i` all come before the fills of the later indices. */
  lemma FillsBeforeLater(ins: Instruction, i: nat)
    requires i < Width(ins)
    ensures AllBefore(StepFills(ins, i, 0), OpcodeIterations(ins, i + 1))
  {
    StepFillsShape(ins, i, 0);
    IterationsShape(ins, i + 1);
  }

  lemma {:induction false} IterationsOrdered(ins: Instruction, i: nat)
    requires i <= Width(ins)
    ensures Ordered(OpcodeIterations(ins, i))
    decreases Width(ins) - i
  {
    if i < Width(ins) {
      StepFillsOrdered(ins, i, 0);
      IterationsOrdered(ins, i + 1);
      FillsBeforeLater(ins, i);
      OrderedAppend(StepFills(ins, i, 0), OpcodeIterations(ins, i + 1));
      OrderedAppend([Visit(i)], StepFills(ins, i, 0) + OpcodeIterations(ins, i + 1));
      assert OpcodeIterations(ins, i) == [Visit(i)] + (StepFills(ins, i, 0) + OpcodeIterations(ins, i + 1));
    }
  }

  lemma GuardedWeaken(m: set<nat>, m': set<nat>, its: seq<Iteration>)
    requires m <= m' && Guarded(m, its)
    ensures Guarded(m', its)
    decreases |its|
  {
    if |its| > 0 {
      match its[0]
      case Visit(i) => GuardedWeaken(m + {i}, m' + {i}, its[1..]);
      case Fill(_, _, _, _) => GuardedWeaken(m, m', its[1..]);
    }
  }

  lemma {:induction false} GuardedFills(m: set<nat>, its: seq<Iteration>, rest: seq<Iteration>)
    requires forall j :: 0 <= j < |its| ==> its[j].Fill? && its[j].i in m
    requires Guarded(m, rest)
    ensures Guarded(m, its + rest)
    decreases |its|
  {
    if |its| > 0 {
      var all := its + rest;
      GuardedFills(m, its[1..], rest);
      assert all[1..] == its[1..] + rest;
      assert all[0] == Fill(its[0].i, its[0].s, its[0].c, its[0].z) && its[0].i in m;
    } else {
      assert its + rest == rest;
    }
  }

  lemma {:induction false} IterationsGuarded(ins: Instruction, i: nat)
    requires i <= Width(ins)
    ensures Guarded({}, OpcodeIterations(ins, i))
    decreases Width(ins) - i
  {
    if i < Width(ins) {
      var a, b := StepFills(ins, i, 0), OpcodeIterations(ins, i + 1);
      StepFillsShape(ins, i, 0);
      IterationsGuarded(ins, i + 1);
      GuardedWeaken({}, {i}, b);
      GuardedFills({i}, a, b);
      var all := [Visit(i)] + (a + b);
      assert OpcodeIterations(ins, i) == all;
      assert all[0] == Visit(i) && all[1..] == a + b;
      assert {} + {i} == {i};
    }
  }

  lemma {:induction false} IterationsCompleteFill(ins: Instruction, i: nat, i': nat, s: nat, c: nat, z: nat)
    requires i <= i' < Width(ins) && s < StepCount(ins) && c < 2 && z < 2 && ins.c.Accepts(c) && ins.z.Accepts(z)
    ensures Fill(i', s, c, z) in OpcodeIterations(ins, i)
    decreases i' - i
  {
    assert OpcodeIterations(ins, i) == [Visit(i)] + StepFills(ins, i, 0) + OpcodeIterations(ins, i + 1);
    if i' == i {
      StepFillsComplete(ins, i, 0, s, c, z);
    } else {
      IterationsCompleteFill(ins, i + 1, i', s, c, z);
    }
  }

  lemma {:induction false} IterationsCompleteVisit(ins: Instruction, i: nat, i': nat)
    requires i <= i' < Width(ins)
    ensures Visit(i') in OpcodeIterations(ins, i)
    decreases i' - i
  {
    assert OpcodeIterations(ins, i) == [Visit(i)] + StepFills(ins, i, 0) + OpcodeIterations(ins, i + 1);
    if i' > i {
      IterationsCompleteVisit(ins, i + 1, i');
    }
  }

  /** The loop nest of an instruction: valid, in strictly increasing loop order, each fill after its opcode's mark. */
  lemma IterationsWellFormed(ins: Instruction, i: nat)
    requires i <= Width(ins)
    ensures AllValid(ins, OpcodeIterations(ins, i)) && Ordered(OpcodeIterations(ins, i))
    ensures Guarded({}, OpcodeIterations(ins, i))
  {
    IterationsShape(ins, i);
    IterationsOrdered(ins, i);
    IterationsGuarded(ins, i);
  }

  // ----- what running the loop nest does -----

  lemma FillOffsetsCons(ins: Instruction, its: seq<Iteration>)
    requires |its| > 0
    ensures FillOffsets(ins, its) == (if its[0].Fill? then {OffsetOf(ins, its[0])} else {}) + FillOffsets(ins, its[1..])
    ensures VisitedOpcodes(ins, its) == (if its[0].Visit? then {OpcodeOf(ins, its[0].i)} else {}) + VisitedOpcodes(ins, its[1..])
  {
    var rest := its[1..];
    forall k | k in FillOffsets(ins, rest)
      ensures k in FillOffsets(ins, its)
    {
      var j :| 0 <= j < |rest| && rest[j].Fill? && OffsetOf(ins, rest[j]) == k;
      assert its[j + 1] == rest[j];
    }
    forall o | o in VisitedOpcodes(ins, rest)
      ensures o in VisitedOpcodes(ins, its)
    {
      var j :| 0 <= j < |rest| && rest[j].Visit? && OpcodeOf(ins, rest[j].i) == o;
      assert its[j + 1] == rest[j];
    }
    forall k | k in FillOffsets(ins, its)
      ensures k in (if its[0].Fill? then {OffsetOf(ins, its[0])} else {}) + FillOffsets(ins, rest)
    {
      var j :| 0 <= j < |its| && its[j].Fill? && OffsetOf(ins, its[j]) == k;
      if j > 0 {
        assert rest[j - 1] == its[j];
      }
    }
    forall o | o in VisitedOpcodes(ins, its)
      ensures o in (if its[0].Visit? then {OpcodeOf(ins, its[0].i)} else {}) + VisitedOpcodes(ins, rest)
    {
      var j :| 0 <= j < |its| && its[j].Visit? && OpcodeOf(ins, its[j].i) == o;
      if j > 0 {
        assert rest[j - 1] == its[j];
      }
    }
  }

  /** Entries outside the filled set keep their bytes and their used bit. */
  lemma {:induction false} RunFrame(t: Table, ins: Instruction, its: seq<Iteration>)
    requires t.Valid() && AllValid(ins, its)
    ensures forall k :: 0 <= k < URomSize && k !in FillOffsets(ins, its) ==>
      Run(t, ins, its).0.code0[k] == t.code0[k] && Run(t, ins, its).0.code1[k] == t.code1[k] && Run(t, ins, its).0.dataSet[k] == t.dataSet[k]
    decreases |its|
  {
    if |its| > 0 {
      FillOffsetsCons(ins, its);
      match its[0]
      case Visit(i) =>
        RunFrame(t.(opcodeSet := t.opcodeSet[OpcodeOf(ins, i) := true]), ins, its[1..]);
      case Fill(i, s, c, z) =>
        var off := Offset(ins.opcode, i, s, c, z);
        if !t.dataSet[off] {
          var word := Encode(ins.steps[s]);
          RunFrame(t.(code0 := t.code0[off := word.code0], code1 := t.code1[off := word.code1],
                      dataSet := t.dataSet[off := true]), ins, its[1..]);
        }
    }
  }

  /** A run never overwrites a used entry: it stops at the first one it meets. */
  lemma {:induction false} RunKeeps(t: Table, ins: Instruction, its: seq<Iteration>)
    requires t.Valid() && AllValid(ins, its)
    ensures forall k :: 0 <= k < URomSize && t.dataSet[k] ==>
      Run(t, ins, its).0.dataSet[k] && Run(t, ins, its).0.code0[k] == t.code0[k] && Run(t, ins, its).0.code1[k] == t.code1[k]
    decreases |its|
  {
    if |its| > 0 {
      match its[0]
      case Visit(i) =>
        RunKeeps(t.(opcodeSet := t.opcodeSet[OpcodeOf(ins, i) := true]), ins, its[1..]);
      case Fill(i, s, c, z) =>
        var off := Offset(ins.opcode, i, s, c, z);
        if !t.dataSet[off] {
          var word := Encode(ins.steps[s]);
          RunKeeps(t.(code0 := t.code0[off := word.code0], code1 := t.code1[off := word.code1],
                      dataSet := t.dataSet[off := true]), ins, its[1..]);
        }
    }
  }

  /** Marks are only ever added, and only for the opcodes the sequence visits. */
  lemma {:induction false} RunMarks(t: Table, ins: Instruction, its: seq<Iteration>)
    requires t.Valid() && AllValid(ins, its)
    ensures forall o :: 0 <= o < InstructionQuantity && t.opcodeSet[o] ==> Run(t, ins, its).0.opcodeSet[o]
    ensures forall o :: 0 <= o < InstructionQuantity && Run(t, ins, its).0.opcodeSet[o] ==> t.opcodeSet[o] || o in VisitedOpcodes(ins, its)
    ensures Run(t, ins, its).1 ==> forall o :: o in VisitedOpcodes(ins, its) ==> 0 <= o < InstructionQuantity && Run(t, ins, its).0.opcodeSet[o]
    decreases |its|
  {
    if |its| > 0 {
      FillOffsetsCons(ins, its);
      match its[0]
      case Visit(i) =>
        RunMarks(t.(opcodeSet := t.opcodeSet[OpcodeOf(ins, i) := true]), ins, its[1..]);
      case Fill(i, s, c, z) =>
        var off := Offset(ins.opcode, i, s, c, z);
        if !t.dataSet[off] {
          var word := Encode(ins.steps[s]);
          RunMarks(t.(code0 := t.code0[off := word.code0], code1 := t.code1[off := word.code1],
                      dataSet := t.dataSet[off := true]), ins, its[1..]);
        }
    }
  }

  /** Success means every filled entry was free beforehand and now holds its step's control word. */
  lemma {:induction false} RunWrites(t: Table, ins: Instruction, its: seq<Iteration>)
    requires t.Valid() && AllValid(ins, its)
    ensures Run(t, ins, its).1 ==> forall j :: 0 <= j < |its| && its[j].Fill? ==>
      !t.dataSet[OffsetOf(ins, its[j])] && Run(t, ins, its).0.dataSet[OffsetOf(ins, its[j])]
      && Run(t, ins, its).0.code0[OffsetOf(ins, its[j])] == Encode(ins.steps[its[j].s]).code0
      && Run(t, ins, its).0.code1[OffsetOf(ins, its[j])] == Encode(ins.steps[its[j].s]).code1
    decreases |its|
  {
    if |its| > 0 {
      var rest := its[1..];
      match its[0]
      case Visit(i) =>
        var t' := t.(opcodeSet := t.opcodeSet[OpcodeOf(ins, i) := true]);
        RunWrites(t', ins, rest);
        forall j | 1 <= j < |its| ensures its[j] == rest[j - 1] { }
      case Fill(i, s, c, z) =>
        var off := Offset(ins.opcode, i, s, c, z);
        if !t.dataSet[off] {
          var word := Encode(ins.steps[s]);
          var t' := t.(code0 := t.code0[off := word.code0], code1 := t.code1[off := word.code1], dataSet := t.dataSet[off := true]);
          RunWrites(t', ins, rest);
          RunFrame(t', ins, rest);
          if Run(t', ins, rest).1 {
            forall j | 1 <= j < |its| ensures its[j] == rest[j - 1] { }
            FillOffsetsCons(ins, its);
            assert off !in FillOffsets(ins, rest);
          }
        }
    }
  }

  lemma OrderedTail(its: seq<Iteration>)
    requires |its| > 0 && Ordered(its)
    ensures Ordered(its[1..])
  {
    var rest := its[1..];
    forall j1, j2 | 0 <= j1 < j2 < |rest| && rest[j1].Fill? && rest[j2].Fill?
      ensures Before(rest[j1], rest[j2])
    {
      assert rest[j1] == its[j1 + 1] && rest[j2] == its[j2 + 1];
    }
  }

  /** In loop order, the first fill's entry is not filled again later. */
  lemma FirstFillUnique(ins: Instruction, its: seq<Iteration>)
    requires |its| > 0 && its[0].Fill? && AllValid(ins, its) && Ordered(its)
    ensures OffsetOf(ins, its[0]) !in FillOffsets(ins, its[1..])
  {
  }

  /** With fills in loop order, the run succeeds exactly when none of its entries is used yet. */
  lemma {:induction false} RunSucceeds(t: Table, ins: Instruction, its: seq<Iteration>)
    requires t.Valid() && AllValid(ins, its) && Ordered(its)
    ensures Run(t, ins, its).1 <==> forall k :: k in FillOffsets(ins, its) ==> !t.dataSet[k]
    decreases |its|
  {
    if |its| > 0 {
      var rest := its[1..];
      FillOffsetsCons(ins, its);
      OrderedTail(its);
      match its[0]
      case Visit(i) =>
        RunSucceeds(t.(opcodeSet := t.opcodeSet[OpcodeOf(ins, i) := true]), ins, rest);
      case Fill(i, s, c, z) =>
        var off := Offset(ins.opcode, i, s, c, z);
        if !t.dataSet[off] {
          var word := Encode(ins.steps[s]);
          var t' := t.(code0 := t.code0[off := word.code0], code1 := t.code1[off := word.code1], dataSet := t.dataSet[off := true]);
          RunSucceeds(t', ins, rest);
          FirstFillUnique(ins, its);
        }
    }
  }

  /** Filling only entries whose opcode is marked, or is marked first, keeps the table consistent. */
  lemma {:induction false} RunConsistent(t: Table, ins: Instruction, its: seq<Iteration>, m: set<nat>)
    requires t.Valid() && t.Consistent() && AllValid(ins, its) && Guarded(m, its)
    requires forall i :: i in m ==> t.opcodeSet[OpcodeOf(ins, i)]
    ensures Run(t, ins, its).0.Consistent()
    decreases |its|
  {
    if |its| > 0 {
      match its[0]
      case Visit(i) =>
        RunConsistent(t.(opcodeSet := t.opcodeSet[OpcodeOf(ins, i) := true]), ins, its[1..], m + {i});
      case Fill(i, s, c, z) =>
        var off := Offset(ins.opcode, i, s, c, z);
        if !t.dataSet[off] {
          var word := Encode(ins.steps[s]);
          var t' := t.(code0 := t.code0[off := word.code0], code1 := t.code1[off := word.code1], dataSet := t.dataSet[off := true]);
          OffsetDecodes(ins.opcode, i, s, c, z);
          RunConsistent(t', ins, its[1..], m);
        }
    }
  }

  // ----- addInstruction -----

  /** The entries one instruction fills. */
  function Targets(ins: Instruction): (r: set<nat>)
    ensures forall k :: k in r ==> k < URomSize
  {
    IterationsWellFormed(ins, 0);
    FillOffsets(ins, Iterations(ins))
  }

  /** Whether the instruction's opcode range, taken modulo 256, contains `o`. */
  predicate Covers(ins: Instruction, o: nat) {
    exists i :: 0 <= i < Width(ins) && OpcodeOf(ins, i) == o
  }

  /** An instruction fills, for each of its opcodes, each step and each accepted flag pair, exactly one entry. */
  lemma TargetsAreEntries(ins: Instruction, k: nat)
    ensures k in Targets(ins) <==>
      exists i: nat, s: nat, c: nat, z: nat :: i < Width(ins) && s < StepCount(ins) && c < 2 && z < 2
        && ins.c.Accepts(c) && ins.z.Accepts(z) && k == Offset(ins.opcode, i, s, c, z)
  {
    var its := Iterations(ins);
    IterationsWellFormed(ins, 0);
    if k in Targets(ins) {
      var j :| 0 <= j < |its| && its[j].Fill? && OffsetOf(ins, its[j]) == k;
      assert ValidIteration(ins, its[j]);
      var x := its[j];
      assert x.i < Width(ins) && x.s < StepCount(ins) && x.c < 2 && x.z < 2 && ins.c.Accepts(x.c) && ins.z.Accepts(x.z) && k == Offset(ins.opcode, x.i, x.s, x.c, x.z);
    }
    if exists i: nat, s: nat, c: nat, z: nat :: i < Width(ins) && s < StepCount(ins) && c < 2 && z < 2
        && ins.c.Accepts(c) && ins.z.Accepts(z) && k == Offset(ins.opcode, i, s, c, z) {
      var i: nat, s: nat, c: nat, z: nat :| i < Width(ins) && s < StepCount(ins) && c < 2 && z < 2
        && ins.c.Accepts(c) && ins.z.Accepts(z) && k == Offset(ins.opcode, i, s, c, z);
      IterationsCompleteFill(ins, 0, i, s, c, z);
      var j :| 0 <= j < |its| && its[j] == Fill(i, s, c, z);
      assert OffsetOf(ins, its[j]) == k;
    }
  }

  /** Every entry an instruction fills lies in the column of one of its opcodes, and inside the ROM. */
  lemma TargetsInColumns(ins: Instruction, k: nat)
    requires k in Targets(ins)
    ensures k < URomSize && Covers(ins, k % InstructionQuantity)
  {
    TargetsAreEntries(ins, k);
    var i: nat, s: nat, c: nat, z: nat :| i < Width(ins) && s < StepCount(ins) && c < 2 && z < 2
      && ins.c.Accepts(c) && ins.z.Accepts(z) && k == Offset(ins.opcode, i, s, c, z);
    OffsetDecodes(ins.opcode, i, s, c, z);
    assert OpcodeOf(ins, i) == k % InstructionQuantity;
  }

  /** `addInstruction` returns true exactly when none of the instruction's entries was used before. */
  lemma AddInstructionSucceeds(t: Table, ins: Instruction)
    requires t.Valid()
    ensures AddInstruction(t, ins).1 <==> forall k :: k in Targets(ins) ==> !t.dataSet[k]
  {
    IterationsWellFormed(ins, 0);
    RunSucceeds(t, ins, Iterations(ins));
  }

  /** After a successful `addInstruction`, step `s` of every opcode sits at its entry for every accepted flag pair. */
  lemma AddInstructionWrites(t: Table, ins: Instruction, i: nat, s: nat, c: nat, z: nat)
    requires t.Valid() && AddInstruction(t, ins).1
    requires i < Width(ins) && s < StepCount(ins) && c < 2 && z < 2 && ins.c.Accepts(c) && ins.z.Accepts(z)
    ensures AddInstruction(t, ins).0.dataSet[Offset(ins.opcode, i, s, c, z)]
    ensures AddInstruction(t, ins).0.code0[Offset(ins.opcode, i, s, c, z)] == Encode(ins.steps[s]).code0
    ensures AddInstruction(t, ins).0.code1[Offset(ins.opcode, i, s, c, z)] == Encode(ins.steps[s]).code1
  {
    var its := Iterations(ins);
    IterationsWellFormed(ins, 0);
    RunWrites(t, ins, its);
    IterationsCompleteFill(ins, 0, i, s, c, z);
    var j :| 0 <= j < |its| && its[j] == Fill(i, s, c, z);
    assert OffsetOf(ins, its[j]) == Offset(ins.opcode, i, s, c, z);
  }

  /** After a successful `addInstruction`, every opcode of the instruction's range is defined. */
  lemma AddInstructionMarks(t: Table, ins: Instruction, i: nat)
    requires t.Valid() && AddInstruction(t, ins).1
    requires i < Width(ins)
    ensures AddInstruction(t, ins).0.opcodeSet[OpcodeOf(ins, i)]
  {
    var its := Iterations(ins);
    IterationsWellFormed(ins, 0);
    RunMarks(t, ins, its);
    IterationsCompleteVisit(ins, 0, i);
    var j :| 0 <= j < |its| && its[j] == Visit(i);
    assert OpcodeOf(ins, i) in VisitedOpcodes(ins, its);
  }

  /**
   * Whatever the outcome, entries the instruction does not own are untouched, no opcode loses its
   * mark, and only opcodes of the instruction's range gain one.
   */
  lemma AddInstructionFrame(t: Table, ins: Instruction)
    requires t.Valid()
    ensures forall k :: 0 <= k < URomSize && k !in Targets(ins) ==>
      AddInstruction(t, ins).0.code0[k] == t.code0[k] && AddInstruction(t, ins).0.code1[k] == t.code1[k]
      && AddInstruction(t, ins).0.dataSet[k] == t.dataSet[k]
    ensures forall o :: 0 <= o < InstructionQuantity && t.opcodeSet[o] ==> AddInstruction(t, ins).0.opcodeSet[o]
    ensures forall o :: 0 <= o < InstructionQuantity && AddInstruction(t, ins).0.opcodeSet[o] ==> t.opcodeSet[o] || Covers(ins, o)
  {
    var its := Iterations(ins);
    IterationsWellFormed(ins, 0);
    RunFrame(t, ins, its);
    RunMarks(t, ins, its);
    forall o | o in VisitedOpcodes(ins, its)
      ensures Covers(ins, o)
    {
      var j :| 0 <= j < |its| && its[j].Visit? && OpcodeOf(ins, its[j].i) == o;
      assert ValidIteration(ins, its[j]);
    }
  }

  /** Whether or not it succeeds, an addition leaves every used entry as it was. */
  lemma AddInstructionKeeps(t: Table, ins: Instruction)
    requires t.Valid()
    ensures forall k :: 0 <= k < URomSize && t.dataSet[k] ==>
      AddInstruction(t, ins).0.dataSet[k] && AddInstruction(t, ins).0.code0[k] == t.code0[k]
      && AddInstruction(t, ins).0.code1[k] == t.code1[k]
  {
    IterationsWellFormed(ins, 0);
    RunKeeps(t, ins, Iterations(ins));
  }

  /** `addInstruction` keeps every used entry in the column of a defined opcode, even when it fails. */
  lemma AddInstructionConsistent(t: Table, ins: Instruction)
    requires t.Valid() && t.Consistent()
    ensures AddInstruction(t, ins).0.Consistent()
  {
    IterationsWellFormed(ins, 0);
    RunConsistent(t, ins, Iterations(ins), {});
  }
}

=== FILE: wrappers.dfy ===
/** Failure-compatible wrappers shared by the whole model. */
module Wrappers {

  /** A value that may be absent. */
  datatype Option<+T> = None | Some(value: T) {

    predicate IsFailure() {
      None?
    }

    function PropagateFailure<U>(): Option<U>
      requires None?
    {
      None
    }

    function Extract(): T
      requires Some?
    {
      value
    }
  }

  /** Either a value or an error. */
  datatype Result<+R, +E> = Success(value: R) | Failure(error: E) {

    predicate IsFailure() {
      Failure?
    }

    function PropagateFailure<U>(): Result<U, E>
      requires Failure?
    {
      Failure(error)
    }

    function Extract(): R
      requires Success?
    {
      value
    }
  }
}
